=== FILE: README.md ===
# cre8rflow editing engine in Dafny

This project models the in-memory editing engine of cre8rflow. A user
types an editing command in English. The engine turns the text into an
edit operation record and applies it to a timeline of integer-frame
clips, keeping an undo/redo history.

The model has four parts.

- **Timeline document** (`clips.dfy`, `tree.dfy`, `timeline.dfy`,
  `timeline_laws.dfy`, `legacy.dfy`, `serial.dfy`).
  - A clip is a plain video clip or a compound clip that groups other clips.
  - A compound clip's bounds are repaired from its children after every edit inside it.
  - Clips are found by a pre-order search. The search returns an index path, and the edit and the bound repair follow that path.
  - The operations are trim, join, add_transition, remove (by name and by pre-order index), move, add_track and remove_track, `get_all_clips` and `to_dict`/`from_dict`.
  - The older timeline of `src/timeline.py` differs in trim, join, load_video and add_transition. Those four are given separately; for the rest it is the current timeline with name keys.
- **Time utilities** (`time_utils.dfy`).
  - `words_to_number`.
  - The ordered rule cascade of `parse_natural_time_expression`. Natural-language seconds are exact rationals.
  - `timestamp_to_frames`.
- **Command grammar** (`splitter.dfy`, `command_parser.dfy`, `intent.dfy`, and one file per command handler).
  - Handler patterns are written as regular-expression terms and run by a small backtracking matcher (`regex.dfy`). It returns the hit Python's `re.match` returns, with its named groups.
  - Each handler's classification of the captured groups is modelled as the source writes it.
  - The parser splits a text at top-level conjunctions outside quotes, assembles compound commands, and dispatches to the first handler that accepts.
  - It also covers `validate_command`, `feedback_for_command` and `recognize_intent`.
- **Executor and history** (`history.dfy`, `clip_queries.dfy`, `executor.dfy`, `executor_handlers.dfy`, `batch_text.dfy`).
  - `execute` resolves a clip reference, hands the operation to the first handler that accepts it, and records exactly one history entry with the timeline before and after, except a group cut, which also records one entry per nested cut.
  - The per-type handlers, the group cut fan-out and the linear undo/redo machine.
  - The batch text generator.

Python exceptions are values (`Base.Exc`). An operation that raises
returns the exception together with the timeline as it was when the
exception was raised. Each change notification the timeline would send is
counted in the result. Fresh uuids come from a `mint` parameter. Deep
copies are plain value sharing.

## Model

| member | source | states |
|---|---|---|
| Clips.NewTimeline | backend/app/timeline.py:544-561 | a new timeline holds exactly the tracks "Video 1", "Audio 1", "Subtitles" and "Effects", of the video, audio, subtitle and effect types, all empty, with no transitions, duration 0 and the given frame rate |
| Clips.MinStart | backend/app/timeline.py:197-204 | the minimum start is the start of one of the clips and no clip starts earlier |
| Clips.MaxEnd | backend/app/timeline.py:197-204 | the maximum end is the end of one of the clips and no clip ends later |
| Clips.Recalc | backend/app/timeline.py:197-204 | a compound with children gets bounds that enclose every child and equal the children's minimum start and maximum end; a childless compound and a plain clip keep their bounds; identity, name, track type, effects and children never change |
| Clips.Remake | backend/app/timeline.py:673-674 | `type(clip)(...)` builds a clip of the same class with the given name, bounds and id, track type "video", no effects, no file path and no children |
| Clips.AddChild | backend/app/timeline.py:167-179 | the child is appended after the existing children and the compound's bounds then follow its children |
| Clips.RemoveChild | backend/app/timeline.py:180-188 | a ValueError exactly when the clip is not a child; otherwise the first child equal to it leaves, the other children keep their order, the compound keeps its id, name, type and effects, and its bounds then follow the remaining children (kept when none remain) |
| Clips.AddThenRemoveChild | backend/app/timeline.py:167-188 | removing a child just added that was not there before gives the children back, and with children left the bounds are the compound's own recalculated ones |
| Clips.LeavesArePlain | backend/app/timeline.py:205-218 | the flattened listing holds plain clips only, never a compound |
| Clips.LeafNamesContained | backend/app/timeline.py:219-237 | `contains_clip` by name finds every name that `flatten_clips` lists |
| Clips.AddEffect | backend/app/timeline.py:58-65 | only a plain clip has it; the effect goes after the clip's existing effects, which are kept in order, and nothing else about the clip changes |
| Clips.KeepOtherEffects | backend/app/timeline.py:66-73 | no effect of the removed type is kept, and every effect of another type is kept exactly as many times as it occurs |
| Clips.KeepOtherEffectsAppend | backend/app/timeline.py:66-73 | the filter of a concatenation is the concatenation of the filters, so the kept effects stay in their order |
| Clips.KeepOtherEffectsOne | backend/app/timeline.py:66-73 | a single effect is kept exactly when its type differs from the one removed |
| Clips.RemoveEffect | backend/app/timeline.py:66-73 | only a plain clip has it; nothing but the effect list changes, no effect of the given type is left, and every other effect stays as often as it was there |
| Clips.RemoveAfterAdd | backend/app/timeline.py:58-73 | removing a type takes back an added effect of that type, commutes with adding an effect of another type, and removing twice is removing once |
| Clips.KeepOtherEffectsTwice | backend/app/timeline.py:66-73 | filtering an already filtered list changes nothing |
| Clips.FramesToSeconds | backend/app/timeline.py:863-865 | a zero frame rate is a ZeroDivisionError, and only then; otherwise seconds times the rate gives back the frame count |
| Clips.AsSeconds | backend/app/timeline.py:74-83 | both bounds in seconds, each giving back the clip's frame bound when multiplied by the rate; a ZeroDivisionError exactly at rate 0 |
| ClipTree.KeyOf | backend/app/timeline.py:635-650 | an id, when given, selects the id search and the name is ignored; otherwise the name search |
| ClipTree.NodeAtDown | backend/app/timeline.py:620-650 | a place inside a compound's children names the same clip as that place one level down from the compound's list |
| ClipTree.LocateFrom | backend/app/timeline.py:635-650 | whatever place the recursive search returns holds a clip matching the key |
| ClipTree.Locate | backend/app/timeline.py:635-650 | the search of a whole list returns only places whose clip matches the key |
| ClipTree.LocateFromNone | backend/app/timeline.py:620-650 | when the search from a position finds nothing, no clip from there on matches, and no subtree below one does |
| ClipTree.LocateFromFirst | backend/app/timeline.py:620-650 | the search stops at the first top-level clip that matches when nothing before it, at any depth, matches |
| ClipTree.FlatFromValid | backend/app/timeline.py:778-784 | every place in the flattened listing holds a clip |
| ClipTree.FlatIsPreorder | backend/app/timeline.py:778-784 | entry j of the flattened listing is the place of the j-th clip of the depth-first pre-order traversal (each clip before its children) |
| ClipTree.FirstHitAppend | backend/app/timeline.py:635-650 | the first match in a concatenated listing is the first match of the front part, or else of the back part |
| ClipTree.FirstHitDown | backend/app/timeline.py:635-650 | the first match among places inside a compound is that compound's own first match, shifted one level down |
| ClipTree.LocateFromIsFirstHit | backend/app/timeline.py:620-650 | the recursive search from a position equals the first match of the pre-order listing from that position, and none when nothing in it matches |
| ClipTree.LocateIsFirstHit | backend/app/timeline.py:635-650 | `_find_clip_recursive` returns the first pre-order place whose clip matches the key |
| ClipTree.Splice | backend/app/timeline.py:603-618 | the list before the edit point and after the dropped block is kept, with the inserted clips in between |
| ClipTree.EditAt | backend/app/timeline.py:603-618 | the container on the path becomes the spliced list and every compound on the path is rebuilt with its bounds recalculated, innermost first |
| ClipTree.EditAtKeepsCoherent | backend/app/timeline.py:603-618 | when every clip before the edit and every inserted clip has bounds that follow its children, so does every clip after it |
| ClipTree.EditAtOthers | backend/app/timeline.py:603-618 | an edit below a top-level compound changes no other top-level clip and keeps the list's length |
| ClipTree.NodeAtCanEdit | backend/app/timeline.py:620-650 | any place that holds a clip can be edited there |
| Timelines.TypeIndices | backend/app/timeline.py:747-756 | the positions of exactly the tracks of the given type, strictly increasing |
| Timelines.GetTrack | backend/app/timeline.py:747-756 | an IndexError exactly when the index, with Python's negative indexing, misses the tracks of that type; otherwise a track of that type, the index-th one for a non-negative index |
| Timelines.SetClips | backend/app/timeline.py:747-756 | only the clips of the chosen track change; every other track, the duration, the transitions and the frame rate stay |
| Timelines.AppendClip | backend/app/timeline.py:332-355 | a ValueError exactly when the track has clips and an explicit position differs from the last clip's end; otherwise the clip is appended after the old clips, keeping its duration and everything but its bounds, starting at the position or that end (0 on an empty track) |
| Timelines.AddClip | backend/app/timeline.py:569-582 | an out-of-range track index is an IndexError that changes nothing; it succeeds exactly when the track append does; then only that track changes, the duration becomes the larger of the old one and the new clip's end, and one notification is sent |
| Timelines.LastIndexOf | backend/app/timeline.py:583-601 | the position of the last occurrence of the character, or none when it does not occur |
| Timelines.Basename | backend/app/timeline.py:583-601 | a base name holds no '/' |
| Timelines.Stem | backend/app/timeline.py:583-601 | the derived clip name holds no '/' |
| Timelines.LastIndexOfSplit | backend/app/timeline.py:583-601 | the last occurrence in `x + [c] + y` is at `|x|` when `y` lacks it |
| Timelines.BasenameAfterSlash | backend/app/timeline.py:583-601 | the base name of "dir/b" is "b" when "b" has no '/' |
| Timelines.DropExtAfterDot | backend/app/timeline.py:583-601 | `splitext` of "name.ext" keeps "name" when neither part has a dot |
| Timelines.StemOfPath | backend/app/timeline.py:583-601 | `load_video` names the clip from "dir/name.ext" "name" |
| Timelines.LoadVideo | backend/app/timeline.py:583-601 | the loaded clip is plain, named after the file, carries the path and the fresh id, lasts `int(frame_rate * seconds)` frames (60 seconds by default), and is added as `add_clip` adds it; a failure changes nothing |
| Timelines.SecondsToFrames | backend/app/timeline.py:867-869 | the frame count is within half a frame of seconds times the rate, and a value exactly half-way between two frames goes to the even one, as Python's `round` does |
| Timelines.FramesSecondsRoundTrip | backend/app/timeline.py:863-869 | whole frames turned into seconds at a non-zero rate and back give the same frames |
| Timelines.SplitAt | backend/app/timeline.py:666-678 | the clip at the place is replaced by its "_part1" over [start, at) and "_part2" over [at, end), in its place, and the compounds above it are rebuilt |
| Timelines.TrimClip | backend/app/timeline.py:652-684 | a missing track is an IndexError that changes nothing; it splits exactly when a timestamp is given and the first pre-order match of the key contains its frame strictly inside; then only that track changes, by the split, with one notification; otherwise False and no change |
| Timelines.OrStr | backend/app/timeline.py:685-719 | Python's `a or b`: one of the two, and `a` whenever it is a non-empty string |
| Timelines.Adjacent | backend/app/timeline.py:685-719 | a pair is found exactly when the first match of the first key has a next sibling that fits the second name or id and starts where the first ends |
| Timelines.JoinClips | backend/app/timeline.py:685-719 | a missing track is an IndexError that changes nothing; it joins exactly when the adjacency test holds; the two clips then become one "{first}_joined_{second}" clip over [first start, second end), with one notification; otherwise False and no change |
| Timelines.AddTransition | backend/app/timeline.py:720-746 | the same adjacency test as the join; on success exactly one transition, of the given type and duration between the two names, is appended, no clip changes and one notification is sent; otherwise False and no change |
| Timelines.DropAt | backend/app/timeline.py:757-770 | the clip at the place leaves its container, the rest of it is kept in order, and the compounds above it are rebuilt |
| Timelines.RemoveClip | backend/app/timeline.py:757-770 | a missing track is an IndexError that changes nothing; it removes exactly when some clip of the pre-order listing matches the key, and then drops the first such one, with one notification |
| Timelines.RemoveClipByIndex | backend/app/timeline.py:771-793 | a missing track is an IndexError that changes nothing; it removes exactly when the index lies within the pre-order listing (a negative index is refused), and then drops the clip at that entry, with one notification |
| Timelines.MoveClip | backend/app/timeline.py:794-822 | False with no change exactly when the source track holds no match; otherwise the first match leaves the source track, and a missing target track or a non-sequential position raises after that removal, as the source does |
| Timelines.InsertPos | backend/app/timeline.py:823-839 | where `list.insert` puts an item: the index itself when in range, counted from the end when negative, clamped to the ends otherwise |
| Timelines.AddTrack | backend/app/timeline.py:823-839 | an unknown track type is a ValueError that changes nothing; otherwise one new empty track is inserted where `list.insert` would put it (appended when no index is given), everything else stays, and one notification is sent |
| Timelines.RemoveTrackAt | backend/app/timeline.py:840-862 | exactly the track at that position leaves the list |
| Timelines.RemoveTrack | backend/app/timeline.py:840-862 | with a type: False when the index is past the tracks of that type, an IndexError for a negative index past them, otherwise that track goes; without a type: the track at a valid position goes, else False; with neither, a ValueError |
| Timelines.InsertByStart | backend/app/timeline.py:921-949 | inserting into a list sorted by start keeps it sorted and adds exactly that clip |
| Timelines.SortByStart | backend/app/timeline.py:943 | the result is sorted by start and is a permutation of the input |
| Timelines.InsertStable | backend/app/timeline.py:943 | an inserted clip goes to the head of the clips that share its start |
| Timelines.SortStable | backend/app/timeline.py:943 | the sort is stable: for every start value, the clips with that start come out in their input order |
| Timelines.AllClips | backend/app/timeline.py:921-949 | an AttributeError exactly when a plain clip of that type lacks a file path; otherwise all plain clips of that type's tracks, each with a file path, sorted by start, a permutation of the track-by-track listing, with equal starts kept in track order |
| Timelines.TimelineEffects | backend/app/timeline.py:950-959 | nothing when there is no Effects track, otherwise the range effects of the first one |
| TimelineLaws.SetClipsCoherent | backend/app/timeline.py:197-204 | replacing one track's clips by coherent clips keeps every track coherent (each compound's bounds follow its children) |
| TimelineLaws.RemakeCoherent | backend/app/timeline.py:673-674 | the clips that trim and join build have no children and are coherent whatever their bounds |
| TimelineLaws.TrimKeepsCoherent | backend/app/timeline.py:652-684 | `trim_clip` keeps every compound's bounds following its children |
| TimelineLaws.JoinKeepsCoherent | backend/app/timeline.py:685-719 | `join_clips` keeps every compound's bounds following its children |
| TimelineLaws.RemoveKeepsCoherent | backend/app/timeline.py:757-770 | `remove_clip` keeps every compound's bounds following its children |
| TimelineLaws.RemoveByIndexKeepsCoherent | backend/app/timeline.py:771-793 | `remove_clip_by_index` keeps every compound's bounds following its children |
| TimelineLaws.AppendKeepsContiguous | backend/app/timeline.py:332-355 | `Track.add_clip` keeps a track's top-level clips back to back, without gaps or overlaps |
| TimelineLaws.AddClipKeepsCovered | backend/app/timeline.py:569-582 | `Timeline.add_clip` keeps the duration at or past the end of every top-level clip |
| TimelineLaws.AppendShiftsCompoundOnly | backend/app/timeline.py:332-355 | appending a compound moves its own bounds but not its children, so the moved compound no longer spans them |
| TimelineLaws.TypeIndicesSameTypes | backend/app/timeline.py:747-756 | two track lists with the same types at the same positions find the same tracks by type |
| TimelineLaws.GetTrackAfterSetClips | backend/app/timeline.py:747-756 | editing a track's clips changes no track lookup |
| TimelineLaws.TrimThenJoin | backend/app/timeline.py:652-719 | trimming a top-level clip and joining its two parts gives back a single clip of the same class over the original bounds, in place of the trimmed one |
| TimelineLaws.AddThenRemoveTrack | backend/app/timeline.py:823-862 | `add_track` at a position inside the list followed by `remove_track` at that position succeeds and restores the timeline |
| TimelineLaws.LeavesAppend | backend/app/timeline.py:205-218 | the flattened listing of two lists one after the other is the two listings concatenated |
| TimelineLaws.LeavesAround | backend/app/timeline.py:205-218 | the flattened listing splits around any one clip of the list |
| TimelineLaws.DropLeaves | backend/app/timeline.py:757-793 | dropping the clip at any place takes out of the flattened listing exactly the block of that clip's own leaves, at the place where they were, and keeps every other leaf, in order |
| TimelineLaws.RemoveByIndexDrops | backend/app/timeline.py:771-793 | a successful `remove_clip_by_index` removes the clip at that entry of the depth-first pre-order listing, and with it exactly its block of leaves; every other leaf of the track stays, in order |
| TimelineLaws.RemoveByIndexIsPreorder | backend/app/timeline.py:778-784 | in a nested example, entry 3 of the listing is the first child of the inner compound: each compound comes before its children |
| LegacyTimeline.LegacyTrim | src/timeline.py:576-603 | a missing track is an IndexError; it splits exactly when the first match by name has the timestamp strictly inside its frames, into "_part1" and "_part2" meeting at the truncated timestamp; otherwise False and no change; no notification ever |
| LegacyTimeline.LegacySplitInside | src/timeline.py:576-603 | a timestamp strictly inside a clip truncates to a frame within the clip's bounds, strictly before its end when non-negative and strictly after its start when negative |
| LegacyTimeline.LegacyTrimEmptyPart | src/timeline.py:576-603 | trimming [0, 10) at 0.5 passes the inside test but splits at frame 0 and leaves an empty first part |
| LegacyTimeline.LegacyJoin | src/timeline.py:604-638 | joins exactly when the named clip has a next sibling of the second name starting where it ends; only that track changes, the pair becoming one "{first}_joined_{second}" clip without an id over their combined span |
| LegacyTimeline.LegacyAddTransition | src/timeline.py:639-664 | after the same adjacency test as the join, exactly one transition with the names as given is appended and no clip changes; otherwise nothing changes |
| LegacyTimeline.LegacyLoadVideo | src/timeline.py:539-558 | a plain clip of 60 frames named after the file, with no id and no file path, placed as `add_clip` places it; no notification |
| LegacyTimeline.LegacyTrimAgrees | src/timeline.py:576-603 | on whole-frame timestamps at frame rate 1 the older trim and the current one give the same answer |
| History.AddEntry | backend/app/command_executor.py:59-62 | the new entry goes last and nothing is left to redo |
| History.Undo | backend/app/command_executor.py:63-69 | nothing to undo exactly when there is no entry, and then nothing changes; otherwise the newest entry moves onto the redo stack and its before snapshot is returned |
| History.Redo | backend/app/command_executor.py:70-76 | nothing to redo exactly when the redo stack is empty, and then nothing changes; otherwise the most recently undone entry moves back and its after snapshot is returned |
| History.TapeKept | backend/app/command_executor.py:54-76 | undo and redo never lose, add or reorder commands: the entries followed by the reversed redo stack stay the same |
| History.RedoAfterUndo | backend/app/command_executor.py:63-76 | a redo right after an undo restores the history and returns the undone command's after snapshot |
| History.UndoAfterRedo | backend/app/command_executor.py:63-76 | an undo right after a redo restores the history and returns the redone command's before snapshot |
| History.NewCommandDropsRedo | backend/app/command_executor.py:59-62 | after a new command redo gives nothing back, whatever had been undone |
| History.UndoAll | backend/app/command_executor.py:63-69 | undoing every entry in turn returns the before snapshots newest first and leaves nothing to undo, without losing any command |
| Executor.Start | backend/app/command_executor.py:106-122 | a new executor works on the given timeline with an empty history |
| Executor.Resolution | backend/app/command_executor.py:209-231 | nothing to resolve (a falsy `reference_type` or no target) leaves the operation as it is; an ordinal reference over clips without a name raises AttributeError; a resolved operation keeps its type, gets the resolved name as target and loses exactly the three reference parameters |
| Executor.ResolvedName | backend/app/command_executor.py:221-231 | the resolved target is the name `resolve_clip_reference` returns, and resolution fails exactly when that name is missing or empty |
| Executor.WithIds | backend/app/command_executor.py:213-236 | the handler sees `clip_id` as read before resolution (None when absent) and a truthy `second_clip_id` as read then; no other parameter, the type or the target changes |
| Executor.Record | backend/app/command_executor.py:240-243 | the command's entry, with the snapshot before the call and the timeline after it, goes last on the history; the timeline is the one after the call |
| Executor.RecordedOnTop | backend/app/command_executor.py:240-243 | recording on top of a history that only grew since the call started keeps the older entries and adds exactly one more |
| Executor.Execute | backend/app/command_executor.py:198-249 | the history only grows; a command that returns is recorded with the timeline before it; a command other than a group cut adds exactly one entry when it returns and changes nothing when it raises |
| Executor.Dispatched | backend/app/command_executor.py:237-249 | the first handler accepting the operation runs it, or it is reported unknown; the same history guarantees as `execute` |
| Executor.Handled | backend/app/command_executor.py:237-243 | a handler that raises changes nothing; one that returns adds exactly one entry for the command |
| Executor.GroupFrames | src/executor_handlers/group_cut.py:14-19 | an int timestamp is itself, a float is truncated, a string goes through the executor's `_timestamp_to_frames` |
| Executor.HitsIn | src/executor_handlers/group_cut.py:28-31 | every clip of the track strictly around the frame is collected with the track's index among its type, and only such clips |
| Executor.HitsFrom | src/executor_handlers/group_cut.py:24-31 | from the given track on, exactly the clips strictly around the frame are collected, each with its track's index among its type |
| Executor.Hits | src/executor_handlers/group_cut.py:21-31 | the collected clips are exactly those, on the tracks of the requested type, strictly around the frame, each paired with its track's index among its type |
| Executor.CutOp | src/executor_handlers/group_cut.py:37 | the issued cut targets the clip by name with the group's timestamp, track type and the clip's track index |
| Executor.CutStep | src/executor_handlers/group_cut.py:38 | one nested `execute` without command text: one entry more, taken before that cut, when it returns |
| Executor.CutEach | src/executor_handlers/group_cut.py:35-39 | when no cut raises: one result per collected clip, in order and named after it, one entry per cut, none carrying command text, the first taken on the timeline the group started from; with no clips nothing changes |
| Executor.CutsChain | src/executor_handlers/group_cut.py:35-39 | chaining one cut's entry and the rest's keeps the first entry's snapshot and leaves every added entry without command text |
| Executor.Succeeded | src/executor_handlers/group_cut.py:41-42 | the success count is at most the number of cuts, equals it exactly when every cut succeeded and is zero exactly when none did |
| Executor.Messages | src/executor_handlers/group_cut.py:45 | one message per cut, in order |
| Executor.Summary | src/executor_handlers/group_cut.py:40-46 | the group succeeds exactly when every cut did, and its message opens with "Group CUT: " and the succeeded/failed counts |
| Executor.GroupCut | src/executor_handlers/group_cut.py:9-46 | one entry per selected clip, none with command text, the first taken on the starting timeline; with nothing selected the timeline and history stay and the result is a failure; otherwise the message opens with the summary |
| Executor.CutAll | src/executor_handlers/group_cut.py:35-46 | the cuts of a non-empty selection and their summary: one entry per clip without command text, the first on the starting timeline, and a "Group CUT: " message |
| Executor.Undo | backend/app/command_executor.py:261-266 | True exactly when there is an entry to undo; the timeline becomes the newest entry's before snapshot; with nothing to undo nothing changes |
| Executor.Redo | backend/app/command_executor.py:268-273 | True exactly when something was undone; the timeline becomes that entry's after snapshot; otherwise nothing changes |
| Executor.UndoAfterExecute | backend/app/command_executor.py:198-273 | after any command that returns, undo restores the timeline before it and redo then restores the executor exactly |
| Executor.RaisedChangesNothing | backend/app/command_executor.py:237-243 | a command that raises, other than a group cut, leaves the timeline and the history as they were |
| Executor.UnresolvedRecorded | backend/app/command_executor.py:224-229 | a reference that names no clip is reported as unresolved and still recorded, with the timeline the same before and after |
| Executor.UnknownRecorded | backend/app/command_executor.py:244-249 | an operation type no handler accepts is reported as "Unknown operation: <type>" and recorded, with the timeline untouched |
| Executor.ClipIdPassed | backend/app/command_executor.py:233-236 | the recorded operation always holds `clip_id`, the caller's value or None |
| Executor.GroupCutEntries | src/executor_handlers/group_cut.py:35-46 | a group cut records one entry per cut, none with command text, then its own entry; one undo leaves the timeline as it was before the group but only takes back the group's own entry |
| Executor.SelectedKeepsIds | backend/app/command_executor.py:233-236 | adding the id parameters changes nothing a group cut selects by |
| Executor.ExecuteAll | backend/app/command_executor.py:198-249 | commands run in order; the history only grows, by one entry per command when none is a group cut, the first new entry is taken on the starting timeline, and nothing is left to redo |
| Executor.UndoNReaches | backend/app/command_executor.py:261-266 | after n undos the timeline is the before snapshot of the n-th newest entry and the n newest entries wait to be redone |
| Executor.RedoNHistoryOnly | backend/app/command_executor.py:268-273 | redo depends only on the history: the timeline it starts from is replaced |
| Executor.RedoNUndoN | backend/app/command_executor.py:261-273 | n redos after n undos give back the history and the timeline of the newest entry |
| Executor.UndoAllCommands | backend/app/command_executor.py:198-273 | undoing as many times as commands were run returns to the starting timeline and entries, and as many redos give back the history |
| Executor.UndoBack | backend/app/command_executor.py:261-273 | undoing the n entries added since a point returns to that point's timeline and entries, and as many redos give the history back |
| ExecutorHandlers.FirstHandler | backend/app/command_executor.py:237-238 | the handler found is one of the list that accepts the operation; none is found exactly when no handler of the list accepts it |
| ExecutorHandlers.DispatchByKind | backend/app/command_executor.py:113-121 | every operation type is claimed by exactly one registered handler, so dispatch picks the handler of that type, and an operation of any other type finds none |
| ExecutorHandlers.AcceptsOne | backend/app/command_executor.py:113-121 | no two registered handlers accept the same operation type |
| ExecutorHandlers.IntOf | backend/app/executor_handlers/cut.py:24 | Python's `int(v)`: an int is itself, None is a TypeError, and only None or a text that spells no integer fails |
| ExecutorHandlers.FoundIndex | backend/app/executor_handlers/join.py:17-24 | the relative track index of the first of the names found at top level on a track of the type; none exactly when no track of the type holds any of them |
| ExecutorHandlers.PlaceOf | backend/app/executor_handlers/cut.py:17-24 | a given `track_index` goes through `int()`; without one, the first track of the type holding the name is used, and none is found exactly when no such track holds it |
| ExecutorHandlers.SearchKeyMatches | backend/app/timeline.py:620-650 | the key handed to the timeline finds exactly the clips `clip.clip_id == clip_id` selects, or without an id those `clip.name == clip_name` selects |
| ExecutorHandlers.NameOrId | backend/app/executor_handlers/trim.py:22 | `clip_name or clip_id` as an f-string renders it: the name when it is a non-empty text, else the id |
| ExecutorHandlers.Seconds | backend/app/timeline.py:660-662 | a number is read as that many seconds; None and texts give no seconds |
| ExecutorHandlers.TrackFor | backend/app/timeline.py:747-756 | a text track type is looked up with `get_track`; a track type that is not a text matches no track and is an IndexError |
| ExecutorHandlers.TrimWith | backend/app/timeline.py:652-684 | a missing track is an IndexError; a number timestamp runs `trim_clip`; a text timestamp never trims and is a TypeError exactly when the clip is found |
| ExecutorHandlers.FramesReadAsSeconds | backend/app/executor_handlers/cut.py:11-25 | an integer timestamp the handler means as frames is read by `trim_clip` as seconds: the clip is split exactly when `ts * frame_rate` lies strictly inside it |
| ExecutorHandlers.Report | backend/app/executor_handlers/cut.py:25-26 | the timeline call's outcome is kept; an exception passes through; a returned bool becomes the result's success with its message |
| ExecutorHandlers.Cut | backend/app/executor_handlers/cut.py:9-26 | without a clip name or with a None timestamp a failure that changes nothing; a clip found on no track is reported as not found; a bad `track_index` raises; otherwise the trim's outcome with its success |
| ExecutorHandlers.CutMessage | backend/app/executor_handlers/cut.py:26 | the message names the clip, the timestamp as given and the bool result |
| ExecutorHandlers.Trim | backend/app/executor_handlers/trim.py:9-27 | without name and id, or with a None timestamp, a failure that changes nothing; otherwise as the cut, by name or id, with the message naming `clip_name or clip_id` |
| ExecutorHandlers.TrimByIdNeedsIndex | backend/app/executor_handlers/trim.py:18-22 | with only a clip id and no track index, the track search looks for no name and reports the id as not found |
| ExecutorHandlers.Join | backend/app/executor_handlers/join.py:9-29 | without both names a failure that changes nothing; the track is the given one, else the first holding the first clip, else the first holding the second; neither found is reported; otherwise the join's outcome |
| ExecutorHandlers.JoinEffectMessage | backend/app/executor_handlers/join.py:27-29 | the message names both clips, mentions the effect exactly when a truthy one is given, and ends with the bool result |
| ExecutorHandlers.RawTrack | backend/app/executor_handlers/remove.py:13-14 | `get_track` with the raw `track_index`: an int or a bool (as 0 or 1) is used as is; no track of the type is an IndexError; any other value fails |
| ExecutorHandlers.Remove | backend/app/executor_handlers/remove.py:9-18 | a failed track lookup raises; otherwise the outcome of `remove_clip` by name or id on that track, with the removed or not-found message |
| ExecutorHandlers.ToFrame | backend/app/executor_handlers/overlay.py:19-25 | None stays None; an int is multiplied by the rate; a float is multiplied and truncated; only a text that is neither a float nor an int fails, with ValueError |
| ExecutorHandlers.AppendFx | backend/app/executor_handlers/overlay.py:38-39 | the effect goes last among the effect track's range effects and nothing else changes |
| ExecutorHandlers.Overlay | backend/app/executor_handlers/overlay.py:10-42 | fails exactly when a bound does not convert or there is no effect track, and then changes nothing; otherwise appends one "overlay" effect with the asset, the position and the converted frames to the first effect track and succeeds, with no change notification |
| ExecutorHandlers.OverlayOnNewTimeline | backend/app/executor_handlers/overlay.py:30-39 | on a fresh timeline the overlay lands on the Effects track and the other three tracks stay as they were |
| ExecutorHandlers.AddText | backend/app/executor_handlers/add_text.py:9-11 | a success that leaves the timeline untouched, whose message names the text and ends with the parameters as Python prints a dict |
| ExecutorHandlers.RangeText | src/executor_handlers/fade.py:15-20 | the range phrase chosen by the truthiness of the start and the end: both, start only, end only, or none |
| ExecutorHandlers.Fade | src/executor_handlers/fade.py:9-21 | a success that leaves the timeline untouched, reporting direction, target and range |
| ExecutorHandlers.OverlayNote | src/executor_handlers/overlay.py:9-23 | a success that leaves the timeline untouched, naming the position only when one is given |
| ExecutorHandlers.Apply | backend/app/command_executor.py:237-243 | a registered handler that raises, or reports a failure, leaves the timeline as it was and sends no notification |
| ClipQueries.TracksOf | backend/app/command_executor.py:151 | the positions of exactly the tracks whose type equals the value, in timeline order |
| ClipQueries.FindFrom | backend/app/command_executor.py:251-259 | the first of the chosen tracks, from the given one on, holding a top-level clip of that name; none exactly when no later one does |
| ClipQueries.FindTrackIndex | backend/app/command_executor.py:251-259 | `find_track_index_for_clip`: the index, among the tracks of the type, of the first track holding a top-level clip of that exact name |
| ClipQueries.ConcatHasName | backend/app/command_executor.py:154-156 | the clips of the chosen tracks, one after the other, hold a name exactly when one of those tracks does |
| ClipQueries.FoundAmongTopClips | backend/app/command_executor.py:251-259 | the track search finds a name exactly when the concatenated top-level clips of the type hold it |
| ClipQueries.Position | backend/app/command_executor.py:166-167 | `list.index`: the first position holding the word, and none exactly when it does not occur |
| ClipQueries.OrdinalWord | backend/app/command_executor.py:160-167 | the index of the word among "first" … "tenth", and none exactly when it is not one of them |
| ClipQueries.OrdinalIndex | backend/app/command_executor.py:163-173 | an AttributeError exactly for a truthy ordinal that is not a text, which has no `lower` |
| ClipQueries.FirstNamed | backend/app/command_executor.py:191-195 | the first clip whose name equals the wanted one ignoring case; none exactly when no clip's does |
| ClipQueries.Resolve | backend/app/command_executor.py:142-196 | an ordinal reference picks, among the top-level clips of `ref_track_type` or else `track_type`, the clip its word or number names, none when out of range or absent; "last clip"/"first clip" pick the last or first clip; "clip named X" picks the first clip named X ignoring case; any other reference type gives none |
| ClipQueries.OrdinalWords | backend/app/command_executor.py:160-175 | an ordinal word, in any case, picks the clip at its place in the list ("second" is index 1), and none past the end |
| ClipQueries.OrdinalWordOf | backend/app/command_executor.py:160-167 | each ordinal word is found at its own index |
| ClipQueries.OrdinalsDiffer | backend/app/command_executor.py:160-162 | the ten ordinal words are distinct |
| ClipQueries.NotOrdinalWord | backend/app/command_executor.py:160-167 | no ordinal word starts with a digit |
| ClipQueries.NumberedOrdinal | backend/app/command_executor.py:168-175 | a number with an ordinal suffix, "12th" say, picks the clip at that position counted from one, and none outside the list |
| ClipQueries.NumberedIndex | backend/app/command_executor.py:168-173 | a numbered ordinal converts to the written number less one |
| ClipQueries.NotAWord | backend/app/command_executor.py:163-173 | a text that is no ordinal word falls to the numeric reading |
| ClipQueries.NumericOrdinalOf | backend/app/command_executor.py:171-173 | `(\d+)(st\|nd\|rd\|th)` reads the leading digits when a suffix follows them |
| ClipQueries.DigitsThen | backend/app/command_executor.py:171 | reading digits stops at the first non-digit |
| TimeUtils.Trunc | backend/app/utils.py:124 | Python's `int()` on a float: truncation toward zero, never moving away from zero by a whole unit |
| TimeUtils.RoundHalfEven | backend/app/timeline.py:867-869 | Python's `round()`: within half a unit, and a tie goes to the even integer |
| TimeUtils.WordsToNumber | backend/app/utils.py:18-36 | a value only when the word total is positive, and then a positive whole number; none exactly when the loop's total is 0 |
| TimeUtils.AccumulateIgnoresUnknown | backend/app/utils.py:26-34 | words that are neither number words nor "hundred"/"thousand" are skipped: only the counted words decide the total |
| TimeUtils.AccumulateSums | backend/app/utils.py:26-28 | without "hundred" or "thousand" the number words are summed left to right |
| TimeUtils.HundredMultiplies | backend/app/utils.py:26-30 | "hundred" multiplies the running value: "two hundred five" is 205 |
| TimeUtils.FractionOf | backend/app/utils.py:99-102 | the value of a fraction word of the table that the text contains; none exactly when it contains none of them |
| TimeUtils.DigitRunCount | backend/app/utils.py:72-80 | a digit count is a whole number |
| TimeUtils.WordCount | backend/app/utils.py:82-96 | a number-word count is a positive whole number |
| TimeUtils.ReadingsOf | backend/app/utils.py:51-96 | every count the digit and number-word patterns read from the text is whole |
| TimeUtils.NoDurationWholeSeconds | backend/app/utils.py:71-110 | without a duration, every recognised time is a whole number of seconds when the counts are whole |
| TimeUtils.ParseNaturalTime | backend/app/utils.py:38-110 | `parse_natural_time_expression` runs its ordered cascade of rules; without a duration it yields only whole, non-negative numbers of seconds |
| TimeUtils.NoDurationNoRelative | backend/app/utils.py:50-110 | without a duration neither "the last", a fraction, "halfway" nor "end" applies: only a count rule or start/beginning (0) |
| TimeUtils.LastCountWords | backend/app/utils.py:53-55 | a "the last" count in number words wins over the float reading: "the last ten seconds" counts 10 |
| TimeUtils.LastCountFloat | backend/app/utils.py:56-60 | a "the last" count that is no number words is read as a float literal |
| TimeUtils.LastRulesFirst | backend/app/utils.py:50-70 | with a duration, "the last N seconds" gives duration − N before anything else, and "the last N minutes" gives duration − 60N when the seconds form did not apply |
| TimeUtils.DigitForms | backend/app/utils.py:71-80 | the digit forms come first among the counts: seconds give N, minutes 60N, hours 3600N, when no relative rule applied |
| TimeUtils.WordForms | backend/app/utils.py:81-96 | the number-word forms apply after the digit forms: "thirty seconds" is 30, with minutes and hours scaled |
| TimeUtils.Keywords | backend/app/utils.py:105-110 | with nothing else applying, "start" and "beginning" are 0, "end" is the duration (none without one) and every other text is unrecognised |
| TimeUtils.HalfwayIsHalf | backend/app/utils.py:97-104 | the "halfway" rule never decides: any text containing "halfway" contains "half", which the fraction table checks first |
| TimeUtils.FractionRule | backend/app/utils.py:97-102 | with a duration and nothing counted, the first fraction word of the table that occurs gives that fraction of the duration |
| TimeUtils.ClockParts | backend/app/utils.py:127 | every part of a clock text converts with `int()`, or the conversion fails because one of them does not |
| TimeUtils.ClockTwo | backend/app/utils.py:128-129 | two integer parts give M·60·fr + S·fr frames |
| TimeUtils.ClockThree | backend/app/utils.py:130-131 | three integer parts give H·3600·fr + M·60·fr + S·fr frames |
| TimeUtils.ClockText | backend/app/utils.py:125-131 | a text with a colon whose parts convert is converted by its parts alone |
| TimeUtils.MinutesSeconds | backend/app/utils.py:126-129 | `timestamp_to_frames("M:SS")` is M·60·fr + S·fr |
| TimeUtils.HoursMinutesSeconds | backend/app/utils.py:126-131 | `timestamp_to_frames("H:MM:SS")` is H·3600·fr + M·60·fr + S·fr |
| TimeUtils.SecondsSuffix | backend/app/utils.py:132-134 | a text without a colon that ends in "s" is read as seconds without the "s", and any other as the whole text |
| TimeUtils.ClockFrames | backend/app/utils.py:126-131 | a text without a colon is not read as a clock; a clock part `int()` rejects is a ValueError |
| TimeUtils.WholeTimes | backend/app/utils.py:134 | a whole number of seconds times the rate truncates to exactly that many frames |
| TimeUtils.FloatFrames | backend/app/utils.py:132-134 | `int(float(t) * frame_rate)` fails only with ValueError, and an integer text N gives exactly N·fr frames |
| TimeUtils.TimestampToFrames | backend/app/utils.py:112-135 | `timestamp_to_frames`: an int, a bool or a float always converts, a float to its product with the rate truncated toward zero; None raises TypeError and is the only input that does; a text fails only with ValueError; an integer text with no colon and no "s" suffix gives N·fr frames |
| TargetGrammar.RefKind | backend/app/command_handlers/cut.py:53-79 | the reference type is "positional" exactly for "last clip"/"first clip"; an ordinal wins over every later test; no type only when none of the tests applies |
| TargetGrammar.RefDetails | backend/app/command_handlers/cut.py:62-79 | an ordinal reference records the ordinal and, when a track type was written with it, that type under both "ref_track_type" and "track_type"; relative and by-start-time references record their side and start time; no other key changes |
| TargetGrammar.PrefixType | backend/app/command_handlers/cut.py:86-92 | the track type implied by a target's prefix is a track word the lower-cased target starts with |
| TargetGrammar.WithStamp | backend/app/command_handlers/cut.py:80-85 | a written timestamp is stored in frames under "timestamp"; the parse fails exactly when its conversion raises; no other key changes |
| TargetGrammar.Classified | backend/app/command_handlers/cut.py:53-57 | a bare pronoun is recorded under "reference_pronoun"; any other target gets the reference details |
| TargetGrammar.ClipParams | backend/app/command_handlers/cut.py:50-94 | the parameters a cut or trim records: the reference type of its target, the timestamp in frames, failing exactly when the timestamp does not convert |
| CutCommand.ChosenTarget | backend/app/command_handlers/cut.py:41-49 | the pronoun when one was written, else the captured target, else "current": a cut always has a target |
| CutCommand.Parse | backend/app/command_handlers/cut.py:28-96 | a text outside the grammar is UNKNOWN with the raw text; a matched text is a CUT of the chosen target whose timestamp is in frames, and fails exactly when the timestamp does not convert |
| CutCommand.MatchShape | backend/app/command_handlers/cut.py:20-26 | an accepted text opens with cut, split, divide or slice and is matched to its end |
| CutCommand.CurrentKind | backend/app/command_handlers/cut.py:48-63 | a cut of the implicit "current" clip is typed "ordinal" only when an ordinal was captured, and has no type otherwise |
| TrimCommand.ChosenTarget | backend/app/command_handlers/trim.py:36-45 | the pronoun, else the target expression, else the bare target unless it is "to"; a trim may have no target at all |
| TrimCommand.Parse | backend/app/command_handlers/trim.py:28-92 | a text outside the grammar is UNKNOWN; a matched text is a TRIM of the chosen target with its timestamp in frames, failing exactly when that does not convert |
| TrimCommand.MatchShape | backend/app/command_handlers/trim.py:20-26 | an accepted text opens with trim, shorten, crop or reduce and is matched to its end |
| JoinCommand.Chosen | backend/app/command_handlers/join.py:49-62 | a clip of the join is named exactly when its pronoun or its target was captured |
| JoinCommand.PairType | backend/app/command_handlers/join.py:99-105 | "audio" when either name starts with it, then "subtitle", then "effect"; no type exactly when neither name has any of these prefixes |
| JoinCommand.FirstDetails | backend/app/command_handlers/join.py:66-93 | the first clip's pronoun is recorded in lower case under "reference_pronoun_first"; only detail keys change |
| JoinCommand.Extras | backend/app/command_handlers/join.py:94-105 | the second clip's pronoun, the effect and the implied track type are recorded; nothing else changes |
| JoinCommand.JoinParams | backend/app/command_handlers/join.py:64-107 | a join records its second clip, the first clip's reference type and pronoun, the second pronoun and the effect |
| JoinCommand.Parse | backend/app/command_handlers/join.py:37-133 | the two-clip form gives a JOIN of the first clip with the second under "second"; the "join with" form gives a JOIN without a target; any other text is UNKNOWN |
| JoinCommand.MatchShape | backend/app/command_handlers/join.py:25-35 | an accepted text opens with join, merge or combine |
| RemoveCommand.Rest | backend/app/command_handlers/remove.py:8 | `(?P<target>.+)$` captures a non-empty one-line rest, with one final line break allowed after it |
| RemoveCommand.RestOf | backend/app/command_handlers/remove.py:8 | every non-empty one-line rest is captured whole, with or without a final line break |
| RemoveCommand.OneVerb | backend/app/command_handlers/remove.py:7 | at most one of remove, delete and erase opens a text |
| RemoveCommand.Parse | backend/app/command_handlers/remove.py:11-18 | a REMOVE of the rest after the verb and one blank, without parameters; UNKNOWN otherwise |
| RemoveCommand.Spelled | backend/app/command_handlers/remove.py:11-17 | conversely every verb, blank and one-line rest is a REMOVE of that rest |
| RemoveCommand.BareVerb | backend/app/command_handlers/remove.py:8-18 | a verb with nothing after its blank is UNKNOWN |
| AddTextCommand.RestNullable | backend/app/command_handlers/add_text.py:20-28 | everything after `add(?! overlay)` is optional, so the grammar only asks for the opening |
| AddTextCommand.ReadText | backend/app/command_handlers/add_text.py:45-51 | the text is the quoted capture or the stripped unquoted one; "to it/that/this" becomes a target instead; "at" or an empty text is no text |
| AddTextCommand.AimOf | backend/app/command_handlers/add_text.py:53-83 | a pronoun makes a contextual reference; a captured target is lower-cased and classified; without either the target read from the text stays |
| AddTextCommand.Frames | backend/app/command_handlers/add_text.py:94-109 | a written start or end is stored as frame text, and only a written one |
| AddTextCommand.TextParams | backend/app/command_handlers/add_text.py:89-113 | text, position, start, end, pronoun and reference type are each recorded exactly when present |
| AddTextCommand.FromHit | backend/app/command_handlers/add_text.py:42-117 | an ADD_TEXT whose target, text and position are those the match reads |
| AddTextCommand.Parse | backend/app/command_handlers/add_text.py:31-118 | UNKNOWN outside the grammar; otherwise the operation read from the match with start (or open start) and end converted |
| AddTextCommand.ParseFrames | backend/app/command_handlers/add_text.py:84-109 | the start, else the open-ended start, and the end are stored in frames as text |
| FadeCommand.MatchesExactly | backend/app/command_handlers/fade.py:20-28 | a text is accepted exactly when it opens with a fade verb, a blank and "in" or "out" |
| FadeCommand.AimOf | backend/app/command_handlers/fade.py:41-65 | a pronoun is kept as written and typed contextual; any other target is lower-cased and classified |
| FadeCommand.AimAgreesWithAddText | backend/app/command_handlers/fade.py:44-65 | the fade classifies a target as add-text does, except for a bare pronoun captured as a target |
| FadeCommand.BaseParams | backend/app/command_handlers/fade.py:68-90 | direction, target, start, end, pronoun and reference type, in the source's order |
| FadeCommand.OrdinalParams | backend/app/command_handlers/fade.py:91-92 | a captured ordinal is recorded; the base keys are left alone |
| FadeCommand.TrackParams | backend/app/command_handlers/fade.py:93-95 | the track type written with an ordinal is recorded under both keys |
| FadeCommand.PlaceParams | backend/app/command_handlers/fade.py:96-102 | a relative reference records its side and a by-start-time reference its start time |
| FadeCommand.FromCaptures | backend/app/command_handlers/fade.py:39-103 | a FADE with the direction, the target and its classification among its parameters |
| FadeCommand.Parse | backend/app/command_handlers/fade.py:30-104 | UNKNOWN outside the grammar; otherwise the FADE of the captures with start and end converted to frames |
| FadeCommand.ParseFrames | backend/app/command_handlers/fade.py:66-86 | start (or the open-ended start) and end are stored in frames as text |
| FadeCommand.Details | backend/app/command_handlers/fade.py:91-95 | a written ordinal is kept, with the track type it names |
| FadeCommand.RelativeDetails | backend/app/command_handlers/fade.py:60-100 | "the clip before/after that one" records "before"/"after" |
| FadeCommand.RelativeSide | backend/app/command_handlers/fade.py:60-63 | the two relative phrases are classified as relative |
| OverlayCommand.MatchShape | backend/app/command_handlers/overlay.py:20-26 | an accepted text opens with an overlay verb and is matched to its end |
| OverlayCommand.PositionOf | backend/app/command_handlers/overlay.py:39-45 | the pronoun when written, else the captured position |
| OverlayCommand.PositionKind | backend/app/command_handlers/overlay.py:50-75 | screen positions are positional, ordinals ordinal, pronouns and "this clip" contextual, the before/after phrases relative, each exactly |
| OverlayCommand.KindOf | backend/app/command_handlers/overlay.py:49-75 | an ordinal type is given only when an ordinal was captured |
| OverlayCommand.BaseParams | backend/app/command_handlers/overlay.py:48-55 | the asset, the position as written and the pronoun in lower case; nothing else |
| OverlayCommand.OrdinalParams | backend/app/command_handlers/overlay.py:58-63 | the ordinal, and the track type it names under both keys |
| OverlayCommand.DetailParams | backend/app/command_handlers/overlay.py:58-75 | each reference type records its own details |
| OverlayCommand.StampParam | backend/app/command_handlers/overlay.py:77-80 | a written start or end is stored in frames, failing exactly when it does not convert |
| OverlayCommand.Described | backend/app/command_handlers/overlay.py:48-75 | the asset, position and pronoun before the range, with no range and no type yet |
| OverlayCommand.Detailed | backend/app/command_handlers/overlay.py:58-75 | the details leave the base keys alone |
| OverlayCommand.Stamped | backend/app/command_handlers/overlay.py:76-80 | start and end in frames; fails exactly when either does not convert |
| OverlayCommand.FromCaptures | backend/app/command_handlers/overlay.py:36-83 | an OVERLAY without a target, recording the asset, position and pronoun; fails exactly when start or end does not convert |
| OverlayCommand.Parse | backend/app/command_handlers/overlay.py:28-84 | UNKNOWN outside the grammar or without an asset; otherwise the OVERLAY of the captures |
| OverlayCommand.Details | backend/app/command_handlers/overlay.py:58-75 | an ordinal records itself and its track type; relative references record their side |
| GroupCutCommand.TypeIndex | src/command_handlers/group_cut.py:9 | the target type written after "cut all ", if any |
| GroupCutCommand.ClockAt | src/command_handlers/group_cut.py:9 | an optional " at M:SS" or " at MM:SS" that is spelled there |
| GroupCutCommand.TrackOf | src/command_handlers/group_cut.py:19-27 | "clips" selects video and the other target types their own track type |
| GroupCutCommand.Parse | src/command_handlers/group_cut.py:12-33 | a text outside the grammar is UNKNOWN with the raw text |
| GroupCutCommand.Parsed | src/command_handlers/group_cut.py:14-32 | a matched group cut never fails: a CUT_GROUP without a target, the selected track type, and a written clock in frames at 30 fps |
| GroupCutCommand.FoldedType | src/command_handlers/group_cut.py:16 | a case-insensitive match of a target type lower-cases to that type |
| GroupCutCommand.ClockFrames | src/command_handlers/group_cut.py:28-31 | a clock converts without error, to its minutes and seconds in frames at 30 fps |
| Intent.Find | backend/app/command_parser.py:246 | the first place a word is written, case-insensitively, or none when it is written nowhere |
| Intent.ApplyAt | backend/app/command_parser.py:242 | `apply .*color correction`: the first "apply " followed on the same line by "color correction" |
| Intent.FirstRow | backend/app/command_parser.py:245-247 | the first row whose cue fires, none firing before it |
| Intent.RecognizeIntent | backend/app/command_parser.py:222-248 | UNKNOWN exactly when no row of the table fires |
| Intent.Recognized | backend/app/command_parser.py:245-247 | the intent of the first row that fires |
| Intent.MentionsSpelled | backend/app/command_parser.py:246 | a row of words fires exactly when one of its words is written somewhere, in any case |
| Splitter.Toggle | backend/app/command_parser.py:95-99 | only a quote changes the quote state, and a quote inside a span of the other kind does not |
| Splitter.ConjAt | backend/app/command_parser.py:102-103 | the first of ";", " then ", " and " written at a place in any case, or none of them |
| Splitter.CutFacts | backend/app/command_parser.py:101-108 | a cut is made outside quotes at a written conjunction, which holds no quote |
| Splitter.Scan | backend/app/command_parser.py:94-114 | the reader's fragments, each with the conjunction that ended it, join back to the text read |
| Splitter.Kept | backend/app/command_parser.py:104-116 | only stripped, non-empty fragments are kept |
| Splitter.Split | backend/app/command_parser.py:88-117 | `split_outside_quotes`: non-empty fragments without whitespace at either end, each shorter than the text when there are several |
| Splitter.KeptLengths | backend/app/command_parser.py:104-116 | no fragment is longer than the text, and with several each is strictly shorter |
| Splitter.CutsOutsideQuotes | backend/app/command_parser.py:94-114 | every cut the reader makes is at a conjunction outside quotes |
| Splitter.Fragments | backend/app/command_parser.py:88-117 | the fragments join back to the text, the kept ones are what `split_outside_quotes` returns, and every cut is at a conjunction outside quotes |
| Splitter.ScanWhole | backend/app/command_parser.py:94-114 | without a conjunction outside quotes the reader never cuts |
| Splitter.NoConjunction | backend/app/command_parser.py:115-117 | a text with no conjunction is one fragment, the stripped text, unless it is blank |
| CommandParser.FirstAccepting | backend/app/command_parser.py:84-86 | the first registered handler that accepts the text, none accepting before it |
| CommandParser.SkipSpaces | backend/app/command_parser.py:83 | `^\s*`: the first place that is not whitespace |
| CommandParser.LastTarget | backend/app/command_parser.py:121-133 | the target carried forward is the one before the loop or that of some operation that has one |
| CommandParser.ParseEach | backend/app/command_parser.py:122-123 | every fragment is parsed, one result per fragment |
| CommandParser.EachParsed | backend/app/command_parser.py:122-134 | the fragment loop succeeds exactly when every fragment parses, gives each fragment its own parse, and fails with the first failing fragment's exception |
| CommandParser.Assemble | backend/app/command_parser.py:120-134 | one assembled item per parsed fragment |
| CommandParser.AssembledInOrder | backend/app/command_parser.py:124-133 | each item is its parse, a JOIN without a first clip filled from the last target of the items before it |
| CommandParser.CarriedFrom | backend/app/command_parser.py:132-133 | the last target is carried item by item |
| CommandParser.JoinFirst | backend/app/command_parser.py:82-86 | a text that opens with join, merge or combine and that some handler accepts is parsed by that handler whole, whatever conjunctions it holds |
| CommandParser.Compounded | backend/app/command_parser.py:118-137 | a text of several fragments is a compound with one item per fragment, each its own parse filled from the items before it |
| CommandParser.Unsplit | backend/app/command_parser.py:138-220 | a text of one fragment is the first accepting handler's result, or UNKNOWN with the raw text when none accepts |
| CommandParser.ParseCommand | backend/app/command_parser.py:53-220 | `parse_command`: a compound has one item per top-level fragment and only a text that splits is one; a join-led or unsplit text gets the result of the first registered handler that accepts it, and an unsplit text none accepts is UNKNOWN with the raw text |
| CommandParser.SameFirstAccepting | backend/app/command_parser.py:84-86 | two handler lists that accept the same texts, handler by handler, pick the same first handler |
| CommandParser.RegistriesAgree | backend/app/command_parser.py:36-42 | both builds of the registry accept the same texts; as written a handler gives the corrected result or the TypeError of the group-cut call |
| CommandParser.OnlyRaises | backend/app/command_parser.py:53-220 | as written, parsing a text gives the corrected result or raises TypeError |
| CommandParser.EachOnlyRaises | backend/app/command_parser.py:118-123 | as written, the fragment loop gives the corrected result or raises TypeError |
| CommandParser.ParseCommandAsWritten | backend/app/command_parser.py:53-220 | the parser as written gives the corrected parser's result or raises TypeError |
| CommandParser.LegacyOpening | backend/app/command_parser.py:196-200 | the legacy add-text pattern matches exactly the texts that open with "add" not followed by " overlay" |
| CommandParser.AddTextOpening | backend/app/command_handlers/add_text.py:20-29 | so does the registered add-text handler |
| CommandParser.LegacyShadowed | backend/app/command_parser.py:193-217 | the legacy pattern matches exactly the texts the add-text handler accepts, so its construction is never reached |
| CommandParser.Validate | backend/app/command_parser.py:292-342 | UNKNOWN is never valid |
| CommandParser.FirstUnmet | backend/app/command_parser.py:302-338 | the first requirement an operation misses, all those before it met |
| CommandParser.ValidatedByRule | backend/app/command_parser.py:302-338 | an operation of a checked type is valid exactly when it meets all its type's requirements, with that type's message; otherwise the complaint of the first requirement it misses |
| CommandParser.ValidatedWithoutRule | backend/app/command_parser.py:339-342 | UNKNOWN is invalid with "Unknown command type."; any other unchecked type is valid |
| CommandParser.Respond | backend/app/command_parser.py:355-362 | a failed parse passes its exception on; a compound result raises AttributeError; a single operation always gets feedback |
| CommandParser.Responses | backend/app/command_parser.py:357-362 | the feedback starts with ✅ exactly when the operation is valid, with ❌ exactly for UNKNOWN, and is the issue and the message exactly for the other invalid operations |
| CommandParser.Feedback | backend/app/command_parser.py:344-362 | `feedback_for_command` parses at 30 frames per second: a parse failure passes its exception on, a compound raises AttributeError, and there is feedback exactly when the parse is a single operation |
| CommandParser.FeedbackFor | backend/app/command_parser.py:344-362 | `feedback_for_command` ignores the rate it is given; it passes on parse failures, raises AttributeError on a compound, and reports ✅ exactly for a valid operation and ❌ exactly for UNKNOWN |
| CommandParser.FirstIsGroupCut | backend/app/command_parser.py:36-141 | a group-cut text is handled by the group-cut handler, registered first |
| CommandParser.GroupCutCall | backend/app/command_parser.py:139-141 | as written, a group-cut text raises TypeError; corrected, it is the group-cut handler's parse |
| CommandParser.CutAllClips | backend/app/command_parser.py:139-141 | "cut all clips" raises TypeError as written; corrected it is a CUT_GROUP of the video track |
| BatchText.NotRegistered | backend/app/executor_handlers/batch_text.py:14-16 | a BATCH_TEXT operation finds no registered executor handler, and an each-clip ADD_TEXT goes to the single-clip text handler |
| BatchText.KindOf | backend/app/executor_handlers/batch_text.py:76 | the style selects the banger, subtitle or title table exactly when it is that string |
| BatchText.Texts | backend/app/executor_handlers/batch_text.py:43-76 | every style table holds eight texts |
| BatchText.TextsDistinct | backend/app/executor_handlers/batch_text.py:43-74 | the eight texts of each table are pairwise different |
| BatchText.PresetsAreUpdates | backend/app/executor_handlers/batch_text.py:87-116 | the effect parameters are the three base keys followed by the style's `update`, key by key |
| BatchText.BangerUpdates | backend/app/executor_handlers/batch_text.py:94-101 | the banger `update` |
| BatchText.SubtitleUpdates | backend/app/executor_handlers/batch_text.py:102-108 | the subtitle `update`, which moves the text to the bottom |
| BatchText.TitleUpdates | backend/app/executor_handlers/batch_text.py:109-116 | the title `update`, which moves the text to the top |
| BatchText.SettingsOf | backend/app/executor_handlers/batch_text.py:27-29 | style, text and position are the given parameters, defaulting to "subtitle", "AUTO_GENERATE" and "center" |
| BatchText.WrapEight | backend/app/executor_handlers/batch_text.py:82 | the wrap-around index into a style's table of eight texts is Python's `i % 8` |
| BatchText.TextsCycle | backend/app/executor_handlers/batch_text.py:78-84 | generated texts are read round robin from the style's table, so consecutive clips differ and the cycle has length eight; a given text is used for every clip |
| BatchText.StylePresets | backend/app/executor_handlers/batch_text.py:87-116 | the effect shows the clip's text in the style, at the bottom for subtitles, at the top for titles, else at the given position, with the style's font size and colour |
| BatchText.Annotate | backend/app/executor_handlers/batch_text.py:78-134 | the clip loop keeps the number of clips, makes at most one entry per clip, and fails exactly when it stops early |
| BatchText.AnnotateAt | backend/app/executor_handlers/batch_text.py:119-134 | each clip the loop went through is plain and has its effect and its entry |
| BatchText.AnnotateRest | backend/app/executor_handlers/batch_text.py:78-127 | the loop stops only at a compound clip, and leaves it and every later clip as they were |
| BatchText.AnnotateStopsAt | backend/app/executor_handlers/batch_text.py:127 | the loop stops at the first compound clip |
| BatchText.AnnotateFails | backend/app/executor_handlers/batch_text.py:78-134 | the loop runs to the end exactly when every clip is plain |
| BatchText.ConcatKept | backend/app/executor_handlers/batch_text.py:32-35 | the collected clip list depends only on the chosen tracks |
| BatchText.AnnotateTracks | backend/app/executor_handlers/batch_text.py:32-134 | effects added through the collected list land in the tracks the clips came from; the number of tracks, the duration, the transitions and the frame rate are unchanged |
| BatchText.TracksKept | backend/app/executor_handlers/batch_text.py:32-134 | going through the chosen tracks changes only their clips: every track keeps its place, name and type, and every track not chosen is left as it was |
| BatchText.Sweeps | backend/app/executor_handlers/batch_text.py:32-134 | going through the tracks one by one is the loop over the collected list, with the same entries and the same stop |
| BatchText.Execute | backend/app/executor_handlers/batch_text.py:18-150 | no video clips gives the failure message with nothing changed; a raise is AttributeError without notification; a success notifies the timeline once |
| BatchText.SameTracks | backend/app/executor_handlers/batch_text.py:18-139 | every track keeps its place, name and type, and every other part of the timeline is kept |
| BatchText.TextAt | backend/app/executor_handlers/batch_text.py:119-134 | the `k`-th clip gets the text effect of the `k`-th text and the matching entry |
| BatchText.ExecuteSweep | backend/app/executor_handlers/batch_text.py:37-150 | the video clips after a run are the loop's; the run raises exactly when the loop stops early; a full run reports the loop's entries and the summary |
| BatchText.RaisesOnCompound | backend/app/executor_handlers/batch_text.py:78-127 | a run raises exactly when some top-level video clip is a compound clip |
| BatchText.EveryClipAnnotated | backend/app/executor_handlers/batch_text.py:78-127 | after a successful run every video clip carries the text effect of its own place |
| BatchText.EveryClipReported | backend/app/executor_handlers/batch_text.py:129-150 | after a successful run there is one entry per video clip, in order, and the summary gives the style and the number of clips |
| BatchText.OtherTracksKept | backend/app/executor_handlers/batch_text.py:33-35 | tracks of other types come out of any run unchanged |
| BatchText.CompoundStops | backend/app/executor_handlers/batch_text.py:78-127 | a compound clip makes the run raise with every plain clip before it already changed |
| BatchText.CompoundAndRestKept | backend/app/executor_handlers/batch_text.py:78-127 | the compound clip that stops the run, and every clip after it, are left as they were |
| Serial.EffectToRec | backend/app/timeline.py:495-510 | an effect is saved with its type and parameters |
| Serial.EffectFromRec | backend/app/timeline.py:513-528 | loading an effect fails with KeyError exactly when `effect_type` is missing; type, start and end are read back as saved |
| Serial.EffectsFromRecs | backend/app/timeline.py:131 | a list of effects loads exactly when every entry has a type, entry by entry |
| Serial.EffectsRoundTrip | backend/app/timeline.py:99-131 | saved effects load back as themselves |
| Serial.ClipToRec | backend/app/timeline.py:84-101 | a clip is saved with its class, name and frame range, and with its id where the timeline keeps ids |
| Serial.ClipsToRecs | backend/app/timeline.py:252 | one record per clip |
| Serial.OptTrunc | backend/app/timeline.py:519-528 | an effect bound read back by `Effect.from_dict` keeps a whole number unchanged |
| Serial.LoadedId | backend/app/timeline.py:129 | a usable saved id is kept; a missing or empty one is replaced by a fresh id; the older timeline keeps none |
| Serial.ItemFromRec | backend/app/timeline.py:104-132 | an entry loads as one clip or one effect: an effect exactly for an effect record, a clip with the saved name and class otherwise |
| Serial.ItemsFromRecs | backend/app/timeline.py:265-270 | a list loads to as many clips and effects as it has entries |
| Serial.TrackToRec | backend/app/timeline.py:356-367 | a track is saved with its name, type and one entry per clip and effect |
| Serial.TrackFromRec | backend/app/timeline.py:370-387 | KeyError when the name or type is missing; otherwise the saved name and type, with one clip or effect per entry |
| Serial.TransitionFromRec | backend/app/timeline.py:436-451 | KeyError exactly when either clip is missing; the type defaults to crossfade and the duration to 1.0 |
| Serial.TracksFromRecs | backend/app/timeline.py:895 | one track per record |
| Serial.TransitionsFromRecs | backend/app/timeline.py:896 | the transitions load exactly when each of them does, one per record |
| Serial.TracksToRecs | backend/app/timeline.py:881 | one record per track |
| Serial.TransitionsToRecs | backend/app/timeline.py:882 | one record per transition |
| Serial.TimelineToRec | backend/app/timeline.py:871-883 | version "1.0", the frame rate, one record per track and per transition |
| Serial.TimelineFromRec | backend/app/timeline.py:886-899 | a loaded timeline has duration 0, the saved frame rate or 30, and one track and transition per record |
| Serial.TruncInt | backend/app/timeline.py:96-97 | `int(round(k))` of a whole number is that number |
| Serial.ItemRoundTrip | backend/app/timeline.py:84-132 | a saved clip whose range the seconds heuristic does not touch loads back as itself |
| Serial.LeafRoundTrip | backend/app/timeline.py:84-132 | the same for a plain clip |
| Serial.ItemsRoundTrip | backend/app/timeline.py:238-280 | a saved list of clips, followed by a track's range effects, loads back as itself |
| Serial.FxItemsRoundTrip | backend/app/timeline.py:513-528 | range effects saved into a track's list load back as themselves |
| Serial.TrackRoundTrip | backend/app/timeline.py:356-387 | a saved track loads back as itself |
| Serial.TracksRoundTrip | backend/app/timeline.py:881-895 | saved tracks load back as themselves |
| Serial.TransitionsRoundTrip | backend/app/timeline.py:411-451 | saved transitions load back as themselves |
| Serial.TimelineRoundTrip | backend/app/timeline.py:871-899 | a saved timeline loads back as itself, with the duration, which is not saved, reset to 0 |
| Serial.ShortClipRescaled | backend/app/timeline.py:119-122 | a clip over frames [0, 20) is saved as it is and loaded back over [0, 600) |
| Serial.MissingIdMinted | backend/app/timeline.py:129 | a clip loaded without a usable id gets a fresh one |
| Serial.NestedEffectOrder | backend/app/timeline.py:160-278 | an effect nested in a compound clip makes the load fail with TypeError once its name, start and end are read, and a missing name raises KeyError first |
| Base.PyIndex | backend/app/timeline.py:577-578 | a list index is valid exactly in [-len, len); a negative one counts from the back; anything else raises IndexError |
| Operations.Unknown | backend/app/command_handlers/cut.py:96 | the fallback of every handler: an UNKNOWN operation without a target that keeps the raw text |
| Operations.AssignGiven | backend/app/command_handlers/add_text.py:90-93 | `if x: params[k] = x`: the key is set exactly when the value is a non-empty text, and no other key changes |
| Values.Assign | backend/app/executor_handlers/batch_text.py:95-116 | `params[k] = v`: the key reads `v` afterwards and every other key is unchanged |
| Values.AssignWellFormed | backend/app/executor_handlers/batch_text.py:95-116 | assignment keeps each key listed exactly once |
| Values.Without | backend/app/command_executor.py:230 | the dictionary without the given keys, every other key unchanged |
| Values.LookupOr | backend/app/executor_handlers/batch_text.py:27-29 | `p.get(k, d)`: the value when the key is present, else the default |
| Text.ParsePyInt | backend/app/utils.py:127 | `int()` of a text of digits is its decimal value |
| Text.ParsePyFloat | backend/app/utils.py:134 | `float()` of a text `int()` accepts is that integer |
| Text.JoinSplitOn | backend/app/utils.py:127 | splitting on ":" loses nothing: joining the parts back gives the text |

## Left out

- The LLM branch of `parse_command` (backend/app/command_parser.py:65-81) and the LLM parser modules are network calls to an external model.
- The HTTP layer, file upload and temporary files (backend/app/backend/*.py) are I/O plumbing.
- Rendering through ffmpeg (src/video_backend) runs subprocesses. It is not part of this model.
- The batch cut handler (backend/app/executor_handlers/batch_cut.py) uses random jitter and float scaling.
- History persistence (`save_to_file`, `load_from_file`, the history's `to_dict`/`from_dict`) is JSON file I/O.
- The wall-clock timestamp of a history entry is a clock reading.
- Logging and the DEBUG print in the add-text handler produce output only.
- `extract_entities` feeds no other logic.
- The unused spaCy pipeline feeds no other logic.
- The second, unreachable copy of the split-and-assemble block (backend/app/command_parser.py:143-192) is dead code.
- The `len(operations) == 1` branch of the compound assembly is unreachable: it is only entered with two or more fragments, so it is not modelled.
- The older copy of the command parser under `src/` is not part of this model.
- CommandParser.ParseCommandAsWritten: the parser imports all seven registered handlers from `src.command_handlers` (backend/app/command_parser.py:5-11). None of their `parse` methods takes a frame rate (src/command_handlers/cut.py:16, trim.py:16, join.py:10, add_text.py:13, overlay.py:13, fade.py:13, group_cut.py:12). So as written, the calls at backend/app/command_parser.py:86 and :141 raise TypeError for every handler, and only a text no handler accepts parses (as UNKNOWN). The model keeps only the group-cut call as written. For the other six it uses the backend handlers (backend/app/command_handlers/) in their place: their `parse` takes `frame_rate` with a default of 30, and the backend tests assert their behaviour. The contract still holds of the code as written: the result is the corrected one or a TypeError.
- Byte-identical copies such as src/executor_handlers/add_text.py are covered by the one model of the backend file.
- Change notifications are counted, not delivered: the listeners registered with the timeline are not modelled.
- Deep copies are value sharing, so aliasing between a history snapshot and the live timeline cannot arise.
- Clips.RemoveChild: Python's `list.remove` finds the child by identity, because the clip classes define no `__eq__` (backend/app/timeline.py:186). Clips are values here, so the model removes the first child equal to the one given. With two equal children Python removes the one passed in, and a fresh clip equal to a child is a ValueError in Python but is removed here.
- Executor.Execute: Python writes `clip_id` (and `second_clip_id`) into the caller's own `EditOperation` object (backend/app/command_executor.py:233-236). The model passes the ids to the handler in a copy, so the caller's record is unchanged; the handler sees the same parameters.
- `ExecutionResult.data` is kept only by the batch text handler, for its processed clips; its `logs` entry and the data of other handlers are not modelled.
- BatchText.Execute: the handler is not in the executor's registry (backend/app/command_executor.py:114-121), so it is modelled as a function of its own and no `execute` path reaches it.
- Executor.Summary: the contract fixes only the head of the group-cut message (the counts) and its success flag; the rest of the text, with the per-clip messages and the DEBUG list, is computed but not constrained.
- Overlay effects live in their own list, `Track.fx`, not in the track's clip list. Python appends them to `Track.clips` of the Effects track (backend/app/executor_handlers/overlay.py:38-39). The behaviours of that mixed list are not modelled:
  - Timelines.AddClip on the Effects track: Python reads `clips[-1].end` of the last item, which may be an Effect, so the append position can come from an effect's end; the model uses the last clip only.
  - Timelines.TimelineEffects: Python's `get_timeline_effects` returns every item of the first Effects track (backend/app/timeline.py:956-959), including video clips placed there; the model returns only the range effects.
  - ClipQueries.FindTrackIndex and ClipQueries.Resolve: Python reads `.name` of every item of the tracks searched and raises AttributeError when it reaches an Effect; the model never sees effects there.
  - Serial.TrackToRec: Python's `Track.to_dict` keeps clips and effects in their interleaved order; the model writes all clips, then all effects.
- Character classes are ASCII-only. `\d`, `\w` and `\b` of Python's `re`, and `str.isdigit`, also accept other Unicode digits and letters.
- `str.lower()` and the `re.I` folding are ASCII-only. Python also folds non-ASCII letters, and under `re.I` it matches `ſ` (long s) to `s` and the Kelvin sign to `k`. So "eraſe x" is a REMOVE in Python and UNKNOWN in the model.
- Text.ParsePyFloat: `float()` is modelled for finite decimal literals. "inf", "nan" and "infinity" are a ValueError in the model and a float in Python. A literal too large for a double, such as "1e400", is an exact value in the model; Python gives inf, and a later `int()` raises OverflowError.
- Floating point is exact rational arithmetic (`real`). Rounding of binary doubles is not modelled, so products such as `0.1 * 30` are exact.
- The frame rate is an integer throughout. A float frame rate, such as the 30.0 that `Timeline.from_dict` defaults to, is read as the integer 30.
- Frames are integers, so the 1e-6 tolerance of `Track.add_clip` becomes exact equality. For the same reason an effect's `start` or `end` that is not a whole number is truncated when it is read back; `Effect.from_dict` keeps the stored value as it is (backend/app/timeline.py:519-528).
- The older timeline's `Effect` has no start or end (src/timeline.py:462-496). The model uses one effect type for both timelines; an effect from the older timeline simply has neither bound.
- `Timeline.version` is read back by `from_dict` but is not kept in the model, since nothing reads it.

## Findings

| source | as written | input that shows it | evidently intended | confidence | as-written member | corrected member |
|---|---|---|---|---|---|---|
| backend/app/command_parser.py:141 | the parser calls `handler.parse(command_text, frame_rate=frame_rate)` on every handler, but it imports the handlers from `src.command_handlers` (backend/app/command_parser.py:5-11), whose `parse` methods take no `frame_rate` (the group cut's at src/command_handlers/group_cut.py:12), so every such call raises TypeError; the model keeps only the group-cut call as written | "cut all clips" | a CUT_GROUP operation of the video track, as the handler builds it | not executed | CommandParser.GroupCutCall | CommandParser.CutAllClips |

=== FILE: add_text_command.dfy ===
/** The ADD_TEXT command grammar (`command_handlers/add_text.py`): "add"
    (but not "add overlay"), optionally "text", then an optional quoted or
    unquoted text, an optional `to <target>`, `at the <position>`, and
    `from <start> to <end>` or `from <start>`. Everything after "add" is
    optional, so the grammar accepts exactly the texts that open with
    "add" not followed by " overlay". */
module AddTextCommand {
  import opened Base
  import opened Text
  import opened Regex
  import opened Values
  import opened Operations
  import opened TargetGrammar
  import CutCommand

  const Quote := CharSet([Chr('\''), Chr('"')], false)
  const NotQuote := CharSet([Chr('\''), Chr('"')], true)
  const NotAtOrNewline := CharSet([Chr('@'), Chr('\n')], true)
  const NotBlank := CharSet([Chr(' ')], true)

  /** `\s+['"](?P<text_quoted>[^'"]+)['"]` */
  const QuotedText := Seq([Spaces1, Rep(Quote, 1, Some(1), false), Group("text_quoted", Plus(NotQuote)), Rep(Quote, 1, Some(1), false)])

  /** `(?!to (it|that|this)\b|to\b|at\b|from\b)` */
  const NotKeyword := Ahead(Alts([Seq([Lit("to "), OneOf(Pronouns), Boundary]), Cat(Lit("to"), Boundary),
                                  Cat(Lit("at"), Boundary), Cat(Lit("from"), Boundary)]), true)

  /** `(?=\s*to [^ ]+|\s*at the|\s*from|$)` */
  const TextEnd := Ahead(Alts([Cat(Spaces0, Cat(Lit("to "), Plus(NotBlank))), Cat(Spaces0, Lit("at the")),
                               Cat(Spaces0, Lit("from")), Eol]), false)

  /** `\s+(?P<text_unquoted>(?!...)[^@\n]+?)(?=...)` */
  const UnquotedText := Seq([Spaces1, Group("text_unquoted", Cat(NotKeyword, Rep(NotAtOrNewline, 1, None, true))), TextEnd])

  const Lazy := Rep(CutCommand.StampChars, 1, None, true)
  const Greedy := Plus(CutCommand.StampChars)

  /** The parts of everything after `add(?! overlay)(?: text)?`: the
      text, the target, the position, the range and the start. */
  const TextPart := Opt(Alt(QuotedText, UnquotedText))
  const ToTarget := Opt(Cat(Lit("to "), FullTarget(Plain)))
  const TargetPart := Cat(Spaces0, ToTarget)
  const PositionPart := Opt(Seq([Spaces0, Lit("at the "), Group("position", Plus(WordCh))]))
  const RangePart := Opt(Seq([Spaces0, Lit("from "), Group("start", Lazy), Spaces0, Lit("to "), Group("end", Greedy)]))
  const StartPart := Opt(Seq([Spaces0, Lit("from "), Group("start_only", Greedy)]))
  const Rest := Cat(TextPart, Cat(TargetPart, Cat(PositionPart, Cat(RangePart, StartPart))))

  /** `re.match` anchors at the start of the text. */
  const Pattern := Cat(Lit("add"), Cat(Ahead(Lit(" overlay"), true), Cat(Opt(Lit(" text")), Rest)))

  /** Everything after `add(?! overlay)` is optional. */
  lemma RestNullable()
    ensures Nullable(Cat(Opt(Lit(" text")), Rest))
  {
    TargetPartNullable();
    assert Nullable(TextPart) && Nullable(PositionPart) && Nullable(RangePart) && Nullable(StartPart);
    CatNullable(RangePart, StartPart);
    CatNullable(PositionPart, Cat(RangePart, StartPart));
    CatNullable(TargetPart, Cat(PositionPart, Cat(RangePart, StartPart)));
    CatNullable(TextPart, Cat(TargetPart, Cat(PositionPart, Cat(RangePart, StartPart))));
  }

  lemma TargetPartNullable()
    ensures Nullable(TargetPart)
  {
    assert Nullable(Spaces0) && Nullable(ToTarget);
    CatNullable(Spaces0, ToTarget);
  }

  /** `AddTextCommandHandler.match`. */
  predicate Matches(s: string) {
    Match(Pattern, s, true).Some?
  }

  /** What the text part says: a quoted text, else the stripped unquoted
      one. A text that reads "to it" (or that, this) names the target
      instead, and a text "at" is no text. */
  datatype Reading = Reading(text: Option<string>, target: Option<string>)

  function ReadText(quoted: Option<string>, unquoted: Option<string>): (r: Reading)
    ensures r.text.Some? ==> r.text.value != "" && LowerStr(r.text.value) != "at"
    ensures r.target.Some? ==> r.text.None?
    ensures Given(quoted) && r.target.None? && LowerStr(quoted.value) != "at" ==> r.text == quoted
  {
    var raw := if Given(quoted) then quoted else if Given(unquoted) then Some(Strip(unquoted.value)) else None;
    if Given(raw) && LowerStr(raw.value) in ["to it", "to that", "to this"] then Reading(None, Some(raw.value[3..]))
    else if !Given(raw) || LowerStr(raw.value) == "at" then Reading(None, None)
    else Reading(raw, None)
  }

  /** The target, the pronoun and the reference type of an add-text
      command. A named target is kept in lower case; only its reference
      type is recorded, without the details a cut keeps. */
  datatype Aim = Aim(target: Option<string>, pronoun: Option<string>, kind: Option<string>)

  function AimOf(fromText: Option<string>, r: Reference): (a: Aim)
    ensures Given(r.pronoun) ==> a == Aim(r.pronoun, Some(LowerStr(r.pronoun.value)), Some("contextual"))
    ensures !Given(r.pronoun) && Given(r.target) ==> a.target == Some(LowerStr(r.target.value))
    ensures !Given(r.pronoun) && !Given(r.target) ==> a == Aim(fromText, None, None)
    ensures a.pronoun.Some? <==> a.kind == Some("contextual") && (Given(r.pronoun) || LowerStr(r.target.value) in Pronouns)
  {
    if Given(r.pronoun) then Aim(r.pronoun, Some(LowerStr(r.pronoun.value)), Some("contextual"))
    else if Given(r.target) then
      var t := LowerStr(r.target.value);
      if t in Pronouns then Aim(Some(t), Some(t), Some("contextual")) else Aim(Some(t), None, RefKind(t, r.ordinal))
    else Aim(fromText, None, None)
  }

  /** A start or end text converted to frames, when one was written. */
  function Frames(o: Option<string>, fr: int): (r: Option<string>)
    ensures r.Some? <==> Given(o)
    ensures r.Some? ==> r.value == FrameText(o.value, fr) && r.value != ""
  {
    if Given(o) then FrameTextNonEmpty(o.value, fr); Some(FrameText(o.value, fr)) else None
  }

  lemma FrameTextNonEmpty(x: string, fr: int)
    requires x != ""
    ensures FrameText(x, fr) != ""
  {
  }

  /** The parameters in the source's order: text, position, start, end,
      pronoun and reference type, each only when present. */
  function TextParams(text: Option<string>, position: Option<string>, start: Option<string>, end: Option<string>, a: Aim): (p: Params)
    ensures Get(p, "text") == (if Given(text) then Some(VStr(text.value)) else None)
    ensures Get(p, "position") == (if Given(position) then Some(VStr(position.value)) else None)
    ensures Get(p, "start") == (if Given(start) then Some(VStr(start.value)) else None)
    ensures Get(p, "end") == (if Given(end) then Some(VStr(end.value)) else None)
    ensures Get(p, "reference_type") == (if Given(a.kind) then Some(VStr(a.kind.value)) else None)
    ensures Get(p, "reference_pronoun") == (if Given(a.pronoun) then Some(VStr(a.pronoun.value)) else None)
  {
    var p1 := AssignGiven(AssignGiven(Empty, "text", text), "position", position);
    var p2 := AssignGiven(AssignGiven(p1, "start", start), "end", end);
    AssignGiven(AssignGiven(p2, "reference_pronoun", a.pronoun), "reference_type", a.kind)
  }

  /** The start text of a match: the start of a range, else an open-ended
      start. */
  function StartText(s: string, h: Hit): Option<string> {
    if Given(Captured(s, h, "start")) then Captured(s, h, "start") else Captured(s, h, "start_only")
  }

  /** The operation built from one match of the grammar, given its start
      and end already converted to frames. */
  function FromHit(s: string, h: Hit, start: Option<string>, end: Option<string>): (op: EditOperation)
    ensures
      var reading := ReadText(Captured(s, h, "text_quoted"), Captured(s, h, "text_unquoted"));
      var a := AimOf(reading.target, ReferenceOf(s, h, Plain));
      && op.kind == "ADD_TEXT" && op.target == a.target
      && Get(op.params, "text") == (if reading.text.Some? then Some(VStr(reading.text.value)) else None)
      && Get(op.params, "position") == (if Given(Captured(s, h, "position")) then Some(VStr(Captured(s, h, "position").value)) else None)
      && Get(op.params, "start") == (if Given(start) then Some(VStr(start.value)) else None)
      && Get(op.params, "end") == (if Given(end) then Some(VStr(end.value)) else None)
      && Get(op.params, "reference_type") == (if Given(a.kind) then Some(VStr(a.kind.value)) else None)
      && Get(op.params, "reference_pronoun") == (if Given(a.pronoun) then Some(VStr(a.pronoun.value)) else None)
  {
    var reading := ReadText(Captured(s, h, "text_quoted"), Captured(s, h, "text_unquoted"));
    var a := AimOf(reading.target, ReferenceOf(s, h, Plain));
    EditOperation("ADD_TEXT", a.target, TextParams(reading.text, Captured(s, h, "position"), start, end, a))
  }

  /** `AddTextCommandHandler.parse`. */
  function Parse(s: string, fr: int): (op: EditOperation)
    ensures !Matches(s) ==> op == Unknown(s)
    ensures Matches(s) ==>
      var h := Match(Pattern, s, true).value;
      op == FromHit(s, h, Frames(StartText(s, h), fr), Frames(Captured(s, h, "end"), fr))
  {
    match Match(Pattern, s, true)
    case None => Unknown(s)
    case Some(h) => FromHit(s, h, Frames(StartText(s, h), fr), Frames(Captured(s, h, "end"), fr))
  }

  /** The start (or, failing it, the open-ended start) and the end are
      stored in frames, as text. */
  lemma ParseFrames(s: string, fr: int)
    requires Matches(s)
    ensures
      var h := Match(Pattern, s, true).value;
      var start := StartText(s, h);
      var end := Captured(s, h, "end");
      && Get(Parse(s, fr).params, "start") == (if Given(start) then Some(VStr(FrameText(start.value, fr))) else None)
      && Get(Parse(s, fr).params, "end") == (if Given(end) then Some(VStr(FrameText(end.value, fr))) else None)
  {
    var h := Match(Pattern, s, true).value;
    var st := Frames(StartText(s, h), fr);
    var en := Frames(Captured(s, h, "end"), fr);
    assert Parse(s, fr) == FromHit(s, h, st, en);
  }
}

=== FILE: base.dfy ===
/** Failure-compatible wrappers shared by every module of the model:
    an optional value, the Python exceptions the editing engine can raise,
    and a value-or-exception result. */
module Base {

  /** A value that may be absent (Python's `None`). */
  datatype Option<+T> = None | Some(value: T) {

    predicate IsFailure() {
      None?
    }

    function PropagateFailure<U>(): Option<U>
      requires None?
    {
      None
    }

    function Extract(): T
      requires Some?
    {
      value
    }

    /** The value, or `d` when absent. */
    function GetOr(d: T): T {
      match this
      case Some(v) => v
      case None => d
    }
  }

  /** The exception classes the modelled code raises. */
  datatype Exc = ValueError | IndexError | KeyError | TypeError | AttributeError | ZeroDivisionError | OverflowError

  /** A value, or the exception a Python call raised instead. */
  datatype Res<+T> = Ok(value: T) | Err(exc: Exc) {

    predicate IsFailure() {
      Err?
    }

    function PropagateFailure<U>(): Res<U>
      requires Err?
    {
      Err(exc)
    }

    function Extract(): T
      requires Ok?
    {
      value
    }
  }

  /** Python sequence indexing: a non-negative index counts from the front,
      a negative one from the back; anything else is an IndexError. */
  function PyIndex(len: nat, i: int): (r: Res<nat>)
    ensures r.Ok? <==> -(len as int) <= i < len
    ensures r.Ok? ==> r.value < len && (r.value as int == i || r.value as int == len + i)
  {
    if 0 <= i < len then Ok(i as nat)
    else if -(len as int) <= i < 0 then Ok((len + i) as nat)
    else Err(IndexError)
  }
}

=== FILE: batch_text.dfy ===
/** `BatchTextHandler`: a text overlay on every top-level clip of every
    video track, with the text either given or taken in turn from a table
    of eight per style. The executor's registry does not list this handler;
    it is modelled on its own. */
module BatchText {
  import opened Base
  import opened Text
  import opened Values
  import opened Operations
  import opened Clips
  import opened Timelines
  import opened ClipQueries
  import ExecutorHandlers
  import TimelineLaws

  /** `can_handle`: a `BATCH_TEXT` operation, or an `ADD_TEXT` one whose
      `target` parameter is the string "each_clip". */
  predicate CanHandle(op: EditOperation) {
    op.kind == "BATCH_TEXT" || (op.kind == "ADD_TEXT" && Lookup(op.params, "target") == VStr("each_clip"))
  }

  /** The executor never reaches this handler: a `BATCH_TEXT` operation
      finds no registered handler and an `ADD_TEXT` one, even aimed at each
      clip, goes to the single-clip text handler. */
  lemma NotRegistered(op: EditOperation)
    ensures op.kind == "BATCH_TEXT" ==> ExecutorHandlers.Dispatch(op).None?
    ensures CanHandle(op) && op.kind == "ADD_TEXT" ==> ExecutorHandlers.Dispatch(op) == Some(ExecutorHandlers.AddTextHandler)
  {
    ExecutorHandlers.DispatchByKind(op, ExecutorHandlers.AddTextHandler);
    if op.kind == "BATCH_TEXT" {
      forall g: ExecutorHandlers.Handler ensures ExecutorHandlers.Accepts(g) != op.kind {
        match g
        case GroupCutHandler =>
        case CutHandler =>
        case TrimHandler =>
        case JoinHandler =>
        case AddTextHandler =>
        case OverlayHandler =>
        case FadeHandler =>
        case RemoveHandler =>
      }
    }
  }

  /** The `text` value that asks for generated texts. */
  const AutoText := "AUTO_GENERATE"

  const BangerTexts: seq<string> := [
    "\U{1F525} FIRE CONTENT \U{1F525}",
    "\U{1F4AF} ABSOLUTE UNIT \U{1F4AF}",
    "\U{1F680} INSANE \U{1F680}",
    "\U{26A1} NO CAP \U{26A1}",
    "\U{1F3AF} HITS DIFFERENT \U{1F3AF}",
    "\U{1F4AA} BEAST MODE \U{1F4AA}",
    "\U{1F31F} LEGENDARY \U{1F31F}",
    "\U{1F525} THIS IS IT \U{1F525}"]

  const SubtitleTexts: seq<string> := [
    "Check this out", "Amazing moment", "Watch this", "Incredible",
    "Here we go", "Perfect timing", "Look at this", "Unbelievable"]

  const TitleTexts: seq<string> := [
    "MAIN CLIP", "FEATURED MOMENT", "HIGHLIGHT REEL", "BEST PART",
    "KEY MOMENT", "MUST WATCH", "EPIC CLIP", "VIRAL MOMENT"]

  /** The styles with a table and presets of their own; every other style
      value is `Unlisted`. */
  datatype StyleKind = Banger | Subtitle | Title | Unlisted

  function KindOf(style: Value): (k: StyleKind)
    ensures k == Banger <==> style == VStr("banger")
    ensures k == Subtitle <==> style == VStr("subtitle")
    ensures k == Title <==> style == VStr("title")
  {
    if style == VStr("banger") then Banger
    else if style == VStr("subtitle") then Subtitle
    else if style == VStr("title") then Title
    else Unlisted
  }

  /** The texts of a style; a style without a table uses the subtitle one. */
  function Texts(k: StyleKind): (r: seq<string>)
    ensures |r| == 8
  {
    match k
    case Banger => BangerTexts
    case Title => TitleTexts
    case _ => SubtitleTexts
  }

  /** The eight texts of every table are pairwise different. */
  lemma TextsDistinct(k: StyleKind)
    ensures forall a, b :: 0 <= a < b < 8 ==> Texts(k)[a] != Texts(k)[b]
  {
    var t := Texts(k);
    forall a, b | 0 <= a < b < 8 ensures t[a] != t[b] {
      assert t[a][..2] != t[b][..2] || t[a] != t[b];
    }
  }

  /** The effect parameters of style class `k` without the clip's text,
      keys in order: text, position and style, then the style's presets;
      "subtitle" and "title" replace the position, which keeps its place.
      The text slot is filled in by `StyleParams`. */
  function Presets(k: StyleKind, style: Value, position: Value): Params {
    match k
    case Banger =>
      Params(["text", "position", "style", "font_size", "font_weight", "color", "outline", "animation"],
             map["text" := VNone, "position" := position, "style" := style, "font_size" := VInt(24),
                 "font_weight" := VStr("bold"), "color" := VStr("#FF6B35"), "outline" := VBool(true),
                 "animation" := VStr("bounce")])
    case Subtitle =>
      Params(["text", "position", "style", "font_size", "color", "background"],
             map["text" := VNone, "position" := VStr("bottom"), "style" := style, "font_size" := VInt(16),
                 "color" := VStr("#FFFFFF"), "background" := VStr("rgba(0,0,0,0.7)")])
    case Title =>
      Params(["text", "position", "style", "font_size", "font_weight", "color", "animation"],
             map["text" := VNone, "position" := VStr("top"), "style" := style, "font_size" := VInt(32),
                 "font_weight" := VStr("bold"), "color" := VStr("#FFD700"), "animation" := VStr("fade_in")])
    case Unlisted =>
      Params(["text", "position", "style"], map["text" := VNone, "position" := position, "style" := style])
  }

  /** The handler's dictionary before the style's `update`. */
  function BaseParams(style: Value, position: Value): Params {
    Assign(Assign(Assign(Empty, "text", VNone), "position", position), "style", style)
  }

  /** The presets are the handler's dictionary built step by step: the
      three base keys, then the style's `update`. */
  lemma PresetsAreUpdates(style: Value, position: Value)
    ensures Presets(KindOf(style), style, position) ==
      if style == VStr("banger") then
        Assign(Assign(Assign(Assign(Assign(BaseParams(style, position), "font_size", VInt(24)), "font_weight", VStr("bold")),
          "color", VStr("#FF6B35")), "outline", VBool(true)), "animation", VStr("bounce"))
      else if style == VStr("subtitle") then
        Assign(Assign(Assign(Assign(BaseParams(style, position), "font_size", VInt(16)), "color", VStr("#FFFFFF")),
          "background", VStr("rgba(0,0,0,0.7)")), "position", VStr("bottom"))
      else if style == VStr("title") then
        Assign(Assign(Assign(Assign(Assign(BaseParams(style, position), "font_size", VInt(32)), "font_weight", VStr("bold")),
          "color", VStr("#FFD700")), "position", VStr("top")), "animation", VStr("fade_in"))
      else BaseParams(style, position)
  {
    match KindOf(style)
    case Banger => BangerUpdates(style, position);
    case Subtitle => SubtitleUpdates(style, position);
    case Title => TitleUpdates(style, position);
    case Unlisted =>
  }

  lemma BangerUpdates(style: Value, position: Value)
    ensures Presets(Banger, style, position) ==
      Assign(Assign(Assign(Assign(Assign(BaseParams(style, position), "font_size", VInt(24)), "font_weight", VStr("bold")),
        "color", VStr("#FF6B35")), "outline", VBool(true)), "animation", VStr("bounce"))
  {
    var p3 := Assign(Assign(Assign(BaseParams(style, position), "font_size", VInt(24)), "font_weight", VStr("bold")), "color", VStr("#FF6B35"));
    BangerHead(style, position);
    var p5 := Assign(Assign(p3, "outline", VBool(true)), "animation", VStr("bounce"));
    assert p5.keys == Presets(Banger, style, position).keys;
    assert p5.vals == Presets(Banger, style, position).vals;
  }

  lemma BangerHead(style: Value, position: Value)
    ensures Assign(Assign(Assign(BaseParams(style, position), "font_size", VInt(24)), "font_weight", VStr("bold")), "color", VStr("#FF6B35"))
      == Params(["text", "position", "style", "font_size", "font_weight", "color"],
                map["text" := VNone, "position" := position, "style" := style, "font_size" := VInt(24),
                    "font_weight" := VStr("bold"), "color" := VStr("#FF6B35")])
  {
    var p1 := Assign(BaseParams(style, position), "font_size", VInt(24));
    assert p1.keys == ["text", "position", "style", "font_size"];
    var p2 := Assign(p1, "font_weight", VStr("bold"));
    assert p2.keys == ["text", "position", "style", "font_size", "font_weight"];
  }

  lemma SubtitleUpdates(style: Value, position: Value)
    ensures Presets(Subtitle, style, position) ==
      Assign(Assign(Assign(Assign(BaseParams(style, position), "font_size", VInt(16)), "color", VStr("#FFFFFF")),
        "background", VStr("rgba(0,0,0,0.7)")), "position", VStr("bottom"))
  {
    var p1 := Assign(BaseParams(style, position), "font_size", VInt(16));
    assert p1.keys == ["text", "position", "style", "font_size"];
    var p2 := Assign(p1, "color", VStr("#FFFFFF"));
    assert p2.keys == ["text", "position", "style", "font_size", "color"];
    var p3 := Assign(p2, "background", VStr("rgba(0,0,0,0.7)"));
    assert p3.keys == ["text", "position", "style", "font_size", "color", "background"];
    var p4 := Assign(p3, "position", VStr("bottom"));
    assert p4.keys == Presets(Subtitle, style, position).keys;
    assert p4.vals == Presets(Subtitle, style, position).vals;
  }

  lemma TitleUpdates(style: Value, position: Value)
    ensures Presets(Title, style, position) ==
      Assign(Assign(Assign(Assign(Assign(BaseParams(style, position), "font_size", VInt(32)), "font_weight", VStr("bold")),
        "color", VStr("#FFD700")), "position", VStr("top")), "animation", VStr("fade_in"))
  {
    var p3 := Assign(Assign(Assign(BaseParams(style, position), "font_size", VInt(32)), "font_weight", VStr("bold")), "color", VStr("#FFD700"));
    TitleHead(style, position);
    var p4 := Assign(p3, "position", VStr("top"));
    assert p4.keys == p3.keys;
    var p5 := Assign(p4, "animation", VStr("fade_in"));
    assert p5.keys == Presets(Title, style, position).keys;
    assert p5.vals == Presets(Title, style, position).vals;
  }

  lemma TitleHead(style: Value, position: Value)
    ensures Assign(Assign(Assign(BaseParams(style, position), "font_size", VInt(32)), "font_weight", VStr("bold")), "color", VStr("#FFD700"))
      == Params(["text", "position", "style", "font_size", "font_weight", "color"],
                map["text" := VNone, "position" := position, "style" := style, "font_size" := VInt(32),
                    "font_weight" := VStr("bold"), "color" := VStr("#FFD700")])
  {
    var p1 := Assign(BaseParams(style, position), "font_size", VInt(32));
    assert p1.keys == ["text", "position", "style", "font_size"];
    var p2 := Assign(p1, "font_weight", VStr("bold"));
    assert p2.keys == ["text", "position", "style", "font_size", "font_weight"];
  }

  /** The operation's `style`, `text` and `position`, with the defaults
      "subtitle", "AUTO_GENERATE" and "center", read once before the loop;
      `auto` says whether the texts are to be generated, `texts` is the
      style's table and `presets` the effect parameters before the text. */
  datatype Settings = Settings(style: Value, text: Value, position: Value, auto: bool, texts: seq<string>, presets: Params)

  predicate Consistent(s: Settings) {
    && s.auto == (s.text == VStr(AutoText))
    && s.texts == Texts(KindOf(s.style))
    && s.presets == Presets(KindOf(s.style), s.style, s.position)
  }

  function SettingsOf(p: Params): (s: Settings)
    ensures Consistent(s)
    ensures !Has(p, "style") ==> s.style == VStr("subtitle")
    ensures !Has(p, "text") ==> s.text == VStr(AutoText)
    ensures !Has(p, "position") ==> s.position == VStr("center")
    ensures Has(p, "style") ==> Get(p, "style") == Some(s.style)
    ensures Has(p, "text") ==> Get(p, "text") == Some(s.text)
    ensures Has(p, "position") ==> Get(p, "position") == Some(s.position)
  {
    var style := LookupOr(p, "style", VStr("subtitle"));
    var text := LookupOr(p, "text", VStr(AutoText));
    var position := LookupOr(p, "position", VStr("center"));
    var k := KindOf(style);
    Settings(style, text, position, text == VStr(AutoText), Texts(k), Presets(k, style, position))
  }

  /** `i % n` for a positive `n`: `n` taken away until less is left. */
  function Wrap(i: nat, n: nat): (r: nat)
    requires n > 0
    ensures r < n
    decreases i
  {
    if i < n then i else Wrap(i - n, n)
  }

  /** Over the eight texts of a style's table, `Wrap` is Python's `%`. */
  lemma {:induction false} WrapEight(i: nat)
    ensures Wrap(i, 8) == i % 8
    decreases i
  {
    if i >= 8 {
      WrapEight(i - 8);
    }
  }

  /** The text of the `i`-th clip (counting over all video tracks); the
      table is read round robin. */
  function ClipText(s: Settings, i: nat): Value {
    if s.auto && |s.texts| > 0 then VStr(s.texts[Wrap(i, |s.texts|)]) else s.text
  }

  /** Generated texts go round the style's table: clips eight apart get the
      same text and neighbours different ones; a given text goes to every
      clip unchanged. */
  lemma TextsCycle(s: Settings, i: nat)
    requires Consistent(s)
    ensures ClipText(s, i + 8) == ClipText(s, i)
    ensures s.text == VStr(AutoText) ==> ClipText(s, i + 1) != ClipText(s, i)
    ensures s.text == VStr(AutoText) ==> ClipText(s, i) == VStr(Texts(KindOf(s.style))[i % 8])
    ensures s.text != VStr(AutoText) ==> ClipText(s, i) == s.text
  {
    assert |s.texts| == 8;
    WrapEight(i);
    WrapEight(i + 1);
    WrapEight(i + 8);
    assert (i + 8) % 8 == i % 8;
    if s.text == VStr(AutoText) {
      TextsDistinct(KindOf(s.style));
      var a, b := i % 8, (i + 1) % 8;
      assert a != b;
      if a < b {
        assert s.texts[a] != s.texts[b];
      } else {
        assert s.texts[b] != s.texts[a];
      }
    }
  }

  /** The parameters of the text effect showing `text`. */
  function StyleParams(text: Value, s: Settings): Params {
    Assign(s.presets, "text", text)
  }

  /** What the parameters of a text effect hold for each style: the text
      and style always; the caller's position unless the style places the
      text itself; and the style's font size and colour. */
  lemma StylePresets(text: Value, s: Settings)
    requires Consistent(s)
    ensures Get(StyleParams(text, s), "text") == Some(text)
    ensures Get(StyleParams(text, s), "style") == Some(s.style)
    ensures Get(StyleParams(text, s), "position") ==
      Some(if s.style == VStr("subtitle") then VStr("bottom")
           else if s.style == VStr("title") then VStr("top")
           else s.position)
    ensures s.style == VStr("banger") ==>
      Get(StyleParams(text, s), "font_size") == Some(VInt(24)) && Get(StyleParams(text, s), "color") == Some(VStr("#FF6B35"))
      && Get(StyleParams(text, s), "outline") == Some(VBool(true)) && Get(StyleParams(text, s), "animation") == Some(VStr("bounce"))
    ensures s.style == VStr("subtitle") ==>
      Get(StyleParams(text, s), "font_size") == Some(VInt(16)) && Get(StyleParams(text, s), "color") == Some(VStr("#FFFFFF"))
      && Get(StyleParams(text, s), "background") == Some(VStr("rgba(0,0,0,0.7)"))
    ensures s.style == VStr("title") ==>
      Get(StyleParams(text, s), "font_size") == Some(VInt(32)) && Get(StyleParams(text, s), "color") == Some(VStr("#FFD700"))
      && Get(StyleParams(text, s), "animation") == Some(VStr("fade_in"))
    ensures s.style != VStr("banger") && s.style != VStr("subtitle") && s.style != VStr("title") ==>
      forall k :: k != "text" && k != "position" && k != "style" ==> Get(StyleParams(text, s), k).None?
  {
  }

  /** The `textOverlay` effect for the `i`-th clip, over the clip's range. */
  function TextEffect(c: Clip, i: nat, s: Settings): Effect {
    Effect("textOverlay", StyleParams(ClipText(s, i), s), Some(c.start), Some(c.end))
  }

  /** The `i`-th clip with its text effect added; the loop applies it to
      plain clips only, and a compound clip is left as it is. */
  function Mark(c: Clip, i: nat, s: Settings): Clip {
    if c.Leaf? then AddEffect(c, TextEffect(c, i, s)) else c
  }

  function Marker(s: Settings): (Clip, nat) -> Clip {
    (c: Clip, i: nat) => Mark(c, i, s)
  }

  function Noter(s: Settings): (Clip, nat) -> Processed {
    (c: Clip, i: nat) => Note(c, i, s)
  }

  /** An entry of `processed_clips`. */
  datatype Processed = Processed(name: string, text: Value, style: Value, position: Value)

  function Note(c: Clip, i: nat, s: Settings): Processed {
    Processed(c.name, ClipText(s, i), s.style, s.position)
  }

  /** The clips after the loop, the entries made, and whether the loop
      stopped at a compound clip, which has no `add_effect`. */
  datatype Pass = Pass(clips: seq<Clip>, done: seq<Processed>, failed: bool)

  /** The loop over a list of clips numbered from `i0`: each plain clip in
      turn becomes what `mark` makes of it and gets the entry `nt` makes, up to
      the first compound clip, where the loop stops with the clips before it
      already changed. */
  function Annotate(cs: seq<Clip>, i0: nat, mark: (Clip, nat) -> Clip, nt: (Clip, nat) -> Processed): (r: Pass)
    ensures |r.clips| == |cs| && |r.done| <= |cs|
    ensures r.failed <==> |r.done| < |cs|
    decreases |cs|
  {
    if |cs| == 0 then Pass([], [], false)
    else if cs[0].Compound? then Pass(cs, [], true)
    else
      var rest := Annotate(cs[1..], i0 + 1, mark, nt);
      Pass([mark(cs[0], i0)] + rest.clips, [nt(cs[0], i0)] + rest.done, rest.failed)
  }

  /** The `k`-th clip the loop went through is plain and has its effect
      and entry. */
  lemma {:induction false} AnnotateAt(cs: seq<Clip>, i0: nat, mark: (Clip, nat) -> Clip, nt: (Clip, nat) -> Processed, k: nat)
    requires k < |Annotate(cs, i0, mark, nt).done|
    ensures cs[k].Leaf?
    ensures Annotate(cs, i0, mark, nt).clips[k] == mark(cs[k], i0 + k)
    ensures Annotate(cs, i0, mark, nt).done[k] == nt(cs[k], i0 + k)
    decreases k
  {
    if k > 0 {
      AnnotateAt(cs[1..], i0 + 1, mark, nt, k - 1);
      assert cs[1..][k - 1] == cs[k];
    }
  }

  lemma AnnotateDone(cs: seq<Clip>, i0: nat, mark: (Clip, nat) -> Clip, nt: (Clip, nat) -> Processed)
    ensures var r := Annotate(cs, i0, mark, nt);
      forall k :: 0 <= k < |r.done| ==>
        cs[k].Leaf? && r.clips[k] == mark(cs[k], i0 + k) && r.done[k] == nt(cs[k], i0 + k)
  {
    forall k | 0 <= k < |Annotate(cs, i0, mark, nt).done| {
      AnnotateAt(cs, i0, mark, nt, k);
    }
  }

  /** The loop stops only at a compound clip, and leaves it and every clip
      after it as they were. */
  lemma {:induction false} AnnotateRest(cs: seq<Clip>, i0: nat, mark: (Clip, nat) -> Clip, nt: (Clip, nat) -> Processed)
    ensures var r := Annotate(cs, i0, mark, nt);
      (forall k :: |r.done| <= k < |cs| ==> r.clips[k] == cs[k])
      && (r.failed ==> cs[|r.done|].Compound?)
    decreases |cs|
  {
    if |cs| > 0 && cs[0].Leaf? {
      var rest := Annotate(cs[1..], i0 + 1, mark, nt);
      AnnotateRest(cs[1..], i0 + 1, mark, nt);
      var r := Annotate(cs, i0, mark, nt);
      forall k | |r.done| <= k < |cs|
        ensures r.clips[k] == cs[k]
      {
        assert r.clips[k] == rest.clips[k - 1] && cs[k] == cs[1..][k - 1];
      }
      if r.failed {
        assert cs[|r.done|] == cs[1..][|rest.done|];
      }
    }
  }

  /** The loop stops at the first compound clip. */
  lemma AnnotateStopsAt(cs: seq<Clip>, i0: nat, mark: (Clip, nat) -> Clip, nt: (Clip, nat) -> Processed, f: nat)
    requires f < |cs| && cs[f].Compound?
    requires forall k :: 0 <= k < f ==> cs[k].Leaf?
    ensures Annotate(cs, i0, mark, nt).failed && |Annotate(cs, i0, mark, nt).done| == f
  {
    var r := Annotate(cs, i0, mark, nt);
    AnnotateRest(cs, i0, mark, nt);
    if |r.done| > f {
      AnnotateAt(cs, i0, mark, nt, f);
    }
  }

  /** The loop runs to the end exactly when every clip is plain. */
  lemma AnnotateFails(cs: seq<Clip>, i0: nat, mark: (Clip, nat) -> Clip, nt: (Clip, nat) -> Processed)
    ensures !Annotate(cs, i0, mark, nt).failed <==> (forall k :: 0 <= k < |cs| ==> cs[k].Leaf?)
  {
    AnnotateDone(cs, i0, mark, nt);
    AnnotateRest(cs, i0, mark, nt);
  }

  /** One step of the loop over a plain clip followed by more clips. */
  lemma AnnotateCons(c: Clip, rest: seq<Clip>, i0: nat, mark: (Clip, nat) -> Clip, nt: (Clip, nat) -> Processed)
    requires c.Leaf?
    ensures var r := Annotate(rest, i0 + 1, mark, nt);
      Annotate([c] + rest, i0, mark, nt) == Pass([mark(c, i0)] + r.clips, [nt(c, i0)] + r.done, r.failed)
  {
    assert ([c] + rest)[0] == c;
    assert ([c] + rest)[1..] == rest;
  }

  /** When the loop over the first list stops, the loop over the two lists
      joined stops at the same clip, and the second list is left alone. */
  lemma {:induction false} AnnotateSplitStops(a: seq<Clip>, b: seq<Clip>, i0: nat, mark: (Clip, nat) -> Clip, nt: (Clip, nat) -> Processed)
    requires Annotate(a, i0, mark, nt).failed
    ensures Annotate(a + b, i0, mark, nt) ==
      Pass(Annotate(a, i0, mark, nt).clips + b, Annotate(a, i0, mark, nt).done, true)
    decreases |a|
  {
    if a[0].Compound? {
      assert (a + b)[0] == a[0];
    } else {
      var t := a[1..];
      assert a == [a[0]] + t;
      assert a + b == [a[0]] + (t + b);
      AnnotateCons(a[0], t, i0, mark, nt);
      AnnotateCons(a[0], t + b, i0, mark, nt);
      AnnotateSplitStops(t, b, i0 + 1, mark, nt);
      var x := mark(a[0], i0);
      assert [x] + (Annotate(t, i0 + 1, mark, nt).clips + b) == ([x] + Annotate(t, i0 + 1, mark, nt).clips) + b;
    }
  }

  /** When the loop over the first list runs to its end, the loop over the
      two lists joined goes on into the second, numbering on from it. */
  lemma {:induction false} AnnotateSplitGoesOn(a: seq<Clip>, b: seq<Clip>, i0: nat, mark: (Clip, nat) -> Clip, nt: (Clip, nat) -> Processed)
    requires !Annotate(a, i0, mark, nt).failed
    ensures var rb := Annotate(b, i0 + |a|, mark, nt);
      Annotate(a + b, i0, mark, nt) ==
        Pass(Annotate(a, i0, mark, nt).clips + rb.clips, Annotate(a, i0, mark, nt).done + rb.done, rb.failed)
    decreases |a|
  {
    if |a| == 0 {
      assert a + b == b;
    } else {
      var t := a[1..];
      assert a == [a[0]] + t;
      assert a + b == [a[0]] + (t + b);
      AnnotateCons(a[0], t, i0, mark, nt);
      AnnotateCons(a[0], t + b, i0, mark, nt);
      AnnotateSplitGoesOn(t, b, i0 + 1, mark, nt);
      assert i0 + 1 + |t| == i0 + |a|;
      var x := mark(a[0], i0);
      var rt := Annotate(t, i0 + 1, mark, nt);
      var rb := Annotate(b, i0 + |a|, mark, nt);
      assert [x] + (rt.clips + rb.clips) == ([x] + rt.clips) + rb.clips;
      assert [nt(a[0], i0)] + (rt.done + rb.done) == ([nt(a[0], i0)] + rt.done) + rb.done;
    }
  }

  /** The clips of the chosen tracks read the same in two timelines whose
      chosen tracks agree. */
  lemma {:induction false} ConcatKept(ts: seq<Track>, us: seq<Track>, idxs: seq<nat>)
    requires forall k :: 0 <= k < |idxs| ==> idxs[k] < |ts| && idxs[k] < |us| && ts[idxs[k]] == us[idxs[k]]
    ensures Concat(ts, idxs) == Concat(us, idxs)
    decreases |idxs|
  {
    if |idxs| > 0 {
      ConcatKept(ts, us, idxs[1..]);
    }
  }

  /** The timeline after the loop over the chosen tracks, the entries, and
      whether the loop stopped. */
  datatype Sweep = Sweep(tl: Timeline, done: seq<Processed>, failed: bool)

  /** The loop over the clips of the chosen tracks, one track after the
      other, numbering the clips on across tracks and stopping at the first
      compound clip; no other track and nothing else of the timeline
      changes. */
  function AnnotateTracks(tl: Timeline, idxs: seq<nat>, i0: nat, mark: (Clip, nat) -> Clip, nt: (Clip, nat) -> Processed): (r: Sweep)
    requires forall k :: 0 <= k < |idxs| ==> idxs[k] < |tl.tracks|
    requires forall a, b :: 0 <= a < b < |idxs| ==> idxs[a] < idxs[b]
    ensures |r.tl.tracks| == |tl.tracks|
    ensures r.tl.duration == tl.duration && r.tl.transitions == tl.transitions && r.tl.frameRate == tl.frameRate
    decreases |idxs|
  {
    if |idxs| == 0 then Sweep(tl, [], false)
    else
      var j := idxs[0];
      var p := Annotate(tl.tracks[j].clips, i0, mark, nt);
      var tl1 := SetClips(tl, j, p.clips);
      var rest := idxs[1..];
      assert forall k :: 0 <= k < |rest| ==> rest[k] == idxs[k + 1];
      if p.failed then Sweep(tl1, p.done, true)
      else
        var w := AnnotateTracks(tl1, rest, i0 + |p.clips|, mark, nt);
        w.(done := p.done + w.done)
  }

  /** The loop over the chosen tracks changes only their clips: every
      track keeps its place, name and type, and the tracks not chosen are
      left as they were. */
  lemma {:induction false} TracksKept(tl: Timeline, idxs: seq<nat>, i0: nat, mark: (Clip, nat) -> Clip, nt: (Clip, nat) -> Processed)
    requires forall k :: 0 <= k < |idxs| ==> idxs[k] < |tl.tracks|
    requires forall a, b :: 0 <= a < b < |idxs| ==> idxs[a] < idxs[b]
    ensures forall j :: 0 <= j < |tl.tracks| && j !in idxs ==> AnnotateTracks(tl, idxs, i0, mark, nt).tl.tracks[j] == tl.tracks[j]
    ensures forall j :: 0 <= j < |tl.tracks| ==>
      AnnotateTracks(tl, idxs, i0, mark, nt).tl.tracks[j] == tl.tracks[j].(clips := AnnotateTracks(tl, idxs, i0, mark, nt).tl.tracks[j].clips)
    decreases |idxs|
  {
    if |idxs| > 0 {
      var j := idxs[0];
      var p := Annotate(tl.tracks[j].clips, i0, mark, nt);
      var tl1 := SetClips(tl, j, p.clips);
      var rest := idxs[1..];
      assert forall k :: 0 <= k < |rest| ==> rest[k] == idxs[k + 1] && j < rest[k];
      if !p.failed {
        TracksKept(tl1, rest, i0 + |p.clips|, mark, nt);
        assert j !in rest;
      }
    }
  }

  /** Read as one list, the clips of the swept tracks come out exactly as
      the loop over the joined list leaves them, with the same entries and
      the same stop. */
  lemma {:induction false} Sweeps(tl: Timeline, idxs: seq<nat>, i0: nat, mark: (Clip, nat) -> Clip, nt: (Clip, nat) -> Processed)
    requires forall k :: 0 <= k < |idxs| ==> idxs[k] < |tl.tracks|
    requires forall a, b :: 0 <= a < b < |idxs| ==> idxs[a] < idxs[b]
    ensures Concat(AnnotateTracks(tl, idxs, i0, mark, nt).tl.tracks, idxs) == Annotate(Concat(tl.tracks, idxs), i0, mark, nt).clips
    ensures AnnotateTracks(tl, idxs, i0, mark, nt).done == Annotate(Concat(tl.tracks, idxs), i0, mark, nt).done
    ensures AnnotateTracks(tl, idxs, i0, mark, nt).failed == Annotate(Concat(tl.tracks, idxs), i0, mark, nt).failed
    decreases |idxs|
  {
    if |idxs| > 0 {
      var j := idxs[0];
      var cs := tl.tracks[j].clips;
      var p := Annotate(cs, i0, mark, nt);
      var tl1 := SetClips(tl, j, p.clips);
      var rest := idxs[1..];
      assert forall k :: 0 <= k < |rest| ==> rest[k] == idxs[k + 1] && j < rest[k];
      ConcatKept(tl.tracks, tl1.tracks, rest);
      if p.failed {
        AnnotateSplitStops(cs, Concat(tl.tracks, rest), i0, mark, nt);
      } else {
        AnnotateSplitGoesOn(cs, Concat(tl.tracks, rest), i0, mark, nt);
        Sweeps(tl1, rest, i0 + |cs|, mark, nt);
        TracksKept(tl1, rest, i0 + |cs|, mark, nt);
        assert j !in rest;
      }
    }
  }

  /** `execute`'s result: the outcome, the `processed_clips` entries and
      the `logs` line of the result's data. */
  datatype BatchResult = BatchResult(out: Outcome<ExecutionResult>, processed: seq<Processed>, logs: seq<string>)

  const NoClips := "No video clips found to apply batch text operation."

  /** The summary of a successful run over `n` clips. */
  function Summary(style: Value, n: nat): string {
    "Added " + Str(style) + " text to " + NatToString(n) + " clips"
  }

  /** `execute`: with no top-level video clip, a failure and no change;
      otherwise the loop over all of them. A compound clip among them raises
      `AttributeError`, leaving the clips before it changed and nothing
      notified; else the timeline is notified once. */
  function Execute(tl: Timeline, op: EditOperation): (r: BatchResult)
    ensures |TopClips(tl, VStr(VideoType))| == 0 ==> r.out == Outcome(tl, Ok(ExecutionResult(false, NoClips)), 0)
    ensures r.out.result.Err? ==> r.out.result == Err(AttributeError) && r.out.notified == 0
    ensures r.out.result.Ok? && r.out.result.value.success ==> r.out.notified == 1
  {
    var s := SettingsOf(op.params);
    var idxs := TracksOf(tl.tracks, VStr(VideoType));
    if |Concat(tl.tracks, idxs)| == 0 then
      BatchResult(Outcome(tl, Ok(ExecutionResult(false, NoClips)), 0), [], [])
    else
      var w := AnnotateTracks(tl, idxs, 0, Marker(s), Noter(s));
      if w.failed then BatchResult(Outcome(w.tl, Err(AttributeError), 0), [], [])
      else
        var n := NatToString(|w.done|);
        BatchResult(Outcome(w.tl, Ok(ExecutionResult(true, Summary(s.style, |w.done|))), 1),
                    w.done, ["Processed " + n + " clips with batch text operation (style: " + Str(s.style) + ")"])
  }

  /** The loop keeps every track's place, name and type, and every other
      part of the timeline. */
  lemma SameTracks(tl: Timeline, op: EditOperation)
    ensures |Execute(tl, op).out.tl.tracks| == |tl.tracks|
    ensures forall j :: 0 <= j < |tl.tracks| ==>
      Execute(tl, op).out.tl.tracks[j] == tl.tracks[j].(clips := Execute(tl, op).out.tl.tracks[j].clips)
    ensures TracksOf(Execute(tl, op).out.tl.tracks, VStr(VideoType)) == TracksOf(tl.tracks, VStr(VideoType))
    ensures Execute(tl, op).out.tl == tl.(tracks := Execute(tl, op).out.tl.tracks)
  {
    var r := Execute(tl, op);
    var idxs := TracksOf(tl.tracks, VStr(VideoType));
    TracksKept(tl, idxs, 0, Marker(SettingsOf(op.params)), Noter(SettingsOf(op.params)));
    TimelineLaws.TypeIndicesSameTypes(tl.tracks, r.out.tl.tracks, VideoType, 0);
  }

  /** The first `f` clips the loop went through from 0 carry their text
      effect and entry. */
  lemma AnnotatedPrefix(cs: seq<Clip>, s: Settings, f: nat)
    requires f <= |Annotate(cs, 0, Marker(s), Noter(s)).done|
    ensures forall k :: 0 <= k < f ==>
      cs[k].Leaf? && Annotate(cs, 0, Marker(s), Noter(s)).clips[k] == AddEffect(cs[k], TextEffect(cs[k], k, s))
      && Annotate(cs, 0, Marker(s), Noter(s)).done[k] == Processed(cs[k].name, ClipText(s, k), s.style, s.position)
  {
    forall k | 0 <= k < f {
      TextAt(cs, s, k);
    }
  }

  lemma TextAt(cs: seq<Clip>, s: Settings, k: nat)
    requires k < |Annotate(cs, 0, Marker(s), Noter(s)).done|
    ensures cs[k].Leaf?
    ensures Annotate(cs, 0, Marker(s), Noter(s)).clips[k] == AddEffect(cs[k], TextEffect(cs[k], k, s))
    ensures Annotate(cs, 0, Marker(s), Noter(s)).done[k] == Processed(cs[k].name, ClipText(s, k), s.style, s.position)
  {
    var m := Marker(s);
    AnnotateAt(cs, 0, m, Noter(s), k);
    var c := cs[k];
    assert Annotate(cs, 0, m, Noter(s)).clips[k] == m(c, k);
    Applied(c, k, s);
  }

  /** What the marker and the noter give for one clip. */
  lemma Applied(c: Clip, i: nat, s: Settings)
    ensures c.Leaf? ==> Marker(s)(c, i) == AddEffect(c, TextEffect(c, i, s))
    ensures c.Compound? ==> Marker(s)(c, i) == c
    ensures Noter(s)(c, i) == Processed(c.name, ClipText(s, i), s.style, s.position)
  {
  }

  /** With some video clip, the run is the loop over all top-level video
      clips read as one list: the clips come out as the loop leaves them,
      the run raises exactly when the loop stops, and otherwise the entries
      are the loop's and the summary counts them. */
  lemma ExecuteSweep(tl: Timeline, op: EditOperation)
    requires |TopClips(tl, VStr(VideoType))| > 0
    ensures var s := SettingsOf(op.params);
      var p := Annotate(TopClips(tl, VStr(VideoType)), 0, Marker(s), Noter(s));
      var r := Execute(tl, op);
      TopClips(r.out.tl, VStr(VideoType)) == p.clips
      && (r.out.result.Err? <==> p.failed)
      && (!p.failed ==> r.processed == p.done && r.out.result == Ok(ExecutionResult(true, Summary(s.style, |p.done|))))
  {
    SameTracks(tl, op);
    var s := SettingsOf(op.params);
    Sweeps(tl, TracksOf(tl.tracks, VStr(VideoType)), 0, Marker(s), Noter(s));
  }

  /** The run succeeds, fails for want of clips, or raises; it raises
      exactly when some top-level video clip is a compound clip. */
  lemma RaisesOnCompound(tl: Timeline, op: EditOperation)
    ensures Execute(tl, op).out.result.Err? <==>
      exists k :: 0 <= k < |TopClips(tl, VStr(VideoType))| && TopClips(tl, VStr(VideoType))[k].Compound?
  {
    var all := TopClips(tl, VStr(VideoType));
    if |all| > 0 {
      var s := SettingsOf(op.params);
      ExecuteSweep(tl, op);
      AnnotateFails(all, 0, Marker(s), Noter(s));
    }
  }

  /** After a successful run, the `k`-th top-level video clip is the old
      one with one more effect: a text overlay over its own range, with the
      `k`-th text. */
  lemma EveryClipAnnotated(tl: Timeline, op: EditOperation)
    requires Execute(tl, op).out.result.Ok? && Execute(tl, op).out.result.value.success
    ensures var all := TopClips(tl, VStr(VideoType));
      var s := SettingsOf(op.params);
      |TopClips(Execute(tl, op).out.tl, VStr(VideoType))| == |all| > 0
      && (forall k :: 0 <= k < |all| ==>
            all[k].Leaf? && TopClips(Execute(tl, op).out.tl, VStr(VideoType))[k] == AddEffect(all[k], TextEffect(all[k], k, s)))
  {
    var all := TopClips(tl, VStr(VideoType));
    var s := SettingsOf(op.params);
    assert |all| > 0;
    ExecuteSweep(tl, op);
    AnnotatedPrefix(all, s, |all|);
  }

  /** After a successful run, there is one entry per top-level video clip,
      naming it with its text, the style and the position asked for, and the
      summary gives the style and the number of clips. */
  lemma EveryClipReported(tl: Timeline, op: EditOperation)
    requires Execute(tl, op).out.result.Ok? && Execute(tl, op).out.result.value.success
    ensures var all := TopClips(tl, VStr(VideoType));
      var s := SettingsOf(op.params);
      var r := Execute(tl, op);
      |r.processed| == |all| > 0
      && (forall k :: 0 <= k < |all| ==> r.processed[k] == Processed(all[k].name, ClipText(s, k), s.style, s.position))
      && r.out.result.value.message == Summary(s.style, |all|)
  {
    var all := TopClips(tl, VStr(VideoType));
    var s := SettingsOf(op.params);
    assert |all| > 0;
    ExecuteSweep(tl, op);
    AnnotatedPrefix(all, s, |all|);
  }

  /** Tracks of other types come out of any run unchanged. */
  lemma OtherTracksKept(tl: Timeline, op: EditOperation)
    ensures forall j :: 0 <= j < |tl.tracks| && tl.tracks[j].trackType != VideoType ==>
      Execute(tl, op).out.tl.tracks[j] == tl.tracks[j]
  {
    var r := Execute(tl, op);
    var idxs := TracksOf(tl.tracks, VStr(VideoType));
    TracksKept(tl, idxs, 0, Marker(SettingsOf(op.params)), Noter(SettingsOf(op.params)));
    forall j | 0 <= j < |tl.tracks| && tl.tracks[j].trackType != VideoType
      ensures r.out.tl.tracks[j] == tl.tracks[j]
    {
      assert j !in idxs;
    }
  }

  /** A compound clip among the top-level video clips makes the run raise,
      with every plain clip before it already given its effect. */
  lemma CompoundStops(tl: Timeline, op: EditOperation, f: nat)
    requires f < |TopClips(tl, VStr(VideoType))| && TopClips(tl, VStr(VideoType))[f].Compound?
    requires forall k :: 0 <= k < f ==> TopClips(tl, VStr(VideoType))[k].Leaf?
    ensures Execute(tl, op).out.result == Err(AttributeError) && Execute(tl, op).out.notified == 0
    ensures |TopClips(Execute(tl, op).out.tl, VStr(VideoType))| == |TopClips(tl, VStr(VideoType))|
    ensures forall k :: 0 <= k < f ==>
      TopClips(tl, VStr(VideoType))[k].Leaf? &&
      TopClips(Execute(tl, op).out.tl, VStr(VideoType))[k]
        == AddEffect(TopClips(tl, VStr(VideoType))[k], TextEffect(TopClips(tl, VStr(VideoType))[k], k, SettingsOf(op.params)))
  {
    var s := SettingsOf(op.params);
    var all := TopClips(tl, VStr(VideoType));
    AnnotateStopsAt(all, 0, Marker(s), Noter(s), f);
    ExecuteSweep(tl, op);
    AnnotatedPrefix(all, s, f);
  }

  /** The compound clip that stops the run, and every clip after it, are
      left as they were. */
  lemma CompoundAndRestKept(tl: Timeline, op: EditOperation, f: nat)
    requires f < |TopClips(tl, VStr(VideoType))| && TopClips(tl, VStr(VideoType))[f].Compound?
    requires forall k :: 0 <= k < f ==> TopClips(tl, VStr(VideoType))[k].Leaf?
    ensures |TopClips(Execute(tl, op).out.tl, VStr(VideoType))| == |TopClips(tl, VStr(VideoType))|
    ensures forall k :: f <= k < |TopClips(tl, VStr(VideoType))| ==>
      TopClips(Execute(tl, op).out.tl, VStr(VideoType))[k] == TopClips(tl, VStr(VideoType))[k]
  {
    var s := SettingsOf(op.params);
    var all := TopClips(tl, VStr(VideoType));
    AnnotateStopsAt(all, 0, Marker(s), Noter(s), f);
    ExecuteSweep(tl, op);
    AnnotateRest(all, 0, Marker(s), Noter(s));
  }
}

=== FILE: clip_queries.dfy ===
/** The executor's read-only questions about the timeline
    (`CommandExecutor.resolve_clip_reference` and
    `find_track_index_for_clip`). Both look only at the top-level clips of
    the tracks of one type, concatenated in track order; clips nested in a
    compound are never seen. A track type is compared as a Python value,
    so a type that is not a string selects no track. */
module ClipQueries {
  import opened Base
  import opened Text
  import opened Values
  import opened Clips
  import opened Timelines

  /** The positions of the tracks `t.track_type == v` selects. */
  function TracksOf(ts: seq<Track>, v: Value): (r: seq<nat>)
    ensures forall j :: 0 <= j < |r| ==> r[j] < |ts| && VStr(ts[r[j]].trackType) == v
    ensures forall j :: 0 <= j < |ts| && VStr(ts[j].trackType) == v ==> j in r
    ensures forall a, b :: 0 <= a < b < |r| ==> r[a] < r[b]
  {
    if v.VStr? then TypeIndices(ts, v.s) else []
  }

  /** The clip lists of the chosen tracks, joined in order. */
  function Concat(ts: seq<Track>, idxs: seq<nat>): (r: seq<Clip>)
    requires forall j :: 0 <= j < |idxs| ==> idxs[j] < |ts|
  {
    if |idxs| == 0 then [] else ts[idxs[0]].clips + Concat(ts, idxs[1..])
  }

  /** `all_clips`: the top-level clips of every track of type `v`. */
  function TopClips(tl: Timeline, v: Value): seq<Clip> {
    Concat(tl.tracks, TracksOf(tl.tracks, v))
  }

  /** Whether a clip of the list is called exactly `name`. */
  predicate HasName(cs: seq<Clip>, name: Value) {
    exists i :: 0 <= i < |cs| && VStr(cs[i].name) == name
  }

  /** The first of the chosen tracks, from `j` on, holding a top-level clip
      called `name`. */
  function FindFrom(ts: seq<Track>, idxs: seq<nat>, name: Value, j: nat): (r: Option<nat>)
    requires forall k :: 0 <= k < |idxs| ==> idxs[k] < |ts|
    requires j <= |idxs|
    ensures r.Some? ==> j <= r.value < |idxs| && HasName(ts[idxs[r.value]].clips, name)
    ensures r.Some? ==> forall k :: j <= k < r.value ==> !HasName(ts[idxs[k]].clips, name)
    ensures r.None? ==> forall k :: j <= k < |idxs| ==> !HasName(ts[idxs[k]].clips, name)
    decreases |idxs| - j
  {
    if j == |idxs| then None
    else if HasName(ts[idxs[j]].clips, name) then Some(j)
    else FindFrom(ts, idxs, name, j + 1)
  }

  /** `find_track_index_for_clip`: the index, counted among the tracks of
      that type only, of the first one with a top-level clip of exactly that
      name; `None` when there is none. */
  function FindTrackIndex(tl: Timeline, name: Value, trackType: Value): (r: Option<nat>)
    ensures r.Some? ==>
      var idxs := TracksOf(tl.tracks, trackType);
      r.value < |idxs| && HasName(tl.tracks[idxs[r.value]].clips, name)
      && forall k :: 0 <= k < r.value ==> !HasName(tl.tracks[idxs[k]].clips, name)
  {
    FindFrom(tl.tracks, TracksOf(tl.tracks, trackType), name, 0)
  }

  lemma {:induction false} ConcatHasName(ts: seq<Track>, idxs: seq<nat>, name: Value)
    requires forall k :: 0 <= k < |idxs| ==> idxs[k] < |ts|
    ensures HasName(Concat(ts, idxs), name) <==> exists k :: 0 <= k < |idxs| && HasName(ts[idxs[k]].clips, name)
    decreases |idxs|
  {
    if |idxs| > 0 {
      var head := ts[idxs[0]].clips;
      var rest := Concat(ts, idxs[1..]);
      ConcatHasName(ts, idxs[1..], name);
      var all := head + rest;
      if HasName(all, name) {
        var i :| 0 <= i < |all| && VStr(all[i].name) == name;
        if i < |head| {
          assert HasName(ts[idxs[0]].clips, name);
        } else {
          assert VStr(rest[i - |head|].name) == name;
          var k :| 0 <= k < |idxs[1..]| && HasName(ts[idxs[1..][k]].clips, name);
          assert idxs[1..][k] == idxs[k + 1];
        }
      }
      if exists k :: 0 <= k < |idxs| && HasName(ts[idxs[k]].clips, name) {
        var k :| 0 <= k < |idxs| && HasName(ts[idxs[k]].clips, name);
        var i :| 0 <= i < |ts[idxs[k]].clips| && VStr(ts[idxs[k]].clips[i].name) == name;
        if k == 0 {
          assert all[i] == head[i];
        } else {
          assert idxs[1..][k - 1] == idxs[k];
          assert HasName(rest, name);
          var i' :| 0 <= i' < |rest| && VStr(rest[i'].name) == name;
          assert all[|head| + i'] == rest[i'];
        }
      }
    }
  }

  /** A track is found exactly when the name is among the top-level clips
      the resolver sees for that type: a clip nested inside a compound does
      not count. */
  lemma FoundAmongTopClips(tl: Timeline, name: Value, trackType: Value)
    ensures FindTrackIndex(tl, name, trackType).Some? <==> HasName(TopClips(tl, trackType), name)
  {
    ConcatHasName(tl.tracks, TracksOf(tl.tracks, trackType), name);
  }

  // ---- resolve_clip_reference ----

  const Ordinals: seq<string> := ["first", "second", "third", "fourth", "fifth", "sixth", "seventh", "eighth", "ninth", "tenth"]
  const Suffixes: seq<string> := ["st", "nd", "rd", "th"]

  /** The first position of `o` in `xs`. */
  function Position(xs: seq<string>, o: string): (r: Option<nat>)
    ensures r.Some? ==> r.value < |xs| && xs[r.value] == o
    ensures r.Some? ==> forall j :: 0 <= j < r.value ==> xs[j] != o
    ensures r.None? ==> forall j :: 0 <= j < |xs| ==> xs[j] != o
  {
    if |xs| == 0 then None
    else if xs[0] == o then Some(0)
    else
      match Position(xs[1..], o)
      case Some(k) => Some(k + 1)
      case None => None
  }

  /** `ORDINALS.index(o)` when `o` is one of the ordinal words. */
  function OrdinalWord(o: string): (r: Option<nat>)
    ensures r.Some? ==> r.value < |Ordinals| && Ordinals[r.value] == o
    ensures r.None? ==> o !in Ordinals
  {
    Position(Ordinals, o)
  }

  /** A suffix a numeric ordinal may carry. */
  predicate Suffixed(t: string) {
    StartsWith(t, "st") || StartsWith(t, "nd") || StartsWith(t, "rd") || StartsWith(t, "th")
  }

  /** `re.match(r"(\d+)(st|nd|rd|th)", o)` and `int(group(1)) - 1`, once
      the first `k` characters are known to be digits. The suffix starts
      with a letter, so a shorter digit run can never be followed by it:
      only the whole leading run can match. */
  function OrdinalNumber(o: string, k: nat): (r: Option<int>)
    requires k <= |o|
    decreases |o| - k
  {
    if k < |o| && IsDigit(o[k]) then OrdinalNumber(o, k + 1)
    else if k > 0 && Suffixed(o[k..]) then Some(DigitsValue(o[..k]) as int - 1)
    else None
  }

  function NumericOrdinal(o: string): Option<int> {
    OrdinalNumber(o, 0)
  }

  /** The zero-based index an ordinal names; `None` for a falsy or
      unrecognised ordinal, an AttributeError for a truthy value that is not
      a string (it has no `lower`). */
  function OrdinalIndex(ordinal: Value): (r: Res<Option<int>>)
    ensures r.Err? <==> Truthy(ordinal) && !ordinal.VStr?
    ensures r.Err? ==> r.exc == AttributeError
  {
    if !Truthy(ordinal) then Ok(None)
    else if !ordinal.VStr? then Err(AttributeError)
    else
      var o := LowerStr(ordinal.s);
      match OrdinalWord(o)
      case Some(k) => Ok(Some(k))
      case None => Ok(NumericOrdinal(o))
  }

  /** The first clip whose name equals `name`, ignoring case. */
  function FirstNamed(cs: seq<Clip>, name: string): (r: Option<nat>)
    ensures r.Some? ==> r.value < |cs| && LowerStr(cs[r.value].name) == LowerStr(name)
    ensures r.Some? ==> forall i :: 0 <= i < r.value ==> LowerStr(cs[i].name) != LowerStr(name)
    ensures r.None? ==> forall i :: 0 <= i < |cs| ==> LowerStr(cs[i].name) != LowerStr(name)
  {
    if |cs| == 0 then None
    else if LowerStr(cs[0].name) == LowerStr(name) then Some(0)
    else
      var r := FirstNamed(cs[1..], name);
      if r.Some? then Some(r.value + 1) else None
  }

  const NamedPrefix := "clip named "

  /** `reference[len("clip named "):].strip()`: the prefix is cut by its
      length, whatever the reference actually starts with. */
  function NamedPart(reference: string): string {
    Strip(if |reference| >= |NamedPrefix| then reference[|NamedPrefix|..] else "")
  }

  /** `resolve_clip_reference(reference, reference_type, track_type,
      ordinal, ref_track_type)`: the name of the clip a positional, named or
      ordinal reference picks among the top-level clips of the chosen track
      type; `None` when there is no such clip or the reference type is
      anything else. */
  function Resolve(tl: Timeline, reference: string, refType: Value, trackType: Value, ordinal: Value, refTrackType: Value): (r: Res<Option<string>>)
    ensures r.Err? ==> refType == VStr("ordinal") && r.exc == AttributeError
    ensures refType == VStr("ordinal") ==>
      var cs := TopClips(tl, if Truthy(refTrackType) then refTrackType else trackType);
      if |cs| == 0 then r == Ok(None)
      else match OrdinalIndex(ordinal)
        case Err(e) => r == Err(e)
        case Ok(idx) => r == Ok(if idx.Some? && 0 <= idx.value < |cs| then Some(cs[idx.value].name) else None)
    ensures refType != VStr("ordinal") ==> r.Ok?
    ensures refType == VStr("positional") ==>
      var cs := TopClips(tl, trackType);
      r.value == (if |cs| == 0 then None
                  else if LowerStr(reference) == "last clip" then Some(cs[|cs| - 1].name)
                  else if LowerStr(reference) == "first clip" then Some(cs[0].name)
                  else None)
    ensures refType == VStr("named") && r.value.Some? ==>
      var cs := TopClips(tl, trackType);
      exists i :: 0 <= i < |cs| && r.value.value == cs[i].name && LowerStr(cs[i].name) == LowerStr(NamedPart(reference))
        && forall j :: 0 <= j < i ==> LowerStr(cs[j].name) != LowerStr(NamedPart(reference))
    ensures refType == VStr("named") && r.value.None? ==>
      var cs := TopClips(tl, trackType);
      forall i :: 0 <= i < |cs| ==> LowerStr(cs[i].name) != LowerStr(NamedPart(reference))
    ensures refType !in {VStr("ordinal"), VStr("positional"), VStr("named")} ==> r == Ok(None)
  {
    if refType == VStr("ordinal") then
      var cs := TopClips(tl, if Truthy(refTrackType) then refTrackType else trackType);
      if |cs| == 0 then Ok(None)
      else
        var idx :- OrdinalIndex(ordinal);
        Ok(if idx.Some? && 0 <= idx.value < |cs| then Some(cs[idx.value].name) else None)
    else
      var cs := TopClips(tl, trackType);
      if |cs| == 0 then Ok(None)
      else if refType == VStr("positional") then
        var ref := LowerStr(reference);
        Ok(if ref == "last clip" then Some(cs[|cs| - 1].name) else if ref == "first clip" then Some(cs[0].name) else None)
      else if refType == VStr("named") then
        match FirstNamed(cs, NamedPart(reference))
        case Some(i) => Ok(Some(cs[i].name))
        case None => Ok(None)
      else Ok(None)
  }

  /** An ordinal word, in any case, picks the clip at its place in the list:
      "second" is index 1; past the end of the list there is no clip. */
  lemma OrdinalWords(tl: Timeline, reference: string, trackType: Value, o: string, refTrackType: Value, k: nat)
    requires k < |Ordinals| && LowerStr(o) == Ordinals[k]
    ensures
      var cs := TopClips(tl, if Truthy(refTrackType) then refTrackType else trackType);
      Resolve(tl, reference, VStr("ordinal"), trackType, VStr(o), refTrackType)
        == Ok(if k < |cs| then Some(cs[k].name) else None)
  {
    OrdinalWordOf(k);
  }

  lemma OrdinalWordOf(k: nat)
    requires k < |Ordinals|
    ensures OrdinalWord(Ordinals[k]) == Some(k)
  {
    forall j | 0 <= j < k ensures Ordinals[j] != Ordinals[k] {
      OrdinalsDiffer(j, k);
    }
  }

  /** The ordinal words are told apart by their first three letters. */
  lemma OrdinalsDiffer(j: nat, k: nat)
    requires j < k < |Ordinals|
    ensures Ordinals[j] != Ordinals[k]
  {
    var a, b := Ordinals[j], Ordinals[k];
    assert |a| >= 4 && |b| >= 4;
    assert a[0] != b[0] || a[1] != b[1] || a[2] != b[2];
  }

  /** No ordinal word starts with a digit. */
  lemma NotOrdinalWord(o: string)
    requires |o| > 0 && IsDigit(o[0])
    ensures OrdinalWord(o).None?
  {
    forall j | 0 <= j < |Ordinals| ensures Ordinals[j] != o {
      assert !IsDigit(Ordinals[j][0]);
    }
  }

  /** A written number with an ordinal suffix, "12th" say, picks the clip
      at that position counted from one. */
  lemma NumberedOrdinal(tl: Timeline, reference: string, trackType: Value, digits: string, suffix: string, rest: string, refTrackType: Value)
    requires IsDigits(digits) && suffix in Suffixes
    ensures
      var cs := TopClips(tl, if Truthy(refTrackType) then refTrackType else trackType);
      var n := DigitsValue(digits) as int;
      Resolve(tl, reference, VStr("ordinal"), trackType, VStr(digits + suffix + rest), refTrackType)
        == Ok(if 1 <= n <= |cs| then Some(cs[n - 1].name) else None)
  {
    NumberedIndex(digits, suffix, rest);
  }

  /** The ordinal text converts to the written number less one. */
  lemma NumberedIndex(digits: string, suffix: string, rest: string)
    requires IsDigits(digits) && suffix in Suffixes
    ensures OrdinalIndex(VStr(digits + suffix + rest)) == Ok(Some(DigitsValue(digits) as int - 1))
  {
    var t := suffix + LowerStr(rest);
    assert digits + suffix + rest == digits + (suffix + rest);
    LowerAfter(digits, suffix + rest);
    assert !IsUpper(suffix[0]) && !IsUpper(suffix[1]);
    LowerAfter(suffix, rest);
    assert LowerStr(digits + suffix + rest) == digits + t;
    NumericOrdinalOf(digits, suffix, t);
    NotOrdinalWord(digits + t);
    NotAWord(digits + suffix + rest, digits + t);
  }

  lemma NotAWord(v: string, o: string)
    requires LowerStr(v) == o && |v| > 0 && OrdinalWord(o).None?
    ensures OrdinalIndex(VStr(v)) == Ok(NumericOrdinal(o))
  {
  }

  /** Lower-casing keeps a prefix without capitals. */
  lemma LowerAfter(a: string, b: string)
    requires forall i :: 0 <= i < |a| ==> !IsUpper(a[i])
    ensures LowerStr(a + b) == a + LowerStr(b)
  {
    LowerStrAppend(a, b);
    LowerKeeps(a);
  }

  lemma NumericOrdinalOf(digits: string, suffix: string, t: string)
    requires IsDigits(digits) && suffix in Suffixes && StartsWith(t, suffix)
    ensures NumericOrdinal(digits + t) == Some(DigitsValue(digits) as int - 1)
  {
    var o := digits + t;
    assert !IsDigit(suffix[0]);
    DigitsThen(o, |digits|, 0);
    assert o[|digits|..] == t;
    assert o[..|digits|] == digits;
  }

  /** Reading digits from `k` stops at the first non-digit, `n`. */
  lemma {:induction false} DigitsThen(o: string, n: nat, k: nat)
    requires k <= n <= |o| && (forall i :: k <= i < n ==> IsDigit(o[i])) && (n < |o| ==> !IsDigit(o[n]))
    ensures OrdinalNumber(o, k) == OrdinalNumber(o, n)
    decreases n - k
  {
    if k < n {
      DigitsThen(o, n, k + 1);
    }
  }

  /** Lower-casing leaves a text without capitals as it is. */
  lemma LowerKeeps(d: string)
    requires forall i :: 0 <= i < |d| ==> !IsUpper(d[i])
    ensures LowerStr(d) == d
  {
  }
}

=== FILE: clips.dfy ===
/** The timeline document: effects, clips (plain video clips and compound
    clips that group other clips), tracks, transitions and the timeline
    itself. Positions are integer frames. */
module Clips {
  import opened Base
  import opened Values

  /** An effect on a clip, or a range effect on the Effects track; `start`
      and `end` are optional frame bounds. */
  datatype Effect = Effect(effectType: string, params: Params, start: Option<int>, end: Option<int>)

  /** A clip: a `Leaf` is a `VideoClip`, a `Compound` is a `CompoundClip`
      whose bounds are meant to follow its children. `id` is absent for the
      older timeline, which has no clip ids. */
  datatype Clip =
    | Leaf(id: Option<string>, name: string, start: int, end: int, trackType: string,
           effects: seq<Effect>, filePath: Option<string>)
    | Compound(id: Option<string>, name: string, start: int, end: int, trackType: string,
               effects: seq<Effect>, children: seq<Clip>)

  /** A track: its clips in order, and the range effects that the overlay
      handler stores on the Effects track. */
  datatype Track = Track(name: string, trackType: string, clips: seq<Clip>, fx: seq<Effect>)

  /** A transition between two adjacent clips, named by clip name or id. */
  datatype Transition = Transition(fromClip: Option<string>, toClip: Option<string>, kind: string, duration: real)

  datatype Timeline = Timeline(tracks: seq<Track>, duration: int, transitions: seq<Transition>, frameRate: int)

  const VideoType := "video"
  const AudioType := "audio"
  const SubtitleType := "subtitle"
  const EffectType := "effect"

  /** The values of the `TrackType` enumeration. */
  predicate ValidTrackType(t: string) {
    t == VideoType || t == AudioType || t == SubtitleType || t == EffectType
  }

  function EmptyTrack(name: string, trackType: string): Track {
    Track(name, trackType, [], [])
  }

  /** A new timeline: the tracks "Video 1", "Audio 1", "Subtitles" and
      "Effects", no clips, no transitions, duration 0. */
  function NewTimeline(frameRate: int): (t: Timeline)
    ensures |t.tracks| == 4 && t.transitions == [] && t.duration == 0 && t.frameRate == frameRate
    ensures forall i :: 0 <= i < 4 ==> t.tracks[i].clips == [] && t.tracks[i].fx == [] && ValidTrackType(t.tracks[i].trackType)
    ensures [t.tracks[0].trackType, t.tracks[1].trackType, t.tracks[2].trackType, t.tracks[3].trackType]
         == [VideoType, AudioType, SubtitleType, EffectType]
    ensures [t.tracks[0].name, t.tracks[1].name, t.tracks[2].name, t.tracks[3].name]
         == ["Video 1", "Audio 1", "Subtitles", "Effects"]
  {
    Timeline([EmptyTrack("Video 1", VideoType), EmptyTrack("Audio 1", AudioType),
              EmptyTrack("Subtitles", SubtitleType), EmptyTrack("Effects", EffectType)], 0, [], frameRate)
  }

  /** `min(clip.start for clip in clips)`. */
  function MinStart(cs: seq<Clip>): (m: int)
    requires |cs| > 0
    ensures exists i :: 0 <= i < |cs| && cs[i].start == m
    ensures forall i :: 0 <= i < |cs| ==> m <= cs[i].start
  {
    if |cs| == 1 then cs[0].start
    else
      var rest := MinStart(cs[1..]);
      assert forall i :: 1 <= i < |cs| ==> cs[i] == cs[1..][i - 1];
      if cs[0].start <= rest then cs[0].start else rest
  }

  /** `max(clip.end for clip in clips)`. */
  function MaxEnd(cs: seq<Clip>): (m: int)
    requires |cs| > 0
    ensures exists i :: 0 <= i < |cs| && cs[i].end == m
    ensures forall i :: 0 <= i < |cs| ==> cs[i].end <= m
  {
    if |cs| == 1 then cs[0].end
    else
      var rest := MaxEnd(cs[1..]);
      assert forall i :: 1 <= i < |cs| ==> cs[i] == cs[1..][i - 1];
      if cs[0].end >= rest then cs[0].end else rest
  }

  /** A compound whose bounds follow its children: start is the least child
      start and end the greatest child end. */
  predicate BoundsFollow(c: Clip)
    requires c.Compound? && |c.children| > 0
  {
    c.start == MinStart(c.children) && c.end == MaxEnd(c.children)
  }

  /** `CompoundClip.recalculate_bounds`: a compound with children takes their
      bounds; a childless compound and a leaf keep theirs. */
  function Recalc(c: Clip): (r: Clip)
    ensures r.Compound? == c.Compound? && r.id == c.id && r.name == c.name && r.trackType == c.trackType
    ensures r.effects == c.effects
    ensures c.Compound? ==> r.children == c.children
    ensures c.Leaf? ==> r == c
    ensures c.Compound? && |c.children| > 0 ==> BoundsFollow(r)
    ensures c.Compound? && |c.children| > 0 ==> forall i :: 0 <= i < |c.children| ==> r.start <= c.children[i].start && c.children[i].end <= r.end
    ensures !(c.Compound? && |c.children| > 0) ==> r.start == c.start && r.end == c.end
  {
    if c.Compound? && |c.children| > 0 then
      Compound(c.id, c.name, MinStart(c.children), MaxEnd(c.children), c.trackType, c.effects, c.children)
    else c
  }

  /** Every compound in the tree, at every depth, has bounds that follow its
      children (childless compounds are unconstrained). */
  predicate Coherent(c: Clip) {
    match c
    case Leaf(_, _, _, _, _, _, _) => true
    case Compound(_, _, _, _, _, _, kids) =>
      (|kids| > 0 ==> BoundsFollow(c)) && forall i :: 0 <= i < |kids| ==> Coherent(kids[i])
  }

  /** `type(clip)(name=..., start_frame=..., end_frame=..., clip_id=...)`: a
      fresh clip of the same class with default track type "video", no
      effects, no file path and (for a compound) no children. */
  function Remake(c: Clip, name: string, start: int, end: int, id: Option<string>): (r: Clip)
    ensures r.Leaf? == c.Leaf? && r.name == name && r.start == start && r.end == end && r.id == id
    ensures r.trackType == VideoType && r.effects == []
    ensures r.Leaf? ==> r.filePath.None?
    ensures r.Compound? ==> r.children == []
  {
    match c
    case Leaf(_, _, _, _, _, _, _) => Leaf(id, name, start, end, VideoType, [], None)
    case Compound(_, _, _, _, _, _, _) => Compound(id, name, start, end, VideoType, [], [])
  }

  /** `CompoundClip.add_clip`: append a child and recalculate bounds. */
  function AddChild(c: Clip, x: Clip): (r: Clip)
    requires c.Compound?
    ensures r.Compound? && r.children == c.children + [x] && BoundsFollow(r)
    ensures r.name == c.name && r.id == c.id
  {
    Recalc(c.(children := c.children + [x]))
  }

  /** Index of the first element equal to `x`. */
  function IndexOfClip(cs: seq<Clip>, x: Clip): (k: nat)
    requires x in cs
    ensures k < |cs| && cs[k] == x && x !in cs[..k]
  {
    if cs[0] == x then 0 else IndexOfClip(cs[1..], x) + 1
  }

  /** `CompoundClip.remove_clip`: `list.remove` drops the first equal child
      (a ValueError when there is none), the other children keep their order,
      and then bounds are recalculated. */
  function RemoveChild(c: Clip, x: Clip): (r: Res<Clip>)
    requires c.Compound?
    ensures r.Err? <==> x !in c.children
    ensures r.Err? ==> r.exc == ValueError
    ensures r.Ok? ==> r.value.Compound? && multiset(r.value.children) + multiset{x} == multiset(c.children)
    ensures r.Ok? ==> |r.value.children| == |c.children| - 1
    ensures r.Ok? ==> exists k :: 0 <= k < |c.children| && c.children[k] == x && x !in c.children[..k]
                                 && r.value.children == c.children[..k] + c.children[k + 1..]
    ensures r.Ok? ==> r.value.id == c.id && r.value.name == c.name && r.value.trackType == c.trackType
                      && r.value.effects == c.effects
    ensures r.Ok? && |r.value.children| > 0 ==> BoundsFollow(r.value)
    ensures r.Ok? && |r.value.children| == 0 ==> r.value.start == c.start && r.value.end == c.end
  {
    if x !in c.children then Err(ValueError)
    else
      var k := IndexOfClip(c.children, x);
      assert c.children == c.children[..k] + [x] + c.children[k + 1..];
      Ok(Recalc(c.(children := c.children[..k] + c.children[k + 1..])))
  }

  /** Removing a child just added, that was not there before, gives the
      children back; with some left, the bounds are those of the compound
      recalculated. */
  lemma AddThenRemoveChild(c: Clip, x: Clip)
    requires c.Compound? && x !in c.children
    ensures RemoveChild(AddChild(c, x), x).Ok?
    ensures RemoveChild(AddChild(c, x), x).value.children == c.children
    ensures |c.children| > 0 ==> RemoveChild(AddChild(c, x), x).value == Recalc(c)
  {
    var a := AddChild(c, x);
    assert a.children[|c.children|] == x && a.children[..|c.children|] == c.children;
    var k := IndexOfClip(a.children, x);
    assert k == |c.children|;
    assert a.children[..k] + a.children[k + 1..] == c.children;
  }

  /** `CompoundClip.flatten_clips` over a child list: every leaf below, in
      order; compounds themselves are not listed. */
  function Leaves(cs: seq<Clip>): seq<Clip>
    decreases cs
  {
    if |cs| == 0 then []
    else
      (match cs[0]
       case Leaf(_, _, _, _, _, _, _) => [cs[0]]
       case Compound(_, _, _, _, _, _, kids) => Leaves(kids)) + Leaves(cs[1..])
  }

  /** `flatten_clips` lists plain clips only. */
  lemma {:induction false} LeavesArePlain(cs: seq<Clip>)
    ensures forall i :: 0 <= i < |Leaves(cs)| ==> Leaves(cs)[i].Leaf?
    decreases cs
  {
    if |cs| > 0 {
      LeavesArePlain(cs[1..]);
      var head := match cs[0] case Leaf(_, _, _, _, _, _, _) => [cs[0]] case Compound(_, _, _, _, _, _, kids) => Leaves(kids);
      if cs[0].Compound? {
        LeavesArePlain(cs[0].children);
      }
      assert Leaves(cs) == head + Leaves(cs[1..]);
      forall i | 0 <= i < |Leaves(cs)| ensures Leaves(cs)[i].Leaf? {
        if i >= |head| {
          assert Leaves(cs)[i] == Leaves(cs[1..])[i - |head|];
        }
      }
    }
  }

  /** `CompoundClip.contains_clip` with a name: some clip at any depth below
      carries that name. */
  predicate ContainsName(cs: seq<Clip>, n: string)
    decreases cs
  {
    |cs| > 0 &&
      (cs[0].name == n || (cs[0].Compound? && ContainsName(cs[0].children, n)) || ContainsName(cs[1..], n))
  }

  /** A leaf is reached by `ContainsName` exactly when `flatten_clips` lists
      it; compounds carrying the name are found too. */
  lemma {:induction false} LeafNamesContained(cs: seq<Clip>, n: string)
    ensures (exists i :: 0 <= i < |Leaves(cs)| && Leaves(cs)[i].name == n) ==> ContainsName(cs, n)
    decreases cs
  {
    if |cs| > 0 {
      LeafNamesContained(cs[1..], n);
      var head := match cs[0] case Leaf(_, _, _, _, _, _, _) => [cs[0]] case Compound(_, _, _, _, _, _, kids) => Leaves(kids);
      assert Leaves(cs) == head + Leaves(cs[1..]);
      if cs[0].Compound? {
        LeafNamesContained(cs[0].children, n);
      }
      if i :| 0 <= i < |Leaves(cs)| && Leaves(cs)[i].name == n {
        if i < |head| {
          assert head[i].name == n;
        } else {
          assert Leaves(cs[1..])[i - |head|].name == n;
        }
      }
    }
  }

  /** Two plain clips alike in everything but their effects. */
  predicate SameButEffects(a: Clip, b: Clip) {
    && a.Leaf? && b.Leaf? && a.id == b.id && a.name == b.name && a.start == b.start && a.end == b.end
    && a.trackType == b.trackType && a.filePath == b.filePath
  }

  /** `VideoClip.add_effect`: the effect goes after the clip's effects and
      nothing else about the clip changes. Only a plain clip has it. */
  function AddEffect(c: Clip, e: Effect): (r: Clip)
    requires c.Leaf?
    ensures r.Leaf? && |r.effects| == |c.effects| + 1
    ensures r.effects[..|c.effects|] == c.effects && r.effects[|c.effects|] == e
    ensures SameButEffects(r, c)
  {
    Leaf(c.id, c.name, c.start, c.end, c.trackType, c.effects + [e], c.filePath)
  }

  /** The list comprehension `[e for e in es if e.effect_type != t]`. */
  function Others(es: seq<Effect>, t: string): seq<Effect>
    decreases |es|
  {
    if |es| == 0 then [] else (if es[0].effectType != t then [es[0]] else []) + Others(es[1..], t)
  }

  /** The comprehension keeps exactly the effects of the other types, each
      as often as it occurs. */
  lemma {:induction false} OthersCounts(es: seq<Effect>, t: string)
    ensures forall i :: 0 <= i < |Others(es, t)| ==> Others(es, t)[i].effectType != t && Others(es, t)[i] in es
    ensures forall x :: multiset(Others(es, t))[x] == (if x.effectType != t then multiset(es)[x] else 0)
    ensures |Others(es, t)| <= |es|
    decreases |es|
  {
    if |es| > 0 {
      OthersCounts(es[1..], t);
      var h := if es[0].effectType != t then [es[0]] else [];
      assert es == [es[0]] + es[1..];
      assert Others(es, t) == h + Others(es[1..], t);
      forall i | 0 <= i < |Others(es, t)|
        ensures Others(es, t)[i].effectType != t && Others(es, t)[i] in es
      {
        if i >= |h| {
          assert Others(es, t)[i] == Others(es[1..], t)[i - |h|];
        }
      }
    }
  }

  lemma {:induction false} OthersAppend(a: seq<Effect>, b: seq<Effect>, t: string)
    ensures Others(a + b, t) == Others(a, t) + Others(b, t)
    decreases |a|
  {
    if |a| > 0 {
      assert (a + b)[0] == a[0] && (a + b)[1..] == a[1..] + b;
      OthersAppend(a[1..], b, t);
    } else {
      assert a + b == b;
    }
  }

  lemma {:induction false} OthersTwice(es: seq<Effect>, t: string)
    ensures Others(Others(es, t), t) == Others(es, t)
    decreases |es|
  {
    if |es| > 0 {
      OthersTwice(es[1..], t);
      var h := if es[0].effectType != t then [es[0]] else [];
      OthersAppend(h, Others(es[1..], t), t);
      assert h == [] || h[1..] == [];
    }
  }

  /** The effects whose type differs from `t`: in order and with their
      repetitions, every other effect is kept and none of type `t` is. */
  function KeepOtherEffects(es: seq<Effect>, t: string): (r: seq<Effect>)
    ensures forall i :: 0 <= i < |r| ==> r[i].effectType != t && r[i] in es
    ensures forall e :: e in es && e.effectType != t ==> e in r
    ensures forall x :: multiset(r)[x] == (if x.effectType != t then multiset(es)[x] else 0)
    ensures |r| <= |es|
  {
    OthersCounts(es, t);
    Others(es, t)
  }

  /** The filter distributes over concatenation, so it keeps the order of
      the effects it keeps. */
  lemma KeepOtherEffectsAppend(a: seq<Effect>, b: seq<Effect>, t: string)
    ensures KeepOtherEffects(a + b, t) == KeepOtherEffects(a, t) + KeepOtherEffects(b, t)
  {
    OthersAppend(a, b, t);
  }

  /** An effect is kept exactly when its type differs from the one removed. */
  lemma KeepOtherEffectsOne(e: Effect, t: string)
    ensures KeepOtherEffects([e], t) == if e.effectType != t then [e] else []
  {
    assert [e][1..] == [];
  }

  /** `VideoClip.remove_effect`: only the clip's effect list changes; none
      of the given type is left, and every other effect stays as often as it
      was there. Only a plain clip has it. */
  function RemoveEffect(c: Clip, t: string): (r: Clip)
    requires c.Leaf?
    ensures SameButEffects(r, c)
    ensures forall i :: 0 <= i < |r.effects| ==> r.effects[i].effectType != t
    ensures forall x :: multiset(r.effects)[x] == (if x.effectType != t then multiset(c.effects)[x] else 0)
  {
    Leaf(c.id, c.name, c.start, c.end, c.trackType, KeepOtherEffects(c.effects, t), c.filePath)
  }

  /** Removing a type takes back an added effect of that type and commutes
      with adding an effect of another type; removing twice is removing
      once. */
  lemma RemoveAfterAdd(c: Clip, e: Effect, t: string)
    requires c.Leaf?
    ensures e.effectType == t ==> RemoveEffect(AddEffect(c, e), t) == RemoveEffect(c, t)
    ensures e.effectType != t ==> RemoveEffect(AddEffect(c, e), t) == AddEffect(RemoveEffect(c, t), e)
    ensures RemoveEffect(RemoveEffect(c, t), t) == RemoveEffect(c, t)
  {
    KeepOtherEffectsAppend(c.effects, [e], t);
    KeepOtherEffectsOne(e, t);
    KeepOtherEffectsTwice(c.effects, t);
  }

  lemma KeepOtherEffectsTwice(es: seq<Effect>, t: string)
    ensures KeepOtherEffects(KeepOtherEffects(es, t), t) == KeepOtherEffects(es, t)
  {
    OthersTwice(es, t);
  }

  /** Frames over the frame rate; a zero rate is a ZeroDivisionError. */
  function FramesToSeconds(frames: int, frameRate: int): (r: Res<real>)
    ensures r.Err? <==> frameRate == 0
    ensures r.Ok? ==> r.value * frameRate as real == frames as real
  {
    if frameRate == 0 then Err(ZeroDivisionError) else Ok(frames as real / frameRate as real)
  }

  /** `VideoClip.as_seconds`: the clip bounds in seconds. */
  function AsSeconds(c: Clip, frameRate: int): (r: Res<(real, real)>)
    ensures r.Err? <==> frameRate == 0
    ensures r.Ok? ==> r.value.0 * frameRate as real == c.start as real && r.value.1 * frameRate as real == c.end as real
  {
    if frameRate == 0 then Err(ZeroDivisionError)
    else Ok((FramesToSeconds(c.start, frameRate).value, FramesToSeconds(c.end, frameRate).value))
  }
}

=== FILE: command_parser.dfy ===
/** `CommandParser.parse_command`, `validate_command` and
    `feedback_for_command` (`backend/app/command_parser.py`): a text that
    opens with join/merge/combine goes straight to the handlers; any other
    text is split at top-level conjunctions, each fragment parsed on its
    own (a JOIN without a first clip inheriting the latest target seen so
    far); a text that does not split is given to the first handler of the
    registry whose grammar accepts it, and is UNKNOWN when none does. */
module CommandParser {
  import opened Base
  import opened Text
  import opened Regex
  import opened Values
  import opened Operations
  import opened Splitter
  import TargetGrammar
  import GroupCutCommand
  import CutCommand
  import TrimCommand
  import JoinCommand
  import AddTextCommand
  import OverlayCommand
  import FadeCommand

  /** A registered handler: its `match` and its `parse(text, frame_rate)`. */
  datatype CommandHandler = CommandHandler(accepts: string -> bool, parse: (string, int) -> Res<EditOperation>)

  /** How the registry calls a handler: as the code is written, every
      handler gets `parse(text, frame_rate=...)`, which the group-cut
      handler's one-argument `parse` rejects with a TypeError; the
      corrected build calls it without the frame rate. */
  datatype Build = AsWritten | Corrected

  /** The group-cut handler as the build calls it. */
  function GroupCutHandler(b: Build): CommandHandler {
    CommandHandler(
      s => GroupCutCommand.Matches(s),
      (s, fr) => if b == AsWritten then Err(TypeError) else GroupCutCommand.Parse(s))
  }

  /** The registered handlers, in registration order: the group cut, then
      the handlers every build calls alike. */
  function Registry(b: Build): seq<CommandHandler> {
    [GroupCutHandler(b)] + OtherHandlers
  }

  const OtherHandlers: seq<CommandHandler> := [
    CommandHandler(s => CutCommand.Matches(s), (s, fr) => CutCommand.Parse(s, fr)),
    CommandHandler(s => TrimCommand.Matches(s), (s, fr) => TrimCommand.Parse(s, fr)),
    CommandHandler(s => JoinCommand.Matches(s), (s, fr) => Ok(JoinCommand.Parse(s))),
    CommandHandler(s => AddTextCommand.Matches(s), (s, fr) => Ok(AddTextCommand.Parse(s, fr))),
    CommandHandler(s => OverlayCommand.Matches(s), (s, fr) => OverlayCommand.Parse(s, fr)),
    CommandHandler(s => FadeCommand.Matches(s), (s, fr) => Ok(FadeCommand.Parse(s, fr)))]

  /** The registry loop from handler `k` on: the first handler that
      accepts the text, if any. */
  function FirstAccepting(hs: seq<CommandHandler>, s: string, k: nat): (r: Option<nat>)
    requires k <= |hs|
    ensures r.Some? ==> k <= r.value < |hs| && hs[r.value].accepts(s)
    ensures r.Some? ==> forall j :: k <= j < r.value ==> !hs[j].accepts(s)
    ensures r.None? ==> forall j :: k <= j < |hs| ==> !hs[j].accepts(s)
    decreases |hs| - k
  {
    if k == |hs| then None
    else if hs[k].accepts(s) then Some(k)
    else FirstAccepting(hs, s, k + 1)
  }

  /** The parse result of the first handler that accepts the text, or
      nothing when none does. */
  function Dispatch(hs: seq<CommandHandler>, s: string, fr: int): Option<Res<EditOperation>> {
    match FirstAccepting(hs, s, 0)
    case Some(j) => Some(hs[j].parse(s, fr))
    case None => None
  }

  const JoinVerbs: seq<string> := ["join", "merge", "combine"]

  /** The first place at or after `i` that is not whitespace. */
  function SkipSpaces(s: string, i: nat): (j: nat)
    requires i <= |s|
    ensures i <= j <= |s| && (j < |s| ==> !IsSpace(s[j]))
    ensures forall k :: i <= k < j ==> IsSpace(s[k])
    decreases |s| - i
  {
    if i < |s| && IsSpace(s[i]) then SkipSpaces(s, i + 1) else i
  }

  /** `re.match(r'^\s*(join|merge|combine)\b', text, re.I)`: after the
      leading whitespace one of the verbs, in any case, that is not
      continued by a word character. */
  predicate JoinLead(s: string) {
    var j := SkipSpaces(s, 0);
    exists k :: 0 <= k < |JoinVerbs| && LitAt(s, j, JoinVerbs[k], true) && AtBoundary(s, j + |JoinVerbs[k]|)
  }

  /** `op.target` filled from the latest target for a JOIN that names no
      first clip, as the compound assembly does. */
  function Fill(p: Parsed, prev: Option<string>): Parsed {
    if p.Single? && p.op.kind == "JOIN" && !Given(p.op.target) && Given(prev)
    then Single(p.op.(target := prev)) else p
  }

  /** The latest target after one more item: an operation with a target
      replaces it. */
  function Carry(p: Parsed, prev: Option<string>): Option<string> {
    if p.Single? && Given(p.op.target) then p.op.target else prev
  }

  /** The target of the last item of `xs` that has one, else `prev`. */
  function LastTarget(prev: Option<string>, xs: seq<Parsed>): (t: Option<string>)
    ensures t == prev || exists k :: 0 <= k < |xs| && xs[k].Single? && Given(xs[k].op.target) && t == xs[k].op.target
    decreases |xs|
  {
    if |xs| == 0 then prev
    else
      var i := |xs| - 1;
      var t := Carry(xs[i], LastTarget(prev, xs[..i]));
      assert forall k :: 0 <= k < i ==> xs[..i][k] == xs[k];
      t
  }

  /** A registry as the parser sees it: for a text, the parse result of
      the first handler that accepts it, or nothing when none does. */
  type Handlers = string -> Option<Res<EditOperation>>

  /** The registered handlers, called as `build` calls them. */
  function Registered(b: Build, fr: int): Handlers {
    s => Dispatch(Registry(b), s, fr)
  }

  /** The handler result as a parse result. */
  function Lift(r: Res<EditOperation>): Res<Parsed> {
    match r
    case Ok(op) => Ok(Single(op))
    case Err(e) => Err(e)
  }

  /** `parse_command(text, frame_rate)` over a registry: a join goes to the
      handlers first; otherwise a text with several fragments becomes a
      compound of their parses; otherwise the handlers decide, and a text
      none of them accepts is UNKNOWN. */
  function ParseWith(d: Handlers, s: string): Res<Parsed>
    decreases |s|, 1
  {
    if JoinLead(s) && d(s).Some? then Lift(d(s).value)
    else
      var parts := Split(s);
      if |parts| > 1 then
        var raw :- ParseEach(d, parts, |s|);
        Ok(Compound(Assemble(raw, None)))
      else if d(s).Some? then Lift(d(s).value)
      else Ok(Single(Unknown(s)))
  }

  /** Every fragment parsed in turn; the first failing fragment's exception
      propagates. */
  function ParseEach(d: Handlers, parts: seq<string>, bound: nat): (r: Res<seq<Parsed>>)
    requires forall k :: 0 <= k < |parts| ==> |parts[k]| < bound
    ensures r.Ok? ==> |r.value| == |parts|
    decreases bound, 0, |parts|
  {
    if |parts| == 0 then Ok([])
    else
      var p :- ParseWith(d, parts[0]);
      var rest :- ParseEach(d, parts[1..], bound);
      Ok([p] + rest)
  }

  /** The compound assembly: each parse, a JOIN without a first clip given
      the latest target before it, the latest target being replaced by
      every operation that has one. */
  function Assemble(raw: seq<Parsed>, prev: Option<string>): (r: seq<Parsed>)
    ensures |r| == |raw|
    decreases |raw|
  {
    if |raw| == 0 then []
    else
      var x := Fill(raw[0], prev);
      [x] + Assemble(raw[1..], Carry(x, prev))
  }

  /** The parser as the rest of the model uses it. A compound has one item
      per fragment; a text taken whole (a join, or one that does not split)
      gets the result of the first registered handler accepting it, and is
      UNKNOWN when none does. */
  function ParseCommand(s: string, fr: int): (r: Res<Parsed>)
    ensures r.Ok? && r.value.Compound? ==> |Split(s)| > 1 && |r.value.items| == |Split(s)|
    ensures var j := FirstAccepting(Registry(Corrected), s, 0);
      j.Some? && (JoinLead(s) || |Split(s)| <= 1) ==> r == Lift(Registry(Corrected)[j.value].parse(s, fr))
    ensures |Split(s)| <= 1 && FirstAccepting(Registry(Corrected), s, 0).None? ==> r == Ok(Single(Unknown(s)))
  {
    ParseWith(Registered(Corrected, fr), s)
  }

  /** The parser with the group-cut handler called as written: it gives
      the corrected result, or raises the TypeError of that call. */
  function ParseCommandAsWritten(s: string, fr: int): (r: Res<Parsed>)
    ensures r == ParseCommand(s, fr) || r == Err(TypeError)
  {
    OnlyRaises(s, fr);
    ParseWith(Registered(AsWritten, fr), s)
  }

  /** Two handler lists whose handlers accept the same texts, one by one,
      pick the same first handler. */
  lemma {:induction false} SameFirstAccepting(hs1: seq<CommandHandler>, hs2: seq<CommandHandler>, s: string, k: nat)
    requires |hs1| == |hs2| && k <= |hs1|
    requires forall j :: 0 <= j < |hs1| ==> hs1[j].accepts(s) == hs2[j].accepts(s)
    ensures FirstAccepting(hs1, s, k) == FirstAccepting(hs2, s, k)
    decreases |hs1| - k
  {
    if k < |hs1| {
      SameFirstAccepting(hs1, hs2, s, k + 1);
    }
  }

  /** Both builds accept the same texts, and as written a handler gives the
      corrected result or the TypeError of the group-cut call. */
  lemma RegistriesAgree(s: string, fr: int)
    ensures var a := Registered(AsWritten, fr)(s);
      var c := Registered(Corrected, fr)(s);
      (a.Some? <==> c.Some?) && (a == c || a == Some(Err(TypeError)))
  {
    var hs1, hs2 := Registry(AsWritten), Registry(Corrected);
    forall j | 0 <= j < |hs1| ensures hs1[j].accepts(s) == hs2[j].accepts(s) {
      if j > 0 {
        assert hs1[j] == OtherHandlers[j - 1] == hs2[j];
      }
    }
    SameFirstAccepting(hs1, hs2, s, 0);
    var j := FirstAccepting(hs1, s, 0);
    if j.Some? && j.value > 0 {
      assert hs1[j.value] == OtherHandlers[j.value - 1] == hs2[j.value];
    }
  }

  /** As written, parsing a text gives the corrected result or raises
      TypeError. */
  lemma {:induction false} OnlyRaises(s: string, fr: int)
    ensures var a := ParseWith(Registered(AsWritten, fr), s);
      a == ParseWith(Registered(Corrected, fr), s) || a == Err(TypeError)
    decreases |s|, 1
  {
    RegistriesAgree(s, fr);
    if !(JoinLead(s) && Registered(AsWritten, fr)(s).Some?) && |Split(s)| > 1 {
      EachOnlyRaises(Split(s), |s|, fr);
    }
  }

  /** As written, the fragment loop gives the corrected result or raises
      TypeError. */
  lemma {:induction false} EachOnlyRaises(parts: seq<string>, bound: nat, fr: int)
    requires forall k :: 0 <= k < |parts| ==> |parts[k]| < bound
    ensures var a := ParseEach(Registered(AsWritten, fr), parts, bound);
      a == ParseEach(Registered(Corrected, fr), parts, bound) || a == Err(TypeError)
    decreases bound, 0, |parts|
  {
    if |parts| > 0 {
      OnlyRaises(parts[0], fr);
      EachOnlyRaises(parts[1..], bound, fr);
    }
  }

  /** The fragment loop parses each fragment on its own, in order, and
      fails with the exception of the first fragment that fails. */
  lemma {:induction false} EachParsed(d: Handlers, parts: seq<string>, bound: nat)
    requires forall k :: 0 <= k < |parts| ==> |parts[k]| < bound
    ensures var r := ParseEach(d, parts, bound);
      r.Ok? <==> forall k :: 0 <= k < |parts| ==> ParseWith(d, parts[k]).Ok?
    ensures var r := ParseEach(d, parts, bound);
      r.Ok? ==> forall k :: 0 <= k < |parts| ==> r.value[k] == ParseWith(d, parts[k]).value
    ensures var r := ParseEach(d, parts, bound);
      r.Err? ==> exists k :: (0 <= k < |parts| && ParseWith(d, parts[k]) == Err(r.exc) &&
        forall j :: 0 <= j < k ==> ParseWith(d, parts[j]).Ok?)
    decreases |parts|
  {
    if |parts| > 0 {
      var tail := parts[1..];
      EachParsed(d, tail, bound);
      forall k | 0 < k < |parts| ensures parts[k] == tail[k - 1] {
      }
      var r := ParseEach(d, parts, bound);
      if r.Err? && ParseWith(d, parts[0]).Ok? {
        var k :| 0 <= k < |tail| && ParseWith(d, tail[k]) == Err(r.exc) &&
          forall j :: 0 <= j < k ==> ParseWith(d, tail[j]).Ok?;
        assert ParseWith(d, parts[k + 1]) == Err(r.exc);
      }
    }
  }

  /** Each assembled item is its parse, filled from the last target of the
      items before it. */
  lemma {:induction false} AssembledInOrder(raw: seq<Parsed>, prev: Option<string>)
    ensures var r := Assemble(raw, prev);
      forall k :: 0 <= k < |raw| ==> r[k] == Fill(raw[k], LastTarget(prev, r[..k]))
    decreases |raw|
  {
    if |raw| > 0 {
      var r := Assemble(raw, prev);
      var x := Fill(raw[0], prev);
      var rest := Assemble(raw[1..], Carry(x, prev));
      assert r == [x] + rest;
      AssembledInOrder(raw[1..], Carry(x, prev));
      forall k | 0 <= k < |raw| ensures r[k] == Fill(raw[k], LastTarget(prev, r[..k])) {
        if k == 0 {
          assert r[..0] == [];
        } else {
          assert raw[1..][k - 1] == raw[k];
          CarriedFrom(prev, x, rest, k - 1);
          assert r[..k] == [x] + rest[..k - 1];
        }
      }
    }
  }

  /** The last target of `[x] + ys` is that of `ys` started from what `x`
      leaves behind. */
  lemma {:induction false} CarriedFrom(prev: Option<string>, x: Parsed, ys: seq<Parsed>, n: nat)
    requires n <= |ys|
    ensures LastTarget(prev, [x] + ys[..n]) == LastTarget(Carry(x, prev), ys[..n])
    decreases n
  {
    if n == 0 {
      assert [x] + ys[..0] == [x];
      assert [x][..0] == [];
    } else {
      var xs := [x] + ys[..n];
      assert xs[..|xs| - 1] == [x] + ys[..n - 1];
      assert ys[..n][..n - 1] == ys[..n - 1];
      CarriedFrom(prev, x, ys, n - 1);
    }
  }

  /** A text that opens with a join verb some handler accepts is parsed by
      that handler whole, whatever conjunctions it holds. */
  lemma JoinFirst(d: Handlers, s: string)
    requires JoinLead(s) && d(s).Some?
    ensures ParseWith(d, s) == Lift(d(s).value)
  {
  }

  /** A text with several fragments, not taken whole as a join, parses to
      a compound with one item per fragment, in order: the fragment's own
      parse, a JOIN's missing first clip filled from the last target of
      the items before it. */
  lemma Compounded(d: Handlers, s: string)
    requires !(JoinLead(s) && d(s).Some?)
    requires |Split(s)| > 1 && ParseWith(d, s).Ok?
    ensures var parts := Split(s);
      var r := ParseWith(d, s).value;
      && r.Compound? && |r.items| == |parts|
      && forall k :: 0 <= k < |parts| ==>
           ParseWith(d, parts[k]).Ok?
           && r.items[k] == Fill(ParseWith(d, parts[k]).value, LastTarget(None, r.items[..k]))
  {
    var parts := Split(s);
    EachParsed(d, parts, |s|);
    AssembledInOrder(ParseEach(d, parts, |s|).value, None);
  }

  /** A text that neither splits nor is accepted by any handler is UNKNOWN,
      carrying the raw text; one that does not split and is accepted gets
      the handler's result. */
  lemma Unsplit(d: Handlers, s: string)
    requires |Split(s)| <= 1
    ensures d(s).None? ==> ParseWith(d, s) == Ok(Single(Unknown(s)))
    ensures d(s).Some? ==> ParseWith(d, s) == Lift(d(s).value)
  {
  }

  // ---- the legacy add-text fallback ----

  const LegacyQuote := Rep(CharSet([Chr('\''), Chr('"')], false), 0, Some(1), false)
  /** `[^'"\s]` */
  const LegacyWordChar := CharSet([Chr('\''), Chr('"'), SpaceClass], true)
  /** `(?= at the| from| to|$)` */
  const LegacyStop := Ahead(Alts([Lit(" at the"), Lit(" from"), Lit(" to"), Eol]), false)
  const LegacyText := Alt(
    Seq([Lit(" "), LegacyQuote, Group("text", Plus(LegacyWordChar)), LegacyQuote]),
    Seq([Lit(" "), Group("text_unquoted", Rep(CharSet([Chr('@'), Chr('\n')], true), 1, None, true)), LegacyStop]))
  const LegacyRest := Opts([
    Lit(" text"),
    LegacyText,
    Seq([Lit(" at the "), Group("position", Plus(WordCh))]),
    Seq([Lit(" from "), Group("start", TargetGrammar.ClockOrDigits), Opt(Seq([Lit(" to "), Group("end", TargetGrammar.ClockOrDigits)]))])])
  /** The legacy add-text pattern, tried with `re.match` and `re.I` when no
      handler accepts the text. */
  const LegacyPattern := Cat(Lit("add"), Cat(Ahead(Lit(" overlay"), true), LegacyRest))

  /** Both add-text patterns open with "add" not followed by " overlay" and
      make everything after that optional. */
  predicate AddOpening(s: string) {
    LitAt(s, 0, "add", true) && |Run(Lit(" overlay"), s, 3, map[], true)| == 0
  }

  lemma LegacyOpening(s: string)
    ensures Match(LegacyPattern, s, true).Some? <==> AddOpening(s)
  {
    NotAheadMatch("add", Lit(" overlay"), LegacyRest, s, true);
  }

  lemma AddTextOpening(s: string)
    ensures AddTextCommand.Matches(s) <==> AddOpening(s)
  {
    AddTextCommand.RestNullable();
    NotAheadMatch("add", Lit(" overlay"), Cat(Opt(Lit(" text")), AddTextCommand.Rest), s, true);
  }

  /** The legacy pattern accepts exactly the texts the ADD_TEXT handler
      accepts, so it is never reached: a text no handler accepts is
      UNKNOWN. */
  lemma LegacyShadowed(s: string)
    ensures Match(LegacyPattern, s, true).Some? <==> AddTextCommand.Matches(s)
  {
    LegacyOpening(s);
    AddTextOpening(s);
  }

  // ---- validation and feedback ----

  datatype Validation = Validation(valid: bool, message: string)

  /** `validate_command(operation)`, check by check. */
  function Validate(op: EditOperation): (r: Validation)
    ensures op.kind == UnknownKind ==> !r.valid
  {
    var p := op.params;
    if op.kind == "CUT" then
      if !Given(op.target) then Validation(false, "CUT command requires a target clip name.")
      else if !Has(p, "timestamp") then Validation(false, "CUT command requires a timestamp.")
      else Validation(true, "Valid CUT command.")
    else if op.kind == "TRIM" then
      if !Given(op.target) then Validation(false, "TRIM command requires a target clip name.")
      else if !Has(p, "timestamp") then Validation(false, "TRIM command requires a timestamp.")
      else Validation(true, "Valid TRIM command.")
    else if op.kind == "ADD_TEXT" then
      if !Has(p, "text") || !Truthy(p.vals["text"]) then Validation(false, "ADD_TEXT command requires text.")
      else if !Has(p, "start") || !Has(p, "end") then Validation(false, "ADD_TEXT command requires start and end times.")
      else Validation(true, "Valid ADD_TEXT command.")
    else if op.kind == "JOIN" then
      if !Given(op.target) then Validation(false, "JOIN command requires a first clip name.")
      else if !Has(p, "second") || !Truthy(p.vals["second"]) then Validation(false, "JOIN command requires a second clip name.")
      else Validation(true, "Valid JOIN command.")
    else if op.kind == "OVERLAY" then
      if !Has(p, "asset") || !Truthy(p.vals["asset"]) then Validation(false, "OVERLAY command requires an asset (e.g., image or video file).")
      else Validation(true, "Valid OVERLAY command.")
    else if op.kind == "FADE" then
      if !Has(p, "direction") || !Truthy(p.vals["direction"]) then Validation(false, "FADE command requires a direction (in or out).")
      else if !Has(p, "target") || !Truthy(p.vals["target"]) then Validation(false, "FADE command requires a target (audio, clip name, etc.).")
      else Validation(true, "Valid FADE command.")
    else if op.kind == UnknownKind then Validation(false, "Unknown command type.")
    else Validation(true, "Valid command.")
  }

  /** One field a command type requires. */
  datatype Check = HasTarget | HasKey(key: string) | HasValue(key: string)

  /** A requirement and the complaint when it is not met. */
  datatype Need = Need(check: Check, complaint: string)

  /** What validation asks of one command type: its requirements in the
      order they are checked, and the message of success. */
  datatype Rule = Rule(kind: string, needs: seq<Need>, ok: string)

  const Rules: seq<Rule> := [
    Rule("CUT", [Need(HasTarget, "CUT command requires a target clip name."),
                 Need(HasKey("timestamp"), "CUT command requires a timestamp.")], "Valid CUT command."),
    Rule("TRIM", [Need(HasTarget, "TRIM command requires a target clip name."),
                  Need(HasKey("timestamp"), "TRIM command requires a timestamp.")], "Valid TRIM command."),
    Rule("ADD_TEXT", [Need(HasValue("text"), "ADD_TEXT command requires text."),
                      Need(HasKey("start"), "ADD_TEXT command requires start and end times."),
                      Need(HasKey("end"), "ADD_TEXT command requires start and end times.")], "Valid ADD_TEXT command."),
    Rule("JOIN", [Need(HasTarget, "JOIN command requires a first clip name."),
                  Need(HasValue("second"), "JOIN command requires a second clip name.")], "Valid JOIN command."),
    Rule("OVERLAY", [Need(HasValue("asset"), "OVERLAY command requires an asset (e.g., image or video file).")], "Valid OVERLAY command."),
    Rule("FADE", [Need(HasValue("direction"), "FADE command requires a direction (in or out)."),
                  Need(HasValue("target"), "FADE command requires a target (audio, clip name, etc.).")], "Valid FADE command.")]

  predicate Meets(op: EditOperation, c: Check) {
    match c
    case HasTarget => Given(op.target)
    case HasKey(k) => Has(op.params, k)
    case HasValue(k) => TruthyOpt(Get(op.params, k))
  }

  /** The first requirement from `k` on that the operation misses. */
  function FirstUnmet(op: EditOperation, ns: seq<Need>, k: nat): (r: Option<nat>)
    requires k <= |ns|
    ensures r.Some? ==> k <= r.value < |ns| && !Meets(op, ns[r.value].check)
    ensures r.Some? ==> forall j :: k <= j < r.value ==> Meets(op, ns[j].check)
    ensures r.None? ==> forall j :: k <= j < |ns| ==> Meets(op, ns[j].check)
    decreases |ns| - k
  {
    if k == |ns| then None
    else if !Meets(op, ns[k].check) then Some(k)
    else FirstUnmet(op, ns, k + 1)
  }

  /** A command of a type with a rule is valid exactly when it meets every
      requirement of the rule; an invalid one is told the complaint of the
      first requirement it misses, a valid one the rule's message. */
  lemma ValidatedByRule(op: EditOperation, i: nat)
    requires i < |Rules| && Rules[i].kind == op.kind
    ensures Validate(op).valid <==> forall j :: 0 <= j < |Rules[i].needs| ==> Meets(op, Rules[i].needs[j].check)
    ensures Validate(op).valid ==> Validate(op).message == Rules[i].ok
    ensures !Validate(op).valid ==>
      FirstUnmet(op, Rules[i].needs, 0).Some? && Validate(op).message == Rules[i].needs[FirstUnmet(op, Rules[i].needs, 0).value].complaint
  {
    var ns := Rules[i].needs;
    var u := FirstUnmet(op, ns, 0);
    if u.Some? {
      assert !Meets(op, ns[u.value].check);
    }
  }

  /** UNKNOWN is never valid; a type without a rule always is. */
  lemma ValidatedWithoutRule(op: EditOperation)
    requires forall i :: 0 <= i < |Rules| ==> Rules[i].kind != op.kind
    ensures Validate(op) == if op.kind == UnknownKind then Validation(false, "Unknown command type.") else Validation(true, "Valid command.")
  {
    assert Rules[0].kind == "CUT" && Rules[1].kind == "TRIM" && Rules[2].kind == "ADD_TEXT";
    assert Rules[3].kind == "JOIN" && Rules[4].kind == "OVERLAY" && Rules[5].kind == "FADE";
  }

  /** The first characters of the three kinds of feedback: U+2705 (white
      heavy check mark), U+274C (cross mark) and U+26A0 (warning sign, which
      the source follows with the emoji selector U+FE0F). */
  const Tick: char := '\U{2705}'
  const Cross: char := '\U{274C}'
  const Warning: char := '\U{26A0}'

  const Understood := [Tick] + " Command understood: "
  const NotUnderstood := [Cross] + " Sorry, I couldn't understand that command. Please check your syntax or refer to the command guide."
  const Issue := [Warning, '\U{FE0F}'] + " Command issue: "

  /** The feedback for a parse result; a compound result has no type,
      which raises AttributeError. */
  function Respond(p: Res<Parsed>): (r: Res<string>)
    ensures p.Err? ==> r == Err(p.exc)
    ensures p.Ok? && p.value.Compound? ==> r == Err(AttributeError)
    ensures p.Ok? && p.value.Single? ==> r.Ok?
  {
    var q :- p;
    if q.Compound? then Err(AttributeError)
    else
      var v := Validate(q.op);
      if v.valid then Ok(Understood + (q.op.kind + ". " + v.message))
      else if q.op.kind == UnknownKind then Ok(NotUnderstood)
      else Ok(Issue + v.message)
  }

  /** The three kinds of feedback are told apart by their first character:
      a valid operation is understood, UNKNOWN gets the fixed apology, and
      any other invalid operation is told what it misses. */
  lemma Responses(op: EditOperation)
    ensures var r := Respond(Ok(Single(op))).value;
      var v := Validate(op);
      && |r| > 0
      && (v.valid <==> r[0] == Tick)
      && (op.kind == UnknownKind <==> r[0] == Cross)
      && (!v.valid && op.kind != UnknownKind <==> r == Issue + v.message)
  {
    FirstChars();
    var v := Validate(op);
    var r := Respond(Ok(Single(op))).value;
    if v.valid {
      assert r == Understood + (op.kind + ". " + v.message);
    } else if op.kind == UnknownKind {
      assert r == NotUnderstood;
      assert NotUnderstood != Issue + v.message by {
        assert NotUnderstood[0] != (Issue + v.message)[0];
      }
    } else {
      assert r == Issue + v.message;
    }
  }

  lemma FirstChars()
    ensures Understood[0] == Tick && NotUnderstood[0] == Cross && Issue[0] == Warning
    ensures forall t :: (Understood + t)[0] == Tick && (Issue + t)[0] == Warning
  {
  }

  /** `feedback_for_command(text, frame_rate)`: the text is parsed at the
      default 30 frames per second whatever the rate given. */
  function Feedback(s: string, fr: int): (r: Res<string>)
    ensures ParseCommand(s, 30).Err? ==> r == Err(ParseCommand(s, 30).exc)
    ensures ParseCommand(s, 30).Ok? && ParseCommand(s, 30).value.Compound? ==> r == Err(AttributeError)
    ensures r.Ok? <==> ParseCommand(s, 30).Ok? && ParseCommand(s, 30).value.Single?
  {
    Respond(ParseCommand(s, 30))
  }

  /** The feedback does not depend on the rate given; a failed parse passes
      its exception on, a compound result raises AttributeError, and a single
      operation is understood exactly when it validates. */
  lemma FeedbackFor(s: string, fr: int)
    ensures Feedback(s, fr) == Feedback(s, 30)
    ensures ParseCommand(s, 30).Err? ==> Feedback(s, fr) == Err(ParseCommand(s, 30).exc)
    ensures ParseCommand(s, 30).Ok? && ParseCommand(s, 30).value.Compound? ==> Feedback(s, fr) == Err(AttributeError)
    ensures ParseCommand(s, 30).Ok? && ParseCommand(s, 30).value.Single? ==>
      var op := ParseCommand(s, 30).value.op;
      var r := Feedback(s, fr);
      && r.Ok? && |r.value| > 0
      && (Validate(op).valid <==> r.value[0] == Tick)
      && (op.kind == UnknownKind <==> r.value[0] == Cross)
  {
    var p := ParseCommand(s, 30);
    if p.Ok? && p.value.Single? {
      Responses(p.value.op);
    }
  }

  // ---- the group-cut call ----

  /** The group-cut handler is registered first. */
  lemma FirstIsGroupCut(b: Build, s: string, fr: int)
    requires GroupCutCommand.Matches(s)
    ensures Dispatch(Registry(b), s, fr) == Some(GroupCutHandler(b).parse(s, fr))
  {
    assert Registry(b)[0] == GroupCutHandler(b);
  }

  /** A group cut that is not split never parses as written: the group-cut
      handler comes first in the registry, and calling its `parse` with a
      frame rate raises TypeError. Called without it, the handler's result
      is returned. */
  lemma GroupCutCall(s: string, fr: int)
    requires GroupCutCommand.Matches(s) && !JoinLead(s) && |Split(s)| <= 1
    ensures ParseCommandAsWritten(s, fr) == Err(TypeError)
    ensures ParseCommand(s, fr) == Lift(GroupCutCommand.Parse(s))
  {
    FirstIsGroupCut(AsWritten, s, fr);
    FirstIsGroupCut(Corrected, s, fr);
    Unsplit(Registered(AsWritten, fr), s);
    Unsplit(Registered(Corrected, fr), s);
  }

  /** "cut all clips" is such a text: as written it raises TypeError, and
      corrected it is a CUT_GROUP of the video track. */
  lemma CutAllClips()
    ensures ParseCommandAsWritten("cut all clips", 30) == Err(TypeError)
    ensures var r := ParseCommand("cut all clips", 30);
      r.Ok? && r.value.Single? && r.value.op.kind == "CUT_GROUP"
      && Get(r.value.op.params, "track_type") == Some(VStr("video"))
  {
    var s := "cut all clips";
    assert LitAt(s, 0, GroupCutCommand.Lead, true);
    assert LitAt(s, |GroupCutCommand.Lead|, GroupCutCommand.TargetTypes[0], true);
    NoJoinLead(s);
    NoConjunctionIn(s);
    GroupCutCall(s, 30);
    GroupCutCommand.Parsed(s);
  }

  lemma NoJoinLead(s: string)
    requires s == "cut all clips"
    ensures !JoinLead(s)
  {
    assert SkipSpaces(s, 0) == 0;
    assert !CharEq(s[0], JoinVerbs[0][0], true);
    assert !CharEq(s[0], JoinVerbs[1][0], true);
    assert !CharEq(s[1], JoinVerbs[2][1], true);
  }

  lemma NoConjunctionIn(s: string)
    requires s == "cut all clips"
    ensures |Split(s)| <= 1
  {
    forall j | 0 <= j < |s| ensures ConjAt(s, j).None? {
      NoConjunctionAt(s, j);
    }
    NoConjunction(s);
  }

  /** Only the two blanks could open a conjunction, and neither is
      followed by "then " or "and ". */
  lemma NoConjunctionAt(s: string, j: nat)
    requires s == "cut all clips" && j < |s|
    ensures ConjAt(s, j).None?
  {
    if j == 3 {
      assert !CharEq(s[j], Conjunctions[0][0], true);
      assert !CharEq(s[4], Conjunctions[1][1], true) && !CharEq(s[5], Conjunctions[2][2], true);
    } else if j == 7 {
      assert !CharEq(s[j], Conjunctions[0][0], true);
      assert !CharEq(s[8], Conjunctions[1][1], true) && !CharEq(s[8], Conjunctions[2][1], true);
    } else {
      assert s[j] != ' ' && s[j] != ';' && !IsUpper(s[j]);
      assert !CharEq(s[j], Conjunctions[0][0], true);
      assert !CharEq(s[j], Conjunctions[1][0], true) && !CharEq(s[j], Conjunctions[2][0], true);
    }
  }
}

=== FILE: cut_command.dfy ===
/** The CUT command grammar (`command_handlers/cut.py`):
    `^(cut|split|divide|slice)(\s+<target>)?(\s+at\s+<timestamp>)?$`,
    case-insensitive. The target defaults to "current"; the timestamp is
    always stored in frames. */
module CutCommand {
  import opened Base
  import opened Text
  import opened Regex
  import opened Values
  import opened Operations
  import opened TargetGrammar

  const Verbs: seq<string> := ["cut", "split", "divide", "slice"]

  /** `[\w\s:-]` */
  const StampChars := CharSet([WordClass, SpaceClass, Chr(':'), Chr('-')], false)

  /** `\s+at\s+(?P<timestamp>[\w\s:-]+)` */
  const AtStamp := Seq([Spaces1, Lit("at"), Spaces1, Group("timestamp", Plus(StampChars))])

  /** Everything after the verb. */
  const Body := EndingIn(Opt(Cat(Spaces1, FullTarget(Plain))), Opt(AtStamp))

  const Pattern := Cat(Bol, Cat(Group("verb", OneOf(Verbs)), Body))

  /** `CutCommandHandler.match`. */
  predicate Matches(s: string) {
    Match(Pattern, s, true).Some?
  }

  /** The target a cut refers to: the pronoun when one was written, else
      the captured target, else the current clip. */
  function ChosenTarget(r: Reference): (t: string)
    ensures t != ""
    ensures Given(r.pronoun) ==> t == r.pronoun.value
    ensures !Given(r.pronoun) && !Given(r.target) ==> t == "current"
  {
    if Given(r.pronoun) then r.pronoun.value
    else if Given(r.target) && LowerStr(r.target.value) != "at" then r.target.value
    else "current"
  }

  /** `CutCommandHandler.parse`: a CUT operation on the chosen target, or
      UNKNOWN with the raw text when the pattern does not match. A
      timestamp that does not convert raises, as in the source. */
  function Parse(s: string, fr: int): (r: Res<EditOperation>)
    ensures !Matches(s) ==> r == Ok(Unknown(s))
    ensures Matches(s) ==>
      var h := Match(Pattern, s, true).value;
      var ref := ReferenceOf(s, h, Plain);
      var ts := Captured(s, h, "timestamp");
      && (r.Err? <==> Given(ts) && TimestampFrames(ts.value, fr).Err?)
      && (r.Ok? ==>
            && r.value.kind == "CUT"
            && r.value.target == Some(ChosenTarget(ref))
            && Get(r.value.params, "timestamp")
               == (if Given(ts) then Some(VInt(TimestampFrames(ts.value, fr).value)) else None)
            && Get(r.value.params, "reference_type")
               == KindValue(TargetKind(Some(ChosenTarget(ref)), Given(ref.pronoun), ref))
            && Get(r.value.params, "reference_pronoun")
               == (if Given(ref.pronoun) then Some(VStr(LowerStr(ref.pronoun.value))) else None))
    ensures Matches(s) && r.Ok? ==>
      var ref := ReferenceOf(s, Match(Pattern, s, true).value, Plain);
      !Given(ref.target) && !Given(ref.pronoun) ==>
        && r.value.target == Some("current")
        && Get(r.value.params, "reference_type") == (if Given(ref.ordinal) then Some(VStr("ordinal")) else None)
  {
    match Match(Pattern, s, true)
    case None => Ok(Unknown(s))
    case Some(h) =>
      var ref := ReferenceOf(s, h, Plain);
      var target := ChosenTarget(ref);
      CurrentKind(ref);
      var params :- ClipParams(Some(target), Given(ref.pronoun), ref, Captured(s, h, "timestamp"), fr);
      Ok(EditOperation("CUT", Some(target), params))
  }

  /** Every text the grammar accepts opens with one of the cut verbs and is
      matched to its end. */
  lemma MatchShape(s: string)
    requires Matches(s)
    ensures exists k :: 0 <= k < |Verbs| && LitAt(s, 0, Verbs[k], true)
    ensures AtEnd(s, Match(Pattern, s, true).value.pos)
  {
    AnchoredWords("verb", Verbs, Body, s, true);
  }

  /** With neither a target nor a pronoun written the cut refers to the
      current clip, whose reference type is "ordinal" exactly when an
      ordinal was captured. */
  lemma CurrentKind(r: Reference)
    ensures !Given(r.target) && !Given(r.pronoun) ==>
      TargetKind(Some(ChosenTarget(r)), false, r) == (if Given(r.ordinal) then Some("ordinal") else None)
  {
    if !Given(r.target) && !Given(r.pronoun) {
      assert LowerStr("current") == "current";
      assert !StartsWith("current", "clip named") && !StartsWith("current", "the clip that starts at");
    }
  }
}

=== FILE: executor.dfy ===
/** `CommandExecutor`: the timeline being edited, its command history,
    and `execute`, which resolves a clip reference, hands the operation to
    the first registered handler that accepts it and records the command
    with the timeline before and after it. The group cut handler lives here
    because it calls back into `execute` once per clip it cuts. Fresh clip
    ids come from `mint`, a parameter standing for `uuid4`: each handler
    run takes the next two. */
module Executor {
  import opened Base
  import opened Text
  import opened Values
  import opened Operations
  import opened Clips
  import opened Timelines
  import opened ClipQueries
  import opened ExecutorHandlers
  import History
  import TimeUtils

  datatype Executor = Executor(tl: Timeline, history: History.History, minted: nat)

  /** The executor after a call and what the call returned or raised. */
  datatype Run = Run(ex: Executor, result: Res<ExecutionResult>)

  /** `CommandExecutor(timeline)`. */
  function Start(tl: Timeline): (ex: Executor)
    ensures ex.tl == tl && ex.history.entries == [] && ex.history.redo == []
  {
    Executor(tl, History.Fresh, 0)
  }

  const GroupKind := "CUT_GROUP"

  // ---- reference resolution ----

  /** Whether `execute` tries to resolve the target: a truthy
      `reference_type` and a non-empty target. */
  predicate Refers(op: EditOperation) {
    Truthy(Lookup(op.params, "reference_type")) && Given(op.target)
  }

  /** The parameters resolution drops. */
  const RefKeys: set<string> := {"reference_type", "ordinal", "ref_track_type"}

  /** The operation after reference resolution: unchanged when there is
      nothing to resolve, `None` when the reference names no clip (an
      empty name counts as none), else the resolved name as the target and
      the three reference parameters gone. */
  function Resolution(tl: Timeline, op: EditOperation): (r: Res<Option<EditOperation>>)
    ensures !Refers(op) ==> r == Ok(Some(op))
    ensures r.Err? ==> Refers(op) && Lookup(op.params, "reference_type") == VStr("ordinal") && r.exc == AttributeError
    ensures Refers(op) && r.Ok? && r.value.Some? ==>
      var q := r.value.value;
      q.kind == op.kind && Given(q.target)
      && (forall k :: Get(q.params, k) == (if k in RefKeys then None else Get(op.params, k)))
  {
    if !Refers(op) then Ok(Some(op))
    else
      var p := op.params;
      var name :- Resolve(tl, op.target.value, Lookup(p, "reference_type"), TrackTypeOf(p), Lookup(p, "ordinal"), Lookup(p, "ref_track_type"));
      if Given(name) then Ok(Some(EditOperation(op.kind, name, Without(p, RefKeys)))) else Ok(None)
  }

  /** A reference resolves to the name `resolve_clip_reference` returns,
      and fails to when that is missing or empty. */
  lemma ResolvedName(tl: Timeline, op: EditOperation)
    requires Refers(op) && Resolution(tl, op).Ok?
    ensures var p := op.params;
      var name := Resolve(tl, op.target.value, Lookup(p, "reference_type"), TrackTypeOf(p), Lookup(p, "ordinal"), Lookup(p, "ref_track_type"));
      var r := Resolution(tl, op).value;
      name.Ok? && (r.None? <==> !Given(name.value)) && (r.Some? ==> r.value.target == name.value)
  {
  }

  /** `operation.parameters["clip_id"] = clip_id`, and the same for a
      truthy `second_clip_id`, with the values read before resolution. */
  function WithIds(p0: Params, op: EditOperation): (q: EditOperation)
    ensures q.kind == op.kind && q.target == op.target
    ensures Get(q.params, "clip_id") == Some(Lookup(p0, "clip_id"))
    ensures Get(q.params, "second_clip_id") ==
      (if Truthy(Lookup(p0, "second_clip_id")) then Some(Lookup(p0, "second_clip_id")) else Get(op.params, "second_clip_id"))
    ensures forall k :: k != "clip_id" && k != "second_clip_id" ==> Get(q.params, k) == Get(op.params, k)
  {
    var p := Assign(op.params, "clip_id", Lookup(p0, "clip_id"));
    var second := Lookup(p0, "second_clip_id");
    op.(params := if Truthy(second) then Assign(p, "second_clip_id", second) else p)
  }

  /** The message when a reference names no clip. */
  function Unresolved(op: EditOperation): string
    requires op.target.Some?
  {
    "Could not resolve reference '" + op.target.value + "' for track type '" + Str(TrackTypeOf(op.params)) + "'."
  }

  // ---- recording ----

  /** The command's history entry goes on `h`, with the snapshot taken
      before the call and the timeline after it. */
  function Record(h: History.History, before: Timeline, after: Timeline, minted: nat,
                  text: Option<string>, op: EditOperation, res: ExecutionResult): (r: Run)
    ensures r.result == Ok(res) && r.ex.tl == after && r.ex.minted == minted
    ensures r.ex.history == History.AddEntry(h, History.Entry(text, op, res, before, after))
  {
    Run(Executor(after, History.AddEntry(h, History.Entry(text, op, res, before, after)), minted), Ok(res))
  }

  /** What every call that returns leaves behind: its own entry on top of
      the history, holding the command text, the result, the timeline the
      call started from and the one it ended with; nothing left to redo;
      and the oldest entry it added also starting from the timeline the call
      started from. */
  predicate Recorded(ex: Executor, r: Run, text: Option<string>)
    requires r.result.Ok?
  {
    var es := r.ex.history.entries;
    var n := |ex.history.entries|;
    |es| > n && es[n].before == ex.tl
    && es[|es| - 1].text == text && es[|es| - 1].result == r.result.value
    && es[|es| - 1].before == ex.tl && es[|es| - 1].after == r.ex.tl
    && r.ex.history.redo == []
  }

  /** Recording on top of a history that only grew since `ex` gives what
      `Recorded` asks. */
  lemma RecordedOnTop(ex: Executor, h: History.History, after: Timeline, minted: nat,
                      text: Option<string>, op: EditOperation, res: ExecutionResult)
    requires ex.history.entries <= h.entries
    requires |h.entries| > |ex.history.entries| ==> h.entries[|ex.history.entries|].before == ex.tl
    ensures var r := Record(h, ex.tl, after, minted, text, op, res);
      Recorded(ex, r, text) && ex.history.entries <= r.ex.history.entries
      && |r.ex.history.entries| == |h.entries| + 1
  {
  }

  // ---- execute ----

  /** `CommandExecutor.execute(operation, command_text)`. An exception a
      handler raises propagates and records nothing; for a group cut the
      cuts made before it stay, with their entries. */
  function Execute(ex: Executor, op: EditOperation, text: Option<string>, mint: nat -> string): (r: Run)
    ensures ex.history.entries <= r.ex.history.entries
    ensures r.result.Ok? ==> Recorded(ex, r, text)
    ensures op.kind != GroupKind && r.result.Ok? ==> |r.ex.history.entries| == |ex.history.entries| + 1
    ensures op.kind != GroupKind && r.result.Err? ==> r.ex.tl == ex.tl && r.ex.history == ex.history
    decreases Rank(op), 2, 0
  {
    match Resolution(ex.tl, op)
    case Err(e) => Run(ex, Err(e))
    case Ok(None) =>
      var res := ExecutionResult(false, Unresolved(op));
      RecordedOnTop(ex, ex.history, ex.tl, ex.minted, text, op, res);
      Record(ex.history, ex.tl, ex.tl, ex.minted, text, op, res)
    case Ok(Some(op1)) => Dispatched(ex, WithIds(op.params, op1), text, mint)
  }

  /** Only a group cut calls back into `execute`. */
  function Rank(op: EditOperation): nat {
    if op.kind == GroupKind then 2 else 0
  }

  /** The operation, once resolved and given its ids, run by the first
      registered handler accepting it, or reported unknown. */
  function Dispatched(ex: Executor, op: EditOperation, text: Option<string>, mint: nat -> string): (r: Run)
    ensures ex.history.entries <= r.ex.history.entries
    ensures r.result.Ok? ==> Recorded(ex, r, text)
    ensures op.kind != GroupKind && r.result.Ok? ==> |r.ex.history.entries| == |ex.history.entries| + 1
    ensures op.kind != GroupKind && r.result.Err? ==> r.ex.tl == ex.tl && r.ex.history == ex.history
    decreases Rank(op), 1, 0
  {
    match Dispatch(op)
    case None =>
      var res := ExecutionResult(false, "Unknown operation: " + op.kind);
      RecordedOnTop(ex, ex.history, ex.tl, ex.minted, text, op, res);
      Record(ex.history, ex.tl, ex.tl, ex.minted, text, op, res)
    case Some(h) =>
      if h == GroupCutHandler then
        var run := GroupCut(ex, op, mint);
        match run.result
        case Err(e) => run
        case Ok(res) =>
          RecordedOnTop(ex, run.ex.history, run.ex.tl, run.ex.minted, text, op, res);
          Record(run.ex.history, ex.tl, run.ex.tl, run.ex.minted, text, op, res)
      else Handled(ex, h, op, text, mint)
  }

  /** A registered handler other than the group cut run on the timeline,
      with the next two fresh ids; its result recorded unless it raised. */
  function Handled(ex: Executor, h: Handler, op: EditOperation, text: Option<string>, mint: nat -> string): (r: Run)
    requires h != GroupCutHandler
    ensures r.result.Err? ==> r.ex.tl == ex.tl && r.ex.history == ex.history
    ensures r.result.Ok? ==> |r.ex.history.entries| == |ex.history.entries| + 1 && ex.history.entries <= r.ex.history.entries
    ensures r.result.Ok? ==> Recorded(ex, r, text)
  {
    var o := Apply(h, ex.tl, op, NewIds(mint(ex.minted), mint(ex.minted + 1)));
    match o.result
    case Err(e) => Run(ex.(tl := o.tl), Err(e))
    case Ok(res) =>
      RecordedOnTop(ex, ex.history, o.tl, ex.minted + 2, text, op, res);
      Record(ex.history, ex.tl, o.tl, ex.minted + 2, text, op, res)
  }

  // ---- the group cut ----

  /** The frame a group cut looks at: a number is taken as a frame count
      as it is (`int(float(ts))`), anything else goes through the
      executor's `_timestamp_to_frames`, which reads seconds. */
  function GroupFrames(ts: Value, fr: int): (r: Res<int>)
    ensures ts.VInt? ==> r == Ok(ts.i)
    ensures ts.VReal? ==> r == Ok(TimeUtils.Trunc(ts.r))
    ensures ts.VStr? || ts.VNone? ==> r == TimeUtils.TimestampToFrames(ts, fr)
  {
    match ts
    case VInt(i) => Ok(i)
    case VReal(x) => Ok(TimeUtils.Trunc(x))
    case VBool(b) => Ok(if b then 1 else 0)
    case _ => TimeUtils.TimestampToFrames(ts, fr)
  }

  /** Some clip of the list with that name lies strictly around frame `t`. */
  predicate Spans(cs: seq<Clip>, name: string, t: int) {
    exists i :: 0 <= i < |cs| && cs[i].name == name && cs[i].start < t < cs[i].end
  }

  /** The clips of one track around frame `t`, with that track's index
      among the tracks of its type. */
  function HitsIn(cs: seq<Clip>, t: int, j: nat): (r: seq<(string, nat)>)
    ensures |r| <= |cs|
    ensures forall k :: 0 <= k < |r| ==> r[k].1 == j && Spans(cs, r[k].0, t)
    ensures forall i :: 0 <= i < |cs| && cs[i].start < t < cs[i].end ==> (cs[i].name, j) in r
  {
    if |cs| == 0 then []
    else
      var rest := HitsIn(cs[1..], t, j);
      assert forall k :: 0 <= k < |rest| ==> Spans(cs, rest[k].0, t) by {
        forall k | 0 <= k < |rest| ensures Spans(cs, rest[k].0, t) {
          var i :| 0 <= i < |cs[1..]| && cs[1..][i].name == rest[k].0 && cs[1..][i].start < t < cs[1..][i].end;
          assert cs[i + 1] == cs[1..][i];
        }
      }
      assert forall i :: 1 <= i < |cs| ==> cs[i] == cs[1..][i - 1];
      (if cs[0].start < t < cs[0].end then [(cs[0].name, j)] else []) + rest
  }

  /** The clips of the chosen tracks, from the `j`-th on, around frame `t`. */
  function HitsFrom(ts: seq<Track>, idxs: seq<nat>, t: int, j: nat): (r: seq<(string, nat)>)
    requires forall k :: 0 <= k < |idxs| ==> idxs[k] < |ts|
    requires j <= |idxs|
    ensures forall k :: 0 <= k < |r| ==> j <= r[k].1 < |idxs| && Spans(ts[idxs[r[k].1]].clips, r[k].0, t)
    ensures forall a, i :: (j <= a < |idxs| && 0 <= i < |ts[idxs[a]].clips| && ts[idxs[a]].clips[i].start < t < ts[idxs[a]].clips[i].end
      ==> (ts[idxs[a]].clips[i].name, a) in r)
    decreases |idxs| - j
  {
    if j == |idxs| then [] else HitsIn(ts[idxs[j]].clips, t, j) + HitsFrom(ts, idxs, t, j + 1)
  }

  /** The `(name, track index)` pairs a group cut collects: every top-level
      clip of every track of the type whose span holds frame `t` strictly
      inside, tracks in order and clips in order within a track. */
  function Hits(tl: Timeline, tt: Value, t: int): (r: seq<(string, nat)>)
    ensures forall k :: 0 <= k < |r| ==>
      var idxs := TracksOf(tl.tracks, tt);
      r[k].1 < |idxs| && Spans(tl.tracks[idxs[r[k].1]].clips, r[k].0, t)
    ensures var idxs := TracksOf(tl.tracks, tt);
      forall a, i :: (0 <= a < |idxs| && 0 <= i < |tl.tracks[idxs[a]].clips| && tl.tracks[idxs[a]].clips[i].start < t < tl.tracks[idxs[a]].clips[i].end
        ==> (tl.tracks[idxs[a]].clips[i].name, a) in r)
  {
    HitsFrom(tl.tracks, TracksOf(tl.tracks, tt), t, 0)
  }

  /** The clips a group cut with these parameters cuts: none when the
      timestamp is falsy or does not convert. */
  function Selected(tl: Timeline, p: Params): seq<(string, nat)> {
    var ts := Lookup(p, "timestamp");
    if !Truthy(ts) then []
    else match GroupFrames(ts, tl.frameRate)
      case Err(_) => []
      case Ok(t) => Hits(tl, TrackTypeOf(p), t)
  }

  /** The cut a group cut issues for one collected clip. */
  function CutOp(name: string, j: nat, ts: Value, tt: Value): (op: EditOperation)
    ensures op.kind == "CUT" && op.target == Some(name)
    ensures Lookup(op.params, "timestamp") == ts && Lookup(op.params, "track_type") == tt
    ensures Lookup(op.params, "track_index") == VInt(j)
  {
    EditOperation("CUT", Some(name), Assign(Assign(Assign(Empty, "timestamp", ts), "track_type", tt), "track_index", VInt(j)))
  }

  /** The executor after the cuts and, unless one raised, each clip's name
      with its cut's result. */
  datatype Cuts = Cuts(ex: Executor, done: Res<seq<(string, ExecutionResult)>>)

  /** One `executor.execute(cut_op)`, without command text: one entry
      more when it returns, nothing changed when it raises. */
  function CutStep(ex: Executor, name: string, j: nat, ts: Value, tt: Value, mint: nat -> string): (r: Run)
    ensures ex.history.entries <= r.ex.history.entries
    ensures r.result.Ok? ==> (|r.ex.history.entries| == |ex.history.entries| + 1
      && r.ex.history.entries[|ex.history.entries|].before == ex.tl
      && r.ex.history.entries[|ex.history.entries|].text.None?)
    decreases 0, 3, 0
  {
    Execute(ex, CutOp(name, j, ts, tt), None, mint)
  }

  /** The loop running `executor.execute(cut_op)` for each collected clip,
      without command text. */
  function CutEach(ex: Executor, items: seq<(string, nat)>, ts: Value, tt: Value, mint: nat -> string): (r: Cuts)
    ensures ex.history.entries <= r.ex.history.entries
    ensures r.done.Ok? ==> |r.done.value| == |items| && |r.ex.history.entries| == |ex.history.entries| + |items|
    ensures r.done.Ok? ==> forall k :: 0 <= k < |items| ==> r.done.value[k].0 == items[k].0
    ensures r.done.Ok? ==> forall k :: |ex.history.entries| <= k < |r.ex.history.entries| ==> r.ex.history.entries[k].text.None?
    ensures r.done.Ok? && |items| > 0 ==> r.ex.history.entries[|ex.history.entries|].before == ex.tl
    ensures r.done.Ok? && |items| == 0 ==> r.ex == ex
    decreases 1, 0, |items|
  {
    if |items| == 0 then Cuts(ex, Ok([]))
    else
      var (name, j) := items[0];
      var run := CutStep(ex, name, j, ts, tt, mint);
      match run.result
      case Err(e) => Cuts(run.ex, Err(e))
      case Ok(res) =>
        var rest := CutEach(run.ex, items[1..], ts, tt, mint);
        PrefixGrows(ex.history.entries, run.ex.history.entries, rest.ex.history.entries);
        match rest.done
        case Err(e) => Cuts(rest.ex, Err(e))
        case Ok(rs) =>
          CutsChain(ex.history.entries, run.ex.history.entries, rest.ex.history.entries, ex.tl);
          assert forall k :: 1 <= k < |items| ==> items[k] == items[1..][k - 1];
          Cuts(rest.ex, Ok([(name, res)] + rs))
  }

  lemma PrefixGrows<T>(a: seq<T>, b: seq<T>, c: seq<T>)
    requires a <= b && b <= c
    ensures a <= c
  {
    assert c[..|a|] == b[..|a|];
  }

  /** One cut's entry followed by the rest's: the first keeps its place
      and every entry added carries no command text. */
  lemma CutsChain(a: seq<History.Entry>, b: seq<History.Entry>, c: seq<History.Entry>, tl: Timeline)
    requires a <= b && b <= c && |b| == |a| + 1
    requires b[|a|].before == tl && b[|a|].text.None?
    requires forall k :: |b| <= k < |c| ==> c[k].text.None?
    ensures c[|a|].before == tl
    ensures forall k :: |a| <= k < |c| ==> c[k].text.None?
  {
    assert c[|a|] == b[|a|];
  }

  /** How many of the cuts succeeded. */
  function Succeeded(rs: seq<(string, ExecutionResult)>): (n: nat)
    ensures n <= |rs|
    ensures n == |rs| <==> forall k :: 0 <= k < |rs| ==> rs[k].1.success
    ensures n == 0 <==> forall k :: 0 <= k < |rs| ==> !rs[k].1.success
  {
    if |rs| == 0 then 0
    else
      var m := Succeeded(rs[1..]);
      assert forall k :: 1 <= k < |rs| ==> rs[k] == rs[1..][k - 1];
      (if rs[0].1.success then 1 else 0) + m
  }

  /** `"; ".join(f"{name}: {msg}" ...)`. */
  function Details(rs: seq<(string, ExecutionResult)>): string {
    if |rs| == 0 then ""
    else rs[0].0 + ": " + rs[0].1.message + (if |rs| > 1 then "; " else "") + Details(rs[1..])
  }

  function Messages(rs: seq<(string, ExecutionResult)>): (ms: seq<string>)
    ensures |ms| == |rs| && forall k :: 0 <= k < |rs| ==> ms[k] == rs[k].1.message
  {
    seq(|rs|, k requires 0 <= k < |rs| => rs[k].1.message)
  }

  /** The group cut's summary: the counts, each clip's message, and the
      Python list of the messages; a success exactly when every cut
      succeeded. */
  function Summary(rs: seq<(string, ExecutionResult)>): (r: ExecutionResult)
    ensures r.success <==> forall k :: 0 <= k < |rs| ==> rs[k].1.success
    ensures StartsWith(r.message, GroupHead + Counts(rs))
    ensures StartsWith(r.message, GroupHead)
  {
    var tail := Details(rs) + " | DEBUG: " + StrListRepr(Messages(rs));
    Starts(GroupHead + Counts(rs), tail);
    Starts(GroupHead, Counts(rs) + tail);
    Assoc(GroupHead, Counts(rs), tail);
    ExecutionResult(Succeeded(rs) == |rs|, (GroupHead + Counts(rs)) + tail)
  }

  const GroupHead := "Group CUT: "

  /** The counts opening the summary. */
  function Counts(rs: seq<(string, ExecutionResult)>): string {
    NatToString(Succeeded(rs)) + " succeeded, " + NatToString(|rs| - Succeeded(rs)) + " failed. "
  }

  lemma Assoc(a: string, b: string, c: string)
    ensures (a + b) + c == a + (b + c)
  {
  }

  lemma Starts(head: string, tail: string)
    ensures StartsWith(head + tail, head)
  {
    assert (head + tail)[..|head|] == head;
  }

  /** `GroupCutOperationHandler.execute`: cut, one `execute` each, every
      top-level clip of the type around the timestamp. A cut that raises
      ends the group with the exception. */
  function GroupCut(ex: Executor, op: EditOperation, mint: nat -> string): (r: Run)
    ensures ex.history.entries <= r.ex.history.entries
    ensures r.result.Ok? ==> |r.ex.history.entries| == |ex.history.entries| + |Selected(ex.tl, op.params)|
    ensures r.result.Ok? ==> forall k :: |ex.history.entries| <= k < |r.ex.history.entries| ==> r.ex.history.entries[k].text.None?
    ensures r.result.Ok? && |r.ex.history.entries| > |ex.history.entries| ==> r.ex.history.entries[|ex.history.entries|].before == ex.tl
    ensures r.result.Ok? && |Selected(ex.tl, op.params)| == 0 ==> r.ex == ex && !r.result.value.success
    ensures r.result.Ok? && |Selected(ex.tl, op.params)| > 0 ==>
      StartsWith(r.result.value.message, "Group CUT: ")
    decreases 1, 1, 0
  {
    var tt := TrackTypeOf(op.params);
    var ts := Lookup(op.params, "timestamp");
    if !Truthy(ts) then Run(ex, Ok(ExecutionResult(false, "Missing timestamp for group cut operation.")))
    else
      match GroupFrames(ts, ex.tl.frameRate)
      case Err(e) => Run(ex, Err(e))
      case Ok(t) =>
        var items := Hits(ex.tl, tt, t);
        if |items| == 0 then
          Run(ex, Ok(ExecutionResult(false, "No clips found for track type '" + Str(tt) + "' containing timestamp " + Str(ts) + ".")))
        else CutAll(ex, items, ts, tt, mint)
  }

  /** The cuts of a group and their summary. */
  function CutAll(ex: Executor, items: seq<(string, nat)>, ts: Value, tt: Value, mint: nat -> string): (r: Run)
    requires |items| > 0
    ensures ex.history.entries <= r.ex.history.entries
    ensures r.result.Ok? ==> |r.ex.history.entries| == |ex.history.entries| + |items|
    ensures r.result.Ok? ==> forall k :: |ex.history.entries| <= k < |r.ex.history.entries| ==> r.ex.history.entries[k].text.None?
    ensures r.result.Ok? ==> r.ex.history.entries[|ex.history.entries|].before == ex.tl
    ensures r.result.Ok? ==> StartsWith(r.result.value.message, "Group CUT: ")
    decreases 1, 0, |items| + 1
  {
    var cuts := CutEach(ex, items, ts, tt, mint);
    match cuts.done
    case Err(e) => Run(cuts.ex, Err(e))
    case Ok(rs) => Run(cuts.ex, Ok(Summary(rs)))
  }

  // ---- undo and redo ----

  /** `CommandExecutor.undo`: the timeline goes back to the newest entry's
      before snapshot; false when there is nothing to undo. */
  function Undo(ex: Executor): (r: (Executor, bool))
    ensures r.1 <==> |ex.history.entries| > 0
    ensures r.0.history == History.Undo(ex.history).0 && r.0.minted == ex.minted
    ensures r.1 ==> r.0.tl == ex.history.entries[|ex.history.entries| - 1].before
    ensures !r.1 ==> r.0 == ex
  {
    var (h, snap) := History.Undo(ex.history);
    match snap
    case Some(t) => (Executor(t, h, ex.minted), true)
    case None => (ex, false)
  }

  /** `CommandExecutor.redo`: the timeline goes forward to the most
      recently undone entry's after snapshot; false when nothing was
      undone. */
  function Redo(ex: Executor): (r: (Executor, bool))
    ensures r.1 <==> |ex.history.redo| > 0
    ensures r.0.history == History.Redo(ex.history).0 && r.0.minted == ex.minted
    ensures r.1 ==> r.0.tl == ex.history.redo[|ex.history.redo| - 1].after
    ensures !r.1 ==> r.0 == ex
  {
    var (h, snap) := History.Redo(ex.history);
    match snap
    case Some(t) => (Executor(t, h, ex.minted), true)
    case None => (ex, false)
  }

  // ---- properties of execute with undo and redo ----

  /** Undo right after any command that returned puts the timeline back
      as it was before the command; redo then brings back the executor as
      the command left it. */
  lemma UndoAfterExecute(ex: Executor, op: EditOperation, text: Option<string>, mint: nat -> string)
    requires Execute(ex, op, text, mint).result.Ok?
    ensures var r := Execute(ex, op, text, mint).ex;
      Undo(r).1 && Undo(r).0.tl == ex.tl
      && Redo(Undo(r).0).1 && Redo(Undo(r).0).0 == r
  {
    var r := Execute(ex, op, text, mint).ex;
    History.RedoAfterUndo(r.history);
  }

  /** A command that raises, other than a group cut, changes nothing. */
  lemma RaisedChangesNothing(ex: Executor, op: EditOperation, text: Option<string>, mint: nat -> string)
    requires op.kind != GroupKind && Execute(ex, op, text, mint).result.Err?
    ensures Execute(ex, op, text, mint).ex.tl == ex.tl
    ensures Execute(ex, op, text, mint).ex.history == ex.history
  {
  }

  /** A reference that names no clip still records the command, with the
      timeline untouched before and after. */
  lemma UnresolvedRecorded(ex: Executor, op: EditOperation, text: Option<string>, mint: nat -> string)
    requires Refers(op) && Resolution(ex.tl, op) == Ok(None)
    ensures var r := Execute(ex, op, text, mint);
      r.result == Ok(ExecutionResult(false, Unresolved(op))) && r.ex.tl == ex.tl
      && r.ex.history == History.AddEntry(ex.history, History.Entry(text, op, r.result.value, ex.tl, ex.tl))
  {
  }

  /** An operation type no handler accepts is reported, and recorded,
      with the timeline untouched. */
  lemma UnknownRecorded(ex: Executor, op: EditOperation, text: Option<string>, mint: nat -> string)
    requires !Refers(op) && forall h: Handler :: Accepts(h) != op.kind
    ensures var r := Execute(ex, op, text, mint);
      r.result == Ok(ExecutionResult(false, "Unknown operation: " + op.kind)) && r.ex.tl == ex.tl
      && |r.ex.history.entries| == |ex.history.entries| + 1
      && r.ex.history.entries[|ex.history.entries|].op == WithIds(op.params, op)
  {
    var op2 := WithIds(op.params, op);
    DispatchByKind(op2, CutHandler);
  }

  /** The handler always sees `clip_id`, None when the caller gave none. */
  lemma ClipIdPassed(ex: Executor, op: EditOperation, text: Option<string>, mint: nat -> string)
    requires !Refers(op) && op.kind != GroupKind && Execute(ex, op, text, mint).result.Ok?
    requires exists h: Handler :: Accepts(h) == op.kind
    ensures var es := Execute(ex, op, text, mint).ex.history.entries;
      Get(es[|es| - 1].op.params, "clip_id") == Some(Lookup(op.params, "clip_id"))
  {
    var op2 := WithIds(op.params, op);
    var h :| Accepts(h) == op.kind;
    DispatchByKind(op2, h);
  }

  /** A group cut, reference-free, that returns adds one entry per clip it
      cut, without command text, and its own entry on top: one undo takes
      the timeline back to before the group, but leaves the single cuts
      in the history. */
  lemma GroupCutEntries(ex: Executor, op: EditOperation, text: Option<string>, mint: nat -> string)
    requires op.kind == GroupKind && !Refers(op) && Execute(ex, op, text, mint).result.Ok?
    ensures var r := Execute(ex, op, text, mint).ex;
      var n := |ex.history.entries|;
      var k := |Selected(ex.tl, op.params)|;
      |r.history.entries| == n + k + 1
      && (forall j :: n <= j < n + k ==> r.history.entries[j].text.None?)
      && Undo(r).0.tl == ex.tl && |Undo(r).0.history.entries| == n + k
  {
    var op2 := WithIds(op.params, op);
    DispatchByKind(op2, GroupCutHandler);
    assert Execute(ex, op, text, mint) == Dispatched(ex, op2, text, mint);
    GroupRecorded(ex, op2, text, mint);
    SelectedKeepsIds(ex.tl, op.params, op);
  }

  /** The same, for the group cut once dispatched. */
  lemma GroupRecorded(ex: Executor, op: EditOperation, text: Option<string>, mint: nat -> string)
    requires Dispatch(op) == Some(GroupCutHandler) && Dispatched(ex, op, text, mint).result.Ok?
    ensures var r := Dispatched(ex, op, text, mint).ex;
      var n := |ex.history.entries|;
      var k := |Selected(ex.tl, op.params)|;
      |r.history.entries| == n + k + 1
      && (forall j :: n <= j < n + k ==> r.history.entries[j].text.None?)
      && Undo(r).0.tl == ex.tl && |Undo(r).0.history.entries| == n + k
  {
  }

  /** Giving the operation its ids changes nothing a group cut selects by. */
  lemma SelectedKeepsIds(tl: Timeline, p0: Params, op: EditOperation)
    ensures Selected(tl, WithIds(p0, op).params) == Selected(tl, op.params)
  {
    var q := WithIds(p0, op).params;
    assert Get(q, "timestamp") == Get(op.params, "timestamp");
    assert Get(q, "track_type") == Get(op.params, "track_type");
  }

  // ---- many commands, then undo and redo ----

  /** Commands run in order; `None` once one raises. */
  function ExecuteAll(ex: Executor, ops: seq<EditOperation>, mint: nat -> string): (r: Option<Executor>)
    ensures r.Some? ==> ex.history.entries <= r.value.history.entries
    ensures r.Some? && |r.value.history.entries| > |ex.history.entries| ==>
      r.value.history.entries[|ex.history.entries|].before == ex.tl
    ensures r.Some? && (forall i :: 0 <= i < |ops| ==> ops[i].kind != GroupKind) ==>
      |r.value.history.entries| == |ex.history.entries| + |ops|
    ensures r.Some? && |ops| > 0 ==> |r.value.history.entries| > |ex.history.entries|
    ensures r.Some? && |ops| > 0 ==> r.value.history.redo == []
    decreases |ops|
  {
    if |ops| == 0 then Some(ex)
    else
      var run := Execute(ex, ops[0], None, mint);
      if run.result.Err? then None
      else
        var rest := ExecuteAll(run.ex, ops[1..], mint);
        if rest.None? then None
        else
          PrefixGrows(ex.history.entries, run.ex.history.entries, rest.value.history.entries);
          assert rest.value.history.entries[|ex.history.entries|] == run.ex.history.entries[|ex.history.entries|];
          assert forall i :: 1 <= i < |ops| ==> ops[i] == ops[1..][i - 1];
          rest
  }

  /** `n` undos, the last one outermost. */
  function UndoN(ex: Executor, n: nat): Executor
    decreases n
  {
    if n == 0 then ex else Undo(UndoN(ex, n - 1)).0
  }

  /** `n` redos, the first one innermost. */
  function RedoN(ex: Executor, n: nat): Executor
    decreases n
  {
    if n == 0 then ex else RedoN(Redo(ex).0, n - 1)
  }

  /** After `n` undos the timeline is the before snapshot of the `n`-th
      newest entry, and the `n` newest entries wait to be redone. */
  lemma {:induction false} UndoNReaches(ex: Executor, n: nat)
    requires 0 < n <= |ex.history.entries|
    ensures var es := ex.history.entries;
      UndoN(ex, n).tl == es[|es| - n].before && UndoN(ex, n).history.entries == es[..|es| - n]
    ensures |UndoN(ex, n).history.redo| == |ex.history.redo| + n && UndoN(ex, n).minted == ex.minted
    decreases n
  {
    var es := ex.history.entries;
    if n > 1 {
      UndoNReaches(ex, n - 1);
      assert es[..|es| - (n - 1)][..|es| - n] == es[..|es| - n];
    }
  }

  /** Redo looks at the history only: the timeline it starts from is
      replaced. */
  lemma {:induction false} RedoNHistoryOnly(a: Executor, b: Executor, m: nat)
    requires a.history == b.history && a.minted == b.minted && m <= |a.history.redo|
    ensures RedoN(a, m).history == RedoN(b, m).history
    ensures m > 0 ==> RedoN(a, m).tl == RedoN(b, m).tl
    decreases m
  {
    if m > 0 {
      RedoNHistoryOnly(Redo(a).0, Redo(b).0, m - 1);
    }
  }

  /** `n` redos after `n` undos give back the history, and the timeline
      of the newest entry. */
  lemma {:induction false} RedoNUndoN(ex: Executor, n: nat)
    requires n <= |ex.history.entries|
    ensures RedoN(UndoN(ex, n), n).history == ex.history
    ensures n > 0 ==> RedoN(UndoN(ex, n), n).tl == ex.history.entries[|ex.history.entries| - 1].after
    decreases n
  {
    if n > 0 {
      var z := UndoN(ex, n - 1);
      if n > 1 {
        UndoNReaches(ex, n - 1);
      }
      assert |z.history.entries| > 0;
      History.RedoAfterUndo(z.history);
      var w := Redo(Undo(z).0).0;
      RedoNUndoN(ex, n - 1);
      RedoNHistoryOnly(w, z, n - 1);
    }
  }

  /** After `n` commands that all return, none of them a group cut, `n`
      undos return to the timeline before the first, with the history as it
      was; `n` redos then restore the timeline the last command left. */
  lemma UndoAllCommands(ex: Executor, ops: seq<EditOperation>, mint: nat -> string)
    requires |ops| > 0 && ExecuteAll(ex, ops, mint).Some?
    requires forall i :: 0 <= i < |ops| ==> ops[i].kind != GroupKind
    ensures var r := ExecuteAll(ex, ops, mint).value;
      UndoN(r, |ops|).tl == ex.tl && UndoN(r, |ops|).history.entries == ex.history.entries
      && RedoN(UndoN(r, |ops|), |ops|).history == r.history
  {
    UndoBack(ex, ExecuteAll(ex, ops, mint).value, |ops|);
  }

  /** Undoing the `n` entries added since `ex` returns to its timeline and
      entries; as many redos give back the history. */
  lemma UndoBack(ex: Executor, r: Executor, n: nat)
    requires 0 < n && ex.history.entries <= r.history.entries && |r.history.entries| == |ex.history.entries| + n
    requires r.history.entries[|ex.history.entries|].before == ex.tl
    ensures UndoN(r, n).tl == ex.tl && UndoN(r, n).history.entries == ex.history.entries
    ensures RedoN(UndoN(r, n), n).history == r.history
  {
    UndoNReaches(r, n);
    RedoNUndoN(r, n);
  }
}

=== FILE: executor_handlers.dfy ===
/** The operation handlers the executor dispatches to: cut, trim, join,
    remove, overlay and add text from the backend, and the fade handler of
    the older tree. Each takes the timeline and the operation and gives the
    timeline after the call, the `ExecutionResult` or the exception raised,
    and the change notifications sent. The group cut handler calls back into
    the executor and lives with it. */
module ExecutorHandlers {
  import opened Base
  import opened Text
  import opened Values
  import opened Operations
  import opened Clips
  import opened ClipTree
  import opened Timelines
  import opened ClipQueries
  import TimeUtils

  /** Fresh ids for the clips a handler creates (`uuid4` in the source). */
  datatype NewIds = NewIds(first: string, second: string)

  /** The handler classes, in the order the executor registers them. */
  datatype Handler = GroupCutHandler | CutHandler | TrimHandler | JoinHandler
                   | AddTextHandler | OverlayHandler | FadeHandler | RemoveHandler

  const Registry: seq<Handler> := [GroupCutHandler, CutHandler, TrimHandler, JoinHandler,
                                   AddTextHandler, OverlayHandler, FadeHandler, RemoveHandler]

  /** The operation type a handler's `can_handle` tests for. */
  function Accepts(h: Handler): string {
    match h
    case GroupCutHandler => "CUT_GROUP"
    case CutHandler => "CUT"
    case TrimHandler => "TRIM"
    case JoinHandler => "JOIN"
    case AddTextHandler => "ADD_TEXT"
    case OverlayHandler => "OVERLAY"
    case FadeHandler => "FADE"
    case RemoveHandler => "REMOVE"
  }

  predicate CanHandle(h: Handler, op: EditOperation) {
    op.kind == Accepts(h)
  }

  /** The first of `hs` whose `can_handle` accepts the operation. */
  function FirstHandler(hs: seq<Handler>, op: EditOperation): (r: Option<Handler>)
    ensures r.Some? ==> r.value in hs && CanHandle(r.value, op)
    ensures r.None? <==> forall h :: h in hs ==> !CanHandle(h, op)
  {
    if |hs| == 0 then None
    else if CanHandle(hs[0], op) then Some(hs[0])
    else FirstHandler(hs[1..], op)
  }

  /** The loop over `self.handlers` in `execute`. */
  function Dispatch(op: EditOperation): Option<Handler> {
    FirstHandler(Registry, op)
  }

  /** Every operation type is claimed by exactly one registered handler,
      so the first match is the handler of that type, and an operation of
      any other type finds none. */
  lemma DispatchByKind(op: EditOperation, h: Handler)
    ensures Dispatch(op) == Some(h) <==> Accepts(h) == op.kind
    ensures Dispatch(op).None? <==> forall g: Handler :: Accepts(g) != op.kind
  {
    forall g: Handler ensures g in Registry {
      match g
      case GroupCutHandler => assert Registry[0] == g;
      case CutHandler => assert Registry[1] == g;
      case TrimHandler => assert Registry[2] == g;
      case JoinHandler => assert Registry[3] == g;
      case AddTextHandler => assert Registry[4] == g;
      case OverlayHandler => assert Registry[5] == g;
      case FadeHandler => assert Registry[6] == g;
      case RemoveHandler => assert Registry[7] == g;
    }
    var d := FirstHandler(Registry, op);
    if d.Some? {
      if Accepts(h) == op.kind {
        AcceptsOne(d.value, h);
      }
    } else {
      forall g: Handler ensures Accepts(g) != op.kind {
        assert g in Registry;
      }
    }
  }

  /** No two handlers accept the same operation type. */
  lemma AcceptsOne(g: Handler, h: Handler)
    requires Accepts(g) == Accepts(h)
    ensures g == h
  {
    var a, b := Accepts(g), Accepts(h);
    assert |a| == |b| && a[0] == b[0] && a[1] == b[1];
  }

  // ---- arguments ----

  /** A result that leaves the timeline as it was. */
  function Reply(tl: Timeline, success: bool, msg: string): Outcome<ExecutionResult> {
    Outcome(tl, Ok(ExecutionResult(success, msg)), 0)
  }

  /** `operation.parameters.get("track_type", "video")`. */
  function TrackTypeOf(p: Params): Value {
    LookupOr(p, "track_type", VStr(VideoType))
  }

  /** Python's `int(v)`: a bool is 0 or 1, a float truncates, a text must
      spell an integer and None raises. */
  function IntOf(v: Value): (r: Res<int>)
    ensures v.VInt? ==> r == Ok(v.i)
    ensures v.VNone? ==> r == Err(TypeError)
    ensures r.Err? ==> v.VNone? || (v.VStr? && ParsePyInt(v.s).None?)
  {
    match v
    case VNone => Err(TypeError)
    case VBool(b) => Ok(if b then 1 else 0)
    case VInt(i) => Ok(i)
    case VReal(x) => Ok(TimeUtils.Trunc(x))
    case VStr(s) => if ParsePyInt(s).Some? then Ok(ParsePyInt(s).value) else Err(ValueError)
  }

  /** The first of the names some track of the type holds at top level:
      the relative index of that track. */
  function FoundIndex(tl: Timeline, names: seq<Value>, tt: Value): (r: Option<nat>)
    ensures r.None? <==> forall j :: 0 <= j < |names| ==> !HasName(TopClips(tl, tt), names[j])
    ensures |names| > 0 && FindTrackIndex(tl, names[0], tt).Some? ==> r == FindTrackIndex(tl, names[0], tt)
    ensures |names| > 0 && FindTrackIndex(tl, names[0], tt).None? ==> r == FoundIndex(tl, names[1..], tt)
    decreases |names|
  {
    if |names| == 0 then None
    else
      FoundAmongTopClips(tl, names[0], tt);
      match FindTrackIndex(tl, names[0], tt)
      case Some(k) => Some(k)
      case None =>
        var r := FoundIndex(tl, names[1..], tt);
        assert forall j :: 1 <= j < |names| ==> names[j] == names[1..][j - 1];
        r
  }

  /** Where a handler acts: the given track index through `int()`, or,
      without one, the track found for the names; `None` when none holds
      them. */
  function PlaceOf(tl: Timeline, names: seq<Value>, tt: Value, raw: Value): (r: Option<Res<int>>)
    ensures !raw.VNone? ==> r == Some(IntOf(raw))
    ensures raw.VNone? ==> (r.None? <==> forall j :: 0 <= j < |names| ==> !HasName(TopClips(tl, tt), names[j]))
    ensures raw.VNone? && r.Some? ==> r.value == Ok(FoundIndex(tl, names, tt).value)
  {
    if !raw.VNone? then Some(IntOf(raw))
    else
      match FoundIndex(tl, names, tt)
      case Some(k) => Some(Ok(k))
      case None => None
  }

  /** The name and id a search uses for `clip_id`: None searches by name,
      a text by id, and any other value by an id no clip has (ids are
      texts), here the name search for no name. */
  function SearchKey(name: Option<string>, id: Value): (Option<string>, Option<string>) {
    match id
    case VNone => (name, None)
    case VStr(s) => (name, Some(s))
    case _ => (None, None)
  }

  /** A search by `SearchKey` finds the clips `clip.clip_id == clip_id`
      (or, without an id, `clip.name == clip_name`) selects. */
  lemma SearchKeyMatches(c: Clip, name: Option<string>, id: Value)
    ensures var (n, i) := SearchKey(name, id);
      Matches(c, KeyOf(n, i)) <==> (if id.VNone? then Some(c.name) == name else c.id.Some? && VStr(c.id.value) == id)
  {
  }

  /** `clip_name or clip_id`, as an f-string renders it. */
  function NameOrId(name: Option<string>, id: Value): (r: string)
    ensures Given(name) ==> r == name.value
    ensures !Given(name) ==> r == Str(id)
  {
    if Given(name) then name.value else Str(id)
  }

  /** A parameter value where the timeline expects seconds: numbers as they
      are, bools as 0 or 1; `None` for None (and for a text, which the
      caller handles). */
  function Seconds(v: Value): (r: Option<real>)
    ensures v.VInt? ==> r == Some(v.i as real)
    ensures v.VReal? ==> r == Some(v.r)
    ensures r.None? <==> v.VNone? || v.VStr?
  {
    match v
    case VInt(i) => Some(i as real)
    case VReal(x) => Some(x)
    case VBool(b) => Some(if b then 1.0 else 0.0)
    case _ => None
  }

  /** `get_track` for a track type that is a parameter value: a type that
      is not a text matches no track. */
  function TrackFor(tl: Timeline, tt: Value, index: int): (r: Res<nat>)
    ensures tt.VStr? ==> r == GetTrack(tl, tt.s, index)
    ensures !tt.VStr? ==> r == Err(IndexError)
  {
    if tt.VStr? then GetTrack(tl, tt.s, index) else Err(IndexError)
  }

  /** `timeline.trim_clip(name, ts, track_type, index, clip_id)` with the
      parameter values the handlers pass. The timestamp is multiplied by
      the frame rate and rounded, as seconds; a text timestamp reaches
      `round(text * frame_rate)`, a TypeError, once the clip is found. */
  function TrimWith(tl: Timeline, name: Option<string>, ts: Value, tt: Value, index: int, id: Value, ids: NewIds): (r: Outcome<bool>)
    ensures TrackFor(tl, tt, index).Err? ==> r == Outcome(tl, Err(IndexError), 0)
    ensures tt.VStr? && !ts.VStr? ==>
      var (n, i) := SearchKey(name, id);
      r == TrimClip(tl, n, Seconds(ts), tt.s, index, i, ids.first, ids.second)
    ensures ts.VStr? ==> r.tl == tl && r.notified == 0 && r.result != Ok(true)
    ensures ts.VStr? && TrackFor(tl, tt, index).Ok? ==>
      var (n, i) := SearchKey(name, id);
      (r.result == Err(TypeError) <==> Locate(tl.tracks[TrackFor(tl, tt, index).value].clips, KeyOf(n, i)).Some?)
  {
    if !tt.VStr? then Outcome(tl, Err(IndexError), 0)
    else
      var (n, i) := SearchKey(name, id);
      if ts.VStr? then
        match GetTrack(tl, tt.s, index)
        case Err(e) => Outcome(tl, Err(e), 0)
        case Ok(k) =>
          if Locate(tl.tracks[k].clips, KeyOf(n, i)).Some? then Outcome(tl, Err(TypeError), 0)
          else Outcome(tl, Ok(false), 0)
      else TrimClip(tl, n, Seconds(ts), tt.s, index, i, ids.first, ids.second)
  }

  /** An integer timestamp, meant as frames, is read as seconds: the clip
      is split at `ts * frame_rate`. */
  lemma FramesReadAsSeconds(tl: Timeline, name: string, n: int, tt: string, index: int, ids: NewIds)
    ensures var r := TrimWith(tl, Some(name), VInt(n), VStr(tt), index, VNone, ids);
      r.result == Ok(true) <==>
        GetTrack(tl, tt, index).Ok? &&
        var cs := tl.tracks[GetTrack(tl, tt, index).value].clips;
        var l := Locate(cs, ByName(Some(name)));
        l.Some? && At(cs, l.value).start < n * tl.frameRate < At(cs, l.value).end
  {
    var x := n as real * tl.frameRate as real;
    assert x == (n * tl.frameRate) as real;
    assert SecondsToFrames(n as real, tl.frameRate) == n * tl.frameRate;
  }

  /** The outcome of a timeline call returning a bool, with the message for
      its return value; an exception passes through. */
  function Report(o: Outcome<bool>, yes: string, no: string): (r: Outcome<ExecutionResult>)
    ensures r.tl == o.tl && r.notified == o.notified
    ensures o.result.Err? ==> r.result == Err(o.result.exc)
    ensures o.result.Ok? ==> r.result == Ok(ExecutionResult(o.result.value, if o.result.value then yes else no))
  {
    match o.result
    case Err(e) => Outcome(o.tl, Err(e), o.notified)
    case Ok(b) => Outcome(o.tl, Ok(ExecutionResult(b, if b then yes else no)), o.notified)
  }

  // ---- cut, trim, join, remove ----

  const MissingCut := "Missing clip name or timestamp for CUT operation."
  const MissingTrim := "Missing clip name/id or timestamp for TRIM operation."
  const MissingJoin := "Missing one or both clip names for JOIN operation."

  function NotFound(what: string, tt: Value): string {
    "Clip '" + what + "' not found in any " + Str(tt) + " track."
  }

  /** `CutOperationHandler.execute`: split the named clip by name only, in
      the given track or else the first track of the type holding it. */
  function Cut(tl: Timeline, op: EditOperation, ids: NewIds): (r: Outcome<ExecutionResult>)
    ensures !Given(op.target) || Lookup(op.params, "timestamp").VNone? ==> r == Reply(tl, false, MissingCut)
    ensures Given(op.target) && !Lookup(op.params, "timestamp").VNone? ==>
      var tt := TrackTypeOf(op.params);
      match PlaceOf(tl, [VStr(op.target.value)], tt, Lookup(op.params, "track_index"))
      case None => r == Reply(tl, false, NotFound(op.target.value, tt))
      case Some(Err(e)) => r == Outcome(tl, Err(e), 0)
      case Some(Ok(k)) =>
        var o := TrimWith(tl, op.target, Lookup(op.params, "timestamp"), tt, k, VNone, ids);
        r.tl == o.tl && r.notified == o.notified && (r.result.Ok? <==> o.result.Ok?)
        && (r.result.Ok? ==> r.result.value.success == o.result.value)
    ensures r.result.Ok? ==> (r.result.value.success <==> r.notified == 1) && (!r.result.value.success ==> r.tl == tl)
    ensures r.result.Err? ==> r.tl == tl && r.notified == 0
  {
    var ts := Lookup(op.params, "timestamp");
    if !Given(op.target) || ts.VNone? then Reply(tl, false, MissingCut)
    else
      var name := op.target.value;
      var tt := TrackTypeOf(op.params);
      match PlaceOf(tl, [VStr(name)], tt, Lookup(op.params, "track_index"))
      case None => Reply(tl, false, NotFound(name, tt))
      case Some(Err(e)) => Outcome(tl, Err(e), 0)
      case Some(Ok(k)) =>
        var m := "Cut operation on " + name + " at " + Str(ts) + " frames: ";
        Report(TrimWith(tl, op.target, ts, tt, k, VNone, ids), m + "True", m + "False")
  }

  /** The cut message names the clip and the timestamp as given. */
  lemma CutMessage(tl: Timeline, op: EditOperation, ids: NewIds)
    requires Cut(tl, op, ids).result.Ok? && Given(op.target) && !Lookup(op.params, "timestamp").VNone?
    requires Cut(tl, op, ids).result.value.message != NotFound(op.target.value, TrackTypeOf(op.params))
    ensures var res := Cut(tl, op, ids).result.value;
      res.message == "Cut operation on " + op.target.value + " at " + Str(Lookup(op.params, "timestamp")) + " frames: " + BoolStr(res.success)
  {
  }

  /** `TrimOperationHandler.execute`: like the cut, but a clip id may stand
      in for the name and is passed on to the search. Without a track index
      the track is looked up by name, so an id alone is never found. */
  function Trim(tl: Timeline, op: EditOperation, ids: NewIds): (r: Outcome<ExecutionResult>)
    ensures var id := Lookup(op.params, "clip_id");
      (!Given(op.target) && !Truthy(id)) || Lookup(op.params, "timestamp").VNone? ==> r == Reply(tl, false, MissingTrim)
    ensures var id := Lookup(op.params, "clip_id");
      !((!Given(op.target) && !Truthy(id)) || Lookup(op.params, "timestamp").VNone?) ==>
      var tt := TrackTypeOf(op.params);
      match PlaceOf(tl, [OptValue(op.target)], tt, Lookup(op.params, "track_index"))
      case None => r == Reply(tl, false, NotFound(NameOrId(op.target, id), tt))
      case Some(Err(e)) => r == Outcome(tl, Err(e), 0)
      case Some(Ok(k)) =>
        var o := TrimWith(tl, op.target, Lookup(op.params, "timestamp"), tt, k, id, ids);
        r.tl == o.tl && r.notified == o.notified && (r.result.Ok? <==> o.result.Ok?)
        && (r.result.Ok? ==> r.result.value.success == o.result.value)
    ensures r.result.Ok? ==> (r.result.value.success <==> r.notified == 1) && (!r.result.value.success ==> r.tl == tl)
    ensures r.result.Err? ==> r.tl == tl && r.notified == 0
  {
    var id := Lookup(op.params, "clip_id");
    var ts := Lookup(op.params, "timestamp");
    if (!Given(op.target) && !Truthy(id)) || ts.VNone? then Reply(tl, false, MissingTrim)
    else
      var tt := TrackTypeOf(op.params);
      var what := NameOrId(op.target, id);
      match PlaceOf(tl, [OptValue(op.target)], tt, Lookup(op.params, "track_index"))
      case None => Reply(tl, false, NotFound(what, tt))
      case Some(Err(e)) => Outcome(tl, Err(e), 0)
      case Some(Ok(k)) =>
        var m := "Trimmed " + what + " at " + Str(ts) + " frames: ";
        Report(TrimWith(tl, op.target, ts, tt, k, id, ids), m + "True", m + "False")
  }

  /** With only a clip id and no track index, the track lookup searches
      for no name and the trim reports the id as not found. */
  lemma TrimByIdNeedsIndex(tl: Timeline, op: EditOperation, ids: NewIds)
    requires op.target.None? && Truthy(Lookup(op.params, "clip_id"))
    requires !Lookup(op.params, "timestamp").VNone? && Lookup(op.params, "track_index").VNone?
    ensures Trim(tl, op, ids) == Reply(tl, false, NotFound(Str(Lookup(op.params, "clip_id")), TrackTypeOf(op.params)))
  {
    var tt := TrackTypeOf(op.params);
    forall i | 0 <= i < |TopClips(tl, tt)| ensures VStr(TopClips(tl, tt)[i].name) != VNone { }
  }

  /** The second clip's name as `join_clips` compares it: a value that is
      not a text equals no clip name. */
  function NameArg(v: Value): Option<string> {
    if v.VStr? then Some(v.s) else None
  }

  function Neither(a: string, b: Value, tt: Value): string {
    "Neither '" + a + "' nor '" + Str(b) + "' found in any " + Str(tt) + " track."
  }

  /** `JoinOperationHandler.execute`: join by name only, in the given
      track, else the first track holding the first clip, else the first
      holding the second. */
  function Join(tl: Timeline, op: EditOperation, ids: NewIds): (r: Outcome<ExecutionResult>)
    ensures !Given(op.target) || !Truthy(Lookup(op.params, "second")) ==> r == Reply(tl, false, MissingJoin)
    ensures Given(op.target) && Truthy(Lookup(op.params, "second")) ==>
      var tt := TrackTypeOf(op.params);
      var second := Lookup(op.params, "second");
      match PlaceOf(tl, [VStr(op.target.value), second], tt, Lookup(op.params, "track_index"))
      case None => r == Reply(tl, false, Neither(op.target.value, second, tt))
      case Some(Err(e)) => r == Outcome(tl, Err(e), 0)
      case Some(Ok(k)) =>
        var o := if tt.VStr? then JoinClips(tl, op.target, NameArg(second), tt.s, k, None, None, Some(ids.first))
                 else Outcome(tl, Err(IndexError), 0);
        r.tl == o.tl && r.notified == o.notified && (r.result.Ok? <==> o.result.Ok?)
        && (r.result.Ok? ==> r.result.value.success == o.result.value)
    ensures r.result.Ok? ==> (r.result.value.success <==> r.notified == 1) && (!r.result.value.success ==> r.tl == tl)
    ensures r.result.Err? ==> r.tl == tl && r.notified == 0
  {
    var second := Lookup(op.params, "second");
    if !Given(op.target) || !Truthy(second) then Reply(tl, false, MissingJoin)
    else
      var first := op.target.value;
      var tt := TrackTypeOf(op.params);
      match PlaceOf(tl, [VStr(first), second], tt, Lookup(op.params, "track_index"))
      case None => Reply(tl, false, Neither(first, second, tt))
      case Some(Err(e)) => Outcome(tl, Err(e), 0)
      case Some(Ok(k)) =>
        var effect := Lookup(op.params, "effect");
        var m := "Joined " + first + " and " + Str(second)
          + (if Truthy(effect) then " with effect '" + Str(effect) + "'" else "") + ": ";
        var o := if tt.VStr? then JoinClips(tl, op.target, NameArg(second), tt.s, k, None, None, Some(ids.first))
                 else Outcome(tl, Err(IndexError), 0);
        Report(o, m + "True", m + "False")
  }

  /** The join message mentions the effect exactly when one is given. */
  lemma JoinEffectMessage(tl: Timeline, op: EditOperation, ids: NewIds)
    requires Given(op.target) && Truthy(Lookup(op.params, "second"))
    requires PlaceOf(tl, [VStr(op.target.value), Lookup(op.params, "second")], TrackTypeOf(op.params), Lookup(op.params, "track_index")).Some?
    requires Join(tl, op, ids).result.Ok?
    ensures var effect := Lookup(op.params, "effect");
      var res := Join(tl, op, ids).result.value;
      res.message == "Joined " + op.target.value + " and " + Str(Lookup(op.params, "second"))
        + (if Truthy(effect) then " with effect '" + Str(effect) + "'" else "") + ": " + BoolStr(res.success)
  {
  }

  /** `get_track(track_type, index)` for a raw `track_index` value, as
      `remove_clip` receives it: with no track of the type it raises
      IndexError first; otherwise `index >= len(matches)` and the list
      subscript need an integer (a bool is one). */
  function RawTrack(tl: Timeline, tt: Value, raw: Value): (r: Res<nat>)
    ensures raw.VInt? ==> r == TrackFor(tl, tt, raw.i)
    ensures raw.VBool? ==> r == TrackFor(tl, tt, if raw.b then 1 else 0)
    ensures |TracksOf(tl.tracks, tt)| == 0 ==> r == Err(IndexError)
    ensures r.Ok? ==> raw.VInt? || raw.VBool?
  {
    var m := TracksOf(tl.tracks, tt);
    if |m| == 0 then Err(IndexError)
    else
      match raw
      case VInt(i) => TrackFor(tl, tt, i)
      case VBool(b) => TrackFor(tl, tt, if b then 1 else 0)
      case VReal(x) => if x >= |m| as real then Err(IndexError) else Err(TypeError)
      case _ => Err(TypeError)
  }

  /** `RemoveOperationHandler.execute`: remove by name or id from the
      track at `track_index`, 0 by default, with no lookup. */
  function Remove(tl: Timeline, op: EditOperation): (r: Outcome<ExecutionResult>)
    ensures var raw := LookupOr(op.params, "track_index", VInt(0));
      var tt := TrackTypeOf(op.params);
      var id := Lookup(op.params, "clip_id");
      RawTrack(tl, tt, raw).Err? ==> r == Outcome(tl, Err(RawTrack(tl, tt, raw).exc), 0)
    ensures var raw := LookupOr(op.params, "track_index", VInt(0));
      var tt := TrackTypeOf(op.params);
      var id := Lookup(op.params, "clip_id");
      var (n, i) := SearchKey(op.target, id);
      RawTrack(tl, tt, raw).Ok? ==>
        var o := RemoveClip(tl, n, tt.s, IntOf(raw).value, i);
        r.tl == o.tl && r.notified == o.notified && o.result.Ok? && r.result.Ok?
        && r.result.value.success == o.result.value
        && r.result.value.message == (if o.result.value then "Removed clip '" + NameOrId(op.target, id) + "' from " + Str(tt) + " track."
                                      else "Clip '" + NameOrId(op.target, id) + "' not found in " + Str(tt) + " track.")
    ensures r.result.Ok? ==> (r.result.value.success <==> r.notified == 1) && (!r.result.value.success ==> r.tl == tl)
    ensures r.result.Err? ==> r.tl == tl && r.notified == 0
  {
    var raw := LookupOr(op.params, "track_index", VInt(0));
    var tt := TrackTypeOf(op.params);
    var id := Lookup(op.params, "clip_id");
    match RawTrack(tl, tt, raw)
    case Err(e) => Outcome(tl, Err(e), 0)
    case Ok(_) =>
      var (n, i) := SearchKey(op.target, id);
      var what := NameOrId(op.target, id);
      Report(RemoveClip(tl, n, tt.s, IntOf(raw).value, i),
             "Removed clip '" + what + "' from " + Str(tt) + " track.",
             "Clip '" + what + "' not found in " + Str(tt) + " track.")
  }

  // ---- overlay, add text, fade ----

  /** The overlay handler's `to_frame`: None stays None; otherwise
      `int(float(v) * frame_rate)`, and when that raises, `int(v)`. */
  function ToFrame(v: Value, fr: int): (r: Res<Option<int>>)
    ensures v.VNone? <==> r == Ok(None)
    ensures v.VInt? ==> r == Ok(Some(v.i * fr))
    ensures v.VReal? ==> r == Ok(Some(TimeUtils.Trunc(v.r * fr as real)))
    ensures r.Err? ==> r.exc == ValueError && v.VStr? && ParsePyFloat(v.s).None? && ParsePyInt(v.s).None?
  {
    match v
    case VNone => Ok(None)
    case VBool(b) => Ok(Some(if b then fr else 0))
    case VInt(i) => Ok(Some(i * fr))
    case VReal(x) => Ok(Some(TimeUtils.Trunc(v.r * fr as real)))
    case VStr(s) =>
      match ParsePyFloat(s)
      case Some(x) => Ok(Some(TimeUtils.Trunc(x * fr as real)))
      case None =>
        match ParsePyInt(s)
        case Some(n) => Ok(Some(n))
        case None => Err(ValueError)
  }

  /** A frame number or None, as an f-string renders it. */
  function FrameStr(f: Option<int>): string {
    if f.Some? then IntToString(f.value) else "None"
  }

  /** `track.clips.append(effect)` on the track at `k`: the effect goes
      last among that track's range effects. */
  function AppendFx(tl: Timeline, k: nat, e: Effect): (r: Timeline)
    requires k < |tl.tracks|
    ensures |r.tracks| == |tl.tracks| && r.tracks[k].fx == tl.tracks[k].fx + [e]
    ensures r.tracks[k].clips == tl.tracks[k].clips && r.tracks[k].trackType == tl.tracks[k].trackType
    ensures forall j :: 0 <= j < |tl.tracks| && j != k ==> r.tracks[j] == tl.tracks[j]
    ensures r.duration == tl.duration && r.transitions == tl.transitions && r.frameRate == tl.frameRate
  {
    tl.(tracks := tl.tracks[k := tl.tracks[k].(fx := tl.tracks[k].fx + [e])])
  }

  /** `OverlayOperationHandler.execute` (backend): the start and the end
      scaled by the frame rate (values from the parser are frames already,
      so they are scaled twice), one "overlay" effect on the first effect
      track, no change notification. */
  function Overlay(tl: Timeline, op: EditOperation): (r: Outcome<ExecutionResult>)
    ensures r.notified == 0
    ensures r.result.Err? <==>
      ToFrame(Lookup(op.params, "start"), tl.frameRate).Err? || ToFrame(Lookup(op.params, "end"), tl.frameRate).Err?
      || GetTrack(tl, EffectType, 0).Err?
    ensures r.result.Err? ==> r.tl == tl
    ensures r.result.Ok? ==> r.result.value.success
    ensures r.result.Ok? ==>
      var k := GetTrack(tl, EffectType, 0).value;
      var p := op.params;
      r.tl == AppendFx(tl, k, Effect("overlay", FromPairs([("asset", Lookup(p, "asset")), ("position", Lookup(p, "position"))]),
                                     ToFrame(Lookup(p, "start"), tl.frameRate).value, ToFrame(Lookup(p, "end"), tl.frameRate).value))
  {
    var p := op.params;
    var asset, position, start, end := Lookup(p, "asset"), Lookup(p, "position"), Lookup(p, "start"), Lookup(p, "end");
    match ToFrame(start, tl.frameRate)
    case Err(e) => Outcome(tl, Err(e), 0)
    case Ok(sf) =>
      match ToFrame(end, tl.frameRate)
      case Err(e) => Outcome(tl, Err(e), 0)
      case Ok(ef) =>
        match GetTrack(tl, EffectType, 0)
        case Err(e) => Outcome(tl, Err(e), 0)
        case Ok(k) =>
          var e := Effect("overlay", FromPairs([("asset", asset), ("position", position)]), sf, ef);
          var msg := "Overlay " + Str(asset) + " at " + Str(position) + " from " + Str(start) + " to " + Str(end)
            + " (frames " + FrameStr(sf) + "-" + FrameStr(ef) + ")";
          Outcome(AppendFx(tl, k, e), Ok(ExecutionResult(true, msg)), 0)
  }

  /** The overlay lands on the Effects track of a fresh timeline and
      nowhere else. */
  lemma OverlayOnNewTimeline(fr: int, op: EditOperation)
    requires Lookup(op.params, "start").VNone? && Lookup(op.params, "end").VInt?
    ensures var tl := NewTimeline(fr);
      var r := Overlay(tl, op);
      r.result.Ok? && r.tl.tracks[3].fx == [Effect("overlay", FromPairs([("asset", Lookup(op.params, "asset")), ("position", Lookup(op.params, "position"))]),
                                                    None, Some(Lookup(op.params, "end").i * fr))]
      && r.tl.tracks[..3] == tl.tracks[..3]
  {
    var tl := NewTimeline(fr);
    var m := TypeIndices(tl.tracks, EffectType);
    assert 3 in m;
    assert tl.tracks[m[0]].trackType == EffectType;
    assert GetTrack(tl, EffectType, 0) == Ok(3);
  }

  /** `AddTextOperationHandler.execute`: a report only; the timeline is
      untouched. */
  function AddText(tl: Timeline, op: EditOperation): (r: Outcome<ExecutionResult>)
    ensures r.tl == tl && r.notified == 0 && r.result.Ok? && r.result.value.success
    ensures StartsWith(r.result.value.message, "Add text '" + Str(Lookup(op.params, "text")) + "'")
    ensures EndsWith(r.result.value.message, ParamsRepr(op.params))
  {
    var head := "Add text '" + Str(Lookup(op.params, "text")) + "'";
    var msg := head + " with params " + ParamsRepr(op.params);
    assert msg[..|head|] == head;
    assert msg[|msg| - |ParamsRepr(op.params)|..] == ParamsRepr(op.params);
    Reply(tl, true, msg)
  }

  /** The time range the fade and message-only overlay handlers report,
      by the truthiness of the start and the end. */
  function RangeText(start: Value, end: Value): (r: string)
    ensures Truthy(start) && Truthy(end) ==> r == " from " + Str(start) + " to " + Str(end)
    ensures Truthy(start) && !Truthy(end) ==> r == " starting at " + Str(start)
    ensures !Truthy(start) && Truthy(end) ==> r == " ending at " + Str(end)
    ensures !Truthy(start) && !Truthy(end) ==> r == ""
  {
    if Truthy(start) && Truthy(end) then " from " + Str(start) + " to " + Str(end)
    else if Truthy(start) then " starting at " + Str(start)
    else if Truthy(end) then " ending at " + Str(end)
    else ""
  }

  /** `FadeOperationHandler.execute`: a report only. */
  function Fade(tl: Timeline, op: EditOperation): (r: Outcome<ExecutionResult>)
    ensures r.tl == tl && r.notified == 0 && r.result.Ok? && r.result.value.success
    ensures var p := op.params;
      r.result.value.message == "Fade " + Str(Lookup(p, "direction")) + " " + Str(Lookup(p, "target"))
        + RangeText(Lookup(p, "start"), Lookup(p, "end"))
  {
    var p := op.params;
    Reply(tl, true, "Fade " + Str(Lookup(p, "direction")) + " " + Str(Lookup(p, "target"))
                    + RangeText(Lookup(p, "start"), Lookup(p, "end")))
  }

  /** `OverlayOperationHandler.execute` of the older tree: a report only,
      naming the position only when one is given. */
  function OverlayNote(tl: Timeline, op: EditOperation): (r: Outcome<ExecutionResult>)
    ensures r.tl == tl && r.notified == 0 && r.result.Ok? && r.result.value.success
    ensures var p := op.params;
      r.result.value.message == "Overlay " + Str(Lookup(p, "asset"))
        + (if Truthy(Lookup(p, "position")) then " at the " + Str(Lookup(p, "position")) else "")
        + RangeText(Lookup(p, "start"), Lookup(p, "end"))
  {
    var p := op.params;
    var position := Lookup(p, "position");
    Reply(tl, true, "Overlay " + Str(Lookup(p, "asset")) + (if Truthy(position) then " at the " + Str(position) else "")
                    + RangeText(Lookup(p, "start"), Lookup(p, "end")))
  }

  /** The handler a registered, non-group operation runs. */
  function Apply(h: Handler, tl: Timeline, op: EditOperation, ids: NewIds): (r: Outcome<ExecutionResult>)
    requires h != GroupCutHandler
    ensures r.result.Err? ==> r.tl == tl && r.notified == 0
    ensures r.result.Ok? && !r.result.value.success ==> r.tl == tl && r.notified == 0
  {
    match h
    case CutHandler => Cut(tl, op, ids)
    case TrimHandler => Trim(tl, op, ids)
    case JoinHandler => Join(tl, op, ids)
    case AddTextHandler => AddText(tl, op)
    case OverlayHandler => Overlay(tl, op)
    case FadeHandler => Fade(tl, op)
    case RemoveHandler => Remove(tl, op)
  }
}

=== FILE: fade_command.dfy ===
/** The FADE command grammar (`command_handlers/fade.py`): a fade verb
    ("fade", "dissolve" or "blend"), a direction "in" or "out", then an
    optional target, an optional `at|from <start> to <end>` range and an
    optional `at|from <start>`, matched case-insensitively from the start
    of the text. The target grammar is the fade handler's own copy: it
    also knows "timeline", "video" and "trackN", and has no leading
    "the ". */
module FadeCommand {
  import opened Base
  import opened Text
  import opened Regex
  import opened Values
  import opened Operations
  import opened TargetGrammar
  import AddTextCommand

  const Verbs: seq<string> := ["fade", "dissolve", "blend"]
  const Directions: seq<string> := ["in", "out"]

  /** The alternatives of the fade target group, in pattern order. */
  const Alternatives: seq<Re> :=
    [Lit("audio"), Prefixed("clip"), Lit("timeline"), Lit("video"), Cat(Lit("track"), Plus(Digit)),
     Lit("last clip"), Lit("first clip"), Cat(Lit("clip named "), Plus(NameChars)), Prefixed("subtitle"),
     Prefixed("effect"), OrdinalRef(Plain, "clip")]
    + NaturalRefs(Plain.startTime) + [PronounRe(Plain.pronoun)]

  /** ` (?:at|from) ` */
  const AtOrFrom := Seq([Lit(" "), OneOf(["at", "from"]), Lit(" ")])

  /** Everything after the direction; every part is optional. */
  const Tail := Opts([Cat(Lit(" "), Group(Plain.target, Alts(Alternatives))),
                      Seq([AtOrFrom, Group("start", AddTextCommand.Lazy), Lit(" to "), Group("end", AddTextCommand.Greedy)]),
                      Cat(AtOrFrom, Group("start_only", AddTextCommand.Greedy))])

  const Pattern := WordsSepWords(Verbs, " ", "direction", Directions, Tail)

  /** `FadeCommandHandler.match`. */
  predicate Matches(s: string) {
    Match(Pattern, s, true).Some?
  }

  /** The grammar accepts exactly the texts that open with a fade verb, a
      blank and a direction: whatever follows is optional, and `re.match`
      does not need to reach the end of the text. */
  lemma MatchesExactly(s: string)
    ensures Matches(s) <==> SpellsWordsSepWords(Verbs, " ", Directions, s, true)
  {
    WordsThenWords(Verbs, " ", "direction", Directions, Tail, s, true);
  }

  /** The target a fade names, the pronoun recorded for it and its
      reference type: a pronoun is kept as written and recorded in lower
      case; any other target is lower-cased and classified. */
  function AimOf(r: Reference): (a: AddTextCommand.Aim)
    ensures Given(r.pronoun) ==> a == AddTextCommand.Aim(r.pronoun, Some(LowerStr(r.pronoun.value)), Some("contextual"))
    ensures !Given(r.pronoun) && Given(r.target) ==>
      a == AddTextCommand.Aim(Some(LowerStr(r.target.value)), None, RefKind(LowerStr(r.target.value), r.ordinal))
    ensures !Given(r.pronoun) && !Given(r.target) ==> a == AddTextCommand.Aim(None, None, None)
  {
    if Given(r.pronoun) then AddTextCommand.Aim(r.pronoun, Some(LowerStr(r.pronoun.value)), Some("contextual"))
    else if Given(r.target) then
      var t := LowerStr(r.target.value);
      AddTextCommand.Aim(Some(t), None, RefKind(t, r.ordinal))
    else AddTextCommand.Aim(None, None, None)
  }

  /** Fade and add-text classify a reference alike, except for a target
      that spells a pronoun without the pronoun group, which add-text
      treats as contextual. */
  lemma AimAgreesWithAddText(r: Reference)
    requires Given(r.pronoun) || !Given(r.target) || LowerStr(r.target.value) !in Pronouns
    ensures AimOf(r) == AddTextCommand.AimOf(None, r)
  {
  }

  /** The keys the first part of the parameters holds. */
  const BaseKeys: set<string> := {"direction", "target", "start", "end", "reference_pronoun", "reference_type"}

  /** The first part of the parameters, in the source's order: direction,
      target, start, end, pronoun and reference type. */
  function BaseParams(direction: Option<string>, a: AddTextCommand.Aim, start: Option<string>, end: Option<string>): (p: Params)
    ensures Get(p, "direction") == Some(OptValue(direction))
    ensures Get(p, "target") == (if Given(a.target) then Some(VStr(a.target.value)) else None)
    ensures Get(p, "start") == (if Given(start) then Some(VStr(start.value)) else None)
    ensures Get(p, "end") == (if Given(end) then Some(VStr(end.value)) else None)
    ensures Get(p, "reference_pronoun") == (if Given(a.pronoun) then Some(VStr(a.pronoun.value)) else None)
    ensures Get(p, "reference_type") == (if Given(a.kind) then Some(VStr(a.kind.value)) else None)
    ensures forall k :: k !in BaseKeys ==> Get(p, k).None?
  {
    var p1 := AssignGiven(Assign(Empty, "direction", OptValue(direction)), "target", a.target);
    var p2 := AssignGiven(AssignGiven(p1, "start", start), "end", end);
    AssignGiven(AssignGiven(p2, "reference_pronoun", a.pronoun), "reference_type", a.kind)
  }

  /** The ordinal, with the track type it names, whenever one was
      captured. */
  function OrdinalParams(p: Params, r: Reference): (q: Params)
    ensures Given(r.ordinal) ==> Get(q, "ordinal") == Some(VStr(r.ordinal.value))
    ensures !Given(r.ordinal) ==> q == p
    ensures forall k :: k in BaseKeys ==> Get(q, k) == Get(p, k)
  {
    if Given(r.ordinal) then TrackParams(Assign(p, "ordinal", VStr(r.ordinal.value)), r) else p
  }

  /** The track type an ordinal names, under both keys. */
  function TrackParams(p: Params, r: Reference): (q: Params)
    ensures Given(r.refTrackType) ==>
      Get(q, "ref_track_type") == Some(VStr(r.refTrackType.value)) && Get(q, "track_type") == Some(VStr(r.refTrackType.value))
    ensures !Given(r.refTrackType) ==> q == p
    ensures Get(q, "ordinal") == Get(p, "ordinal")
    ensures forall k :: k in BaseKeys ==> Get(q, k) == Get(p, k)
  {
    if Given(r.refTrackType) then
      Assign(Assign(p, "ref_track_type", VStr(r.refTrackType.value)), "track_type", VStr(r.refTrackType.value))
    else p
  }

  /** The side a relative reference points to, and the start time a
      by-start-time reference names. */
  function PlaceParams(p: Params, a: AddTextCommand.Aim, r: Reference): (q: Params)
    ensures Get(q, "relative_position") ==
      (if a.kind == Some("relative") && a.target == Some("the clip before that one") then Some(VStr("before"))
       else if a.kind == Some("relative") && a.target == Some("the clip after that one") then Some(VStr("after"))
       else Get(p, "relative_position"))
    ensures Get(q, "start_time") == (if a.kind == Some("by_start_time") && Given(r.startTime) then Some(VStr(r.startTime.value)) else Get(p, "start_time"))
    ensures forall k :: k in BaseKeys ==> Get(q, k) == Get(p, k)
    ensures Get(q, "ordinal") == Get(p, "ordinal") && Get(q, "track_type") == Get(p, "track_type")
  {
    var q := if a.kind == Some("relative") && a.target == Some("the clip before that one") then Assign(p, "relative_position", VStr("before"))
             else if a.kind == Some("relative") && a.target == Some("the clip after that one") then Assign(p, "relative_position", VStr("after"))
             else p;
    if a.kind == Some("by_start_time") && Given(r.startTime) then Assign(q, "start_time", VStr(r.startTime.value)) else q
  }

  /** The operation built from what one match of the grammar captured:
      the direction, the reference, and the start and end already
      converted to frames. The target is stored both as the operation's
      target and among its parameters. */
  function FromCaptures(direction: Option<string>, r: Reference, start: Option<string>, end: Option<string>): (op: EditOperation)
    ensures
      var a := AimOf(r);
      && op.kind == "FADE" && op.target == a.target
      && Get(op.params, "direction") == Some(OptValue(direction))
      && Get(op.params, "target") == (if Given(a.target) then Some(VStr(a.target.value)) else None)
      && Get(op.params, "start") == (if Given(start) then Some(VStr(start.value)) else None)
      && Get(op.params, "end") == (if Given(end) then Some(VStr(end.value)) else None)
      && Get(op.params, "reference_pronoun") == (if Given(a.pronoun) then Some(VStr(a.pronoun.value)) else None)
      && Get(op.params, "reference_type") == (if Given(a.kind) then Some(VStr(a.kind.value)) else None)
  {
    var a := AimOf(r);
    EditOperation("FADE", a.target, PlaceParams(OrdinalParams(BaseParams(direction, a, start, end), r), a, r))
  }

  /** `FadeCommandHandler.parse`. */
  function Parse(s: string, fr: int): (op: EditOperation)
    ensures !Matches(s) ==> op == Unknown(s)
    ensures Matches(s) ==>
      var h := Match(Pattern, s, true).value;
      op == FromCaptures(Captured(s, h, "direction"), ReferenceOf(s, h, Plain),
                         AddTextCommand.Frames(AddTextCommand.StartText(s, h), fr), AddTextCommand.Frames(Captured(s, h, "end"), fr))
  {
    match Match(Pattern, s, true)
    case None => Unknown(s)
    case Some(h) =>
      FromCaptures(Captured(s, h, "direction"), ReferenceOf(s, h, Plain),
                   AddTextCommand.Frames(AddTextCommand.StartText(s, h), fr), AddTextCommand.Frames(Captured(s, h, "end"), fr))
  }

  /** The start (or, failing it, the open-ended start) and the end are
      stored in frames, as text, and the target is mirrored among the
      parameters. */
  lemma ParseFrames(s: string, fr: int)
    requires Matches(s)
    ensures
      var h := Match(Pattern, s, true).value;
      var start := AddTextCommand.StartText(s, h);
      var end := Captured(s, h, "end");
      var op := Parse(s, fr);
      && Get(op.params, "start") == (if Given(start) then Some(VStr(FrameText(start.value, fr))) else None)
      && Get(op.params, "end") == (if Given(end) then Some(VStr(FrameText(end.value, fr))) else None)
      && Get(op.params, "target") == (if Given(op.target) then Some(VStr(op.target.value)) else None)
  {
    var h := Match(Pattern, s, true).value;
    var st := AddTextCommand.Frames(AddTextCommand.StartText(s, h), fr);
    var en := AddTextCommand.Frames(Captured(s, h, "end"), fr);
    assert Parse(s, fr) == FromCaptures(Captured(s, h, "direction"), ReferenceOf(s, h, Plain), st, en);
  }

  /** A written ordinal is kept with the track type it names. */
  lemma Details(direction: Option<string>, r: Reference, start: Option<string>, end: Option<string>)
    ensures
      var op := FromCaptures(direction, r, start, end);
      && Get(op.params, "ordinal") == (if Given(r.ordinal) then Some(VStr(r.ordinal.value)) else None)
      && (Given(r.ordinal) && Given(r.refTrackType) ==>
            Get(op.params, "track_type") == Some(VStr(r.refTrackType.value)))
  {
    var a := AimOf(r);
    var p1 := OrdinalParams(BaseParams(direction, a, start, end), r);
    assert FromCaptures(direction, r, start, end).params == PlaceParams(p1, a, r);
  }

  /** A relative reference records which side it points to. */
  lemma RelativeDetails(direction: Option<string>, r: Reference, start: Option<string>, end: Option<string>)
    requires !Given(r.pronoun) && Given(r.target) && !Given(r.ordinal)
    ensures
      var op := FromCaptures(direction, r, start, end);
      && (LowerStr(r.target.value) == "the clip before that one" ==>
            Get(op.params, "relative_position") == Some(VStr("before")))
      && (LowerStr(r.target.value) == "the clip after that one" ==>
            Get(op.params, "relative_position") == Some(VStr("after")))
  {
    var a := AimOf(r);
    var p1 := OrdinalParams(BaseParams(direction, a, start, end), r);
    assert FromCaptures(direction, r, start, end).params == PlaceParams(p1, a, r);
    RelativeSide(LowerStr(r.target.value), r.ordinal);
  }

  /** The two relative references are classified as relative. */
  lemma RelativeSide(t: string, ordinal: Option<string>)
    requires !Given(ordinal)
    ensures t == "the clip before that one" || t == "the clip after that one" ==> RefKind(t, ordinal) == Some("relative")
  {
    if t == "the clip before that one" || t == "the clip after that one" {
      assert t[0] != "clip named"[0];
    }
  }
}

=== FILE: group_cut_command.dfy ===
/** The CUT_GROUP command grammar (`src/command_handlers/group_cut.py`):
    `cut all (clips|audio clips|subtitle clips|effect clips)( at \d{1,2}:\d{2})?`,
    case-insensitive and anchored only at the start, so anything may
    follow. It is recognised by hand. The timestamp is converted at a
    fixed 30 frames per second, whatever the caller's frame rate; the
    handler's `parse` takes no frame rate at all. */
module GroupCutCommand {
  import opened Base
  import opened Text
  import opened Values
  import opened Operations
  import opened Regex
  import TimeUtils

  const Lead := "cut all "
  /** The written target types, in pattern order, and the track types
      they select. */
  const TargetTypes: seq<string> := ["clips", "audio clips", "subtitle clips", "effect clips"]
  const TrackTypes: seq<string> := ["video", "audio", "subtitle", "effect"]

  /** The frame rate the handler hard-codes. */
  const FixedRate := 30

  /** The target type written after the lead, if any. */
  function TypeIndex(s: string): (k: Option<nat>)
    ensures k.Some? ==> k.value < |TargetTypes| && LitAt(s, |Lead|, TargetTypes[k.value], true)
    ensures k.None? ==> forall j :: 0 <= j < |TargetTypes| ==> !LitAt(s, |Lead|, TargetTypes[j], true)
  {
    if LitAt(s, |Lead|, TargetTypes[0], true) then Some(0)
    else if LitAt(s, |Lead|, TargetTypes[1], true) then Some(1)
    else if LitAt(s, |Lead|, TargetTypes[2], true) then Some(2)
    else if LitAt(s, |Lead|, TargetTypes[3], true) then Some(3)
    else None
  }

  /** `GroupCutCommandHandler.match`. */
  predicate Matches(s: string) {
    LitAt(s, 0, Lead, true) && TypeIndex(s).Some?
  }

  /** `\d{1,2}:\d{2}` spelled as a whole. */
  predicate IsClock(t: string) {
    || (|t| == 5 && IsDigit(t[0]) && IsDigit(t[1]) && t[2] == ':' && IsDigit(t[3]) && IsDigit(t[4]))
    || (|t| == 4 && IsDigit(t[0]) && t[1] == ':' && IsDigit(t[2]) && IsDigit(t[3]))
  }

  /** The optional ` at <clock>` at position `i`: the greedy two-digit
      form first, then the one-digit form; nothing when neither follows. */
  function ClockAt(s: string, i: nat): (t: Option<string>)
    ensures t.Some? ==> LitAt(s, i, " at ", true) && IsClock(t.value) && i + 4 + |t.value| <= |s| && s[i + 4..i + 4 + |t.value|] == t.value
  {
    var j := i + 4;
    if !LitAt(s, i, " at ", true) then None
    else if j + 5 <= |s| && IsClock(s[j..j + 5]) then Some(s[j..j + 5])
    else if j + 4 <= |s| && IsClock(s[j..j + 4]) then Some(s[j..j + 4])
    else None
  }

  /** The track type a lower-cased target type selects. */
  function TrackOf(tt: string): (r: Option<string>)
    ensures forall k :: 0 <= k < |TargetTypes| && tt == TargetTypes[k] ==> r == Some(TrackTypes[k])
  {
    if tt == "clips" then Some("video")
    else if tt == "audio clips" then Some("audio")
    else if tt == "subtitle clips" then Some("subtitle")
    else if tt == "effect clips" then Some("effect")
    else None
  }

  /** `GroupCutCommandHandler.parse`: a CUT_GROUP with no target, the track
      type the written target type selects and, when a clock was written,
      the timestamp at 30 frames per second; UNKNOWN otherwise. */
  function Parse(s: string): (r: Res<EditOperation>)
    ensures !Matches(s) ==> r == Ok(Unknown(s))
  {
    if !Matches(s) then Ok(Unknown(s))
    else
      var k := TypeIndex(s).value;
      var tt := LowerStr(s[|Lead|..|Lead| + |TargetTypes[k]|]);
      var ts := ClockAt(s, |Lead| + |TargetTypes[k]|);
      var p := if TrackOf(tt).Some? then Assign(Empty, "track_type", VStr(TrackOf(tt).value)) else Empty;
      if Given(ts) then
        var n :- TimeUtils.TimestampToFrames(VStr(ts.value), FixedRate);
        Ok(EditOperation("CUT_GROUP", None, Assign(p, "timestamp", VInt(n))))
      else Ok(EditOperation("CUT_GROUP", None, p))
  }

  /** The frames `M:SS` or `MM:SS` stands for. */
  function ClockValue(t: string): nat
    requires IsClock(t)
  {
    var k := if |t| == 5 then 2 else 1;
    DigitsValue(t[..k]) * 60 * 30 + DigitsValue(t[k + 1..]) * 30
  }

  /** A matched group cut never fails: it selects the track type of the
      written target type and stores a written clock in frames. */
  lemma Parsed(s: string)
    requires Matches(s)
    ensures
      var k := TypeIndex(s).value;
      var ts := ClockAt(s, |Lead| + |TargetTypes[k]|);
      var r := Parse(s);
      && r.Ok? && r.value.kind == "CUT_GROUP" && r.value.target.None?
      && Get(r.value.params, "track_type") == Some(VStr(TrackTypes[k]))
      && Get(r.value.params, "timestamp") == (if ts.Some? then Some(VInt(ClockValue(ts.value))) else None)
      && forall key :: key != "track_type" && key != "timestamp" ==> Get(r.value.params, key).None?
  {
    var k := TypeIndex(s).value;
    var w := |Lead| + |TargetTypes[k]|;
    FoldedType(s, |Lead|, TargetTypes[k]);
    var ts := ClockAt(s, w);
    if ts.Some? {
      ClockFrames(ts.value);
    }
  }

  /** A case-insensitive match of a lower-case word folds to the word. */
  lemma FoldedType(s: string, i: nat, t: string)
    requires LitAt(s, i, t, true) && t in TargetTypes
    ensures LowerStr(s[i..i + |t|]) == t
  {
    var u := s[i..i + |t|];
    forall j | 0 <= j < |t| ensures Lower(u[j]) == t[j] {
      assert CharEq(s[i + j], t[j], true);
      assert Lower(t[j]) == t[j];
    }
  }

  /** A clock converts without error, to its minutes and seconds in frames. */
  lemma ClockFrames(t: string)
    requires IsClock(t)
    ensures TimeUtils.TimestampToFrames(VStr(t), FixedRate) == Ok(ClockValue(t) as int)
  {
    var k := if |t| == 5 then 2 else 1;
    assert t == t[..k] + ":" + t[k + 1..];
    var mv, sv := MinutesSeconds(t[..k], t[k + 1..]);
    assert ClockValue(t) == mv * 60 * 30 + sv * 30;
  }

  /** `M:SS` with digits only, at 30 frames per second; the values are
      returned to keep the digit reading out of the conversion. */
  lemma MinutesSeconds(m: string, sec: string) returns (mv: int, sv: int)
    requires IsDigits(m) && IsDigits(sec)
    ensures mv == DigitsValue(m) && sv == DigitsValue(sec)
    ensures TimeUtils.TimestampToFrames(VStr(m + ":" + sec), 30) == Ok(mv * 60 * 30 + sv * 30)
  {
    NoColon(m);
    NoColon(sec);
    mv, sv := DigitsValue(m), DigitsValue(sec);
    ParsedParts(m, sec, mv, sv);
  }

  lemma ParsedParts(m: string, sec: string, mv: int, sv: int)
    requires ':' !in m && ':' !in sec
    requires ParsePyInt(m) == Some(mv) && ParsePyInt(sec) == Some(sv)
    ensures TimeUtils.TimestampToFrames(VStr(m + ":" + sec), 30) == Ok(mv * 60 * 30 + sv * 30)
  {
    TimeUtils.MinutesSeconds(m, sec, 30, mv, sv);
  }

  lemma NoColon(t: string)
    requires IsDigits(t)
    ensures ':' !in t && ParsePyInt(t) == Some(DigitsValue(t) as int)
  {
  }
}

=== FILE: history.dfy ===
/** `CommandHistory`: the executed commands, newest last, and the undone
    ones waiting to be redone, most recently undone last. Snapshots are
    timeline values, so the deep copies the source takes are plain
    sharing; the wall-clock timestamp of an entry is not modelled. */
module History {
  import opened Base
  import opened Operations
  import opened Clips

  /** `CommandHistoryEntry`: the command text (absent for the cuts a group
      cut issues), the operation as executed, its result, and the timeline
      before and after it. */
  datatype Entry = Entry(text: Option<string>, op: EditOperation, result: ExecutionResult, before: Timeline, after: Timeline)

  /** `entries` is the undo side, `redo` the source's `undo_stack`. */
  datatype History = History(entries: seq<Entry>, redo: seq<Entry>)

  const Fresh := History([], [])

  /** `add_entry`: the entry goes last and nothing is left to redo. */
  function AddEntry(h: History, e: Entry): (r: History)
    ensures r.entries == h.entries + [e] && r.redo == []
  {
    History(h.entries + [e], [])
  }

  /** `undo`: the newest entry moves to the redo stack and its before
      snapshot is returned; nothing happens when there is nothing to undo. */
  function Undo(h: History): (r: (History, Option<Timeline>))
    ensures |h.entries| == 0 <==> r.1.None?
    ensures |h.entries| == 0 ==> r.0 == h
    ensures |h.entries| > 0 ==>
      var e := h.entries[|h.entries| - 1];
      r.0 == History(h.entries[..|h.entries| - 1], h.redo + [e]) && r.1 == Some(e.before)
  {
    if |h.entries| == 0 then (h, None)
    else
      var e := h.entries[|h.entries| - 1];
      (History(h.entries[..|h.entries| - 1], h.redo + [e]), Some(e.before))
  }

  /** `redo`: the most recently undone entry moves back and its after
      snapshot is returned; nothing happens when nothing was undone. */
  function Redo(h: History): (r: (History, Option<Timeline>))
    ensures |h.redo| == 0 <==> r.1.None?
    ensures |h.redo| == 0 ==> r.0 == h
    ensures |h.redo| > 0 ==>
      var e := h.redo[|h.redo| - 1];
      r.0 == History(h.entries + [e], h.redo[..|h.redo| - 1]) && r.1 == Some(e.after)
  {
    if |h.redo| == 0 then (h, None)
    else
      var e := h.redo[|h.redo| - 1];
      (History(h.entries + [e], h.redo[..|h.redo| - 1]), Some(e.after))
  }

  function Reverse<T>(s: seq<T>): (r: seq<T>)
    ensures |r| == |s|
    ensures forall i :: 0 <= i < |s| ==> r[i] == s[|s| - 1 - i]
  {
    if |s| == 0 then [] else [s[|s| - 1]] + Reverse(s[..|s| - 1])
  }

  /** Every command ever kept, in execution order: the undo side followed
      by the redo stack read from its top down. Undo and redo only move the
      boundary between the two sides. */
  function Tape(h: History): seq<Entry> {
    h.entries + Reverse(h.redo)
  }

  lemma ReversePush<T>(s: seq<T>, x: T)
    ensures Reverse(s + [x]) == [x] + Reverse(s)
  {
    var a := Reverse(s + [x]);
    var b := [x] + Reverse(s);
    assert |a| == |b|;
    forall i | 0 <= i < |a| ensures a[i] == b[i] {
      if i > 0 {
        assert a[i] == (s + [x])[|s| - i];
      }
    }
  }

  /** Undo and redo never lose, add or reorder commands. */
  lemma TapeKept(h: History)
    ensures Tape(Undo(h).0) == Tape(h)
    ensures Tape(Redo(h).0) == Tape(h)
    ensures |Undo(h).0.entries| + |Undo(h).0.redo| == |h.entries| + |h.redo|
    ensures |Redo(h).0.entries| + |Redo(h).0.redo| == |h.entries| + |h.redo|
  {
    if |h.entries| > 0 {
      var n := |h.entries| - 1;
      ReversePush(h.redo, h.entries[n]);
      assert h.entries[..n] + [h.entries[n]] == h.entries;
      assert h.entries[..n] + ([h.entries[n]] + Reverse(h.redo)) == h.entries + Reverse(h.redo);
    }
    if |h.redo| > 0 {
      var m := |h.redo| - 1;
      ReversePush(h.redo[..m], h.redo[m]);
      assert h.redo[..m] + [h.redo[m]] == h.redo;
      assert (h.entries + [h.redo[m]]) + Reverse(h.redo[..m]) == h.entries + ([h.redo[m]] + Reverse(h.redo[..m]));
    }
  }

  /** Redo right after an undo puts the history back and returns the
      undone command's after snapshot. */
  lemma RedoAfterUndo(h: History)
    requires |h.entries| > 0
    ensures Redo(Undo(h).0).0 == h
    ensures Redo(Undo(h).0).1 == Some(h.entries[|h.entries| - 1].after)
  {
    var n := |h.entries| - 1;
    assert h.entries[..n] + [h.entries[n]] == h.entries;
    assert (h.redo + [h.entries[n]])[..|h.redo|] == h.redo;
  }

  /** Undo right after a redo puts the history back and returns the
      redone command's before snapshot. */
  lemma UndoAfterRedo(h: History)
    requires |h.redo| > 0
    ensures Undo(Redo(h).0).0 == h
    ensures Undo(Redo(h).0).1 == Some(h.redo[|h.redo| - 1].before)
  {
    var m := |h.redo| - 1;
    assert h.redo[..m] + [h.redo[m]] == h.redo;
    assert (h.entries + [h.redo[m]])[..|h.entries|] == h.entries;
  }

  /** After a new command, redo has nothing to give back, whatever had
      been undone. */
  lemma NewCommandDropsRedo(h: History, e: Entry)
    ensures Redo(AddEntry(h, e)) == (AddEntry(h, e), None)
    ensures Tape(AddEntry(h, e)) == h.entries + [e]
  {
  }

  /** Undoing every entry, one step at a time, returns the before snapshot
      of the oldest command last and leaves nothing to undo. */
  function UndoAll(h: History): (r: (History, seq<Timeline>))
    ensures r.0.entries == [] && |r.1| == |h.entries|
    ensures forall i :: 0 <= i < |h.entries| ==> r.1[i] == h.entries[|h.entries| - 1 - i].before
    ensures Tape(r.0) == Tape(h)
    decreases |h.entries|
  {
    if |h.entries| == 0 then (h, [])
    else
      var (h1, s) := Undo(h);
      TapeKept(h);
      var (h2, ss) := UndoAll(h1);
      (h2, [s.value] + ss)
  }
}

=== FILE: intent.dfy ===
/** `CommandParser.recognize_intent`: the first row of an ordered table
    of cues found anywhere in the text, compared case-insensitively, names
    the intent; a text no cue occurs in is UNKNOWN. Every cue is a set of
    literal words except `apply .*color correction`, where the two parts
    may be separated by anything but a line break. */
module Intent {
  import opened Base
  import opened Regex

  datatype Cue = Words(ws: seq<string>) | ApplyColorCorrection

  datatype Row = Row(cue: Cue, intent: string)

  const Table: seq<Row> := [
    Row(Words(["cut ", "split ", "divide ", "slice "]), "CUT"),
    Row(Words(["trim ", "shorten ", "crop ", "reduce "]), "TRIM"),
    Row(Words(["join ", "merge ", "combine "]), "JOIN"),
    Row(Words(["add text "]), "ADD_TEXT"),
    Row(Words(["overlay ", "superimpose ", "place ", "put ", "add overlay "]), "OVERLAY"),
    Row(Words(["fade ", "dissolve ", "blend in", "blend out"]), "FADE"),
    Row(Words(["speed up", "slow down"]), "SPEED"),
    Row(Words(["reverse "]), "REVERSE"),
    Row(ApplyColorCorrection, "COLOR_CORRECTION"),
    Row(Words(["export "]), "EXPORT")]

  const Apply := "apply "
  const ColorCorrection := "color correction"

  /** The first place at or after `i` where `w` is written. */
  function Find(s: string, w: string, i: nat): (k: Option<nat>)
    ensures k.Some? ==> i <= k.value && LitAt(s, k.value, w, true)
    ensures k.Some? ==> forall j :: i <= j < k.value ==> !LitAt(s, j, w, true)
    ensures k.None? ==> forall j :: i <= j ==> !LitAt(s, j, w, true)
    decreases |s| - i
  {
    if i + |w| > |s| then None
    else if LitAt(s, i, w, true) then Some(i)
    else Find(s, w, i + 1)
  }

  /** The first place at or after `p`, before any line break, where
      "color correction" is written: what `.*color correction` reaches
      from `p`. */
  function ColorAfter(s: string, p: nat): (k: Option<nat>)
    ensures k.Some? ==> p <= k.value && LitAt(s, k.value, ColorCorrection, true)
    ensures k.Some? ==> forall j :: p <= j < k.value ==> s[j] != '\n'
    ensures k.None? ==> forall j :: p <= j && LitAt(s, j, ColorCorrection, true) ==> exists b :: p <= b < j && s[b] == '\n'
    decreases |s| - p
  {
    if p + |ColorCorrection| > |s| then None
    else if LitAt(s, p, ColorCorrection, true) then Some(p)
    else if s[p] == '\n' then None
    else ColorAfter(s, p + 1)
  }

  /** The first place at or after `i` where "apply " is written and
      followed, on the same line, by "color correction". */
  function ApplyAt(s: string, i: nat): (k: Option<nat>)
    ensures k.Some? ==> i <= k.value && LitAt(s, k.value, Apply, true) && ColorAfter(s, k.value + |Apply|).Some?
    ensures k.None? ==> forall j :: i <= j && LitAt(s, j, Apply, true) ==> ColorAfter(s, j + |Apply|).None?
    decreases |s| - i
  {
    if i + |Apply| > |s| then None
    else if LitAt(s, i, Apply, true) && ColorAfter(s, i + |Apply|).Some? then Some(i)
    else ApplyAt(s, i + 1)
  }

  /** Whether one of the words is written somewhere in the text. */
  predicate Mentions(s: string, ws: seq<string>)
    decreases |ws|
  {
    |ws| > 0 && (Find(s, ws[0], 0).Some? || Mentions(s, ws[1..]))
  }

  /** `re.search(pattern, text, re.I)` for the row's cue. */
  predicate Fires(s: string, c: Cue) {
    match c
    case Words(ws) => Mentions(s, ws)
    case ApplyColorCorrection => ApplyAt(s, 0).Some?
  }

  /** The first of `rows` whose cue fires, searching from `k`. */
  function FirstRow(s: string, rows: seq<Row>, k: nat): (r: Option<nat>)
    requires k <= |rows|
    ensures r.Some? ==> k <= r.value < |rows| && Fires(s, rows[r.value].cue)
    ensures r.Some? ==> forall j :: k <= j < r.value ==> !Fires(s, rows[j].cue)
    ensures r.None? ==> forall j :: k <= j < |rows| ==> !Fires(s, rows[j].cue)
    decreases |rows| - k
  {
    if k == |rows| then None
    else if Fires(s, rows[k].cue) then Some(k)
    else FirstRow(s, rows, k + 1)
  }

  /** The intent of the first of `rows` whose cue fires, else UNKNOWN. */
  function Recognize(s: string, rows: seq<Row>): (r: string)
    requires forall j :: 0 <= j < |rows| ==> rows[j].intent != "UNKNOWN"
    ensures r == "UNKNOWN" <==> forall j :: 0 <= j < |rows| ==> !Fires(s, rows[j].cue)
  {
    match FirstRow(s, rows, 0)
    case Some(k) => rows[k].intent
    case None => "UNKNOWN"
  }

  /** `recognize_intent(text)`. */
  function RecognizeIntent(s: string): (r: string)
    ensures r == "UNKNOWN" <==> forall j :: 0 <= j < |Table| ==> !Fires(s, Table[j].cue)
  {
    Recognize(s, Table)
  }

  /** The intent is that of the first row whose cue fires. */
  lemma Recognized(s: string, rows: seq<Row>, k: nat)
    requires forall j :: 0 <= j < |rows| ==> rows[j].intent != "UNKNOWN"
    requires k < |rows| && Fires(s, rows[k].cue)
    requires forall j :: 0 <= j < k ==> !Fires(s, rows[j].cue)
    ensures Recognize(s, rows) == rows[k].intent
  {
  }

  /** A row of words fires exactly when one of its words is written
      somewhere in the text, in any case. */
  lemma {:induction false} MentionsSpelled(s: string, ws: seq<string>)
    ensures Mentions(s, ws) <==> exists k, i :: 0 <= k < |ws| && LitAt(s, i, ws[k], true)
    decreases |ws|
  {
    if |ws| > 0 {
      MentionsSpelled(s, ws[1..]);
      if Find(s, ws[0], 0).Some? {
        assert LitAt(s, Find(s, ws[0], 0).value, ws[0], true);
      }
      if exists k, i :: 0 <= k < |ws| && LitAt(s, i, ws[k], true) {
        var k, i :| 0 <= k < |ws| && LitAt(s, i, ws[k], true);
        if k > 0 {
          assert ws[1..][k - 1] == ws[k];
        }
      }
      if exists k, i :: 0 <= k < |ws[1..]| && LitAt(s, i, ws[1..][k], true) {
        var k, i :| 0 <= k < |ws[1..]| && LitAt(s, i, ws[1..][k], true);
        assert ws[k + 1] == ws[1..][k];
      }
    }
  }
}

=== FILE: join_command.dfy ===
/** The JOIN command grammar (`command_handlers/join.py`): either
    `(join|merge|combine) <first> and <second>( with a <effect>)?` or
    `(join|merge|combine) with <second>( with a <effect>)?`, both matched
    from the start of the text (`re.match`) and case-insensitive. Only the
    first clip's reference is classified; the second is kept by name. */
module JoinCommand {
  import opened Base
  import opened Text
  import opened Regex
  import opened Values
  import opened Operations
  import opened TargetGrammar

  const Verbs: seq<string> := ["join", "merge", "combine"]

  /** `(?: with a (?P<effect>\w+))?` */
  const EffectTail := Opt(Cat(Lit(" with a "), Group("effect", Plus(WordCh))))

  /** `re.match` anchors at the start, written here as a leading `^`. */
  const Pattern := Cat(Bol, Cat(Group("verb", OneOf(Verbs)),
    Seq([Lit(" "), FullTarget(FirstNames), Lit(" and "), FullTarget(SecondNames), EffectTail])))

  const WithPattern := Cat(Bol, Cat(Group("verb", OneOf(Verbs)), Seq([Lit(" with "), FullTarget(SecondNames), EffectTail])))

  /** `JoinCommandHandler.match`. */
  predicate Matches(s: string) {
    Match(Pattern, s, true).Some? || Match(WithPattern, s, true).Some?
  }

  /** The clip a captured reference names: its pronoun, else its target. */
  function Chosen(r: Reference): (t: Option<string>)
    ensures t.Some? <==> Given(r.pronoun) || Given(r.target)
    ensures t.Some? ==> t.value != ""
  {
    if Given(r.pronoun) then r.pronoun else if Given(r.target) then r.target else None
  }

  /** A named clip whose lower-cased name opens with `p`. */
  predicate NamedWith(o: Option<string>, p: string) {
    Given(o) && StartsWith(LowerStr(o.value), p)
  }

  /** The track type the two names imply, audio before subtitle before
      effect, whichever clip carries the prefix. */
  function PairType(a: Option<string>, b: Option<string>): (tt: Option<string>)
    ensures tt == Some("audio") <==> NamedWith(a, "audio") || NamedWith(b, "audio")
    ensures tt.None? <==> !(NamedWith(a, "audio") || NamedWith(b, "audio") || NamedWith(a, "subtitle")
                            || NamedWith(b, "subtitle") || NamedWith(a, "effect") || NamedWith(b, "effect"))
    ensures tt.Some? ==> NamedWith(a, tt.value) || NamedWith(b, tt.value)
  {
    if NamedWith(a, "audio") || NamedWith(b, "audio") then Some("audio")
    else if NamedWith(a, "subtitle") || NamedWith(b, "subtitle") then Some("subtitle")
    else if NamedWith(a, "effect") || NamedWith(b, "effect") then Some("effect")
    else None
  }

  /** The first clip's reference details, with its pronoun under
      "reference_pronoun_first". */
  function FirstDetails(p: Params, first: Option<string>, r1: Reference): (q: Params)
    ensures forall k :: k !in DetailKeys && k != "reference_pronoun_first" ==> Get(q, k) == Get(p, k)
    ensures first.Some? && Given(r1.pronoun) ==> Get(q, "reference_pronoun_first") == Some(VStr(LowerStr(first.value)))
  {
    if first.None? then p
    else if Given(r1.pronoun) then Assign(p, "reference_pronoun_first", VStr(LowerStr(first.value)))
    else RefDetails(p, LowerStr(first.value), r1)
  }

  /** The second clip's pronoun, the effect and the implied track type. */
  function Extras(p: Params, second: Option<string>, secondPronoun: bool, effect: Option<string>, tt: Option<string>): (q: Params)
    requires second.Some? || !secondPronoun
    ensures forall k :: k != "reference_pronoun_second" && k != "effect" && k != "track_type" ==> Get(q, k) == Get(p, k)
    ensures Get(q, "reference_pronoun_second") == (if secondPronoun then Some(VStr(LowerStr(second.value))) else Get(p, "reference_pronoun_second"))
    ensures Get(q, "effect") == (if Given(effect) then Some(VStr(effect.value)) else Get(p, "effect"))
    ensures tt.Some? ==> Get(q, "track_type") == Some(VStr(tt.value))
  {
    var p2 := if secondPronoun then Assign(p, "reference_pronoun_second", VStr(LowerStr(second.value))) else p;
    var p3 := if Given(effect) then Assign(p2, "effect", VStr(effect.value)) else p2;
    if tt.Some? then Assign(p3, "track_type", VStr(tt.value)) else p3
  }

  /** A join's parameters before its reference type is recorded. */
  function Described(first: Option<string>, r1: Reference, second: Option<string>, secondPronoun: bool,
                     effect: Option<string>): Params
    requires second.Some? || !secondPronoun
  {
    Extras(FirstDetails(Assign(Empty, "second", OptValue(second)), first, r1), second, secondPronoun, effect, PairType(first, second))
  }

  lemma DescribedSecond(first: Option<string>, r1: Reference, second: Option<string>, secondPronoun: bool, effect: Option<string>)
    requires second.Some? || !secondPronoun
    ensures Get(Described(first, r1, second, secondPronoun, effect), "second") == Some(OptValue(second))
  {
    assert "second" !in DetailKeys;
  }

  lemma DescribedNoKind(first: Option<string>, r1: Reference, second: Option<string>, secondPronoun: bool, effect: Option<string>)
    requires second.Some? || !secondPronoun
    ensures Get(Described(first, r1, second, secondPronoun, effect), "reference_type").None?
  {
    assert "reference_type"[3] != "ref_track_type"[3];
    assert "reference_type" !in DetailKeys;
  }

  lemma DescribedPronouns(first: Option<string>, r1: Reference, second: Option<string>, secondPronoun: bool, effect: Option<string>)
    requires second.Some? || !secondPronoun
    ensures first.Some? && Given(r1.pronoun) ==>
      Get(Described(first, r1, second, secondPronoun, effect), "reference_pronoun_first") == Some(VStr(LowerStr(first.value)))
    ensures Get(Described(first, r1, second, secondPronoun, effect), "reference_pronoun_second")
            == (if secondPronoun then Some(VStr(LowerStr(second.value))) else None)
  {
    assert "reference_pronoun_second" !in DetailKeys;
  }

  lemma DescribedEffect(first: Option<string>, r1: Reference, second: Option<string>, secondPronoun: bool, effect: Option<string>)
    requires second.Some? || !secondPronoun
    ensures Get(Described(first, r1, second, secondPronoun, effect), "effect") == (if Given(effect) then Some(VStr(effect.value)) else None)
  {
    assert "effect" !in DetailKeys;
  }

  /** The parameters of a join: the second clip, the pronouns, the effect,
      the implied track type and the first clip's reference details. */
  function JoinParams(first: Option<string>, r1: Reference, second: Option<string>, secondPronoun: bool,
                      effect: Option<string>): (p: Params)
    requires second.Some? || !secondPronoun
    ensures Get(p, "second") == Some(OptValue(second))
    ensures Get(p, "reference_type") == KindValue(TargetKind(first, Given(r1.pronoun), r1))
    ensures first.Some? && Given(r1.pronoun) ==> Get(p, "reference_pronoun_first") == Some(VStr(LowerStr(first.value)))
    ensures Get(p, "reference_pronoun_second") == (if secondPronoun then Some(VStr(LowerStr(second.value))) else None)
    ensures Get(p, "effect") == (if Given(effect) then Some(VStr(effect.value)) else None)
    ensures PairType(first, second).Some? ==> Get(p, "track_type") == Some(VStr(PairType(first, second).value))
  {
    DescribedSecond(first, r1, second, secondPronoun, effect);
    DescribedNoKind(first, r1, second, secondPronoun, effect);
    DescribedPronouns(first, r1, second, secondPronoun, effect);
    DescribedEffect(first, r1, second, secondPronoun, effect);
    var p4 := Described(first, r1, second, secondPronoun, effect);
    var kind := TargetKind(first, Given(r1.pronoun), r1);
    if kind.Some? then Assign(p4, "reference_type", VStr(kind.value)) else p4
  }

  /** `JoinCommandHandler.parse`: the two-clip form first, then the
      `join with` form (no first clip: the parser may fill it in from the
      previous command), else UNKNOWN. */
  function Parse(s: string): (op: EditOperation)
    ensures !Matches(s) ==> op == Unknown(s)
    ensures Match(Pattern, s, true).Some? ==>
      var h := Match(Pattern, s, true).value;
      var r1 := ReferenceOf(s, h, FirstNames);
      var r2 := ReferenceOf(s, h, SecondNames);
      && op.kind == "JOIN" && op.target == Chosen(r1)
      && Get(op.params, "second") == Some(OptValue(Chosen(r2)))
      && Get(op.params, "reference_type") == KindValue(TargetKind(Chosen(r1), Given(r1.pronoun), r1))
      && Get(op.params, "effect") == (if Given(Captured(s, h, "effect")) then Some(VStr(Captured(s, h, "effect").value)) else None)
    ensures Match(Pattern, s, true).None? && Match(WithPattern, s, true).Some? ==>
      var h := Match(WithPattern, s, true).value;
      var r2 := ReferenceOf(s, h, SecondNames);
      && op.kind == "JOIN" && op.target.None?
      && Get(op.params, "second") == Some(OptValue(Chosen(r2)))
      && Get(op.params, "reference_type").None?
      && (PairType(None, Chosen(r2)).Some? ==> Get(op.params, "track_type") == Some(VStr(PairType(None, Chosen(r2)).value)))
  {
    match Match(Pattern, s, true)
    case Some(h) =>
      var r1 := ReferenceOf(s, h, FirstNames);
      var r2 := ReferenceOf(s, h, SecondNames);
      EditOperation("JOIN", Chosen(r1), JoinParams(Chosen(r1), r1, Chosen(r2), Given(r2.pronoun), Captured(s, h, "effect")))
    case None =>
      match Match(WithPattern, s, true)
      case Some(h) =>
        var r2 := ReferenceOf(s, h, SecondNames);
        var none := Reference(None, None, None, None, None);
        EditOperation("JOIN", None, JoinParams(None, none, Chosen(r2), Given(r2.pronoun), Captured(s, h, "effect")))
      case None => Unknown(s)
  }

  /** Every text either form accepts opens with one of the join verbs. */
  lemma MatchShape(s: string)
    requires Matches(s)
    ensures exists k :: 0 <= k < |Verbs| && LitAt(s, 0, Verbs[k], true)
  {
    if Match(Pattern, s, true).Some? {
      AnchoredWords("verb", Verbs, Seq([Lit(" "), FullTarget(FirstNames), Lit(" and "), FullTarget(SecondNames), EffectTail]), s, true);
    } else {
      AnchoredWords("verb", Verbs, Seq([Lit(" with "), FullTarget(SecondNames), EffectTail]), s, true);
    }
  }
}

=== FILE: legacy.dfy ===
/** The older timeline (`src/timeline.py`): the same clip tree and track
    rules without clip ids and without a change hook. Where an operation
    behaves as the current one with name keys, it is that operation;
    trim, load and add_transition differ and are given here. */
module LegacyTimeline {
  import opened Base
  import opened Clips
  import opened ClipTree
  import opened Timelines
  import TimeUtils

  /** `trim_clip` of the older timeline: the timestamp is compared with the
      clip's frames as given, and both parts are built through
      `int(...)`, so the split falls at the truncated timestamp. */
  function LegacyTrim(tl: Timeline, name: string, ts: real, trackType: string, trackIndex: int): (r: Outcome<bool>)
    ensures r.notified == 0
    ensures GetTrack(tl, trackType, trackIndex).Err? ==> r.tl == tl && r.result == Err(IndexError)
    ensures r.result.Ok? <==> GetTrack(tl, trackType, trackIndex).Ok?
    ensures r.result == Ok(false) ==> r.tl == tl
    ensures r.result == Ok(true) <==> (GetTrack(tl, trackType, trackIndex).Ok? &&
      var cs := tl.tracks[GetTrack(tl, trackType, trackIndex).value].clips;
      var l := Locate(cs, ByName(Some(name)));
      l.Some? && At(cs, l.value).start as real < ts < At(cs, l.value).end as real)
    ensures r.result == Ok(true) ==>
      var i := GetTrack(tl, trackType, trackIndex).value;
      var cs := tl.tracks[i].clips;
      r.tl == SetClips(tl, i, SplitAt(cs, Locate(cs, ByName(Some(name))).value, TimeUtils.Trunc(ts), None, None))
  {
    match GetTrack(tl, trackType, trackIndex)
    case Err(e) => Outcome(tl, Err(e), 0)
    case Ok(i) =>
      var cs := tl.tracks[i].clips;
      match Locate(cs, ByName(Some(name)))
      case None => Outcome(tl, Ok(false), 0)
      case Some(l) =>
        var c := At(cs, l);
        if c.start as real < ts < c.end as real then
          Outcome(SetClips(tl, i, SplitAt(cs, l, TimeUtils.Trunc(ts), None, None)), Ok(true), 0)
        else Outcome(tl, Ok(false), 0)
  }

  /** The split frame stays within the clip. On non-negative frames the
      second part is never empty, while the first is empty for a timestamp
      below start + 1; `int()` truncates toward zero, so below zero the
      second part may be the empty one. */
  lemma LegacySplitInside(c: Clip, ts: real)
    requires c.start as real < ts < c.end as real
    ensures c.start <= TimeUtils.Trunc(ts) <= c.end
    ensures ts >= 0.0 ==> TimeUtils.Trunc(ts) < c.end
    ensures ts < 0.0 ==> c.start < TimeUtils.Trunc(ts)
  {
    var n := TimeUtils.Trunc(ts);
    if ts >= 0.0 {
      assert n as real <= ts < n as real + 1.0;
      assert c.start as real < n as real + 1.0;
      assert n as real < c.end as real;
    } else {
      assert n as real - 1.0 < ts <= n as real;
      assert ts < c.end as real;
      assert n as real <= 0.0;
      assert c.start as real < n as real;
      assert n as real < c.end as real + 1.0;
    }
  }

  /** Trimming [0, 10) at 0.5 passes the test 0 < 0.5 < 10 but splits at
      frame 0, leaving an empty first part. */
  lemma LegacyTrimEmptyPart()
    ensures
      var c := Leaf(None, "a", 0, 10, VideoType, [], None);
      var tl := Timeline([Track("Video 1", VideoType, [c], [])], 0, [], 30);
      var r := LegacyTrim(tl, "a", 0.5, VideoType, 0);
      r.result == Ok(true)
      && r.tl.tracks[0].clips == [Leaf(None, "a_part1", 0, 0, VideoType, [], None), Leaf(None, "a_part2", 0, 10, VideoType, [], None)]
  {
    var c := Leaf(None, "a", 0, 10, VideoType, [], None);
    var tl := Timeline([Track("Video 1", VideoType, [c], [])], 0, [], 30);
    assert TypeIndices(tl.tracks, VideoType) == [0] by {
      assert TypeIndicesFrom(tl.tracks, VideoType, 1) == [];
    }
    assert GetTrack(tl, VideoType, 0) == Ok(0);
    assert Locate([c], ByName(Some("a"))) == Some(Loc([], 0));
    assert At([c], Loc([], 0)) == c;
    assert TimeUtils.Trunc(0.5) == 0;
    var p1 := Leaf(None, "a_part1", 0, 0, VideoType, [], None);
    var p2 := Leaf(None, "a_part2", 0, 10, VideoType, [], None);
    assert Remake(c, c.name + "_part1", c.start, 0, None) == p1;
    assert Remake(c, c.name + "_part2", 0, c.end, None) == p2;
    assert SplitAt([c], Loc([], 0), 0, None, None) == [p1, p2];
  }

  /** `join_clips` of the older timeline: both clips named, the joined clip
      has no id. */
  function LegacyJoin(tl: Timeline, first: string, second: string, trackType: string, trackIndex: int): (r: Outcome<bool>)
    ensures r.result == Ok(true) <==> (GetTrack(tl, trackType, trackIndex).Ok? &&
      Adjacent(tl.tracks[GetTrack(tl, trackType, trackIndex).value].clips, ByName(Some(first)), Some(second), None).Some?)
    ensures r.result == Ok(true) ==> (|r.tl.tracks| == |tl.tracks| &&
      forall j :: 0 <= j < |tl.tracks| && j != GetTrack(tl, trackType, trackIndex).value ==> r.tl.tracks[j] == tl.tracks[j])
    ensures r.result == Ok(true) ==>
      var i := GetTrack(tl, trackType, trackIndex).value;
      var cs := tl.tracks[i].clips;
      var l := Adjacent(cs, ByName(Some(first)), Some(second), None).value;
      var old_ := Container(cs, l.path).value;
      old_[l.index].name == first && old_[l.index + 1].name == second
      && Container(r.tl.tracks[i].clips, l.path)
         == Some(old_[..l.index] + [Remake(old_[l.index], first + "_joined_" + second, old_[l.index].start, old_[l.index + 1].end, None)]
                 + old_[l.index + 2..])
    ensures r.result != Ok(true) ==> r.tl == tl
  {
    var o := JoinClips(tl, Some(first), Some(second), trackType, trackIndex, None, None, None);
    Outcome(o.tl, o.result, 0)
  }

  /** `add_transition` of the older timeline: the names are stored as
      given, after the same adjacency test as `join_clips`. */
  function LegacyAddTransition(tl: Timeline, from: string, to: string, kind: string, duration: real,
                               trackType: string, trackIndex: int): (r: Outcome<bool>)
    ensures r.result == Ok(true) <==> (GetTrack(tl, trackType, trackIndex).Ok? &&
      Adjacent(tl.tracks[GetTrack(tl, trackType, trackIndex).value].clips, ByName(Some(from)), Some(to), None).Some?)
    ensures r.result == Ok(true) ==>
      r.tl.tracks == tl.tracks && r.tl.transitions == tl.transitions + [Transition(Some(from), Some(to), kind, duration)]
    ensures r.result != Ok(true) ==> r.tl == tl
  {
    match GetTrack(tl, trackType, trackIndex)
    case Err(e) => Outcome(tl, Err(e), 0)
    case Ok(i) =>
      if Adjacent(tl.tracks[i].clips, ByName(Some(from)), Some(to), None).Some? then
        Outcome(tl.(transitions := tl.transitions + [Transition(Some(from), Some(to), kind, duration)]), Ok(true), 0)
      else Outcome(tl, Ok(false), 0)
  }

  /** `load_video` of the older timeline: a 60-frame clip [0, 60) named
      after the file, with no file path kept, placed like `add_clip`. */
  function LegacyLoadVideo(tl: Timeline, path: string, trackIndex: int, position: Option<int>): (r: Outcome<Clip>)
    ensures r.notified == 0
    ensures r.result.Ok? ==>
      var c := r.result.value;
      c.Leaf? && c.name == Stem(path) && c.id.None? && c.filePath.None? && c.end - c.start == 60
      && r.tl == AddClip(tl, Leaf(None, Stem(path), 0, 60, VideoType, [], None), trackIndex, position).tl
    ensures r.result.Err? ==> r.tl == tl
  {
    var c := Leaf(None, Stem(path), 0, 60, VideoType, [], None);
    var o := AddClip(tl, c, trackIndex, position);
    match o.result
    case Err(e) => Outcome(tl, Err(e), 0)
    case Ok(_) =>
      var i := PyIndex(|tl.tracks|, trackIndex).value;
      var cs := o.tl.tracks[i].clips;
      Outcome(o.tl, Ok(cs[|cs| - 1]), 0)
  }

  /** On whole-frame timestamps the older trim and the current one agree
      at frame rate 1, apart from the ids of the parts. */
  lemma LegacyTrimAgrees(tl: Timeline, name: string, k: int, trackType: string, trackIndex: int, n1: string, n2: string)
    requires tl.frameRate == 1
    ensures LegacyTrim(tl, name, k as real, trackType, trackIndex).result
         == TrimClip(tl, Some(name), Some(k as real), trackType, trackIndex, None, n1, n2).result
  {
    assert SecondsToFrames(k as real, 1) == k;
    assert TimeUtils.Trunc(k as real) == k;
  }
}

=== FILE: operations.dfy ===
/** What the command grammar produces and the executor consumes
    (`command_types.py`, `executor_types.py`). Operations are immutable
    values: the deep copies the executor takes become plain sharing. */
module Operations {
  import opened Base
  import opened Values

  /** `EditOperation(type_, target, parameters)`. */
  datatype EditOperation = EditOperation(kind: string, target: Option<string>, params: Params)

  /** What `parse_command` returns: a single operation, or a
      `CompoundOperation` whose items were parsed from the fragments of a
      conjunction, in order. */
  datatype Parsed = Single(op: EditOperation) | Compound(items: seq<Parsed>)

  /** `ExecutionResult(success, message)`. */
  datatype ExecutionResult = ExecutionResult(success: bool, message: string)

  const UnknownKind := "UNKNOWN"

  /** The fallback every handler returns when its pattern does not match. */
  function Unknown(raw: string): (op: EditOperation)
    ensures op.kind == UnknownKind && op.target.None? && Get(op.params, "raw") == Some(VStr(raw))
  {
    EditOperation(UnknownKind, None, Assign(Empty, "raw", VStr(raw)))
  }

  /** Python truthiness of an optional string: present and non-empty. */
  predicate Given(o: Option<string>) {
    o.Some? && o.value != ""
  }

  /** An optional string as a parameter value (`None` when absent). */
  function OptValue(o: Option<string>): Value {
    if o.Some? then VStr(o.value) else VNone
  }

  /** Python's `str(bool)`. */
  function BoolStr(b: bool): string {
    if b then "True" else "False"
  }

  /** `if o: params[k] = o`, for an optional string. */
  function AssignGiven(p: Params, k: string, o: Option<string>): (q: Params)
    ensures Get(q, k) == (if Given(o) then Some(VStr(o.value)) else Get(p, k))
    ensures forall j :: j != k ==> Get(q, j) == Get(p, j)
  {
    if Given(o) then Assign(p, k, VStr(o.value)) else p
  }
}

=== FILE: overlay_command.dfy ===
/** The OVERLAY command grammar (`command_handlers/overlay.py`): an
    overlay verb, a blank and an asset name without blanks, then an
    optional `at the|in <position>` and an optional `from <start>` with an
    optional `to <end>`, matched case-insensitively against the whole
    text. A position is a screen position, an ordinal "position", a
    natural clip reference, a pronoun or any run of words. The operation
    has no target; start and end are stored in frames. */
module OverlayCommand {
  import opened Base
  import opened Text
  import opened Regex
  import opened Values
  import opened Operations
  import opened TargetGrammar
  import TimeUtils

  const Verbs: seq<string> := ["overlay", "superimpose", "place", "put", "add overlay"]

  const ScreenPositions: seq<string> :=
    ["top", "bottom", "left", "right", "center", "middle", "top left", "top right", "bottom left", "bottom right"]
  const BeforeTexts: seq<string> := ["the clip before that one", "clip before that one"]
  const AfterTexts: seq<string> := ["the clip after that one", "clip after that one"]

  /** The group names of the overlay copy of the reference grammar. */
  const Positional := Names("position", "ordinal", "ref_track_type", "start_time_position", "position_pronoun")

  /** `\d{1,2}:\d{2}|\d+s?` */
  const StampRe := Alt(Seq([Rep(Digit, 1, Some(2), false), Lit(":"), Rep(Digit, 2, Some(2), false)]),
                       Cat(Plus(Digit), Opt(Lit("s"))))

  /** The alternatives of the position group, in pattern order; the last
      one, `[\w ]+?`, takes any run of words and blanks, as few as
      possible. */
  const PositionAlternatives: seq<Re> :=
    [OneOf(ScreenPositions), OrdinalRef(Positional, "position"),
     Seq([Opt(Lit("the ")), Lit("clip that starts at "), Group(Positional.startTime, ClockOrDigits)]),
     Lit("the clip before that one"), Lit("the clip after that one"), Lit("this clip"),
     PronounRe(Positional.pronoun), Rep(CharSet([WordClass, Chr(' ')], false), 1, None, true)]

  /** `(?P<position>...)(?= from| to|$)` */
  const PositionRe := Cat(Group(Positional.target, Alts(PositionAlternatives)),
                          Ahead(Alts([Lit(" from"), Lit(" to"), Eol]), false))

  /** ` (?:at the|in) <position>` */
  const Placement := Seq([Lit(" "), OneOf(["at the", "in"]), Lit(" "), PositionRe])

  /** ` from <start>( to <end>)?` */
  const Range := Seq([Lit(" from "), Group("start", StampRe), Opt(Cat(Lit(" to "), Group("end", StampRe)))])

  /** Everything after the verb. */
  const Body := Cat(Lit(" "), Cat(Group("asset", Plus(NonSpace)), EndingIn(Opt(Placement), Opt(Range))))

  const Pattern := Cat(Bol, Cat(OneOf(Verbs), Body))

  /** `OverlayCommandHandler.match`. */
  predicate Matches(s: string) {
    Match(Pattern, s, true).Some?
  }

  /** Every text the grammar accepts opens with an overlay verb and is
      matched to its end. */
  lemma MatchShape(s: string)
    requires Matches(s)
    ensures exists k :: 0 <= k < |Verbs| && LitAt(s, 0, Verbs[k], true)
    ensures AtEnd(s, Match(Pattern, s, true).value.pos)
  {
    assert EndsWithEol(Body);
    AnchoredPlainWords(Verbs, Body, s, true);
  }

  /** What one match of the grammar captured. */
  datatype Captures = Captures(asset: Option<string>, position: Option<string>, pronoun: Option<string>,
                               ordinal: Option<string>, refTrackType: Option<string>, startTime: Option<string>,
                               start: Option<string>, end: Option<string>)

  function CapturesOf(s: string, h: Hit): Captures {
    Captures(Captured(s, h, "asset"), Captured(s, h, Positional.target), Captured(s, h, Positional.pronoun),
             Captured(s, h, Positional.ordinal), Captured(s, h, Positional.refTrackType),
             Captured(s, h, Positional.startTime), Captured(s, h, "start"), Captured(s, h, "end"))
  }

  /** The position recorded: the pronoun when one was written, else the
      captured position. */
  function PositionOf(c: Captures): (p: Option<string>)
    ensures Given(c.pronoun) ==> p == c.pronoun
    ensures !Given(c.pronoun) ==> p == (if Given(c.position) then c.position else None)
  {
    if Given(c.pronoun) then c.pronoun else if Given(c.position) then c.position else None
  }

  /** The reference type of a written position `p` (lower-cased), testing
      in handler order: a pronoun is contextual, a screen position is
      positional even when it also spells an ordinal, then the ordinal,
      "this clip", the two relative references and a start time. */
  function PositionKind(p: string, pronoun: bool, ordinal: Option<string>): (k: Option<string>)
    ensures k == Some("positional") <==> !pronoun && p in ScreenPositions
    ensures k == Some("ordinal") <==> !pronoun && p !in ScreenPositions && Given(ordinal)
    ensures k == Some("contextual") <==> pronoun || (p == "this clip" && !Given(ordinal))
    ensures k == Some("relative") <==> !pronoun && !Given(ordinal) && (p in BeforeTexts || p in AfterTexts)
    ensures k == Some("by_start_time") ==>
      !pronoun && !Given(ordinal) && (StartsWith(p, "the clip that starts at") || StartsWith(p, "clip that starts at"))
    ensures k.None? ==> !pronoun && !Given(ordinal) && p !in ScreenPositions
  {
    if pronoun then Some("contextual")
    else if p in ScreenPositions then Some("positional")
    else if Given(ordinal) then Some("ordinal")
    else if p == "this clip" then Some("contextual")
    else if p in BeforeTexts || p in AfterTexts then Some("relative")
    else if StartsWith(p, "the clip that starts at") || StartsWith(p, "clip that starts at") then Some("by_start_time")
    else None
  }

  /** The reference type of a parse: none without a position. */
  function KindOf(c: Captures): (k: Option<string>)
    ensures k == Some("ordinal") ==> Given(c.ordinal)
  {
    var position := PositionOf(c);
    if Given(position) then PositionKind(LowerStr(position.value), Given(c.pronoun), c.ordinal) else None
  }

  /** The keys the first part of the parameters holds. */
  const BaseKeys: set<string> := {"asset", "position", "reference_pronoun"}

  /** The asset, the position as written and the pronoun in lower case. */
  function BaseParams(c: Captures): (p: Params)
    ensures Get(p, "asset") == Some(OptValue(c.asset))
    ensures Get(p, "position") == (if Given(PositionOf(c)) then Some(VStr(PositionOf(c).value)) else None)
    ensures Get(p, "reference_pronoun") == (if Given(c.pronoun) then Some(VStr(LowerStr(c.pronoun.value))) else None)
    ensures forall k :: k !in BaseKeys ==> Get(p, k).None?
  {
    var p1 := AssignGiven(Assign(Empty, "asset", OptValue(c.asset)), "position", PositionOf(c));
    if Given(c.pronoun) then Assign(p1, "reference_pronoun", VStr(LowerStr(c.pronoun.value))) else p1
  }

  /** The ordinal and the track type it names. */
  function OrdinalParams(p: Params, c: Captures): (q: Params)
    requires Given(c.ordinal)
    ensures Get(q, "ordinal") == Some(VStr(c.ordinal.value))
    ensures Get(q, "track_type") == (if Given(c.refTrackType) then Some(VStr(c.refTrackType.value)) else Get(p, "track_type"))
    ensures Get(q, "ref_track_type") == (if Given(c.refTrackType) then Some(VStr(c.refTrackType.value)) else Get(p, "ref_track_type"))
    ensures forall k :: k !in DetailKeys ==> Get(q, k) == Get(p, k)
  {
    var q := Assign(p, "ordinal", VStr(c.ordinal.value));
    if Given(c.refTrackType) then
      Assign(Assign(q, "ref_track_type", VStr(c.refTrackType.value)), "track_type", VStr(c.refTrackType.value))
    else q
  }

  /** The details a reference type `k` of position `p` records. */
  function DetailParams(p: Params, k: Option<string>, pos: string, c: Captures): (q: Params)
    requires k == Some("ordinal") ==> Given(c.ordinal)
    ensures k == Some("ordinal") ==> Get(q, "ordinal") == Some(VStr(c.ordinal.value))
    ensures k == Some("ordinal") && Given(c.refTrackType) ==> Get(q, "track_type") == Some(VStr(c.refTrackType.value))
    ensures k == Some("relative") ==> Get(q, "relative_position") == Some(VStr(if pos in BeforeTexts then "before" else "after"))
    ensures k == Some("by_start_time") ==> Get(q, "start_time") == Some(OptValue(c.startTime))
    ensures k != Some("ordinal") && k != Some("relative") && k != Some("by_start_time") ==> q == p
    ensures forall j :: j !in DetailKeys ==> Get(q, j) == Get(p, j)
  {
    if k == Some("ordinal") then OrdinalParams(p, c)
    else if k == Some("relative") then Assign(p, "relative_position", VStr(if pos in BeforeTexts then "before" else "after"))
    else if k == Some("by_start_time") then Assign(p, "start_time", OptValue(c.startTime))
    else p
  }

  /** `if x: params[key] = timestamp_to_frames(x, frame_rate)`. */
  function StampParam(p: Params, key: string, x: Option<string>, fr: int): (q: Res<Params>)
    ensures q.Err? <==> Given(x) && TimeUtils.TimestampToFrames(VStr(x.value), fr).Err?
    ensures q.Ok? ==> Get(q.value, key) == (if Given(x) then StampValue(x, fr) else Get(p, key))
    ensures q.Ok? ==> forall j :: j != key ==> Get(q.value, j) == Get(p, j)
  {
    if Given(x) then
      var n :- TimeUtils.TimestampToFrames(VStr(x.value), fr);
      Ok(Assign(p, key, VInt(n)))
    else Ok(p)
  }

  /** Whether converting the start or the end raises. */
  predicate StampFails(c: Captures, fr: int) {
    || (Given(c.start) && TimeUtils.TimestampToFrames(VStr(c.start.value), fr).Err?)
    || (Given(c.end) && TimeUtils.TimestampToFrames(VStr(c.end.value), fr).Err?)
  }

  /** A start or end as the frame count it is stored as. */
  function StampValue(x: Option<string>, fr: int): Option<Value> {
    if Given(x) && TimeUtils.TimestampToFrames(VStr(x.value), fr).Ok? then
      Some(VInt(TimeUtils.TimestampToFrames(VStr(x.value), fr).value))
    else None
  }

  /** The asset, the position, the pronoun and the details of the
      reference, before the range. */
  function Described(c: Captures): (p: Params)
    ensures Get(p, "asset") == Some(OptValue(c.asset))
    ensures Get(p, "position") == (if Given(PositionOf(c)) then Some(VStr(PositionOf(c).value)) else None)
    ensures Get(p, "reference_pronoun") == (if Given(c.pronoun) then Some(VStr(LowerStr(c.pronoun.value))) else None)
    ensures Get(p, "start").None? && Get(p, "end").None? && Get(p, "reference_type").None?
  {
    var position := PositionOf(c);
    var pos := if Given(position) then LowerStr(position.value) else "";
    Detailed(BaseParams(c), KindOf(c), pos, c)
  }

  /** The details over the base parameters leave the base keys alone and
      add no range or reference type. */
  function Detailed(p: Params, k: Option<string>, pos: string, c: Captures): (q: Params)
    requires k == Some("ordinal") ==> Given(c.ordinal)
    requires forall j :: j !in BaseKeys ==> Get(p, j).None?
    ensures forall j :: j in BaseKeys ==> Get(q, j) == Get(p, j)
    ensures Get(q, "start").None? && Get(q, "end").None? && Get(q, "reference_type").None?
  {
    var q := DetailParams(p, k, pos, c);
    assert forall j :: j in BaseKeys ==> j !in DetailKeys;
    assert "start" !in DetailKeys && "end" !in DetailKeys && "reference_type" !in DetailKeys;
    q
  }

  /** The start and the end in frames; either may raise. */
  function Stamped(p: Params, c: Captures, fr: int): (q: Res<Params>)
    ensures q.Err? <==> StampFails(c, fr)
    ensures q.Ok? ==> Get(q.value, "start") == (if Given(c.start) then StampValue(c.start, fr) else Get(p, "start"))
    ensures q.Ok? ==> Get(q.value, "end") == (if Given(c.end) then StampValue(c.end, fr) else Get(p, "end"))
    ensures q.Ok? ==> forall j :: j != "start" && j != "end" ==> Get(q.value, j) == Get(p, j)
  {
    var p2 :- StampParam(p, "start", c.start, fr);
    StampParam(p2, "end", c.end, fr)
  }

  /** The operation built from what one match captured: an OVERLAY with
      no target, the asset, the position as written, the pronoun, the
      start and end in frames and the reference type; a start or end that
      does not convert raises. */
  function FromCaptures(c: Captures, fr: int): (r: Res<EditOperation>)
    ensures r.Err? <==> StampFails(c, fr)
    ensures r.Ok? ==>
      && r.value.kind == "OVERLAY" && r.value.target.None?
      && Get(r.value.params, "asset") == Some(OptValue(c.asset))
      && Get(r.value.params, "position") == (if Given(PositionOf(c)) then Some(VStr(PositionOf(c).value)) else None)
      && Get(r.value.params, "reference_pronoun") == (if Given(c.pronoun) then Some(VStr(LowerStr(c.pronoun.value))) else None)
      && Get(r.value.params, "start") == StampValue(c.start, fr)
      && Get(r.value.params, "end") == StampValue(c.end, fr)
      && Get(r.value.params, "reference_type") == KindValue(KindOf(c))
  {
    var k := KindOf(c);
    var p :- Stamped(Described(c), c, fr);
    Ok(EditOperation("OVERLAY", None, if k.Some? then Assign(p, "reference_type", VStr(k.value)) else p))
  }

  /** `OverlayCommandHandler.parse`. */
  function Parse(s: string, fr: int): (r: Res<EditOperation>)
    ensures !Matches(s) ==> r == Ok(Unknown(s))
    ensures Matches(s) ==>
      var c := CapturesOf(s, Match(Pattern, s, true).value);
      r == if Given(c.asset) then FromCaptures(c, fr) else Ok(Unknown(s))
  {
    match Match(Pattern, s, true)
    case None => Ok(Unknown(s))
    case Some(h) =>
      var c := CapturesOf(s, h);
      if Given(c.asset) then FromCaptures(c, fr) else Ok(Unknown(s))
  }

  /** An ordinal position keeps the ordinal and the track type it names; a
      relative one records its side; a start-time one the start time, if
      the clock form was captured. */
  lemma Details(c: Captures, fr: int)
    requires FromCaptures(c, fr).Ok?
    ensures
      var op := FromCaptures(c, fr).value;
      && (KindOf(c) == Some("ordinal") ==> Get(op.params, "ordinal") == Some(VStr(c.ordinal.value)))
      && (KindOf(c) == Some("ordinal") && Given(c.refTrackType) ==> Get(op.params, "track_type") == Some(VStr(c.refTrackType.value)))
      && (KindOf(c) == Some("relative") ==>
            Get(op.params, "relative_position") == Some(VStr(if LowerStr(PositionOf(c).value) in BeforeTexts then "before" else "after")))
      && (KindOf(c) == Some("by_start_time") ==> Get(op.params, "start_time") == Some(OptValue(c.startTime)))
  {
    var position := PositionOf(c);
    var pos := if Given(position) then LowerStr(position.value) else "";
    var k := KindOf(c);
    var p1 := DetailParams(BaseParams(c), k, pos, c);
    assert Described(c) == Detailed(BaseParams(c), k, pos, c) == p1;
    var p3 := Stamped(p1, c, fr).value;
    var p4 := if k.Some? then Assign(p3, "reference_type", VStr(k.value)) else p3;
    assert FromCaptures(c, fr).value.params == p4;
  }
}

=== FILE: regex.dfy ===
/** A backtracking regular-expression matcher with the semantics of Python's
    `re` module for the constructs the command grammars use: literals,
    character classes repeated `{lo,hi}` greedily or lazily, concatenation,
    ordered alternation, greedy `?`, named groups, lookahead, `^`, `$` and
    `\b`, optionally case-insensitive.

    `Run` lists every way a pattern can match at a position, in the order
    Python's backtracking tries them; the first entry is the match Python
    reports. Character classes are ASCII (`\s` follows `str.isspace`). */
module Regex {
  import opened Base
  import opened Text

  /** One member of a bracketed class. */
  datatype Atom = Chr(c: char) | Span(lo: char, hi: char) | DigitClass | WordClass | SpaceClass

  /** A bracketed class `[...]`, or `[^...]` when negated. */
  datatype CharSet = CharSet(atoms: seq<Atom>, negated: bool)

  datatype Re =
    | Eps
    | Lit(text: string)
    | Rep(cls: CharSet, lo: nat, hi: Option<nat>, lazy: bool)
    | Cat(left: Re, right: Re)
    | Alt(left: Re, right: Re)
    | Opt(body: Re)
    | Group(name: string, body: Re)
    | Ahead(body: Re, negative: bool)
    | Bol
    | Eol
    | Boundary

  /** Capture spans of the named groups that took part in a match. */
  type Caps = map<string, (nat, nat)>

  /** One way of matching: where the match ends, and the captures so far. */
  datatype Hit = Hit(pos: nat, caps: Caps)

  predicate CharEq(x: char, c: char, ic: bool) {
    x == c || (ic && Lower(x) == Lower(c))
  }

  predicate AtomHas(a: Atom, x: char, ic: bool) {
    match a
    case Chr(c) => CharEq(x, c, ic)
    case Span(lo, hi) => (lo <= x <= hi) || (ic && ((lo <= Lower(x) <= hi) || (lo <= Upper(x) <= hi)))
    case DigitClass => IsDigit(x)
    case WordClass => IsWordChar(x)
    case SpaceClass => IsSpace(x)
  }

  predicate AnyAtomHas(atoms: seq<Atom>, x: char, ic: bool) {
    |atoms| > 0 && (AtomHas(atoms[0], x, ic) || AnyAtomHas(atoms[1..], x, ic))
  }

  predicate SetHas(cs: CharSet, x: char, ic: bool) {
    AnyAtomHas(cs.atoms, x, ic) != cs.negated
  }

  /** Length of the longest run of class members starting at `i`. */
  function RunLen(cs: CharSet, s: string, i: nat, ic: bool): (k: nat)
    requires i <= |s|
    ensures i + k <= |s|
    ensures forall j :: i <= j < i + k ==> SetHas(cs, s[j], ic)
    ensures i + k < |s| ==> !SetHas(cs, s[i + k], ic)
    decreases |s| - i
  {
    if i < |s| && SetHas(cs, s[i], ic) then 1 + RunLen(cs, s, i + 1, ic) else 0
  }

  /** Ends `i+m, i+m-1, ..., i+lo`: the order a greedy repetition tries. */
  function Down(i: nat, lo: nat, m: nat, c: Caps): (hs: seq<Hit>)
    ensures forall h <- hs :: i + lo <= h.pos <= i + m && h.caps == c
    decreases m
  {
    if m < lo then [] else [Hit(i + m, c)] + (if m == lo then [] else Down(i, lo, m - 1, c))
  }

  /** Ends `i+k, i+k+1, ..., i+m`: the order a lazy repetition tries. */
  function Up(i: nat, k: nat, m: nat, c: Caps): (hs: seq<Hit>)
    ensures forall h <- hs :: i + k <= h.pos <= i + m && h.caps == c
    decreases m - k
  {
    if m < k then [] else [Hit(i + k, c)] + (if m == k then [] else Up(i, k + 1, m, c))
  }

  predicate LitAt(s: string, i: nat, t: string, ic: bool) {
    i + |t| <= |s| && forall j :: 0 <= j < |t| ==> CharEq(s[i + j], t[j], ic)
  }

  predicate AtBoundary(s: string, i: nat)
    requires i <= |s|
  {
    (i > 0 && IsWordChar(s[i - 1])) != (i < |s| && IsWordChar(s[i]))
  }

  predicate AtEnd(s: string, i: nat) {
    i == |s| || (i + 1 == |s| && s[i] == '\n')
  }

  /** Every way `r` matches `s` from position `i`, in backtracking order. */
  function Run(r: Re, s: string, i: nat, c: Caps, ic: bool): (hs: seq<Hit>)
    requires i <= |s|
    ensures forall h <- hs :: i <= h.pos <= |s|
    decreases r, 0
  {
    match r
    case Eps => [Hit(i, c)]
    case Lit(t) => if LitAt(s, i, t, ic) then [Hit(i + |t|, c)] else []
    case Rep(cls, lo, hi, lazy) =>
      var l := RunLen(cls, s, i, ic);
      var m := if hi.Some? && hi.value < l then hi.value else l;
      if lazy then Up(i, lo, m, c) else Down(i, lo, m, c)
    case Cat(a, b) => Then(b, s, Run(a, s, i, c, ic), i, ic)
    case Alt(a, b) => Run(a, s, i, c, ic) + Run(b, s, i, c, ic)
    case Opt(b) => Run(b, s, i, c, ic) + [Hit(i, c)]
    case Group(n, b) => Capture(n, i, Run(b, s, i, c, ic))
    case Ahead(b, neg) => if (|Run(b, s, i, c, ic)| > 0) != neg then [Hit(i, c)] else []
    case Bol => if i == 0 then [Hit(i, c)] else []
    case Eol => if AtEnd(s, i) then [Hit(i, c)] else []
    case Boundary => if AtBoundary(s, i) then [Hit(i, c)] else []
  }

  /** Continues every hit of `hs` with `b`, keeping the order. */
  function Then(b: Re, s: string, hs: seq<Hit>, i: nat, ic: bool): (out: seq<Hit>)
    requires forall h <- hs :: i <= h.pos <= |s|
    ensures forall h <- out :: i <= h.pos <= |s|
    decreases b, |hs| + 1
  {
    if |hs| == 0 then []
    else Run(b, s, hs[0].pos, hs[0].caps, ic) + Then(b, s, hs[1..], i, ic)
  }

  /** Records the span `[i, h.pos)` of group `n` in every hit. */
  function Capture(n: string, i: nat, hs: seq<Hit>): (out: seq<Hit>)
    ensures |out| == |hs|
    ensures forall k :: 0 <= k < |hs| ==> out[k] == Hit(hs[k].pos, hs[k].caps[n := (i, hs[k].pos)])
  {
    if |hs| == 0 then [] else [Hit(hs[0].pos, hs[0].caps[n := (i, hs[0].pos)])] + Capture(n, i, hs[1..])
  }

  /** Python's `re.match`: the first hit anchored at the start of `s`. */
  function Match(r: Re, s: string, ic: bool): (m: Option<Hit>)
    ensures m.Some? <==> |Run(r, s, 0, map[], ic)| > 0
    ensures m.Some? ==> m.value == Run(r, s, 0, map[], ic)[0]
  {
    var hs := Run(r, s, 0, map[], ic);
    if |hs| > 0 then Some(hs[0]) else None
  }

  /** Python's `re.search` as a test: some start position has a hit. */
  predicate Found(r: Re, s: string, ic: bool) {
    FoundFrom(r, s, 0, ic)
  }

  predicate FoundFrom(r: Re, s: string, i: nat, ic: bool)
    requires i <= |s|
    decreases |s| - i
  {
    |Run(r, s, i, map[], ic)| > 0 || (i < |s| && FoundFrom(r, s, i + 1, ic))
  }

  /** The text a named group captured, as Python's `m.group(name)`. */
  function Captured(s: string, h: Hit, name: string): Option<string> {
    if name in h.caps && h.caps[name].0 <= h.caps[name].1 <= |s| then Some(s[h.caps[name].0..h.caps[name].1])
    else None
  }

  // ---- building blocks for writing patterns ----

  const Space := CharSet([SpaceClass], false)
  const NonSpace := CharSet([SpaceClass], true)
  const Digit := CharSet([DigitClass], false)
  const WordCh := CharSet([WordClass], false)
  /** `.`: anything but a newline. */
  const AnyButNewline := CharSet([Chr('\n')], true)

  /** `\s+` */
  const Spaces1 := Rep(Space, 1, None, false)
  /** `\s*` */
  const Spaces0 := Rep(Space, 0, None, false)

  /** `[set]+`, greedy. */
  function Plus(cs: CharSet): Re { Rep(cs, 1, None, false) }

  /** Right-nested concatenation of a list of patterns. */
  function Seq(rs: seq<Re>): Re
    decreases |rs|
  {
    if |rs| == 0 then Eps else if |rs| == 1 then rs[0] else Cat(rs[0], Seq(rs[1..]))
  }

  /** Ordered alternation of literal words `w1|w2|...`. */
  function OneOf(ws: seq<string>): Re
    decreases |ws|
  {
    if |ws| == 0 then Ahead(Eps, true) else if |ws| == 1 then Lit(ws[0]) else Alt(Lit(ws[0]), OneOf(ws[1..]))
  }

  // ---- reasoning about runs ----

  /** A continued hit comes from some hit of the first part. */
  lemma {:induction false} ThenMember(b: Re, s: string, hs: seq<Hit>, i: nat, ic: bool, h: Hit)
    requires forall g <- hs :: i <= g.pos <= |s|
    requires h in Then(b, s, hs, i, ic)
    ensures exists k :: 0 <= k < |hs| && h in Run(b, s, hs[k].pos, hs[k].caps, ic)
    decreases |hs|
  {
    if h !in Run(b, s, hs[0].pos, hs[0].caps, ic) {
      ThenMember(b, s, hs[1..], i, ic, h);
      var k :| 0 <= k < |hs[1..]| && h in Run(b, s, hs[1..][k].pos, hs[1..][k].caps, ic);
      assert hs[1..][k] == hs[k + 1];
    }
  }

  /** Every continuation of every hit of the first part is a hit of the whole. */
  lemma {:induction false} ThenIncludes(b: Re, s: string, hs: seq<Hit>, i: nat, ic: bool, k: nat, h: Hit)
    requires forall g <- hs :: i <= g.pos <= |s|
    requires k < |hs| && h in Run(b, s, hs[k].pos, hs[k].caps, ic)
    ensures h in Then(b, s, hs, i, ic)
    decreases |hs|
  {
    if k > 0 {
      assert hs[1..][k - 1] == hs[k];
      ThenIncludes(b, s, hs[1..], i, ic, k - 1, h);
    }
  }

  /** Every hit of a concatenation continues a hit of its first part. */
  lemma CatOut(a: Re, b: Re, s: string, i: nat, c: Caps, ic: bool, h: Hit)
    requires i <= |s| && h in Run(Cat(a, b), s, i, c, ic)
    ensures exists k ::
              0 <= k < |Run(a, s, i, c, ic)| && h in Run(b, s, Run(a, s, i, c, ic)[k].pos, Run(a, s, i, c, ic)[k].caps, ic)
  {
    ThenMember(b, s, Run(a, s, i, c, ic), i, ic, h);
  }

  /** Every continuation of a hit of the first part is a hit of the concatenation. */
  lemma CatIn(a: Re, b: Re, s: string, i: nat, c: Caps, ic: bool, h: Hit, k: nat)
    requires i <= |s| && k < |Run(a, s, i, c, ic)|
    requires h in Run(b, s, Run(a, s, i, c, ic)[k].pos, Run(a, s, i, c, ic)[k].caps, ic)
    ensures h in Run(Cat(a, b), s, i, c, ic)
  {
    ThenIncludes(b, s, Run(a, s, i, c, ic), i, ic, k, h);
  }

  /** Membership in a concatenation, in both directions. */
  lemma CatMember(a: Re, b: Re, s: string, i: nat, c: Caps, ic: bool, h: Hit)
    requires i <= |s|
    ensures h in Run(Cat(a, b), s, i, c, ic) <==>
      exists k :: 0 <= k < |Run(a, s, i, c, ic)| &&
        h in Run(b, s, Run(a, s, i, c, ic)[k].pos, Run(a, s, i, c, ic)[k].caps, ic)
  {
    var hs := Run(a, s, i, c, ic);
    if h in Run(Cat(a, b), s, i, c, ic) {
      CatOut(a, b, s, i, c, ic, h);
    }
    if exists k :: 0 <= k < |hs| && h in Run(b, s, hs[k].pos, hs[k].caps, ic) {
      var k :| 0 <= k < |hs| && h in Run(b, s, hs[k].pos, hs[k].caps, ic);
      CatIn(a, b, s, i, c, ic, h, k);
    }
  }

  /** A hit of the first part that the second part continues gives the
      concatenation a hit. */
  lemma CatSome(a: Re, b: Re, s: string, i: nat, c: Caps, ic: bool, k: nat)
    requires i <= |s| && k < |Run(a, s, i, c, ic)|
    requires |Run(b, s, Run(a, s, i, c, ic)[k].pos, Run(a, s, i, c, ic)[k].caps, ic)| > 0
    ensures |Run(Cat(a, b), s, i, c, ic)| > 0
  {
    var hk := Run(a, s, i, c, ic)[k];
    CatIn(a, b, s, i, c, ic, Run(b, s, hk.pos, hk.caps, ic)[0], k);
  }

  /** A literal alternative matches only where one of its words is spelled. */
  lemma {:induction false} WordsMember(ws: seq<string>, s: string, i: nat, c: Caps, ic: bool, h: Hit)
    requires i <= |s|
    requires h in Run(OneOf(ws), s, i, c, ic)
    ensures exists k :: 0 <= k < |ws| && LitAt(s, i, ws[k], ic) && h == Hit(i + |ws[k]|, c)
    decreases |ws|
  {
    if |ws| == 1 {
      assert LitAt(s, i, ws[0], ic) && h == Hit(i + |ws[0]|, c);
    } else if |ws| > 1 {
      if h in Run(Lit(ws[0]), s, i, c, ic) {
        assert LitAt(s, i, ws[0], ic) && h == Hit(i + |ws[0]|, c);
      } else {
        WordsMember(ws[1..], s, i, c, ic, h);
        var k :| 0 <= k < |ws[1..]| && LitAt(s, i, ws[1..][k], ic) && h == Hit(i + |ws[1..][k]|, c);
        assert ws[1..][k] == ws[k + 1];
      }
    }
  }

  /** Ordered alternation `r1|r2|...` of arbitrary patterns. */
  function Alts(rs: seq<Re>): Re
    decreases |rs|
  {
    if |rs| == 0 then Ahead(Eps, true) else if |rs| == 1 then rs[0] else Alt(rs[0], Alts(rs[1..]))
  }

  /** Patterns every part of which may match the empty string. */
  predicate Nullable(r: Re) {
    match r
    case Eps => true
    case Opt(_) => true
    case Rep(_, lo, _, _) => lo == 0
    case Cat(a, b) => Nullable(a) && Nullable(b)
    case Alt(a, b) => Nullable(a) || Nullable(b)
    case Group(_, b) => Nullable(b)
    case _ => false
  }

  /** A nullable pattern matches at every position. */
  lemma {:induction false} NullableRuns(r: Re, s: string, i: nat, c: Caps, ic: bool)
    requires i <= |s| && Nullable(r)
    ensures |Run(r, s, i, c, ic)| > 0
    decreases r
  {
    match r
    case Cat(a, b) =>
      NullableRuns(a, s, i, c, ic);
      var hs := Run(a, s, i, c, ic);
      NullableRuns(b, s, hs[0].pos, hs[0].caps, ic);
      ThenIncludes(b, s, hs, i, ic, 0, Run(b, s, hs[0].pos, hs[0].caps, ic)[0]);
    case Alt(a, b) =>
      if Nullable(a) { NullableRuns(a, s, i, c, ic); } else { NullableRuns(b, s, i, c, ic); }
    case Group(n, b) =>
      NullableRuns(b, s, i, c, ic);
    case Rep(cls, lo, hi, lazy) =>
    case Eps =>
    case Opt(b) =>
  }

  /** `(?:r1)?(?:r2)?...`: a run of optional parts, which may match the
      empty string. */
  function Opts(rs: seq<Re>): (r: Re)
    ensures Nullable(r)
    decreases |rs|
  {
    if |rs| == 0 then Eps else Cat(Opt(rs[0]), Opts(rs[1..]))
  }

  lemma CatNullable(a: Re, b: Re)
    requires Nullable(a) && Nullable(b)
    ensures Nullable(Cat(a, b))
  {
  }

  /** Patterns that end with `$` along their right spine. */
  predicate EndsWithEol(r: Re) {
    match r
    case Eol => true
    case Cat(_, b) => EndsWithEol(b)
    case _ => false
  }

  /** `<a><b>$`. */
  function EndingIn(a: Re, b: Re): (r: Re)
    ensures EndsWithEol(r)
  {
    Cat(a, Cat(b, Eol))
  }

  /** Every match of a pattern ending in `$` stops at the end of the text
      (or just before a final newline). */
  lemma {:induction false} EolAnchors(r: Re, s: string, i: nat, c: Caps, ic: bool, h: Hit)
    requires i <= |s| && EndsWithEol(r) && h in Run(r, s, i, c, ic)
    ensures AtEnd(s, h.pos)
    decreases r
  {
    match r
    case Eol =>
    case Cat(a, b) =>
      CatOut(a, b, s, i, c, ic, h);
      var hs := Run(a, s, i, c, ic);
      var k :| 0 <= k < |hs| && h in Run(b, s, hs[k].pos, hs[k].caps, ic);
      EolAnchors(b, s, hs[k].pos, hs[k].caps, ic, h);
  }

  /** A spelled word of the list is one of the ways its alternation matches. */
  lemma {:induction false} WordsInclude(ws: seq<string>, s: string, i: nat, c: Caps, ic: bool, k: nat)
    requires i <= |s| && k < |ws| && LitAt(s, i, ws[k], ic)
    ensures Hit(i + |ws[k]|, c) in Run(OneOf(ws), s, i, c, ic)
    decreases |ws|
  {
    if |ws| > 1 && k > 0 {
      assert ws[1..][k - 1] == ws[k];
      WordsInclude(ws[1..], s, i, c, ic, k - 1);
    }
  }

  /** A match of a pattern that opens with a list of words spells one of
      them at the start. */
  lemma LeadingWord(ws: seq<string>, rest: Re, s: string, i: nat, c: Caps, ic: bool, h: Hit)
    requires i <= |s| && h in Run(Cat(OneOf(ws), rest), s, i, c, ic)
    ensures exists k :: 0 <= k < |ws| && LitAt(s, i, ws[k], ic)
  {
    CatOut(OneOf(ws), rest, s, i, c, ic, h);
    var hs := Run(OneOf(ws), s, i, c, ic);
    var k :| 0 <= k < |hs| && h in Run(rest, s, hs[k].pos, hs[k].caps, ic);
    WordsMember(ws, s, i, c, ic, hs[k]);
  }

  /** `^` at the start of the text lets every hit of the rest through,
      in the same order. */
  lemma BolFirst(rest: Re, s: string, c: Caps, ic: bool, h: Hit)
    ensures Run(Cat(Bol, rest), s, 0, c, ic) == Run(rest, s, 0, c, ic)
    ensures h in Run(Cat(Bol, rest), s, 0, c, ic) <==> h in Run(rest, s, 0, c, ic)
  {
    var hs := [Hit(0, c)];
    assert Run(Bol, s, 0, c, ic) == hs;
    assert hs[1..] == [];
    assert Then(rest, s, hs, 0, ic) == Run(rest, s, 0, c, ic) + Then(rest, s, [], 0, ic);
  }

  /** A literal followed by a pattern continues exactly where the literal
      is spelled. */
  lemma CatLit(t: string, b: Re, s: string, i: nat, c: Caps, ic: bool)
    requires i <= |s|
    ensures LitAt(s, i, t, ic) ==> Run(Cat(Lit(t), b), s, i, c, ic) == Run(b, s, i + |t|, c, ic)
    ensures !LitAt(s, i, t, ic) ==> Run(Cat(Lit(t), b), s, i, c, ic) == []
  {
    if LitAt(s, i, t, ic) {
      var hs := Run(Lit(t), s, i, c, ic);
      assert hs == [Hit(i + |t|, c)];
      ThenOne(b, s, hs, i, ic);
    } else {
      assert Run(Lit(t), s, i, c, ic) == [];
    }
  }

  /** Continuing a single hit is running the pattern from it. */
  lemma ThenOne(b: Re, s: string, hs: seq<Hit>, i: nat, ic: bool)
    requires |hs| == 1 && i <= hs[0].pos <= |s|
    ensures Then(b, s, hs, i, ic) == Run(b, s, hs[0].pos, hs[0].caps, ic)
  {
    assert hs[1..] == [];
  }

  /** A lookahead followed by a pattern continues in place when the
      lookahead holds, and not at all otherwise. */
  lemma CatAhead(x: Re, neg: bool, b: Re, s: string, i: nat, c: Caps, ic: bool)
    requires i <= |s|
    ensures (|Run(x, s, i, c, ic)| > 0) != neg ==> Run(Cat(Ahead(x, neg), b), s, i, c, ic) == Run(b, s, i, c, ic)
    ensures (|Run(x, s, i, c, ic)| > 0) == neg ==> Run(Cat(Ahead(x, neg), b), s, i, c, ic) == []
  {
    if (|Run(x, s, i, c, ic)| > 0) != neg {
      ThenOne(b, s, Run(Ahead(x, neg), s, i, c, ic), i, ic);
    } else {
      assert Run(Ahead(x, neg), s, i, c, ic) == [];
    }
  }

  /** `w(?!x)<rest>` with a rest that may match the empty string matches
      exactly the texts that open with `w` where `x` does not follow. */
  lemma NotAheadMatch(w: string, x: Re, rest: Re, s: string, ic: bool)
    requires Nullable(rest)
    ensures Match(Cat(Lit(w), Cat(Ahead(x, true), rest)), s, ic).Some?
            <==> LitAt(s, 0, w, ic) && |Run(x, s, |w|, map[], ic)| == 0
  {
    CatLit(w, Cat(Ahead(x, true), rest), s, 0, map[], ic);
    if LitAt(s, 0, w, ic) {
      CatAhead(x, true, rest, s, |w|, map[], ic);
      NullableRuns(rest, s, |w|, map[], ic);
    }
  }

  /** A match of a pattern that opens with a named group of words spells
      one of the words there. */
  lemma GroupWords(n: string, ws: seq<string>, rest: Re, s: string, i: nat, c: Caps, ic: bool, h: Hit)
    requires i <= |s| && h in Run(Cat(Group(n, OneOf(ws)), rest), s, i, c, ic)
    ensures exists k :: 0 <= k < |ws| && LitAt(s, i, ws[k], ic)
  {
    CatOut(Group(n, OneOf(ws)), rest, s, i, c, ic, h);
    var gs := Run(Group(n, OneOf(ws)), s, i, c, ic);
    var k :| 0 <= k < |gs| && h in Run(rest, s, gs[k].pos, gs[k].caps, ic);
    var ws_ := Run(OneOf(ws), s, i, c, ic);
    assert ws_[k] in ws_;
    WordsMember(ws, s, i, c, ic, ws_[k]);
  }

  /** `(?:w1|w2|...)<sep>(?P<n>v1|v2|...)<rest>` */
  function WordsSepWords(ws: seq<string>, sep: string, n: string, vs: seq<string>, rest: Re): Re {
    Cat(OneOf(ws), Cat(Lit(sep), Cat(Group(n, OneOf(vs)), rest)))
  }

  /** The texts such a pattern opens with. */
  predicate SpellsWordsSepWords(ws: seq<string>, sep: string, vs: seq<string>, s: string, ic: bool) {
    exists k, d :: 0 <= k < |ws| && 0 <= d < |vs| && LitAt(s, 0, ws[k], ic)
                   && LitAt(s, |ws[k]|, sep, ic) && LitAt(s, |ws[k]| + |sep|, vs[d], ic)
  }

  /** Anchored at the start, and with a rest that may match the empty
      string, `WordsSepWords` matches exactly the texts that spell one of
      the first words, the separator and one of the second words. */
  lemma WordsThenWords(ws: seq<string>, sep: string, n: string, vs: seq<string>, rest: Re, s: string, ic: bool)
    requires Nullable(rest)
    ensures Match(WordsSepWords(ws, sep, n, vs, rest), s, ic).Some? <==> SpellsWordsSepWords(ws, sep, vs, s, ic)
  {
    if Match(WordsSepWords(ws, sep, n, vs, rest), s, ic).Some? {
      WordsSepWordsOut(ws, sep, n, vs, rest, s, ic);
    }
    if SpellsWordsSepWords(ws, sep, vs, s, ic) {
      var k, d :| 0 <= k < |ws| && 0 <= d < |vs| && LitAt(s, 0, ws[k], ic)
                  && LitAt(s, |ws[k]|, sep, ic) && LitAt(s, |ws[k]| + |sep|, vs[d], ic);
      WordsSepWordsIn(ws, sep, n, vs, rest, s, ic, k, d);
    }
  }

  lemma WordsSepWordsOut(ws: seq<string>, sep: string, n: string, vs: seq<string>, rest: Re, s: string, ic: bool)
    requires Match(WordsSepWords(ws, sep, n, vs, rest), s, ic).Some?
    ensures SpellsWordsSepWords(ws, sep, vs, s, ic)
  {
    var r1 := Cat(Lit(sep), Cat(Group(n, OneOf(vs)), rest));
    var h := Match(WordsSepWords(ws, sep, n, vs, rest), s, ic).value;
    assert h in Run(Cat(OneOf(ws), r1), s, 0, map[], ic);
    var k := WordsOut(ws, r1, s, 0, map[], ic, h);
    var d := SepWordsOut(sep, n, vs, rest, s, |ws[k]|, ic, h);
    assert LitAt(s, 0, ws[k], ic) && LitAt(s, |ws[k]|, sep, ic) && LitAt(s, |ws[k]| + |sep|, vs[d], ic);
  }

  lemma SepWordsOut(sep: string, n: string, vs: seq<string>, rest: Re, s: string, p1: nat, ic: bool, h: Hit) returns (d: nat)
    requires p1 <= |s| && h in Run(Cat(Lit(sep), Cat(Group(n, OneOf(vs)), rest)), s, p1, map[], ic)
    ensures LitAt(s, p1, sep, ic) && d < |vs| && LitAt(s, p1 + |sep|, vs[d], ic)
  {
    CatLit(sep, Cat(Group(n, OneOf(vs)), rest), s, p1, map[], ic);
    GroupWords(n, vs, rest, s, p1 + |sep|, map[], ic, h);
    d :| 0 <= d < |vs| && LitAt(s, p1 + |sep|, vs[d], ic);
  }

  /** The hit of the first part that a hit of a concatenation continues. */
  lemma CatSplit(a: Re, b: Re, s: string, i: nat, c: Caps, ic: bool, h: Hit) returns (k: nat)
    requires i <= |s| && h in Run(Cat(a, b), s, i, c, ic)
    ensures k < |Run(a, s, i, c, ic)| && h in Run(b, s, Run(a, s, i, c, ic)[k].pos, Run(a, s, i, c, ic)[k].caps, ic)
  {
    CatOut(a, b, s, i, c, ic, h);
    k :| 0 <= k < |Run(a, s, i, c, ic)| && h in Run(b, s, Run(a, s, i, c, ic)[k].pos, Run(a, s, i, c, ic)[k].caps, ic);
  }

  /** A hit of a list of words followed by a pattern continues one spelled
      word. */
  lemma WordsOut(ws: seq<string>, rest: Re, s: string, i: nat, c: Caps, ic: bool, h: Hit) returns (k: nat)
    requires i <= |s| && h in Run(Cat(OneOf(ws), rest), s, i, c, ic)
    ensures k < |ws| && LitAt(s, i, ws[k], ic) && h in Run(rest, s, i + |ws[k]|, c, ic)
  {
    var j := CatSplit(OneOf(ws), rest, s, i, c, ic, h);
    k := WordOf(ws, s, i, c, ic, Run(OneOf(ws), s, i, c, ic), j);
  }

  /** The word a hit of a list of words spelled. */
  lemma WordOf(ws: seq<string>, s: string, i: nat, c: Caps, ic: bool, hs: seq<Hit>, j: nat) returns (k: nat)
    requires i <= |s| && hs == Run(OneOf(ws), s, i, c, ic) && j < |hs|
    ensures k < |ws| && LitAt(s, i, ws[k], ic) && hs[j] == Hit(i + |ws[k]|, c)
  {
    assert hs[j] in hs;
    WordsMember(ws, s, i, c, ic, hs[j]);
    k :| 0 <= k < |ws| && LitAt(s, i, ws[k], ic) && hs[j] == Hit(i + |ws[k]|, c);
  }

  /** A spelled word that the rest continues gives a hit. */
  lemma WordsIn(ws: seq<string>, rest: Re, s: string, i: nat, c: Caps, ic: bool, k: nat)
    requires i <= |s| && k < |ws| && LitAt(s, i, ws[k], ic) && |Run(rest, s, i + |ws[k]|, c, ic)| > 0
    ensures |Run(Cat(OneOf(ws), rest), s, i, c, ic)| > 0
  {
    WordsInclude(ws, s, i, c, ic, k);
    var wr := Run(OneOf(ws), s, i, c, ic);
    var f :| 0 <= f < |wr| && wr[f] == Hit(i + |ws[k]|, c);
    CatSome(OneOf(ws), rest, s, i, c, ic, f);
  }

  lemma WordsSepWordsIn(ws: seq<string>, sep: string, n: string, vs: seq<string>, rest: Re, s: string, ic: bool, k: nat, d: nat)
    requires Nullable(rest)
    requires k < |ws| && d < |vs| && LitAt(s, 0, ws[k], ic)
    requires LitAt(s, |ws[k]|, sep, ic) && LitAt(s, |ws[k]| + |sep|, vs[d], ic)
    ensures Match(WordsSepWords(ws, sep, n, vs, rest), s, ic).Some?
  {
    var p1 := |ws[k]|;
    CatLit(sep, Cat(Group(n, OneOf(vs)), rest), s, p1, map[], ic);
    GroupWordsIn(n, vs, rest, s, p1 + |sep|, map[], ic, d);
    WordsIn(ws, Cat(Lit(sep), Cat(Group(n, OneOf(vs)), rest)), s, 0, map[], ic, k);
  }

  /** A spelled word of a named group followed by a rest that may match the
      empty string gives a hit. */
  lemma GroupWordsIn(n: string, vs: seq<string>, rest: Re, s: string, i: nat, c: Caps, ic: bool, d: nat)
    requires Nullable(rest) && i <= |s|
    requires d < |vs| && LitAt(s, i, vs[d], ic)
    ensures |Run(Cat(Group(n, OneOf(vs)), rest), s, i, c, ic)| > 0
  {
    var p := i + |vs[d]|;
    WordsInclude(vs, s, i, c, ic, d);
    var vr := Run(OneOf(vs), s, i, c, ic);
    var e :| 0 <= e < |vr| && vr[e] == Hit(p, c);
    assert Run(Group(n, OneOf(vs)), s, i, c, ic)[e] == Hit(p, c[n := (i, p)]);
    NullableRuns(rest, s, p, c[n := (i, p)], ic);
    CatSome(Group(n, OneOf(vs)), rest, s, i, c, ic, e);
  }

  /** What a pattern `^(?P<n>w1|w2|...)rest` guarantees of every text it
      matches: the text opens with one of the words, and when the rest
      ends in `$` the match reaches the end. */
  lemma AnchoredWords(n: string, ws: seq<string>, rest: Re, s: string, ic: bool)
    requires Match(Cat(Bol, Cat(Group(n, OneOf(ws)), rest)), s, ic).Some?
    ensures exists k :: 0 <= k < |ws| && LitAt(s, 0, ws[k], ic)
    ensures EndsWithEol(rest) ==> AtEnd(s, Match(Cat(Bol, Cat(Group(n, OneOf(ws)), rest)), s, ic).value.pos)
  {
    var r := Cat(Bol, Cat(Group(n, OneOf(ws)), rest));
    var h := Match(r, s, ic).value;
    assert h in Run(r, s, 0, map[], ic);
    BolFirst(Cat(Group(n, OneOf(ws)), rest), s, map[], ic, h);
    GroupWords(n, ws, rest, s, 0, map[], ic, h);
    if EndsWithEol(rest) {
      EolAnchors(r, s, 0, map[], ic, h);
    }
  }

  /** The same for a pattern whose leading words are not captured. */
  lemma AnchoredPlainWords(ws: seq<string>, rest: Re, s: string, ic: bool)
    requires Match(Cat(Bol, Cat(OneOf(ws), rest)), s, ic).Some?
    ensures exists k :: 0 <= k < |ws| && LitAt(s, 0, ws[k], ic)
    ensures EndsWithEol(rest) ==> AtEnd(s, Match(Cat(Bol, Cat(OneOf(ws), rest)), s, ic).value.pos)
  {
    var r := Cat(Bol, Cat(OneOf(ws), rest));
    var h := Match(r, s, ic).value;
    assert h in Run(r, s, 0, map[], ic);
    BolFirst(Cat(OneOf(ws), rest), s, map[], ic, h);
    LeadingWord(ws, rest, s, 0, map[], ic, h);
    if EndsWithEol(rest) {
      EolAnchors(r, s, 0, map[], ic, h);
    }
  }
}

=== FILE: remove_command.dfy ===
/** The REMOVE command grammar (`command_handlers/remove.py`):
    `^(remove|delete|erase) (.+)$`, case-insensitive. The grammar is simple
    enough to be recognised by hand: a verb, exactly one blank, and a rest
    of at least one character up to the end of the text, where `.` does
    not cross a line break and `$` also accepts one final line break. */
module RemoveCommand {
  import opened Base
  import opened Values
  import opened Operations
  import opened Regex

  const Verbs: seq<string> := ["remove", "delete", "erase"]

  /** Whether the text opens with verb `k` and a blank. */
  predicate VerbAt(s: string, k: nat)
    requires k < |Verbs|
  {
    LitAt(s, 0, Verbs[k] + " ", true)
  }

  /** `.+$` on the text after the blank: the characters up to the end, or
      up to a final line break, if there is at least one and none of them
      is a line break. */
  function Rest(b: string): (t: Option<string>)
    ensures t.Some? ==> t.value != "" && '\n' !in t.value && (b == t.value || b == t.value + "\n")
  {
    var u := if |b| > 0 && b[|b| - 1] == '\n' then b[..|b| - 1] else b;
    if u != "" && '\n' !in u then Some(u) else None
  }

  /** Every rest of the allowed shape is recognised, with or without the
      final line break. */
  lemma RestOf(t: string)
    requires t != "" && '\n' !in t
    ensures Rest(t) == Some(t) && Rest(t + "\n") == Some(t)
  {
    assert t[|t| - 1] in t;
    var b := t + "\n";
    assert b[..|b| - 1] == t;
  }

  /** The verbs do not share a first letter, so at most one opens a text. */
  lemma OneVerb(s: string, k: nat, j: nat)
    requires k < |Verbs| && j < |Verbs| && VerbAt(s, k) && VerbAt(s, j)
    ensures k == j
  {
    assert CharEq(s[0], (Verbs[k] + " ")[0], true);
    assert CharEq(s[0], (Verbs[j] + " ")[0], true);
  }

  /** The verb the text opens with, if any. */
  function VerbIndex(s: string): (k: Option<nat>)
    ensures k.Some? ==> k.value < |Verbs| && VerbAt(s, k.value)
    ensures k.None? ==> forall j :: 0 <= j < |Verbs| ==> !VerbAt(s, j)
  {
    if VerbAt(s, 0) then Some(0) else if VerbAt(s, 1) then Some(1) else if VerbAt(s, 2) then Some(2) else None
  }

  /** What the target group captures, when the grammar matches. */
  function Target(s: string): Option<string> {
    match VerbIndex(s)
    case Some(k) => Rest(s[|Verbs[k]| + 1..])
    case None => None
  }

  /** `RemoveCommandHandler.match`. */
  predicate Matches(s: string) {
    Target(s).Some?
  }

  /** `RemoveCommandHandler.parse`: a REMOVE of the rest of the text, kept
      verbatim, with no parameters; UNKNOWN with the raw text otherwise. */
  function Parse(s: string): (op: EditOperation)
    ensures op.kind == "REMOVE" || op == Unknown(s)
    ensures op.kind == "REMOVE" ==>
      && op.params == Empty && op.target.Some? && VerbIndex(s).Some?
      && op.target.value != "" && '\n' !in op.target.value
      && var b := s[|Verbs[VerbIndex(s).value]| + 1..];
         b == op.target.value || b == op.target.value + "\n"
  {
    match Target(s)
    case Some(t) => EditOperation("REMOVE", Some(t), Empty)
    case None => Unknown(s)
  }

  /** Conversely, a verb (in any case), one blank and a one-line rest is
      always a REMOVE of that rest. */
  lemma Spelled(s: string, k: nat, t: string)
    requires k < |Verbs| && VerbAt(s, k) && t != "" && '\n' !in t
    requires s[|Verbs[k]| + 1..] == t || s[|Verbs[k]| + 1..] == t + "\n"
    ensures Parse(s) == EditOperation("REMOVE", Some(t), Empty)
  {
    RestOf(t);
    OneVerb(s, k, VerbIndex(s).value);
  }

  /** A bare verb, with or without the blank, is not a removal. */
  lemma BareVerb(s: string)
    requires forall k :: 0 <= k < |Verbs| ==> !LitAt(s, 0, Verbs[k] + " ", true) || |s| <= |Verbs[k]| + 1
    ensures Parse(s) == Unknown(s)
  {
  }
}

=== FILE: serial.dfy ===
/** Dictionary form of the timeline (`to_dict` / `from_dict` of every
    class), for the current timeline and the older one. A record field
    that is `None` is a key missing from the dictionary; lists default to
    empty exactly where `data.get(key, [])` does. */
module Serial {
  import opened Base
  import opened Values
  import opened Clips
  import TimeUtils

  /** The current timeline keeps clip ids and file paths and rescales
      small clip bounds; the older one has neither and does not. */
  datatype Dialect = Current | Older

  datatype EffectRec = EffectRec(effectType: Option<string>, params: Option<Params>, start: Option<int>, end: Option<int>)

  /** One entry of a track's or a compound's `clips` list: a clip, a
      compound clip or an effect, told apart by `_type` (`kind`). */
  datatype ItemRec = ItemRec(
    kind: Option<string>, clipId: Option<string>, name: Option<string>,
    start: Option<real>, end: Option<real>, trackType: Option<string>,
    effects: seq<EffectRec>, filePath: Option<string>, clips: seq<ItemRec>,
    frameRate: Option<int>, effectType: Option<string>, params: Option<Params>)

  datatype TrackRec = TrackRec(kind: Option<string>, name: Option<string>, trackType: Option<string>, items: seq<ItemRec>)

  /** `from_clip` / `to_clip` are required keys whose value may be null. */
  datatype TransitionRec = TransitionRec(fromClip: Option<Option<string>>, toClip: Option<Option<string>>,
                                         kind: Option<string>, duration: Option<real>)

  datatype TimelineRec = TimelineRec(version: Option<string>, frameRate: Option<int>,
                                     tracks: seq<TrackRec>, transitions: seq<TransitionRec>)

  const CompoundKind := "CompoundClip"
  const VideoKind := "VideoClip"
  const EffectKind := "Effect"
  /** The frame rate `VideoClip.from_dict` assumes for seconds-like bounds. */
  const AssumedFrameRate := 30
  /** Below this end value clip bounds are taken to be seconds. */
  const SecondsBelow := 1000

  function EffectToRec(e: Effect): (r: EffectRec)
    ensures r.effectType == Some(e.effectType) && r.params == Some(e.params)
  {
    EffectRec(Some(e.effectType), Some(e.params), e.start, e.end)
  }

  /** `Effect.from_dict`: `effect_type` is required; params default to an
      empty dictionary. */
  function EffectFromRec(r: EffectRec): (e: Res<Effect>)
    ensures e.Err? <==> r.effectType.None?
    ensures e.Err? ==> e.exc == KeyError
    ensures e.Ok? ==> e.value.effectType == r.effectType.value && e.value.start == r.start && e.value.end == r.end
  {
    if r.effectType.None? then Err(KeyError)
    else Ok(Effect(r.effectType.value, r.params.GetOr(Empty), r.start, r.end))
  }

  function EffectsToRecs(es: seq<Effect>): (rs: seq<EffectRec>)
    ensures |rs| == |es| && forall i :: 0 <= i < |es| ==> rs[i] == EffectToRec(es[i])
  {
    seq(|es|, i requires 0 <= i < |es| => EffectToRec(es[i]))
  }

  /** `[Effect.from_dict(e) for e in ...]`: the first failure propagates. */
  function EffectsFromRecs(rs: seq<EffectRec>): (r: Res<seq<Effect>>)
    ensures r.Err? <==> exists i :: 0 <= i < |rs| && rs[i].effectType.None?
    ensures r.Ok? ==> |r.value| == |rs| && forall i :: 0 <= i < |rs| ==> Ok(r.value[i]) == EffectFromRec(rs[i])
  {
    if |rs| == 0 then Ok([])
    else
      match EffectFromRec(rs[0])
      case Err(x) => Err(x)
      case Ok(e) =>
        match EffectsFromRecs(rs[1..])
        case Err(x) =>
          assert exists i :: 0 <= i < |rs| && rs[i].effectType.None? by {
            var i :| 0 <= i < |rs[1..]| && rs[1..][i].effectType.None?;
            assert rs[i + 1] == rs[1..][i];
          }
          Err(x)
        case Ok(more) =>
          assert forall i :: 1 <= i < |rs| ==> rs[i] == rs[1..][i - 1];
          Ok([e] + more)
  }

  lemma {:induction false} EffectsRoundTrip(es: seq<Effect>)
    ensures EffectsFromRecs(EffectsToRecs(es)) == Ok(es)
  {
    var rs := EffectsToRecs(es);
    assert forall i :: 0 <= i < |rs| ==> EffectFromRec(rs[i]) == Ok(es[i]);
    var r := EffectsFromRecs(rs);
    assert r.Ok?;
    assert r.value == es;
  }

  /** `VideoClip.to_dict` / `CompoundClip.to_dict`. */
  function ClipToRec(c: Clip, d: Dialect): (r: ItemRec)
    ensures r.kind == Some(if c.Leaf? then VideoKind else CompoundKind)
    ensures r.name == Some(c.name) && r.start == Some(c.start as real) && r.end == Some(c.end as real)
    ensures r.clipId == (if d == Current then c.id else None)
    decreases c
  {
    match c
    case Leaf(id, n, s, e, t, fx, fp) =>
      ItemRec(Some(VideoKind), if d == Current then id else None, Some(n), Some(s as real), Some(e as real), Some(t),
              EffectsToRecs(fx), if d == Current then fp else None, [], None, None, None)
    case Compound(id, n, s, e, t, fx, kids) =>
      ItemRec(Some(CompoundKind), if d == Current then id else None, Some(n), Some(s as real), Some(e as real), Some(t),
              EffectsToRecs(fx), None, ClipsToRecs(kids, d), None, None, None)
  }

  function ClipsToRecs(cs: seq<Clip>, d: Dialect): (rs: seq<ItemRec>)
    ensures |rs| == |cs|
    decreases cs
  {
    if |cs| == 0 then [] else [ClipToRec(cs[0], d)] + ClipsToRecs(cs[1..], d)
  }

  /** An effect as an entry of a track's list. */
  function FxToItem(e: Effect): ItemRec {
    ItemRec(Some(EffectKind), None, None, OptReal(e.start), OptReal(e.end), None, [], None, [], None, Some(e.effectType), Some(e.params))
  }

  function OptReal(x: Option<int>): Option<real> {
    if x.Some? then Some(x.value as real) else None
  }

  function OptTrunc(x: Option<real>): (r: Option<int>)
    ensures forall k: int :: x == Some(k as real) ==> r == Some(k)
  {
    if x.Some? then Some(TimeUtils.Trunc(x.value)) else None
  }

  /** The id a loaded clip gets: the stored `clip_id`, or a fresh one when
      it is missing or empty (`clip_id or uuid4()`); the older timeline has
      no ids. */
  function LoadedId(r: ItemRec, d: Dialect, mint: seq<nat> -> string, at: seq<nat>): (id: Option<string>)
    ensures d == Older ==> id.None?
    ensures d == Current ==> (id.Some? && id.value != "") || id == Some(mint(at))
    ensures d == Current && r.clipId.Some? && r.clipId.value != "" ==> id == r.clipId
  {
    if d == Older then None
    else if r.clipId.Some? && r.clipId.value != "" then r.clipId
    else Some(mint(at))
  }

  /** The bounds `VideoClip.from_dict` stores: when the current timeline
      sees an end below 1000 it takes both bounds for seconds and
      multiplies them by the record's frame rate (30 by default), rounding;
      otherwise the bounds are truncated to integers. */
  function LeafBounds(r: ItemRec, d: Dialect): (int, int)
    requires r.start.Some? && r.end.Some?
  {
    var fr := r.frameRate.GetOr(AssumedFrameRate) as real;
    if d == Current && r.end.value < SecondsBelow as real then
      (TimeUtils.RoundHalfEven(r.start.value * fr), TimeUtils.RoundHalfEven(r.end.value * fr))
    else (TimeUtils.Trunc(r.start.value), TimeUtils.Trunc(r.end.value))
  }

  predicate IsEffectItem(r: ItemRec) { r.kind == Some(EffectKind) }

  /** Load one entry of a list, at path `at`. Effect entries load as range
      effects (a missing `effect_type` is a KeyError); `_type`
      "CompoundClip" loads a compound, after all its children, and every
      other `_type` loads a plain clip. Missing `name`, `start` or `end`
      keys are KeyErrors; a compound whose children loaded an effect is a
      TypeError, raised only after those key lookups
      (`CompoundClip.add_clip` accepts only clips). */
  function ItemFromRec(x: ItemRec, d: Dialect, mint: seq<nat> -> string, at: seq<nat>)
    : (r: Res<(seq<Clip>, seq<Effect>)>)
    ensures r.Ok? ==> |r.value.0| + |r.value.1| == 1
    ensures r.Ok? ==> (r.value.1 != [] <==> IsEffectItem(x))
    ensures r.Ok? && |r.value.0| == 1 ==> Some(r.value.0[0].name) == x.name && r.value.0[0].Compound? == (x.kind == Some(CompoundKind))
    decreases x, 0
  {
    if IsEffectItem(x) then
      if x.effectType.None? then Err(KeyError)
      else Ok(([], [Effect(x.effectType.value, x.params.GetOr(Empty), OptTrunc(x.start), OptTrunc(x.end))]))
    else if x.kind == Some(CompoundKind) then
      match ItemsFromRecs(x.clips, d, mint, at, 0)
      case Err(e) => Err(e)
      case Ok(kids) =>
        if x.name.None? || x.start.None? || x.end.None? then Err(KeyError)
        else if kids.1 != [] then Err(TypeError)
        else
          match EffectsFromRecs(x.effects)
          case Err(e) => Err(e)
          case Ok(fx) =>
            Ok(([Recalc(Compound(LoadedId(x, d, mint, at), x.name.value, TimeUtils.Trunc(x.start.value),
                                 TimeUtils.Trunc(x.end.value), x.trackType.GetOr(VideoType), fx, kids.0))], []))
    else
      if x.start.None? || x.end.None? || x.name.None? then Err(KeyError)
      else
        match EffectsFromRecs(x.effects)
        case Err(e) => Err(e)
        case Ok(fx) =>
          var b := LeafBounds(x, d);
          Ok(([Leaf(LoadedId(x, d, mint, at), x.name.value, b.0, b.1, x.trackType.GetOr(VideoType), fx,
                    if d == Current then x.filePath else None)], []))
  }

  /** Load the entries `rs` of the list at path `at`, numbering them from
      `base`; the first failure propagates. */
  function ItemsFromRecs(rs: seq<ItemRec>, d: Dialect, mint: seq<nat> -> string, at: seq<nat>, base: nat)
    : (r: Res<(seq<Clip>, seq<Effect>)>)
    ensures r.Ok? ==> |r.value.0| + |r.value.1| == |rs|
    decreases rs, 1
  {
    if |rs| == 0 then Ok(([], []))
    else
      match ItemFromRec(rs[0], d, mint, at + [base])
      case Err(e) => Err(e)
      case Ok(h) =>
        match ItemsFromRecs(rs[1..], d, mint, at, base + 1)
        case Err(e) => Err(e)
        case Ok(t) => Ok((h.0 + t.0, h.1 + t.1))
  }

  /** `Track.to_dict`: the clips, then the range effects. */
  function TrackToRec(tr: Track, d: Dialect): (r: TrackRec)
    ensures r.name == Some(tr.name) && r.trackType == Some(tr.trackType) && |r.items| == |tr.clips| + |tr.fx|
  {
    TrackRec(Some("Track"), Some(tr.name), Some(tr.trackType), ClipsToRecs(tr.clips, d) + FxsToItems(tr.fx))
  }

  function FxsToItems(es: seq<Effect>): (rs: seq<ItemRec>)
    ensures |rs| == |es| && forall i :: 0 <= i < |es| ==> rs[i] == FxToItem(es[i])
  {
    seq(|es|, i requires 0 <= i < |es| => FxToItem(es[i]))
  }

  /** `Track.from_dict`: `name` and `track_type` are required. */
  function TrackFromRec(r: TrackRec, d: Dialect, mint: seq<nat> -> string, at: nat): (t: Res<Track>)
    ensures r.name.None? || r.trackType.None? ==> t == Err(KeyError)
    ensures t.Ok? ==> t.value.name == r.name.value && t.value.trackType == r.trackType.value
    ensures t.Ok? ==> |t.value.clips| + |t.value.fx| == |r.items|
  {
    if r.name.None? || r.trackType.None? then Err(KeyError)
    else
      match ItemsFromRecs(r.items, d, mint, [at], 0)
      case Err(e) => Err(e)
      case Ok(p) => Ok(Track(r.name.value, r.trackType.value, p.0, p.1))
  }

  function TransitionToRec(t: Transition): TransitionRec {
    TransitionRec(Some(t.fromClip), Some(t.toClip), Some(t.kind), Some(t.duration))
  }

  /** `Transition.from_dict`: both clip keys are required; type defaults to
      "crossfade" and duration to 1.0. */
  function TransitionFromRec(r: TransitionRec): (t: Res<Transition>)
    ensures t.Err? <==> r.fromClip.None? || r.toClip.None?
    ensures t.Err? ==> t.exc == KeyError
    ensures t.Ok? ==> t.value.kind == r.kind.GetOr("crossfade") && t.value.duration == r.duration.GetOr(1.0)
    ensures t.Ok? ==> Some(t.value.fromClip) == r.fromClip && Some(t.value.toClip) == r.toClip
  {
    if r.fromClip.None? || r.toClip.None? then Err(KeyError)
    else Ok(Transition(r.fromClip.value, r.toClip.value, r.kind.GetOr("crossfade"), r.duration.GetOr(1.0)))
  }

  function TracksFromRecs(rs: seq<TrackRec>, d: Dialect, mint: seq<nat> -> string, base: nat): (r: Res<seq<Track>>)
    ensures r.Ok? ==> |r.value| == |rs|
  {
    if |rs| == 0 then Ok([])
    else
      match TrackFromRec(rs[0], d, mint, base)
      case Err(e) => Err(e)
      case Ok(t) =>
        match TracksFromRecs(rs[1..], d, mint, base + 1)
        case Err(e) => Err(e)
        case Ok(more) => Ok([t] + more)
  }

  function TransitionsFromRecs(rs: seq<TransitionRec>): (r: Res<seq<Transition>>)
    ensures r.Ok? ==> |r.value| == |rs|
    ensures r.Err? <==> exists i :: 0 <= i < |rs| && TransitionFromRec(rs[i]).Err?
  {
    if |rs| == 0 then Ok([])
    else
      match TransitionFromRec(rs[0])
      case Err(e) => Err(e)
      case Ok(t) =>
        match TransitionsFromRecs(rs[1..])
        case Err(e) =>
          assert exists i :: 0 <= i < |rs| && TransitionFromRec(rs[i]).Err? by {
            var i :| 0 <= i < |rs[1..]| && TransitionFromRec(rs[1..][i]).Err?;
            assert rs[i + 1] == rs[1..][i];
          }
          Err(e)
        case Ok(more) =>
          assert forall i :: 1 <= i < |rs| ==> rs[i] == rs[1..][i - 1];
          Ok([t] + more)
  }

  function TracksToRecs(ts: seq<Track>, d: Dialect): (rs: seq<TrackRec>)
    ensures |rs| == |ts|
  {
    if |ts| == 0 then [] else [TrackToRec(ts[0], d)] + TracksToRecs(ts[1..], d)
  }

  function TransitionsToRecs(ts: seq<Transition>): (rs: seq<TransitionRec>)
    ensures |rs| == |ts|
  {
    if |ts| == 0 then [] else [TransitionToRec(ts[0])] + TransitionsToRecs(ts[1..])
  }

  /** `Timeline.to_dict`: version "1.0", the frame rate, tracks and
      transitions; the duration is not written. */
  function TimelineToRec(tl: Timeline, d: Dialect): (r: TimelineRec)
    ensures r.version == Some("1.0") && r.frameRate == Some(tl.frameRate)
    ensures |r.tracks| == |tl.tracks| && |r.transitions| == |tl.transitions|
  {
    TimelineRec(Some("1.0"), Some(tl.frameRate), TracksToRecs(tl.tracks, d), TransitionsToRecs(tl.transitions))
  }

  /** `Timeline.from_dict`: frame rate 30 by default; the tracks are exactly
      the stored ones (none when the key is missing, not the four default
      tracks); the duration starts at 0. */
  function TimelineFromRec(r: TimelineRec, d: Dialect, mint: seq<nat> -> string): (t: Res<Timeline>)
    ensures t.Ok? ==> t.value.duration == 0 && t.value.frameRate == r.frameRate.GetOr(AssumedFrameRate)
    ensures t.Ok? ==> |t.value.tracks| == |r.tracks| && |t.value.transitions| == |r.transitions|
  {
    match TracksFromRecs(r.tracks, d, mint, 0)
    case Err(e) => Err(e)
    case Ok(ts) =>
      match TransitionsFromRecs(r.transitions)
      case Err(e) => Err(e)
      case Ok(trs) => Ok(Timeline(ts, 0, trs, r.frameRate.GetOr(AssumedFrameRate)))
  }

  /** What survives a save and load unchanged: ids present and non-empty,
      clip ends at or past frame 1000 (the current timeline), or no ids and
      no file paths (the older one); compound bounds following their
      children. */
  predicate Reloadable(c: Clip, d: Dialect)
    decreases c
  {
    (match d
     case Current => c.id.Some? && c.id.value != "" && (c.Leaf? ==> c.end >= SecondsBelow)
     case Older => c.id.None? && (c.Leaf? ==> c.filePath.None?))
    && (c.Compound? ==> forall i :: 0 <= i < |c.children| ==> Reloadable(c.children[i], d))
  }

  predicate AllReloadable(cs: seq<Clip>, d: Dialect) {
    forall i :: 0 <= i < |cs| ==> Reloadable(cs[i], d) && Coherent(cs[i])
  }

  lemma TruncInt(k: int)
    ensures TimeUtils.Trunc(k as real) == k
  {
  }

  /** Saving and loading one clip gives it back. */
  lemma {:induction false} ItemRoundTrip(c: Clip, d: Dialect, mint: seq<nat> -> string, at: seq<nat>)
    requires Reloadable(c, d) && Coherent(c)
    ensures ItemFromRec(ClipToRec(c, d), d, mint, at) == Ok(([c], []))
    decreases c, 0
  {
    if c.Compound? {
      var x := ClipToRec(c, d);
      EffectsRoundTrip(c.effects);
      TruncInt(c.start);
      TruncInt(c.end);
      assert LoadedId(x, d, mint, at) == c.id;
      assert AllReloadable(c.children, d);
      assert ClipsToRecs(c.children, d) + FxsToItems([]) == ClipsToRecs(c.children, d);
      ItemsRoundTrip(c.children, [], d, mint, at, 0);
      assert Recalc(Compound(c.id, c.name, c.start, c.end, c.trackType, c.effects, c.children)) == c;
    } else {
      LeafRoundTrip(c, d, mint, at);
    }
  }

  lemma LeafRoundTrip(c: Clip, d: Dialect, mint: seq<nat> -> string, at: seq<nat>)
    requires c.Leaf? && Reloadable(c, d)
    ensures ItemFromRec(ClipToRec(c, d), d, mint, at) == Ok(([c], []))
  {
    var x := ClipToRec(c, d);
    EffectsRoundTrip(c.effects);
    TruncInt(c.start);
    TruncInt(c.end);
    assert LoadedId(x, d, mint, at) == c.id;
    assert LeafBounds(x, d) == (c.start, c.end);
  }

  lemma RecsCons(cs: seq<Clip>, fx: seq<Effect>, d: Dialect)
    requires |cs| > 0
    ensures (ClipsToRecs(cs, d) + FxsToItems(fx))[0] == ClipToRec(cs[0], d)
    ensures (ClipsToRecs(cs, d) + FxsToItems(fx))[1..] == ClipsToRecs(cs[1..], d) + FxsToItems(fx)
  {
    var a := ClipsToRecs(cs, d);
    var f := FxsToItems(fx);
    assert a == [ClipToRec(cs[0], d)] + ClipsToRecs(cs[1..], d);
    assert a[1..] == ClipsToRecs(cs[1..], d);
    assert (a + f)[1..] == a[1..] + f;
  }

  lemma ReloadableTail(cs: seq<Clip>, d: Dialect)
    requires |cs| > 0 && AllReloadable(cs, d)
    ensures Reloadable(cs[0], d) && Coherent(cs[0]) && AllReloadable(cs[1..], d)
  {
    forall i | 0 <= i < |cs[1..]| ensures Reloadable(cs[1..][i], d) && Coherent(cs[1..][i]) {
      assert cs[1..][i] == cs[i + 1];
    }
  }

  /** Saving and loading a list of clips (followed, on a track, by its
      range effects) gives it back. */
  lemma {:induction false} ItemsRoundTrip(cs: seq<Clip>, fx: seq<Effect>, d: Dialect, mint: seq<nat> -> string,
                                          at: seq<nat>, base: nat)
    requires AllReloadable(cs, d)
    ensures ItemsFromRecs(ClipsToRecs(cs, d) + FxsToItems(fx), d, mint, at, base) == Ok((cs, fx))
    decreases cs, 1 + |fx|
  {
    var rs := ClipsToRecs(cs, d) + FxsToItems(fx);
    if |cs| > 0 {
      RecsCons(cs, fx, d);
      ReloadableTail(cs, d);
      ItemRoundTrip(cs[0], d, mint, at + [base]);
      ItemsRoundTrip(cs[1..], fx, d, mint, at, base + 1);
      ItemsFromCons(rs, d, mint, at, base, ([cs[0]], []), (cs[1..], fx));
      assert [cs[0]] + cs[1..] == cs && [] + fx == fx;
    } else {
      assert rs == FxsToItems(fx);
      FxItemsRoundTrip(fx, d, mint, at, base);
    }
  }

  lemma ItemsFromCons(rs: seq<ItemRec>, d: Dialect, mint: seq<nat> -> string, at: seq<nat>, base: nat,
                      h: (seq<Clip>, seq<Effect>), t: (seq<Clip>, seq<Effect>))
    requires |rs| > 0
    requires ItemFromRec(rs[0], d, mint, at + [base]) == Ok(h)
    requires ItemsFromRecs(rs[1..], d, mint, at, base + 1) == Ok(t)
    ensures ItemsFromRecs(rs, d, mint, at, base) == Ok((h.0 + t.0, h.1 + t.1))
  {
  }

  /** Range effects saved into a track's list load back as themselves. */
  lemma {:induction false} FxItemsRoundTrip(fx: seq<Effect>, d: Dialect, mint: seq<nat> -> string,
                                            at: seq<nat>, base: nat)
    ensures ItemsFromRecs(FxsToItems(fx), d, mint, at, base) == Ok(([], fx))
  {
    if |fx| > 0 {
      var e := fx[0];
      assert FxsToItems(fx)[1..] == FxsToItems(fx[1..]);
      assert OptTrunc(OptReal(e.start)) == e.start && OptTrunc(OptReal(e.end)) == e.end;
      assert ItemFromRec(FxToItem(e), d, mint, at + [base]) == Ok(([], [e]));
      FxItemsRoundTrip(fx[1..], d, mint, at, base + 1);
      assert [e] + fx[1..] == fx;
    }
  }

  /** A saved track loads back as itself. */
  lemma TrackRoundTrip(tr: Track, d: Dialect, mint: seq<nat> -> string, at: nat)
    requires AllReloadable(tr.clips, d)
    ensures TrackFromRec(TrackToRec(tr, d), d, mint, at) == Ok(tr)
  {
    ItemsRoundTrip(tr.clips, tr.fx, d, mint, [at], 0);
  }

  lemma TracksFromCons(rs: seq<TrackRec>, d: Dialect, mint: seq<nat> -> string, base: nat, t: Track, more: seq<Track>)
    requires |rs| > 0
    requires TrackFromRec(rs[0], d, mint, base) == Ok(t)
    requires TracksFromRecs(rs[1..], d, mint, base + 1) == Ok(more)
    ensures TracksFromRecs(rs, d, mint, base) == Ok([t] + more)
  {
  }

  lemma {:induction false} TracksRoundTrip(ts: seq<Track>, d: Dialect, mint: seq<nat> -> string, base: nat)
    requires forall i :: 0 <= i < |ts| ==> AllReloadable(ts[i].clips, d)
    ensures TracksFromRecs(TracksToRecs(ts, d), d, mint, base) == Ok(ts)
  {
    if |ts| > 0 {
      var rs := TracksToRecs(ts, d);
      TrackRoundTrip(ts[0], d, mint, base);
      assert rs[0] == TrackToRec(ts[0], d) && rs[1..] == TracksToRecs(ts[1..], d);
      assert forall i :: 0 <= i < |ts[1..]| ==> ts[1..][i] == ts[i + 1];
      TracksRoundTrip(ts[1..], d, mint, base + 1);
      TracksFromCons(rs, d, mint, base, ts[0], ts[1..]);
      assert [ts[0]] + ts[1..] == ts;
    }
  }

  lemma {:induction false} TransitionsRoundTrip(ts: seq<Transition>)
    ensures TransitionsFromRecs(TransitionsToRecs(ts)) == Ok(ts)
  {
    if |ts| > 0 {
      assert TransitionsToRecs(ts)[1..] == TransitionsToRecs(ts[1..]);
      TransitionsRoundTrip(ts[1..]);
      assert [ts[0]] + ts[1..] == ts;
    }
  }

  /** `Timeline.from_dict(t.to_dict())` restores every track, clip, effect
      and transition and the frame rate; only the duration, which is not
      saved, comes back as 0. */
  lemma TimelineRoundTrip(tl: Timeline, d: Dialect, mint: seq<nat> -> string)
    requires forall i :: 0 <= i < |tl.tracks| ==> AllReloadable(tl.tracks[i].clips, d)
    ensures TimelineFromRec(TimelineToRec(tl, d), d, mint) == Ok(tl.(duration := 0))
  {
    TracksRoundTrip(tl.tracks, d, mint, 0);
    TransitionsRoundTrip(tl.transitions);
  }

  function NoMint(p: seq<nat>): string { "" }

  /** The seconds heuristic misreads a short clip: a clip over frames
      [0, 20) is saved as is and loaded back over [0, 600). */
  lemma ShortClipRescaled()
    ensures
      var c := Leaf(Some("c1"), "a", 0, 20, VideoType, [], Some("a.mp4"));
      ItemsFromRecs(ClipsToRecs([c], Current), Current, NoMint, [0], 0)
        == Ok(([Leaf(Some("c1"), "a", 0, 600, VideoType, [], Some("a.mp4"))], []))
  {
    var c := Leaf(Some("c1"), "a", 0, 20, VideoType, [], Some("a.mp4"));
    var x := ClipToRec(c, Current);
    assert ClipsToRecs([c], Current) == [x];
    EffectsRoundTrip([]);
    assert x.end == Some(20.0) && x.start == Some(0.0) && x.frameRate.None?;
    assert TimeUtils.RoundHalfEven(0.0 * 30.0) == 0;
    assert TimeUtils.RoundHalfEven(20.0 * 30.0) == 600;
    assert LeafBounds(x, Current) == (0, 600);
    assert ItemFromRec(x, Current, NoMint, [0, 0])
        == Ok(([Leaf(Some("c1"), "a", 0, 600, VideoType, [], Some("a.mp4"))], []));
    assert ClipsToRecs([c], Current)[1..] == [];
    assert ItemsFromRecs([], Current, NoMint, [0], 1) == Ok(([], []));
    assert [0] + [0] == [0, 0];
    assert [x][1..] == [];
    var l := Leaf(Some("c1"), "a", 0, 600, VideoType, [], Some("a.mp4"));
    assert ItemsFromRecs([x], Current, NoMint, [0], 0) == Ok(([l] + [], [] + []));
    assert [l] + [] == [l];
    var none: seq<Effect> := [];
    assert none + none == none;
  }

  /** A clip loaded without a usable id gets the one minted for its place. */
  lemma MissingIdMinted(r: ItemRec, mint: seq<nat> -> string, at: seq<nat>)
    requires r.clipId.None? || r.clipId == Some("")
    ensures LoadedId(r, Current, mint, at) == Some(mint(at))
  {
  }

  /** An effect entry inside a compound makes the compound a TypeError, but
      only once its own keys are found: without `name` the same record is a
      KeyError. */
  lemma NestedEffectOrder(e: Effect, d: Dialect, mint: seq<nat> -> string, at: seq<nat>)
    ensures
      var g := ItemRec(Some(CompoundKind), None, Some("g"), Some(0.0), Some(10.0), None, [], None, [FxToItem(e)], None, None, None);
      && ItemFromRec(g, d, mint, at) == Err(TypeError)
      && ItemFromRec(g.(name := None), d, mint, at) == Err(KeyError)
  {
    var g := ItemRec(Some(CompoundKind), None, Some("g"), Some(0.0), Some(10.0), None, [], None, [FxToItem(e)], None, None, None);
    assert ItemFromRec(FxToItem(e), d, mint, at + [0]) == Ok(([], [e]));
    assert [FxToItem(e)][1..] == [];
    assert ItemsFromRecs([], d, mint, at, 1) == Ok(([], []));
    assert ItemsFromRecs(g.clips, d, mint, at, 0) == Ok(([] + [], [e] + []));
  }
}

=== FILE: splitter.dfy ===
/** The conjunction splitter of `parse_command` (`split_outside_quotes` in
    `command_parser.py`): the text is cut at ";", " then " and " and ",
    compared case-insensitively, wherever the reader is outside single-
    and double-quoted spans; the fragments are stripped and empty ones
    dropped. Quote characters stay in the fragments. */
module Splitter {
  import opened Base
  import opened Text
  import opened Regex

  const Conjunctions: seq<string> := [";", " then ", " and "]

  /** Whether the reader is inside a single- or a double-quoted span. */
  datatype Quotes = Quotes(single: bool, double: bool)

  const Unquoted := Quotes(false, false)

  predicate Outside(q: Quotes) {
    !q.single && !q.double
  }

  /** A quote opens or closes a span unless it sits inside a span of the
      other kind. */
  function Toggle(q: Quotes, c: char): (r: Quotes)
    ensures c != '\'' && c != '"' ==> r == q
  {
    if c == '\'' && !q.double then q.(single := !q.single)
    else if c == '"' && !q.single then q.(double := !q.double)
    else q
  }

  /** The quote state after reading `s` from its start. */
  function QuotesAfter(s: string): Quotes
    decreases |s|
  {
    if |s| == 0 then Unquoted else Toggle(QuotesAfter(s[..|s| - 1]), s[|s| - 1])
  }

  /** The conjunction written at `i`, compared case-insensitively: the
      first of ";", " then ", " and " that is there. No two of them can
      start at the same place. */
  function ConjAt(s: string, i: nat): (k: Option<nat>)
    requires i <= |s|
    ensures k.Some? ==> k.value < |Conjunctions| && LitAt(s, i, Conjunctions[k.value], true)
    ensures k.None? ==> forall j :: 0 <= j < |Conjunctions| ==> !LitAt(s, i, Conjunctions[j], true)
  {
    if LitAt(s, i, Conjunctions[0], true) then Some(0)
    else if LitAt(s, i, Conjunctions[1], true) then Some(1)
    else if LitAt(s, i, Conjunctions[2], true) then Some(2)
    else None
  }

  /** Whether `t` spells conjunction `k`, in any case. */
  predicate Spells(t: string, k: nat)
    requires k < |Conjunctions|
  {
    |t| == |Conjunctions[k]| && LitAt(t, 0, Conjunctions[k], true)
  }

  predicate IsConj(t: string) {
    Spells(t, 0) || Spells(t, 1) || Spells(t, 2)
  }

  /** How many characters the reader cuts at `i` in quote state `q`: the
      length of the conjunction there if `s[i]` leaves the reader outside
      quotes, none otherwise. */
  function CutLen(s: string, i: nat, q: Quotes): (n: nat)
    requires i < |s|
    ensures i + n <= |s|
  {
    var k := ConjAt(s, i);
    if Outside(Toggle(q, s[i])) && k.Some? then |Conjunctions[k.value]| else 0
  }

  /** A cut is made outside quotes at a written conjunction, which holds
      no quote and so leaves the quote state as it was. */
  lemma CutFacts(s: string, i: nat, q: Quotes)
    requires i < |s| && CutLen(s, i, q) > 0
    ensures var n := CutLen(s, i, q); var w := s[i..i + n];
      && Outside(Toggle(q, s[i])) && Toggle(q, s[i]) == q
      && IsConj(w) && '\'' !in w && '"' !in w
  {
    var k := ConjAt(s, i).value;
    var w := s[i..i + |Conjunctions[k]|];
    assert LitAt(w, 0, Conjunctions[k], true) by {
      forall j | 0 <= j < |w| ensures CharEq(w[j], Conjunctions[k][j], true) {
        assert w[j] == s[i + j];
      }
    }
    forall j | 0 <= j < |w| ensures w[j] != '\'' && w[j] != '"' {
      assert CharEq(s[i + j], Conjunctions[k][j], true);
    }
    assert s[i] == w[0];
  }

  /** A fragment as read, and the conjunction that ended it ("" for the
      last one). */
  datatype Segment = Segment(piece: string, sep: string)

  function Flat(gs: seq<Segment>): string {
    if |gs| == 0 then "" else gs[0].piece + gs[0].sep + Flat(gs[1..])
  }

  /** The loop of `split_outside_quotes` from position `i`, with the
      fragment `cur` read so far and the quote state `q`: each
      conjunction outside quotes closes the current fragment. Reading the
      fragments back with their conjunctions gives the text again. */
  function Scan(s: string, i: nat, cur: string, q: Quotes): (gs: seq<Segment>)
    requires i <= |s|
    ensures |gs| > 0 && gs[|gs| - 1].sep == ""
    ensures Flat(gs) == cur + s[i..]
    decreases |s| - i
  {
    if i == |s| then
      assert cur + s[i..] == cur;
      [Segment(cur, "")]
    else
      var n := CutLen(s, i, q);
      if n > 0 then
        var rest := Scan(s, i + n, "", Toggle(q, s[i]));
        FlatCut(s, i, n, cur, rest);
        [Segment(cur, s[i..i + n])] + rest
      else
        FlatStep(s, i, cur);
        Scan(s, i + 1, cur + [s[i]], Toggle(q, s[i]))
  }

  lemma FlatCut(s: string, i: nat, n: nat, cur: string, rest: seq<Segment>)
    requires i + n <= |s| && Flat(rest) == "" + s[i + n..]
    ensures Flat([Segment(cur, s[i..i + n])] + rest) == cur + s[i..]
  {
    assert s[i..] == s[i..i + n] + s[i + n..];
    assert "" + s[i + n..] == s[i + n..];
    assert ([Segment(cur, s[i..i + n])] + rest)[1..] == rest;
  }

  lemma FlatStep(s: string, i: nat, cur: string)
    requires i < |s|
    ensures cur + [s[i]] + s[i + 1..] == cur + s[i..]
  {
    assert s[i..] == [s[i]] + s[i + 1..];
  }

  /** The stripped fragments that are not empty, in order. */
  function Kept(gs: seq<Segment>): (ps: seq<string>)
    ensures forall j :: 0 <= j < |ps| ==> ps[j] != "" && !IsSpace(ps[j][0]) && !IsSpace(ps[j][|ps[j]| - 1])
  {
    if |gs| == 0 then []
    else
      var rest := Kept(gs[1..]);
      var p := Strip(gs[0].piece);
      StripShape(gs[0].piece);
      if p != "" then [p] + rest else rest
  }

  /** `split_outside_quotes(text)`. */
  function Split(s: string): (parts: seq<string>)
    ensures forall j :: 0 <= j < |parts| ==> parts[j] != "" && !IsSpace(parts[j][0]) && !IsSpace(parts[j][|parts[j]| - 1])
    ensures |parts| > 1 ==> forall j :: 0 <= j < |parts| ==> |parts[j]| < |s|
  {
    var gs := Scan(s, 0, "", Unquoted);
    assert "" + s[0..] == s;
    KeptLengths(gs);
    Kept(gs)
  }

  /** No kept fragment is longer than the text, and when there are
      several each is strictly shorter. */
  lemma {:induction false} KeptLengths(gs: seq<Segment>)
    ensures forall j :: 0 <= j < |Kept(gs)| ==> |Kept(gs)[j]| <= |Flat(gs)|
    ensures |Kept(gs)| > 1 ==> forall j :: 0 <= j < |Kept(gs)| ==> |Kept(gs)[j]| < |Flat(gs)|
  {
    if |gs| > 0 {
      KeptLengths(gs[1..]);
      var p := Strip(gs[0].piece);
      var rest := Kept(gs[1..]);
      assert |Flat(gs)| == |gs[0].piece| + |gs[0].sep| + |Flat(gs[1..])|;
      if p != "" {
        assert Kept(gs) == [p] + rest;
        if |rest| > 0 {
          assert |rest[0]| > 0;
        }
      }
    }
  }

  /** `strip` leaves no whitespace at either end. */
  lemma StripShape(s: string)
    ensures var r := Strip(s); r != "" ==> !IsSpace(r[0]) && !IsSpace(r[|r| - 1])
  {
    StripRightShape(StripLeft(s));
    StripLeftShape(s);
    var l := StripLeft(s);
    var r := StripRight(l);
    if r != "" {
      StripRightPrefix(l);
      assert r[0] == l[0];
    }
  }

  lemma {:induction false} StripLeftShape(s: string)
    ensures var r := StripLeft(s); r != "" ==> !IsSpace(r[0])
    decreases |s|
  {
    if |s| > 0 && IsSpace(s[0]) { StripLeftShape(s[1..]); }
  }

  lemma {:induction false} StripRightShape(s: string)
    ensures var r := StripRight(s); r != "" ==> !IsSpace(r[|r| - 1])
    decreases |s|
  {
    if |s| > 0 && IsSpace(s[|s| - 1]) { StripRightShape(s[..|s| - 1]); }
  }

  lemma {:induction false} StripRightPrefix(s: string)
    ensures StripRight(s) <= s
    decreases |s|
  {
    if |s| > 0 && IsSpace(s[|s| - 1]) {
      StripRightPrefix(s[..|s| - 1]);
    }
  }

  /** Text without quotes leaves the quote state alone. */
  lemma {:induction false} QuotesAfterPlain(a: string, b: string)
    requires '\'' !in b && '"' !in b
    ensures QuotesAfter(a + b) == QuotesAfter(a)
    decreases |b|
  {
    if |b| > 0 {
      var b' := b[..|b| - 1];
      assert (a + b)[..|a + b| - 1] == a + b';
      assert (a + b)[|a + b| - 1] == b[|b| - 1];
      assert b[|b| - 1] in b;
      assert forall c :: c in b' ==> c in b;
      QuotesAfterPlain(a, b');
    } else {
      assert a + b == a;
    }
  }

  /** Reading one more character updates the quote state by it. */
  lemma QuotesStep(s: string, i: nat)
    requires i < |s|
    ensures QuotesAfter(s[..i + 1]) == Toggle(QuotesAfter(s[..i]), s[i])
  {
    assert s[..i + 1][..i] == s[..i];
  }

  /** The text up to the end of each fragment after the first of
      `[g] + rest`, read after `done`, is the text up to the end of the
      matching fragment of `rest`, read after `done + g.piece + g.sep`. */
  lemma ShiftedPrefixes(done: string, g: Segment, rest: seq<Segment>)
    ensures forall k :: 1 <= k < |rest| + 1 ==>
      done + Flat(([g] + rest)[..k]) + ([g] + rest)[k].piece
        == (done + g.piece + g.sep) + Flat(rest[..k - 1]) + rest[k - 1].piece
  {
    var gs := [g] + rest;
    forall k | 1 <= k < |rest| + 1
      ensures done + Flat(gs[..k]) + gs[k].piece == (done + g.piece + g.sep) + Flat(rest[..k - 1]) + rest[k - 1].piece
    {
      assert gs[..k][1..] == rest[..k - 1];
    }
  }

  /** Whether, after reading `done`, every fragment of `gs` but the last
      ends at a conjunction, at a place outside quotes. */
  predicate CutsOutside(done: string, gs: seq<Segment>) {
    forall k :: 0 <= k < |gs| - 1 ==>
      IsConj(gs[k].sep) && Outside(QuotesAfter(done + Flat(gs[..k]) + gs[k].piece))
  }

  /** One cut followed by the cuts of the rest. */
  lemma CutCase(done: string, g: Segment, rest: seq<Segment>, after: string)
    requires after == done + g.piece + g.sep
    requires IsConj(g.sep) && Outside(QuotesAfter(done + g.piece))
    requires CutsOutside(after, rest)
    ensures CutsOutside(done, [g] + rest)
  {
    var gs := [g] + rest;
    ShiftedPrefixes(done, g, rest);
    assert done + Flat(gs[..0]) + gs[0].piece == done + g.piece;
    forall k | 0 <= k < |gs| - 1
      ensures IsConj(gs[k].sep) && Outside(QuotesAfter(done + Flat(gs[..k]) + gs[k].piece))
    {
      if k > 0 {
        assert gs[k] == rest[k - 1];
      }
    }
  }

  /** Every cut is made at a conjunction and outside quotes: the text
      read up to the end of each fragment leaves the reader outside any
      quoted span. `done` is the text read before the current fragment. */
  lemma {:induction false} CutsOutsideQuotes(s: string, i: nat, done: string, cur: string, q: Quotes)
    requires i <= |s| && done + cur == s[..i] && q == QuotesAfter(s[..i])
    ensures CutsOutside(done, Scan(s, i, cur, q))
    decreases |s| - i, 1
  {
    if i < |s| {
      if CutLen(s, i, q) > 0 {
        ScanCuts(s, i, cur, q);
        CutBranch(s, i, done, cur, q);
      } else {
        StepBranch(s, i, done, cur, q);
      }
    }
  }

  lemma {:induction false} CutBranch(s: string, i: nat, done: string, cur: string, q: Quotes)
    requires i < |s| && done + cur == s[..i] && q == QuotesAfter(s[..i]) && CutLen(s, i, q) > 0
    ensures var n := CutLen(s, i, q);
      CutsOutside(done, [Segment(cur, s[i..i + n])] + Scan(s, i + n, "", Toggle(q, s[i])))
    decreases |s| - i, 0
  {
    var n := CutLen(s, i, q);
    var q' := Toggle(q, s[i]);
    var w := s[i..i + n];
    var rest := Scan(s, i + n, "", q');
    CutFacts(s, i, q);
    PrefixGrows(s, i, n, done, cur);
    QuotesAfterPlain(s[..i], w);
    assert s[..i + n] + "" == s[..i + n];
    CutsOutsideQuotes(s, i + n, s[..i + n], "", q');
    CutCase(done, Segment(cur, w), rest, s[..i + n]);
  }

  /** One cut as the reader makes it. */
  lemma ScanCuts(s: string, i: nat, cur: string, q: Quotes)
    requires i < |s| && CutLen(s, i, q) > 0
    ensures var n := CutLen(s, i, q);
      Scan(s, i, cur, q) == [Segment(cur, s[i..i + n])] + Scan(s, i + n, "", Toggle(q, s[i]))
  {
  }

  lemma {:induction false} StepBranch(s: string, i: nat, done: string, cur: string, q: Quotes)
    requires i < |s| && done + cur == s[..i] && q == QuotesAfter(s[..i]) && CutLen(s, i, q) == 0
    ensures CutsOutside(done, Scan(s, i, cur, q))
    decreases |s| - i, 0
  {
    var q' := Toggle(q, s[i]);
    assert Scan(s, i, cur, q) == Scan(s, i + 1, cur + [s[i]], q');
    QuotesStep(s, i);
    PrefixGrows(s, i, 1, done, cur);
    CutsOutsideQuotes(s, i + 1, done, cur + [s[i]], q');
  }

  lemma PrefixGrows(s: string, i: nat, n: nat, done: string, cur: string)
    requires i + n <= |s| && done + cur == s[..i]
    ensures done + cur + s[i..i + n] == s[..i + n] == s[..i] + s[i..i + n]
    ensures n == 1 ==> done + (cur + [s[i]]) == s[..i + 1]
  {
    assert s[..i + n] == s[..i] + s[i..i + n];
    if n == 1 {
      assert s[i..i + 1] == [s[i]];
    }
  }

  /** The fragments of a whole text: reading them back gives the text,
      each but the last ends in a conjunction, and each such cut is
      outside quotes. */
  lemma Fragments(s: string)
    ensures var gs := Scan(s, 0, "", Unquoted);
      && Flat(gs) == s
      && Split(s) == Kept(gs)
      && forall k :: 0 <= k < |gs| - 1 ==>
           IsConj(gs[k].sep) && Outside(QuotesAfter(Flat(gs[..k]) + gs[k].piece))
  {
    assert "" + s[0..] == s;
    assert s[..0] == "";
    CutsOutsideQuotes(s, 0, "", "", Unquoted);
    var gs := Scan(s, 0, "", Unquoted);
    forall k | 0 <= k < |gs| - 1 ensures "" + Flat(gs[..k]) + gs[k].piece == Flat(gs[..k]) + gs[k].piece {
    }
  }

  /** Without a conjunction outside quotes the reader never cuts. */
  lemma {:induction false} ScanWhole(s: string, i: nat, cur: string, q: Quotes)
    requires i <= |s| && forall j :: i <= j < |s| ==> ConjAt(s, j).None?
    ensures Scan(s, i, cur, q) == [Segment(cur + s[i..], "")]
    decreases |s| - i
  {
    if i < |s| {
      assert CutLen(s, i, q) == 0;
      assert Scan(s, i, cur, q) == Scan(s, i + 1, cur + [s[i]], Toggle(q, s[i]));
      ScanWhole(s, i + 1, cur + [s[i]], Toggle(q, s[i]));
      assert cur + [s[i]] + s[i + 1..] == cur + s[i..];
    } else {
      assert cur + s[i..] == cur;
    }
  }

  /** A text that spells no conjunction anywhere is one fragment, the
      stripped text, unless it is blank. */
  lemma NoConjunction(s: string)
    requires forall j :: 0 <= j < |s| ==> ConjAt(s, j).None?
    ensures Split(s) == if Strip(s) != "" then [Strip(s)] else []
  {
    ScanWhole(s, 0, "", Unquoted);
    assert "" + s[0..] == s;
    KeptOne(s);
  }

  lemma KeptOne(p: string)
    ensures Kept([Segment(p, "")]) == if Strip(p) != "" then [Strip(p)] else []
  {
    assert [Segment(p, "")][1..] == [];
  }
}

=== FILE: target_grammar.dfy ===
/** The clip-reference grammar the command handlers share (it is repeated
    in `cut.py`, `trim.py`, `join.py` and `add_text.py`): clip names with a
    type prefix, "last clip"/"first clip", "clip named X", ordinals such as
    "third audio clip", the natural references ("the clip before that
    one", "the clip that starts at 0:05") and the pronouns it/that/this;
    and the reference type a captured target is given. */
module TargetGrammar {
  import opened Base
  import opened Text
  import opened Regex
  import opened Values
  import opened Operations
  import TimeUtils

  const Ordinals: seq<string> := ["first", "second", "third", "fourth", "fifth", "sixth", "seventh", "eighth", "ninth", "tenth"]
  const Suffixes: seq<string> := ["st", "nd", "rd", "th"]
  const TrackWords: seq<string> := ["video", "audio", "subtitle", "effect"]
  const Pronouns: seq<string> := ["it", "that", "this"]

  /** The group names one copy of the target pattern uses. */
  datatype Names = Names(target: string, ordinal: string, refTrackType: string, startTime: string, pronoun: string)

  const Plain := Names("target", "ordinal", "ref_track_type", "start_time", "target_pronoun")
  const FirstNames := Names("first_target", "ordinal_first", "ref_track_type_first", "start_time_first", "first_target_pronoun")
  const SecondNames := Names("second_target", "ordinal_second", "ref_track_type_second", "start_time_second", "second_target_pronoun")

  /** `first|...|tenth|\d+(st|nd|rd|th)` */
  const OrdinalWord := Alt(OneOf(Ordinals), Cat(Plus(Digit), OneOf(Suffixes)))
  /** `\d{1,2}:\d{2}|\d+` */
  const ClockOrDigits := Alt(Seq([Rep(Digit, 1, Some(2), false), Lit(":"), Rep(Digit, 2, Some(2), false)]), Plus(Digit))
  /** `[\w_\-]` */
  const NameChars := CharSet([WordClass, Chr('_'), Chr('-')], false)

  /** `<ordinal>(?: <video|audio|subtitle|effect>)? <noun>` */
  function OrdinalRef(n: Names, noun: string): Re {
    Seq([Group(n.ordinal, OrdinalWord), Opt(Cat(Lit(" "), Group(n.refTrackType, OneOf(TrackWords)))), Lit(" " + noun)])
  }

  /** The natural references, in pattern order. */
  function NaturalRefs(startTime: string): seq<Re> {
    [Lit("this clip"), Lit("the clip before that one"), Lit("the clip after that one"),
     Cat(Lit("the clip that starts at "), Group(startTime, ClockOrDigits))]
  }

  function PronounRe(name: string): Re { Group(name, OneOf(Pronouns)) }

  /** A name with a prefix followed by word characters, as `clip\w+`. */
  function Prefixed(p: string): Re { Cat(Lit(p), Plus(WordCh)) }

  /** The alternatives of the target group, in pattern order. */
  function TargetAlternatives(n: Names): seq<Re> {
    [Lit("last clip"), Lit("first clip"), Cat(Lit("clip named "), Plus(NameChars)), Prefixed("clip"),
     Prefixed("audio"), Prefixed("subtitle"), Prefixed("effect"), OrdinalRef(n, "clip")]
    + NaturalRefs(n.startTime) + [PronounRe(n.pronoun)]
  }

  /** `(?:the )?(?P<target>(...))` */
  function FullTarget(n: Names): Re {
    Cat(Opt(Lit("the ")), Group(n.target, Alts(TargetAlternatives(n))))
  }

  /** What one copy of the target pattern captured. */
  datatype Reference = Reference(target: Option<string>, ordinal: Option<string>, refTrackType: Option<string>,
                                 startTime: Option<string>, pronoun: Option<string>)

  function ReferenceOf(s: string, h: Hit, n: Names): Reference {
    Reference(Captured(s, h, n.target), Captured(s, h, n.ordinal), Captured(s, h, n.refTrackType),
              Captured(s, h, n.startTime), Captured(s, h, n.pronoun))
  }

  /** The reference type the handlers give a target that is not a bare
      pronoun, from its lower-cased text `t`, testing in handler order. */
  function RefKind(t: string, ordinal: Option<string>): (k: Option<string>)
    ensures k == Some("positional") <==> t == "last clip" || t == "first clip"
    ensures k == Some("ordinal") ==> Given(ordinal)
    ensures k.None? ==> !Given(ordinal) && !StartsWith(t, "clip named") && !StartsWith(t, "the clip that starts at")
    ensures Given(ordinal) && !StartsWith(t, "clip named") && t != "last clip" && t != "first clip" ==> k == Some("ordinal")
  {
    if t == "last clip" || t == "first clip" then Some("positional")
    else if StartsWith(t, "clip named") then Some("named")
    else if Given(ordinal) then Some("ordinal")
    else if t == "this clip" then Some("contextual")
    else if t == "the clip before that one" || t == "the clip after that one" then Some("relative")
    else if StartsWith(t, "the clip that starts at") then Some("by_start_time")
    else None
  }

  /** The keys `RefDetails` may write. */
  const DetailKeys: set<string> := {"ordinal", "ref_track_type", "track_type", "relative_position", "start_time"}

  /** The extra parameters cut, trim and join record along with the
      reference type of a non-pronoun target `t` (lower-cased). */
  function RefDetails(p: Params, t: string, r: Reference): (q: Params)
    ensures forall k :: k !in DetailKeys ==> Get(q, k) == Get(p, k)
    ensures RefKind(t, r.ordinal) == Some("ordinal") ==>
      Get(q, "ordinal") == Some(VStr(r.ordinal.value))
      && (Given(r.refTrackType) ==>
            Get(q, "ref_track_type") == Some(VStr(r.refTrackType.value)) && Get(q, "track_type") == Some(VStr(r.refTrackType.value)))
    ensures RefKind(t, r.ordinal) == Some("relative") ==>
      Get(q, "relative_position") == Some(VStr(if t == "the clip before that one" then "before" else "after"))
    ensures RefKind(t, r.ordinal) == Some("by_start_time") ==> Get(q, "start_time") == Some(OptValue(r.startTime))
    ensures (RefKind(t, r.ordinal) != Some("ordinal") && RefKind(t, r.ordinal) != Some("relative")
             && RefKind(t, r.ordinal) != Some("by_start_time")) ==> q == p
  {
    match RefKind(t, r.ordinal)
    case Some("ordinal") =>
      var q := Assign(p, "ordinal", VStr(r.ordinal.value));
      if Given(r.refTrackType) then
        Assign(Assign(q, "ref_track_type", VStr(r.refTrackType.value)), "track_type", VStr(r.refTrackType.value))
      else q
    case Some("relative") => Assign(p, "relative_position", VStr(if t == "the clip before that one" then "before" else "after"))
    case Some("by_start_time") => Assign(p, "start_time", OptValue(r.startTime))
    case _ => p
  }

  /** The track type a non-pronoun target's prefix implies. */
  function PrefixType(t: string): (tt: Option<string>)
    ensures tt.Some? ==> StartsWith(t, tt.value) && tt.value in TrackWords
  {
    if StartsWith(t, "audio") then Some("audio")
    else if StartsWith(t, "subtitle") then Some("subtitle")
    else if StartsWith(t, "effect") then Some("effect")
    else None
  }

  /** The cut/trim rule for a timestamp text: a natural-language time in
      seconds is scaled and truncated, anything else goes through
      `timestamp_to_frames` (whose failures propagate). */
  function TimestampFrames(ts: string, fr: int): Res<int> {
    match TimeUtils.ParseNaturalTime(ts, None)
    case Some(x) => Ok(TimeUtils.Trunc(x * fr as real))
    case None => TimeUtils.TimestampToFrames(VStr(ts), fr)
  }

  /** The add-text and fade rule for a start or end text, kept as a
      string: a natural-language time becomes its truncated frame count,
      an all-digit text is multiplied by the frame rate, anything else is
      kept verbatim. */
  function FrameText(x: string, fr: int): string {
    match TimeUtils.ParseNaturalTime(x, None)
    case Some(v) => IntToString(TimeUtils.Trunc(v * fr as real))
    case None => if IsDigits(x) then IntToString(DigitsValue(x) * fr) else x
  }

  /** Records a written timestamp in frames under "timestamp". */
  function WithStamp(p: Params, ts: Option<string>, fr: int): (q: Res<Params>)
    ensures q.Err? <==> Given(ts) && TimestampFrames(ts.value, fr).Err?
    ensures q.Ok? ==> Get(q.value, "timestamp") == (if Given(ts) then Some(VInt(TimestampFrames(ts.value, fr).value)) else Get(p, "timestamp"))
    ensures q.Ok? ==> forall k :: k != "timestamp" ==> Get(q.value, k) == Get(p, k)
  {
    if Given(ts) then
      match TimestampFrames(ts.value, fr)
      case Ok(n) => Ok(Assign(p, "timestamp", VInt(n)))
      case Err(e) => Err(e)
    else Ok(p)
  }

  /** A reference type as the parameter value it is stored as. */
  function KindValue(k: Option<string>): Option<Value> {
    if k.Some? then Some(VStr(k.value)) else None
  }

  /** The reference details of a target `t` (lower-cased): the pronoun
      itself for a bare pronoun, otherwise what `RefDetails` records. */
  function Classified(t: string, pronoun: bool, r: Reference): (p: Params)
    ensures Get(p, "reference_pronoun") == (if pronoun then Some(VStr(t)) else None)
    ensures Get(p, "reference_type").None? && Get(p, "timestamp").None?
    ensures !pronoun ==> p == RefDetails(Empty, t, r)
  {
    if pronoun then Assign(Empty, "reference_pronoun", VStr(t)) else RefDetails(Empty, t, r)
  }

  /** The reference type a parsed target is given. */
  function TargetKind(target: Option<string>, pronoun: bool, r: Reference): Option<string> {
    if target.None? then None else if pronoun then Some("contextual") else RefKind(LowerStr(target.value), r.ordinal)
  }

  /** The parameters cut and trim attach to a parsed target: the
      reference type and its details (or the pronoun, for a bare pronoun),
      the timestamp in frames when one was written, and the track type a
      type-prefixed name implies. A timestamp that converts to nothing
      fails the whole parse. */
  function ClipParams(target: Option<string>, pronoun: bool, r: Reference, ts: Option<string>, fr: int): (q: Res<Params>)
    ensures q.Err? <==> Given(ts) && TimestampFrames(ts.value, fr).Err?
    ensures q.Ok? ==> Get(q.value, "reference_type") == KindValue(TargetKind(target, pronoun, r))
    ensures q.Ok? ==> Get(q.value, "timestamp") == (if Given(ts) then Some(VInt(TimestampFrames(ts.value, fr).value)) else None)
    ensures q.Ok? && target.Some? ==>
      Get(q.value, "reference_pronoun") == (if pronoun then Some(VStr(LowerStr(target.value))) else None)
    ensures q.Ok? && target.Some? && !pronoun && PrefixType(LowerStr(target.value)).Some? ==>
      Get(q.value, "track_type") == Some(VStr(PrefixType(LowerStr(target.value)).value))
    ensures q.Ok? && target.None? ==> forall k :: k != "timestamp" ==> Get(q.value, k).None?
  {
    var t := if target.Some? then LowerStr(target.value) else "";
    var p1 := if target.None? then Empty else Classified(t, pronoun, r);
    var kind := TargetKind(target, pronoun, r);
    var p2 :- WithStamp(p1, ts, fr);
    var p3 := if target.Some? && !pronoun && PrefixType(t).Some? then Assign(p2, "track_type", VStr(PrefixType(t).value)) else p2;
    Ok(if kind.Some? then Assign(p3, "reference_type", VStr(kind.value)) else p3)
  }
}

=== FILE: text.dfy ===
/** Python string behaviour the engine relies on: character classes,
    `lower`, `strip`, `split`, substring tests, decimal rendering, and the
    `int(str)` / `float(str)` parsers. Character classes are ASCII, except
    whitespace, which follows Python's `str.isspace`. */
module Text {
  import opened Base

  /** Python's `str.isspace` for a single character. */
  predicate IsSpace(c: char) {
    c == ' ' || ('\t' <= c <= '\r') || ('\U{1c}' <= c <= '\U{1f}') || c == '\U{85}' || c == '\U{a0}'
    || c == '\U{1680}' || ('\U{2000}' <= c <= '\U{200a}') || c == '\U{2028}' || c == '\U{2029}'
    || c == '\U{202f}' || c == '\U{205f}' || c == '\U{3000}'
  }

  predicate IsDigit(c: char) { '0' <= c <= '9' }

  predicate IsUpper(c: char) { 'A' <= c <= 'Z' }

  predicate IsLowerLetter(c: char) { 'a' <= c <= 'z' }

  predicate IsAlpha(c: char) { IsUpper(c) || IsLowerLetter(c) }

  /** The regex class `\w`: letters, digits and underscore. */
  predicate IsWordChar(c: char) { IsAlpha(c) || IsDigit(c) || c == '_' }

  function Lower(c: char): (r: char)
    ensures IsUpper(c) ==> r as int == c as int + 32
    ensures !IsUpper(c) ==> r == c
  {
    if IsUpper(c) then (c as int + 32) as char else c
  }

  function Upper(c: char): (r: char)
    ensures IsLowerLetter(c) ==> r as int == c as int - 32
    ensures !IsLowerLetter(c) ==> r == c
  {
    if IsLowerLetter(c) then (c as int - 32) as char else c
  }

  /** Python's `str.lower()` on ASCII letters. */
  function LowerStr(s: string): (r: string)
    ensures |r| == |s|
    ensures forall i :: 0 <= i < |s| ==> r[i] == Lower(s[i])
  {
    seq(|s|, i requires 0 <= i < |s| => Lower(s[i]))
  }

  lemma LowerStrAppend(a: string, b: string)
    ensures LowerStr(a + b) == LowerStr(a) + LowerStr(b)
  {
    assert LowerStr(a + b) == LowerStr(a) + LowerStr(b);
  }

  /** Replaces every `a` by `b` (Python's `str.replace` for one character). */
  function ReplaceChar(s: string, a: char, b: char): (r: string)
    ensures |r| == |s|
    ensures forall i :: 0 <= i < |s| ==> r[i] == (if s[i] == a then b else s[i])
  {
    if |s| == 0 then [] else [if s[0] == a then b else s[0]] + ReplaceChar(s[1..], a, b)
  }

  function StripLeft(s: string): (r: string)
    ensures |r| <= |s|
  {
    if |s| > 0 && IsSpace(s[0]) then StripLeft(s[1..]) else s
  }

  function StripRight(s: string): (r: string)
    ensures |r| <= |s|
  {
    if |s| > 0 && IsSpace(s[|s| - 1]) then StripRight(s[..|s| - 1]) else s
  }

  /** Python's `str.strip()`: the slice left after removing leading and
      trailing whitespace. */
  function Strip(s: string): (r: string)
    ensures |r| <= |s|
  {
    StripRight(StripLeft(s))
  }

  /** Length of the leading run of non-whitespace characters. */
  function WordLen(s: string): (k: nat)
    ensures k <= |s|
    ensures forall i :: 0 <= i < k ==> !IsSpace(s[i])
    ensures k < |s| ==> IsSpace(s[k])
  {
    if |s| == 0 || IsSpace(s[0]) then 0 else 1 + WordLen(s[1..])
  }

  /** Python's `str.split()` with no separator: the maximal runs of
      non-whitespace characters, in order. */
  function Words(s: string): (ws: seq<string>)
    ensures forall w <- ws :: |w| > 0 && forall c <- w :: !IsSpace(c)
    decreases |s|
  {
    if |s| == 0 then []
    else if IsSpace(s[0]) then Words(s[1..])
    else
      var k := WordLen(s);
      [s[..k]] + Words(s[k..])
  }

  /** Index of the first occurrence of `c`. */
  function IndexOf(s: string, c: char): (k: nat)
    requires c in s
    ensures k < |s| && s[k] == c && c !in s[..k]
  {
    if s[0] == c then 0 else 1 + IndexOf(s[1..], c)
  }

  /** Python's `str.split(sep)` for a one-character separator. */
  function SplitOn(s: string, sep: char): (parts: seq<string>)
    ensures |parts| >= 1
    ensures forall p <- parts :: sep !in p
    decreases |s|
  {
    if sep in s then
      var k := IndexOf(s, sep);
      [s[..k]] + SplitOn(s[k + 1..], sep)
    else [s]
  }

  /** Python's `sep.join(parts)`. */
  function JoinWith(parts: seq<string>, sep: char): string {
    if |parts| == 0 then []
    else if |parts| == 1 then parts[0]
    else parts[0] + [sep] + JoinWith(parts[1..], sep)
  }

  /** Splitting on a separator and joining back gives the original text. */
  lemma {:induction false} JoinSplitOn(s: string, sep: char)
    ensures JoinWith(SplitOn(s, sep), sep) == s
    decreases |s|
  {
    if sep in s {
      var k := IndexOf(s, sep);
      var rest := SplitOn(s[k + 1..], sep);
      var parts := SplitOn(s, sep);
      assert parts == [s[..k]] + rest;
      assert parts[0] == s[..k] && parts[1..] == rest;
      JoinSplitOn(s[k + 1..], sep);
      assert JoinWith(parts, sep) == s[..k] + [sep] + s[k + 1..];
      assert s == s[..k] + [sep] + s[k + 1..];
    }
  }

  /** Python's `t in s` for strings. */
  predicate Contains(s: string, t: string)
    decreases |s|
  {
    (|t| <= |s| && s[..|t|] == t) || (|s| > 0 && Contains(s[1..], t))
  }

  /** `Contains` holds exactly when `t` occurs at some offset of `s`. */
  lemma {:induction false} ContainsAt(s: string, t: string, i: nat)
    requires i + |t| <= |s| && s[i..i + |t|] == t
    ensures Contains(s, t)
    decreases i
  {
    if i > 0 {
      assert s[1..][i - 1..i - 1 + |t|] == t;
      ContainsAt(s[1..], t, i - 1);
    }
  }

  predicate StartsWith(s: string, p: string) { p <= s }

  predicate EndsWith(s: string, p: string) { |p| <= |s| && s[|s| - |p|..] == p }

  /** Python's `str.isdigit()` on ASCII digits. */
  predicate IsDigits(s: string) {
    |s| > 0 && forall i :: 0 <= i < |s| ==> IsDigit(s[i])
  }

  function DigitVal(c: char): nat
    requires IsDigit(c)
  {
    c as int - '0' as int
  }

  function DigitChar(d: nat): (c: char)
    requires d < 10
    ensures IsDigit(c) && DigitVal(c) == d
  {
    ('0' as int + d) as char
  }

  /** Decimal rendering of a natural number (Python's `str(n)`). */
  function NatToString(n: nat): (s: string)
    ensures |s| > 0 && IsDigits(s)
    ensures DigitsValue(s) == n
    ensures s[0] != '0' || n == 0
  {
    if n < 10 then [DigitChar(n)]
    else
      var p := NatToString(n / 10);
      var r := p + [DigitChar(n % 10)];
      assert r[..|r| - 1] == p;
      r
  }

  /** Decimal rendering of an integer (Python's `str(i)`). */
  function IntToString(i: int): (s: string)
    ensures |s| > 0
    ensures i < 0 <==> s[0] == '-'
  {
    if i < 0 then "-" + NatToString(-i) else NatToString(i)
  }

  /** Value of a run of digits, skipping underscores. */
  function DigitsValue(t: string): nat {
    if |t| == 0 then 0
    else if IsDigit(t[|t| - 1]) then DigitsValue(t[..|t| - 1]) * 10 + DigitVal(t[|t| - 1])
    else DigitsValue(t[..|t| - 1])
  }

  /** Number of digits in a run, skipping underscores. */
  function DigitCount(t: string): nat {
    if |t| == 0 then 0
    else (if IsDigit(t[|t| - 1]) then 1 else 0) + DigitCount(t[..|t| - 1])
  }

  /** Python's digit-part syntax for numeric literals: digits, where a single
      underscore may separate two digits. */
  predicate IsDigitPart(t: string) {
    |t| > 0 && IsDigit(t[0]) && IsDigit(t[|t| - 1])
    && forall i :: 0 <= i < |t| ==> (IsDigit(t[i]) || (t[i] == '_' && i + 1 < |t| && IsDigit(t[i + 1])))
  }

  /** Splits off a leading `+` or `-`; the flag says whether it was `-`. */
  function Sign(t: string): (bool, string) {
    if |t| > 0 && (t[0] == '-' || t[0] == '+') then (t[0] == '-', t[1..]) else (false, t)
  }

  /** Python's `int(s)` in base 10: surrounding whitespace, an optional sign
      and a digit part; anything else is a ValueError (here `None`). */
  function ParsePyInt(s: string): (r: Option<int>)
    ensures IsDigits(s) ==> r == Some(DigitsValue(s) as int)
  {
    var (neg, body) := Sign(Strip(s));
    if IsDigitPart(body) then Some(if neg then -(DigitsValue(body) as int) else DigitsValue(body) as int)
    else None
  }

  function Pow10(n: nat): (p: nat)
    ensures p >= 1
  {
    if n == 0 then 1 else 10 * Pow10(n - 1)
  }

  /** `m * 10^e` for an integer exponent. */
  function Scale10(m: real, e: int): real {
    if e >= 0 then m * (Pow10(e) as real) else m / (Pow10(-e) as real)
  }

  /** The unsigned mantissa of a float literal: `I`, `I.`, `I.F` or `.F`. */
  function Mantissa(m: string): Option<real> {
    if '.' in m then
      var k := IndexOf(m, '.');
      var ip := m[..k];
      var fp := m[k + 1..];
      if (ip == [] || IsDigitPart(ip)) && (fp == [] || IsDigitPart(fp)) && (ip != [] || fp != []) then
        Some(DigitsValue(ip) as real + (DigitsValue(fp) as real) / (Pow10(DigitCount(fp)) as real))
      else None
    else if IsDigitPart(m) then Some(DigitsValue(m) as real)
    else None
  }

  /** The first index of `e` or `E`, or `|t|` when there is none. */
  function ExpAt(t: string): (k: nat)
    ensures k <= |t|
  {
    if |t| == 0 then 0 else if t[0] == 'e' || t[0] == 'E' then 0 else 1 + ExpAt(t[1..])
  }

  /** The first `e` or `E` is at the end of a text that has none. */
  lemma {:induction false} ExpAtNone(t: string)
    requires forall i :: 0 <= i < |t| ==> t[i] != 'e' && t[i] != 'E'
    ensures ExpAt(t) == |t|
    decreases |t|
  {
    if |t| > 0 {
      ExpAtNone(t[1..]);
    }
  }

  /** A digit part has no exponent and no point, so as a mantissa it is
      its own value. */
  lemma DigitPartIsMantissa(t: string)
    ensures IsDigitPart(t) ==> ExpAt(t) == |t| && t[..ExpAt(t)] == t && Mantissa(t) == Some(DigitsValue(t) as real)
  {
    if IsDigitPart(t) {
      forall i | 0 <= i < |t| ensures t[i] != 'e' && t[i] != 'E' && t[i] != '.' {
        DigitPartChar(t, i);
      }
      ExpAtNone(t);
      assert t[..|t|] == t;
    }
  }

  /** Every character of a digit part is a digit or an underscore before
      a digit. */
  lemma DigitPartChar(t: string, i: nat)
    requires IsDigitPart(t) && i < |t|
    ensures IsDigit(t[i]) || (t[i] == '_' && i + 1 < |t| && IsDigit(t[i + 1]))
  {
  }

  /** An integer scaled by no power of ten is the integer, whatever its sign. */
  lemma UnscaledInt(n: nat, neg: bool)
    ensures var v := Scale10(n as real, 0); (if neg then -v else v) == (if neg then -(n as int) else n as int) as real
  {
    assert Pow10(0) == 1;
  }

  /** Python's `float(s)` for finite decimal literals: surrounding whitespace,
      an optional sign, a mantissa and an optional exponent, with the digit
      parts Python accepts; anything else is a ValueError (here `None`). */
  function ParsePyFloat(s: string): (r: Option<real>)
    ensures ParsePyInt(s).Some? ==> r == Some(ParsePyInt(s).value as real)
  {
    var (neg, body) := Sign(Strip(s));
    DigitPartIsMantissa(body);
    UnscaledInt(DigitsValue(body), neg);
    var k := ExpAt(body);
    var mant := Mantissa(body[..k]);
    var exp: Option<int> :=
      if k == |body| then Some(0)
      else
        var (eneg, digits) := Sign(body[k + 1..]);
        if IsDigitPart(digits) then Some(if eneg then -(DigitsValue(digits) as int) else DigitsValue(digits) as int)
        else None;
    if mant.Some? && exp.Some? then
      var v := Scale10(mant.value, exp.value);
      Some(if neg then -v else v)
    else None
  }
}

=== FILE: time_utils.dfy ===
/** Time conversions: English number words, the natural-language time
    cascade (in seconds), and timestamps to frame numbers. Seconds are exact
    rationals; frames and frame rates are integers. */
module TimeUtils {
  import opened Base
  import opened Text
  import opened Regex
  import opened Values

  /** Python's `int(x)` on a float: truncation toward zero. */
  function Trunc(x: real): (n: int)
    ensures x >= 0.0 ==> 0.0 <= n as real <= x < n as real + 1.0
    ensures x < 0.0 ==> n as real - 1.0 < x <= n as real <= 0.0
  {
    if x >= 0.0 then x.Floor else -((-x).Floor)
  }

  /** `n` is `x` truncated toward zero: the integer at most a unit from `x`
      on the side of zero. */
  predicate TruncatesTo(x: real, n: int) {
    && (x >= 0.0 ==> n as real <= x < n as real + 1.0)
    && (x < 0.0 ==> n as real - 1.0 < x <= n as real)
  }

  /** Python's `round(x)`: to the nearest integer, ties to the even one. */
  function RoundHalfEven(x: real): (n: int)
    ensures x - 0.5 <= n as real <= x + 0.5
    ensures (n as real == x - 0.5 || n as real == x + 0.5) ==> n % 2 == 0
  {
    var f := x.Floor;
    var d := x - f as real;
    if d < 0.5 then f else if d > 0.5 then f + 1 else if f % 2 == 0 then f else f + 1
  }

  const NumWords: map<string, nat> := map[
    "zero" := 0, "one" := 1, "two" := 2, "three" := 3, "four" := 4, "five" := 5, "six" := 6,
    "seven" := 7, "eight" := 8, "nine" := 9, "ten" := 10, "eleven" := 11, "twelve" := 12,
    "thirteen" := 13, "fourteen" := 14, "fifteen" := 15, "sixteen" := 16, "seventeen" := 17,
    "eighteen" := 18, "nineteen" := 19, "twenty" := 20, "thirty" := 30, "forty" := 40,
    "fifty" := 50, "sixty" := 60, "seventy" := 70, "eighty" := 80, "ninety" := 90]

  /** Runs the word loop of `words_to_number` over `ws`, starting from `cur`:
      number words add, "hundred" and "thousand" multiply, others are skipped. */
  function Accumulate(ws: seq<string>, cur: nat): nat
    decreases |ws|
  {
    if |ws| == 0 then cur else Accumulate(ws[1..], Step(ws[0], cur))
  }

  /** One iteration of the word loop. */
  function Step(w: string, cur: nat): nat {
    if w in NumWords then cur + NumWords[w]
    else if w == "hundred" then cur * 100
    else if w == "thousand" then cur * 1000
    else cur
  }

  /** The words the loop does not skip. */
  predicate Counted(w: string) {
    w in NumWords || w == "hundred" || w == "thousand"
  }

  function Known(ws: seq<string>): (r: seq<string>)
    ensures forall w <- r :: Counted(w)
  {
    if |ws| == 0 then [] else (if Counted(ws[0]) then [ws[0]] else []) + Known(ws[1..])
  }

  /** Sum of the values of a list of number words. */
  function WordSum(ws: seq<string>): nat
    requires forall w <- ws :: w in NumWords
  {
    if |ws| == 0 then 0 else NumWords[ws[0]] + WordSum(ws[1..])
  }

  /** Python's `words_to_number`: lower-case, hyphens as spaces, then the word
      loop; `None` when the total is 0. */
  function WordsToNumber(text: string): (r: Option<real>)
    ensures r.Some? ==> r.value > 0.0 && r.value == r.value.Floor as real
    ensures r.None? <==> Accumulate(Words(ReplaceChar(LowerStr(text), '-', ' ')), 0) == 0
  {
    var total := Accumulate(Words(ReplaceChar(LowerStr(text), '-', ' ')), 0);
    if total > 0 then Some(total as real) else None
  }

  /** Unknown words are ignored: only the counted words decide the total. */
  lemma {:induction false} AccumulateIgnoresUnknown(ws: seq<string>, cur: nat)
    ensures Accumulate(ws, cur) == Accumulate(Known(ws), cur)
    decreases |ws|
  {
    if |ws| > 0 {
      AccumulateIgnoresUnknown(ws[1..], Step(ws[0], cur));
      if Counted(ws[0]) {
        var k := [ws[0]] + Known(ws[1..]);
        assert Known(ws) == k;
        assert k[0] == ws[0] && k[1..] == Known(ws[1..]);
      } else {
        assert Known(ws) == Known(ws[1..]);
        assert Step(ws[0], cur) == cur;
      }
    }
  }

  /** Without "hundred" or "thousand", the words are summed left to right. */
  lemma {:induction false} AccumulateSums(ws: seq<string>, cur: nat)
    requires forall w <- ws :: w in NumWords
    ensures Accumulate(ws, cur) == cur + WordSum(ws)
    decreases |ws|
  {
    if |ws| > 0 {
      AccumulateSums(ws[1..], cur + NumWords[ws[0]]);
    }
  }

  /** "hundred" multiplies the running value: "two hundred five" is 205. */
  lemma HundredMultiplies(a: string, b: string, cur: nat)
    requires a in NumWords && b in NumWords
    ensures Accumulate([a, "hundred", b], cur) == (cur + NumWords[a]) * 100 + NumWords[b]
  {
    assert "hundred" !in NumWords;
    assert Step("hundred", cur + NumWords[a]) == (cur + NumWords[a]) * 100;
    assert [a, "hundred", b][1..] == ["hundred", b];
    assert ["hundred", b][1..] == [b];
    assert Step(a, cur) == cur + NumWords[a];
    assert Step(b, (cur + NumWords[a]) * 100) == (cur + NumWords[a]) * 100 + NumWords[b];
    assert Accumulate([b], (cur + NumWords[a]) * 100) == (cur + NumWords[a]) * 100 + NumWords[b] by {
      assert [b][1..] == [];
    }
    assert Accumulate(["hundred", b], cur + NumWords[a]) == Accumulate([b], (cur + NumWords[a]) * 100);
  }

  // ---- natural-language time ----

  /** `[a-z\-\d ]` */
  const CountChars := CharSet([Span('a', 'z'), Chr('-'), DigitClass, Chr(' ')], false)
  /** `[a-z\- ]` */
  const WordChars := CharSet([Span('a', 'z'), Chr('-'), Chr(' ')], false)

  /** `unit` followed by an optional plural `s`. */
  function Plural(unit: string): Re { Cat(Lit(unit), Opt(Lit("s"))) }

  /** `the last ([a-z\-\d ]+)\s*<unit>s?` */
  function LastPattern(unit: string): Re {
    Seq([Lit("the last "), Group("n", Plus(CountChars)), Spaces0, Plural(unit)])
  }

  /** `(\d+)\s*(<unit>s?|<abbrev>)` */
  function DigitsPattern(unit: string, abbrev: string): Re {
    Seq([Group("n", Plus(Digit)), Spaces0, Alt(Plural(unit), Lit(abbrev))])
  }

  /** `([a-z\- ]+)\s*<unit>s?` */
  function WordsPattern(unit: string): Re {
    Seq([Group("n", Plus(WordChars)), Spaces0, Plural(unit)])
  }

  /** The text group `n` captured, for a pattern that matched. */
  function Count(t: string, r: Re): Option<string> {
    match Match(r, t, false)
    case Some(h) => Captured(t, h, "n")
    case None => None
  }

  /** A count written in words, else as a float literal. */
  function CountValue(g: string): Option<real> {
    match WordsToNumber(g)
    case Some(n) => Some(n)
    case None => ParsePyFloat(g)
  }

  /** The fraction words, longest phrase first, and their values. */
  const Fractions: seq<(string, real)> := [("three quarters", 0.75), ("half", 0.5), ("quarter", 0.25), ("third", 1.0 / 3.0)]

  /** The first fraction word contained in `t`, from position `k` of the table. */
  function FractionOf(t: string, k: nat): (r: Option<real>)
    ensures r.Some? ==> exists j :: k <= j < |Fractions| && r.value == Fractions[j].1 && Contains(t, Fractions[j].0)
    ensures r.None? ==> forall j :: k <= j < |Fractions| ==> !Contains(t, Fractions[j].0)
    decreases |Fractions| - k
  {
    if k >= |Fractions| then None
    else if Contains(t, Fractions[k].0) then Some(Fractions[k].1)
    else FractionOf(t, k + 1)
  }

  /** The count each pattern of the cascade read, in rule order, before
      scaling by its unit: `None` when the pattern did not match or its count
      did not parse. */
  datatype Readings = Readings(
    lastSec: Option<real>, lastMin: Option<real>,
    digitSec: Option<real>, digitMin: Option<real>, digitHour: Option<real>,
    wordSec: Option<real>, wordMin: Option<real>, wordHour: Option<real>)

  /** A "the last" count: number words, else a float literal. */
  function LastCount(g: Option<string>): Option<real> {
    if g.Some? then CountValue(g.value) else None
  }

  /** A digit count: the decimal value of the digit run. */
  function DigitRunCount(g: Option<string>): (r: Option<real>)
    ensures r.Some? ==> Whole(r.value)
  {
    if g.Some? then Some(DigitsValue(g.value) as real) else None
  }

  /** A word count: number words only. */
  function WordCount(g: Option<string>): (r: Option<real>)
    ensures r.Some? ==> Whole(r.value) && r.value > 0.0
  {
    if g.Some? then WordsToNumber(g.value) else None
  }

  /** The eight patterns of the cascade, in the order `Readings` lists them. */
  const CountPatterns: seq<Re> := [
    LastPattern("second"), LastPattern("minute"),
    DigitsPattern("second", "s"), DigitsPattern("minute", "m"), DigitsPattern("hour", "h"),
    WordsPattern("second"), WordsPattern("minute"), WordsPattern("hour")]

  /** What group `n` of each pattern captured, in order. */
  function Counts(t: string, ps: seq<Re>): (gs: seq<Option<string>>)
    ensures |gs| == |ps|
    decreases |ps|
  {
    if |ps| == 0 then [] else [Count(t, ps[0])] + Counts(t, ps[1..])
  }

  /** What each pattern of the cascade read from `t`. */
  function ReadingsOf(t: string): (r: Readings)
    ensures forall v <- [r.digitSec, r.digitMin, r.digitHour, r.wordSec, r.wordMin, r.wordHour] :: v.Some? ==> Whole(v.value)
  {
    assert |CountPatterns| == 8;
    ReadingsFrom(Counts(t, CountPatterns))
  }

  /** The readings from the captures of the eight patterns, in order. */
  function ReadingsFrom(g: seq<Option<string>>): (r: Readings)
    requires |g| == 8
    ensures forall v <- [r.digitSec, r.digitMin, r.digitHour, r.wordSec, r.wordMin, r.wordHour] :: v.Some? ==> Whole(v.value)
  {
    Readings(LastCount(g[0]), LastCount(g[1]), DigitRunCount(g[2]), DigitRunCount(g[3]), DigitRunCount(g[4]),
             WordCount(g[5]), WordCount(g[6]), WordCount(g[7]))
  }

  predicate Whole(r: real) { r >= 0.0 && r == r.Floor as real }

  function Scaled(v: Option<real>, unit: real): Option<real> {
    if v.Some? then Some(v.value * unit) else None
  }

  function OrElse(a: Option<real>, b: Option<real>): Option<real> {
    if a.Some? then a else b
  }

  /** The first count rule that applies: digits (s/m/h), then words (s/m/h). */
  function CountRules(r: Readings): Option<real> {
    OrElse(Scaled(r.digitSec, 1.0), OrElse(Scaled(r.digitMin, 60.0), OrElse(Scaled(r.digitHour, 3600.0),
      OrElse(Scaled(r.wordSec, 1.0), OrElse(Scaled(r.wordMin, 60.0), Scaled(r.wordHour, 3600.0))))))
  }

  /** "the last N seconds/minutes": the duration minus the count. */
  function LastRules(r: Readings, d: real): Option<real> {
    if r.lastSec.Some? then Some(d - r.lastSec.value)
    else if r.lastMin.Some? then Some(d - r.lastMin.value * 60.0)
    else None
  }

  /** The ordered cascade on the stripped lower-cased text `t`, given what
      each pattern read: "the last" rules (with a duration), the count rules,
      fractions and "halfway" (with a duration), then the keywords. */
  function Cascade(t: string, duration: Option<real>, r: Readings): Option<real> {
    var last := if duration.Some? then LastRules(r, duration.value) else None;
    OrElse(last, OrElse(CountRules(r), TailRules(t, duration)))
  }

  /** Fractions and "halfway" (with a duration), then the keywords
      start/beginning (0) and end (the duration, when given). */
  function TailRules(t: string, duration: Option<real>): Option<real> {
    if duration.Some? && FractionOf(t, 0).Some? then Some(duration.value * FractionOf(t, 0).value)
    else if duration.Some? && Contains(t, "halfway") then Some(duration.value * 0.5)
    else if t == "start" || t == "beginning" then Some(0.0)
    else if t == "end" && duration.Some? then duration
    else None
  }

  /** Python's `parse_natural_time_expression`: the first rule of the ordered
      cascade that yields a value, in seconds. */
  function ParseNaturalTime(text: string, duration: Option<real>): (r: Option<real>)
    ensures duration.None? && r.Some? ==> Whole(r.value)
  {
    var t := LowerStr(Strip(text));
    NoDurationWholeSeconds(t, ReadingsOf(t));
    Cascade(t, duration, ReadingsOf(t))
  }

  lemma WholeScale(n: real, k: nat)
    requires Whole(n)
    ensures Whole(n * k as real)
  {
    assert n * k as real == (n.Floor * k) as real;
  }

  /** Without a duration, every recognised time is a whole, non-negative
      number of seconds when the counts are whole. */
  lemma NoDurationWholeSeconds(t: string, r: Readings)
    requires forall v <- [r.digitSec, r.digitMin, r.digitHour, r.wordSec, r.wordMin, r.wordHour] :: v.Some? ==> Whole(v.value)
    ensures var x := Cascade(t, None, r); x.Some? ==> Whole(x.value)
  {
    if r.digitMin.Some? { WholeScale(r.digitMin.value, 60); }
    if r.digitHour.Some? { WholeScale(r.digitHour.value, 3600); }
    if r.wordMin.Some? { WholeScale(r.wordMin.value, 60); }
    if r.wordHour.Some? { WholeScale(r.wordHour.value, 3600); }
  }

  /** Without a duration, neither "the last", a fraction, "halfway" nor "end"
      applies: only a count rule or start/beginning. */
  lemma NoDurationNoRelative(t: string, r: Readings)
    ensures Cascade(t, None, r) ==
      if CountRules(r).Some? then CountRules(r)
      else if t == "start" || t == "beginning" then Some(0.0)
      else None
  {
  }

  /** A count read as number words wins over the float reading: "the last
      ten seconds" counts 10. */
  lemma LastCountWords(g: string, n: real)
    requires WordsToNumber(g) == Some(n)
    ensures LastCount(Some(g)) == Some(n)
  {
  }

  /** A count that is no number word is read as a float literal: "the last
      5 seconds" counts 5. */
  lemma LastCountFloat(g: string)
    requires WordsToNumber(g).None?
    ensures LastCount(Some(g)) == ParsePyFloat(g)
  {
  }

  /** With a duration `d`, "the last N seconds" gives `d - N` before any
      other rule, and "the last N minutes" gives `d - 60N` when the seconds
      form did not apply. */
  lemma LastRulesFirst(t: string, d: real, r: Readings)
    ensures r.lastSec.Some? ==> Cascade(t, Some(d), r) == Some(d - r.lastSec.value)
    ensures r.lastSec.None? && r.lastMin.Some? ==> Cascade(t, Some(d), r) == Some(d - r.lastMin.value * 60.0)
  {
  }

  /** Digit forms come first among the counts: seconds give N, minutes 60N,
      hours 3600N, when no relative rule applied. */
  lemma DigitForms(t: string, duration: Option<real>, r: Readings)
    requires duration.None? || (r.lastSec.None? && r.lastMin.None?)
    ensures r.digitSec.Some? ==> Cascade(t, duration, r) == Some(r.digitSec.value)
    ensures r.digitSec.None? && r.digitMin.Some? ==> Cascade(t, duration, r) == Some(r.digitMin.value * 60.0)
    ensures r.digitSec.None? && r.digitMin.None? && r.digitHour.Some? ==> Cascade(t, duration, r) == Some(r.digitHour.value * 3600.0)
  {
  }

  /** Word forms apply after the digit forms: "thirty seconds" is 30. */
  lemma WordForms(t: string, duration: Option<real>, r: Readings)
    requires duration.None? || (r.lastSec.None? && r.lastMin.None?)
    requires r.digitSec.None? && r.digitMin.None? && r.digitHour.None?
    ensures r.wordSec.Some? ==> Cascade(t, duration, r) == Some(r.wordSec.value)
    ensures r.wordSec.None? && r.wordMin.Some? ==> Cascade(t, duration, r) == Some(r.wordMin.value * 60.0)
    ensures r.wordSec.None? && r.wordMin.None? && r.wordHour.Some? ==> Cascade(t, duration, r) == Some(r.wordHour.value * 3600.0)
  {
  }

  /** When nothing is counted: "start"/"beginning" give 0, "end" gives the
      duration (if any), and any other text without a fraction word is
      unrecognised. */
  lemma Keywords(t: string, duration: Option<real>, r: Readings)
    requires CountRules(r).None?
    requires duration.None? || (r.lastSec.None? && r.lastMin.None? && FractionOf(t, 0).None? && !Contains(t, "halfway"))
    ensures t == "start" || t == "beginning" ==> Cascade(t, duration, r) == Some(0.0)
    ensures t == "end" ==> Cascade(t, duration, r) == duration
    ensures t != "start" && t != "beginning" && t != "end" ==> Cascade(t, duration, r).None?
  {
  }

  /** The "halfway" rule never decides: any text containing "halfway" contains
      "half", which the fraction table checks first. */
  lemma HalfwayIsHalf(t: string, d: real)
    requires Contains(t, "halfway")
    ensures FractionOf(t, 0).Some?
    ensures TailRules(t, Some(d)) == Some(d * FractionOf(t, 0).value)
  {
    HalfInHalfway(t);
    if !Contains(t, "three quarters") {
      assert FractionOf(t, 0) == FractionOf(t, 1);
      assert Fractions[1].0 == "half";
    }
  }

  lemma {:induction false} HalfInHalfway(t: string)
    requires Contains(t, "halfway")
    ensures Contains(t, "half")
    decreases |t|
  {
    if |"halfway"| <= |t| && t[..|"halfway"|] == "halfway" {
      assert t[..4] == "half";
    } else {
      HalfInHalfway(t[1..]);
    }
  }

  /** With a duration and nothing counted, the first fraction word of the
      table that occurs gives that fraction of the duration. */
  lemma FractionRule(t: string, d: real, r: Readings)
    requires CountRules(r).None? && r.lastSec.None? && r.lastMin.None?
    requires FractionOf(t, 0).Some?
    ensures exists j :: (0 <= j < |Fractions| && Contains(t, Fractions[j].0) &&
      (forall i :: 0 <= i < j ==> !Contains(t, Fractions[i].0)) &&
      Cascade(t, Some(d), r) == Some(d * Fractions[j].1))
  {
    var j := FirstFraction(t, 0);
    FractionTail(t, d);
    assert LastRules(r, d).None?;
    assert Cascade(t, Some(d), r) == TailRules(t, Some(d));
    assert TailRules(t, Some(d)) == Some(d * FractionOf(t, 0).value);
    var x := Fractions[j].1;
    assert FractionOf(t, 0).value == x;
    assert d * FractionOf(t, 0).value == d * x;
    assert TailRules(t, Some(d)) == Some(d * x);
    assert Cascade(t, Some(d), r) == Some(d * x);
  }

  lemma FractionTail(t: string, d: real)
    requires FractionOf(t, 0).Some?
    ensures TailRules(t, Some(d)) == Some(d * FractionOf(t, 0).value)
  {
  }

  /** Index of the first table word in `t`, searching from `k`. */
  lemma {:induction false} FirstFraction(t: string, k: nat) returns (j: nat)
    requires FractionOf(t, k).Some?
    ensures k <= j < |Fractions| && Contains(t, Fractions[j].0)
    ensures forall i :: k <= i < j ==> !Contains(t, Fractions[i].0)
    ensures FractionOf(t, k) == Some(Fractions[j].1)
    decreases |Fractions| - k
  {
    if Contains(t, Fractions[k].0) {
      j := k;
    } else {
      j := FirstFraction(t, k + 1);
    }
  }

  // ---- timestamps to frames ----

  /** The `H:MM:SS`/`M:SS` branch: every part must be an integer. */
  function ClockParts(parts: seq<string>): (r: Option<seq<int>>)
    ensures r.Some? ==> |r.value| == |parts| && forall i :: 0 <= i < |parts| ==> ParsePyInt(parts[i]) == Some(r.value[i])
    ensures r.None? ==> exists i :: 0 <= i < |parts| && ParsePyInt(parts[i]).None?
  {
    if |parts| == 0 then Some([])
    else
      match ParsePyInt(parts[0])
      case None => None
      case Some(n) =>
        match ClockParts(parts[1..])
        case None => None
        case Some(ns) => Some([n] + ns)
  }

  /** Python's `float(x)` then `int(x * fr)`; a non-numeric text is a ValueError. */
  function FloatFrames(s: string, fr: int): (r: Res<int>)
    ensures r.Err? ==> r.exc == ValueError
    ensures ParsePyInt(s).Some? ==> r == Ok(ParsePyInt(s).value * fr)
  {
    match ParsePyFloat(s)
    case Some(v) =>
      WholeTimes(v, ParsePyInt(s).GetOr(0), fr);
      Ok(Trunc(v * fr as real))
    case None => Err(ValueError)
  }

  /** A whole number of seconds scaled by the rate truncates to itself. */
  lemma WholeTimes(v: real, k: int, fr: int)
    ensures v == k as real ==> Trunc(v * fr as real) == k * fr
  {
    if v == k as real {
      assert v * fr as real == (k * fr) as real;
    }
  }

  /** The colon branch of `timestamp_to_frames`: `M:SS` and `H:MM:SS`;
      `None` when the text has no colon or a part count other than 2 or 3. */
  function ClockFrames(s: string, fr: int): (r: Option<Res<int>>)
    ensures ':' !in s ==> r.None?
    ensures r.Some? && r.value.Err? ==> r.value.exc == ValueError
  {
    if ':' in s then ClockFramesOf(SplitOn(s, ':'), fr) else None
  }

  /** The colon branch once the text is split into its parts. */
  function ClockFramesOf(parts: seq<string>, fr: int): Option<Res<int>> {
    match ClockParts(parts)
    case None => Some(Err(ValueError))
    case Some(ps) =>
      if |ps| == 2 then Some(Ok(ps[0] * 60 * fr + ps[1] * fr))
      else if |ps| == 3 then Some(Ok(ps[0] * 3600 * fr + ps[1] * 60 * fr + ps[2] * fr))
      else None
  }

  /** Python's `timestamp_to_frames`: numbers scale and truncate; a text with
      a colon is `M:SS` or `H:MM:SS`; otherwise an optional trailing "s" is
      dropped and the number is scaled and truncated. */
  function TimestampToFrames(ts: Value, fr: int): (r: Res<int>)
    ensures r == Err(TypeError) <==> ts.VNone?
    ensures r.Err? ==> r.exc == TypeError || r.exc == ValueError
    ensures ts.VInt? || ts.VBool? || ts.VReal? ==> r.Ok?
    ensures ts.VReal? ==> TruncatesTo(ts.r * fr as real, r.value)
    ensures ts.VStr? && ':' !in ts.s && !EndsWith(ts.s, "s") && ParsePyInt(ts.s).Some? ==>
      r == Ok(ParsePyInt(ts.s).value * fr)
  {
    match ts
    case VInt(i) => Ok(i * fr)
    case VBool(b) => Ok(if b then fr else 0)
    case VReal(r) => Ok(Trunc(r * fr as real))
    case VNone => Err(TypeError)
    case VStr(s) =>
      var clock := ClockFrames(s, fr);
      if clock.Some? then clock.value
      else if EndsWith(s, "s") then FloatFrames(s[..|s| - 1], fr)
      else FloatFrames(s, fr)
  }

  lemma IndexOfAt(s: string, c: char, k: nat)
    requires k < |s| && s[k] == c && c !in s[..k]
    ensures c in s && IndexOf(s, c) == k
  {
    var j := IndexOf(s, c);
  }

  /** Splitting `a:b` where neither part has a colon. */
  lemma SplitPair(a: string, b: string)
    requires ':' !in a
    ensures SplitOn(a + ":" + b, ':') == [a] + SplitOn(b, ':')
  {
    var s := a + ":" + b;
    assert s[|a|] == ':';
    assert s[..|a|] == a;
    IndexOfAt(s, ':', |a|);
    assert s[|a| + 1..] == b;
  }

  lemma OnePart(p: string, v: int)
    requires ParsePyInt(p) == Some(v)
    ensures ClockParts([p]) == Some([v])
  {
    var r := ClockParts([p]);
    assert [p][0] == p;
    if r.Some? {
      assert r.value == [r.value[0]];
    }
  }

  /** Two integer parts give `M*60*fr + S*fr`. */
  lemma ClockTwo(parts: seq<string>, fr: int, m: int, sec: int)
    requires ClockParts(parts) == Some([m, sec])
    ensures ClockFramesOf(parts, fr) == Some(Ok(m * 60 * fr + sec * fr))
  {
  }

  /** Three integer parts give `H*3600*fr + M*60*fr + S*fr`. */
  lemma ClockThree(parts: seq<string>, fr: int, h: int, m: int, sec: int)
    requires ClockParts(parts) == Some([h, m, sec])
    ensures ClockFramesOf(parts, fr) == Some(Ok(h * 3600 * fr + m * 60 * fr + sec * fr))
  {
  }

  /** Parts that all parse give exactly their values. */
  lemma {:induction false} PartsOfInts(parts: seq<string>, ns: seq<int>)
    requires |parts| == |ns| && forall i :: 0 <= i < |parts| ==> ParsePyInt(parts[i]) == Some(ns[i])
    ensures ClockParts(parts) == Some(ns)
  {
    if |parts| > 0 {
      PartsOfInts(parts[1..], ns[1..]);
      assert [ns[0]] + ns[1..] == ns;
    }
  }

  /** A text with a colon whose parts convert is converted by them alone. */
  lemma ClockText(s: string, parts: seq<string>, fr: int)
    requires ':' in s && SplitOn(s, ':') == parts && ClockFramesOf(parts, fr).Some?
    ensures TimestampToFrames(VStr(s), fr) == ClockFramesOf(parts, fr).value
  {
    assert ClockFrames(s, fr) == ClockFramesOf(parts, fr);
  }

  lemma SplitTriple(h: string, m: string, sec: string)
    requires ':' !in h && ':' !in m && ':' !in sec
    ensures SplitOn(h + ":" + m + ":" + sec, ':') == [h, m, sec]
  {
    assert h + ":" + m + ":" + sec == h + ":" + (m + ":" + sec);
    SplitPair(h, m + ":" + sec);
    SplitPair(m, sec);
    assert SplitOn(sec, ':') == [sec];
  }

  /** `M:SS` gives `M*60*fr + S*fr`. */
  lemma MinutesSeconds(m: string, sec: string, fr: int, mv: int, sv: int)
    requires ':' !in m && ':' !in sec
    requires ParsePyInt(m) == Some(mv) && ParsePyInt(sec) == Some(sv)
    ensures TimestampToFrames(VStr(m + ":" + sec), fr) == Ok(mv * 60 * fr + sv * fr)
  {
    var s := m + ":" + sec;
    SplitPair(m, sec);
    assert ':' in s by { assert s[|m|] == ':'; }
    PartsOfInts([m, sec], [mv, sv]);
    ClockTwo([m, sec], fr, mv, sv);
    ClockText(s, [m, sec], fr);
  }

  /** `H:MM:SS` gives `H*3600*fr + M*60*fr + S*fr`. */
  lemma HoursMinutesSeconds(h: string, m: string, sec: string, fr: int, hv: int, mv: int, sv: int)
    requires ':' !in h && ':' !in m && ':' !in sec
    requires ParsePyInt(h) == Some(hv) && ParsePyInt(m) == Some(mv) && ParsePyInt(sec) == Some(sv)
    ensures TimestampToFrames(VStr(h + ":" + m + ":" + sec), fr) == Ok(hv * 3600 * fr + mv * 60 * fr + sv * fr)
  {
    var s := h + ":" + m + ":" + sec;
    SplitTriple(h, m, sec);
    assert ':' in s by { assert s[|h|] == ':'; }
    PartsOfInts([h, m, sec], [hv, mv, sv]);
    ClockThree([h, m, sec], fr, hv, mv, sv);
    ClockText(s, [h, m, sec], fr);
  }

  /** A text without a colon that ends in "s" is scaled and truncated without
      the "s"; without the "s" the whole text is the number. */
  lemma SecondsSuffix(s: string, fr: int)
    requires ':' !in s
    ensures EndsWith(s, "s") ==> TimestampToFrames(VStr(s), fr) == FloatFrames(s[..|s| - 1], fr)
    ensures !EndsWith(s, "s") ==> TimestampToFrames(VStr(s), fr) == FloatFrames(s, fr)
  {
  }
}

=== FILE: timeline.dfy ===
/** The editing operations of the timeline (`Timeline` and `Track.add_clip`).
    Each mutator returns the timeline after the call, its Python return
    value or the exception it raised, and how many times the change hook
    fired. Fresh clip ids are supplied by the caller. */
module Timelines {
  import opened Base
  import opened Text
  import opened Clips
  import opened ClipTree
  import TimeUtils

  /** The state after a call, its result, and the number of change
      notifications it sent. */
  datatype Outcome<T> = Outcome(tl: Timeline, result: Res<T>, notified: nat)

  /** The positions of the tracks of type `t`, in timeline order. */
  function TypeIndicesFrom(ts: seq<Track>, t: string, i: nat): (r: seq<nat>)
    ensures forall j :: 0 <= j < |r| ==> i <= r[j] < |ts| && ts[r[j]].trackType == t
    ensures forall j :: i <= j < |ts| && ts[j].trackType == t ==> j in r
    ensures forall a, b :: 0 <= a < b < |r| ==> r[a] < r[b]
    decreases |ts| - i
  {
    if i >= |ts| then []
    else
      var rest := TypeIndicesFrom(ts, t, i + 1);
      if ts[i].trackType == t then
        ConsIncreasing(i, rest);
        [i] + rest
      else rest
  }

  lemma ConsIncreasing(i: nat, rest: seq<nat>)
    requires forall j :: 0 <= j < |rest| ==> i < rest[j]
    requires forall a, b :: 0 <= a < b < |rest| ==> rest[a] < rest[b]
    ensures forall a, b :: 0 <= a < b < |[i] + rest| ==> ([i] + rest)[a] < ([i] + rest)[b]
    ensures forall j :: 0 <= j < |rest| ==> ([i] + rest)[j + 1] == rest[j]
  {
    var r := [i] + rest;
    forall a, b | 0 <= a < b < |r| ensures r[a] < r[b] {
      assert r[b] == rest[b - 1];
      if a > 0 { assert r[a] == rest[a - 1]; }
    }
  }

  function TypeIndices(ts: seq<Track>, t: string): (r: seq<nat>)
    ensures forall j :: 0 <= j < |r| ==> r[j] < |ts| && ts[r[j]].trackType == t
    ensures forall j :: 0 <= j < |ts| && ts[j].trackType == t ==> j in r
    ensures forall a, b :: 0 <= a < b < |r| ==> r[a] < r[b]
  {
    TypeIndicesFrom(ts, t, 0)
  }

  /** `get_track`: the position of the `index`-th track of type `t`, with
      Python's negative indexing; an IndexError when there is no such track. */
  function GetTrack(tl: Timeline, t: string, index: int): (r: Res<nat>)
    ensures r.Err? <==> !(-|TypeIndices(tl.tracks, t)| <= index < |TypeIndices(tl.tracks, t)|)
    ensures r.Err? ==> r.exc == IndexError
    ensures r.Ok? ==> r.value < |tl.tracks| && tl.tracks[r.value].trackType == t
    ensures r.Ok? && index >= 0 ==> r.value == TypeIndices(tl.tracks, t)[index]
    ensures r.Ok? && index < 0 ==> r.value == TypeIndices(tl.tracks, t)[|TypeIndices(tl.tracks, t)| + index]
  {
    var m := TypeIndices(tl.tracks, t);
    var k :- PyIndex(|m|, index);
    Ok(m[k])
  }

  function SetClips(tl: Timeline, i: nat, cs: seq<Clip>): (r: Timeline)
    requires i < |tl.tracks|
    ensures |r.tracks| == |tl.tracks| && r.tracks[i].clips == cs
    ensures r.tracks[i] == tl.tracks[i].(clips := cs)
    ensures forall j :: 0 <= j < |tl.tracks| && j != i ==> r.tracks[j] == tl.tracks[j]
    ensures r.duration == tl.duration && r.transitions == tl.transitions && r.frameRate == tl.frameRate
  {
    tl.(tracks := tl.tracks[i := tl.tracks[i].(clips := cs)])
  }

  /** A clip with new bounds and every other field kept. */
  function WithBounds(c: Clip, s: int, e: int): Clip {
    match c
    case Leaf(id, n, _, _, t, fx, fp) => Leaf(id, n, s, e, t, fx, fp)
    case Compound(id, n, _, _, t, fx, kids) => Compound(id, n, s, e, t, fx, kids)
  }

  /** A clip re-tagged with another track type. */
  function WithTrackType(c: Clip, t: string): Clip {
    match c
    case Leaf(id, n, s, e, _, fx, fp) => Leaf(id, n, s, e, t, fx, fp)
    case Compound(id, n, s, e, _, fx, kids) => Compound(id, n, s, e, t, fx, kids)
  }

  /** `a` is `c` with at most its own bounds changed: for a compound the
      children are untouched. */
  predicate SameButBounds(a: Clip, c: Clip) {
    a.Leaf? == c.Leaf? && a.id == c.id && a.name == c.name && a.trackType == c.trackType
    && a.effects == c.effects
    && (a.Leaf? ==> a.filePath == c.filePath)
    && (a.Compound? ==> a.children == c.children)
  }

  /** Where `Track.add_clip` must place the next clip: the end of the last
      top-level clip, or 0 on an empty track. */
  function NextStart(cs: seq<Clip>): int {
    if |cs| == 0 then 0 else cs[|cs| - 1].end
  }

  /** `Track.add_clip`: append keeping the clip's duration. With clips on
      the track, the clip starts where the last one ends and a different
      explicit position is a ValueError; on an empty track it starts at the
      position, or 0. */
  function AppendClip(tr: Track, c: Clip, position: Option<int>): (r: Res<Track>)
    ensures r.Err? <==> |tr.clips| > 0 && position.Some? && position.value != NextStart(tr.clips)
    ensures r.Err? ==> r.exc == ValueError
    ensures r.Ok? ==> r.value.name == tr.name && r.value.trackType == tr.trackType && r.value.fx == tr.fx
    ensures r.Ok? ==> |r.value.clips| == |tr.clips| + 1 && r.value.clips[..|tr.clips|] == tr.clips
    ensures r.Ok? ==>
      var a := r.value.clips[|tr.clips|];
      a.start == position.GetOr(NextStart(tr.clips)) && a.end - a.start == c.end - c.start && SameButBounds(a, c)
  {
    var duration := c.end - c.start;
    if |tr.clips| > 0 && position.Some? && position.value != NextStart(tr.clips) then Err(ValueError)
    else
      var s := position.GetOr(NextStart(tr.clips));
      var placed := WithBounds(c, s, s + duration);
      assert (tr.clips + [placed])[..|tr.clips|] == tr.clips;
      Ok(tr.(clips := tr.clips + [placed]))
  }

  function Max(a: int, b: int): int { if a >= b then a else b }

  /** `Timeline.add_clip`: the track is picked by plain list indexing, the
      duration grows to the clip's end, and one notification is sent. */
  function AddClip(tl: Timeline, c: Clip, trackIndex: int, position: Option<int>): (r: Outcome<()>)
    ensures PyIndex(|tl.tracks|, trackIndex).Err? ==> r == Outcome(tl, Err(IndexError), 0)
    ensures r.result.Err? ==> r.tl == tl && r.notified == 0
    ensures r.result.Ok? <==>
      PyIndex(|tl.tracks|, trackIndex).Ok? && AppendClip(tl.tracks[PyIndex(|tl.tracks|, trackIndex).value], c, position).Ok?
    ensures r.result.Ok? ==>
      var i := PyIndex(|tl.tracks|, trackIndex).value;
      var tr := AppendClip(tl.tracks[i], c, position).value;
      r.tl.tracks == tl.tracks[i := tr] && r.notified == 1
      && r.tl.duration == Max(tl.duration, tr.clips[|tr.clips| - 1].end)
      && r.tl.duration >= tl.duration && r.tl.transitions == tl.transitions
  {
    match PyIndex(|tl.tracks|, trackIndex)
    case Err(e) => Outcome(tl, Err(e), 0)
    case Ok(i) =>
      match AppendClip(tl.tracks[i], c, position)
      case Err(e) => Outcome(tl, Err(e), 0)
      case Ok(tr) =>
        var placed := tr.clips[|tr.clips| - 1];
        Outcome(tl.(tracks := tl.tracks[i := tr], duration := Max(tl.duration, placed.end)), Ok(()), 1)
  }

  /** Position of the last `c` in `s`, if any. */
  function LastIndexOf(s: string, c: char): (r: Option<nat>)
    ensures r.Some? ==> r.value < |s| && s[r.value] == c && c !in s[r.value + 1..]
    ensures r.None? ==> c !in s
  {
    if |s| == 0 then None
    else if s[|s| - 1] == c then Some(|s| - 1)
    else
      var r := LastIndexOf(s[..|s| - 1], c);
      assert s == s[..|s| - 1] + [s[|s| - 1]];
      r
  }

  /** `os.path.basename`: what follows the last '/'. */
  function Basename(p: string): (r: string)
    ensures '/' !in r
  {
    match LastIndexOf(p, '/')
    case None => p
    case Some(k) => p[k + 1..]
  }

  predicate AllDots(s: string) { forall i :: 0 <= i < |s| ==> s[i] == '.' }

  /** `os.path.splitext(...)[0]` of a base name: drop the part from the last
      '.' unless only dots precede it (".bashrc" keeps its name). */
  function DropExt(b: string): string {
    match LastIndexOf(b, '.')
    case None => b
    case Some(k) => if AllDots(b[..k]) then b else b[..k]
  }

  /** The clip name `load_video` derives from a file path. */
  function Stem(p: string): (r: string)
    ensures '/' !in r
  {
    var b := Basename(p);
    var r := DropExt(b);
    assert forall i :: 0 <= i < |r| ==> r[i] in b;
    r
  }

  /** The last `c` in `x + [c] + y` is the one after `x` when `y` has none. */
  lemma {:induction false} LastIndexOfSplit(x: string, c: char, y: string)
    requires c !in y
    ensures LastIndexOf(x + [c] + y, c) == Some(|x|)
    decreases |y|
  {
    var s := x + [c] + y;
    if |y| > 0 {
      assert s[..|s| - 1] == x + [c] + y[..|y| - 1];
      assert s[|s| - 1] == y[|y| - 1];
      LastIndexOfSplit(x, c, y[..|y| - 1]);
    }
  }

  lemma BasenameAfterSlash(dir: string, b: string)
    requires '/' !in b
    ensures Basename(dir + ['/'] + b) == b
  {
    LastIndexOfSplit(dir, '/', b);
    assert (dir + ['/'] + b)[|dir| + 1..] == b;
  }

  lemma DropExtAfterDot(name: string, ext: string)
    requires |name| > 0 && '.' !in name && '.' !in ext
    ensures DropExt(name + ['.'] + ext) == name
  {
    LastIndexOfSplit(name, '.', ext);
    assert (name + ['.'] + ext)[..|name|] == name;
    assert !AllDots(name) by { assert name[0] != '.'; }
  }

  /** A path "dir/name.ext" whose name has no dots names the clip "name". */
  lemma StemOfPath(dir: string, name: string, ext: string)
    requires |name| > 0 && '/' !in name && '/' !in ext && '.' !in name && '.' !in ext
    ensures Stem(dir + "/" + name + "." + ext) == name
  {
    var b := name + ['.'] + ext;
    assert dir + "/" + name + "." + ext == dir + ['/'] + b;
    assert forall i :: 0 <= i < |b| ==> b[i] != '/' by {
      forall i | 0 <= i < |b| ensures b[i] != '/' {
        if i < |name| { assert b[i] == name[i]; } else if i > |name| { assert b[i] == ext[i - |name| - 1]; }
      }
    }
    BasenameAfterSlash(dir, b);
    DropExtAfterDot(name, ext);
  }

  /** `load_video`: a clip named after the file, spanning
      `int(frame_rate * duration)` frames (60 seconds when no duration is
      given), added like `add_clip`; the clip as placed is returned. */
  function LoadVideo(tl: Timeline, path: string, trackIndex: int, position: Option<int>,
                     seconds: Option<real>, id: string): (r: Outcome<Clip>)
    ensures r.result.Ok? ==>
      var c := r.result.value;
      c.Leaf? && c.name == Stem(path) && c.filePath == Some(path) && c.id == Some(id)
      && c.end - c.start == TimeUtils.Trunc(tl.frameRate as real * seconds.GetOr(60.0))
      && r.tl == AddClip(tl, LoadedClip(tl, path, seconds, id), trackIndex, position).tl
      && r.notified == 1
    ensures r.result.Err? ==> r.tl == tl && r.notified == 0
  {
    var c := LoadedClip(tl, path, seconds, id);
    var o := AddClip(tl, c, trackIndex, position);
    match o.result
    case Err(e) => Outcome(tl, Err(e), 0)
    case Ok(_) =>
      var i := PyIndex(|tl.tracks|, trackIndex).value;
      var cs := o.tl.tracks[i].clips;
      Outcome(o.tl, Ok(cs[|cs| - 1]), o.notified)
  }

  function LoadedClip(tl: Timeline, path: string, seconds: Option<real>, id: string): Clip {
    Leaf(Some(id), Stem(path), 0, TimeUtils.Trunc(tl.frameRate as real * seconds.GetOr(60.0)), VideoType, [], Some(path))
  }

  /** `seconds_to_frames`: `int(round(seconds * frame_rate))`, rounding
      half to even. */
  function SecondsToFrames(seconds: real, frameRate: int): (f: int)
    ensures (f as real - seconds * frameRate as real) * (f as real - seconds * frameRate as real) <= 0.25
    ensures (f as real == seconds * frameRate as real - 0.5 || f as real == seconds * frameRate as real + 0.5) ==> f % 2 == 0
  {
    var x := seconds * frameRate as real;
    var f := TimeUtils.RoundHalfEven(x);
    f
  }

  /** Whole frames turned into seconds and back are the same frames. */
  lemma FramesSecondsRoundTrip(k: int, frameRate: int)
    requires frameRate != 0
    ensures FramesToSeconds(k, frameRate).Ok? && SecondsToFrames(FramesToSeconds(k, frameRate).value, frameRate) == k
  {
  }

  /** The split of the clip at `l` at frame `at`, when `lo < ts < hi`
      holds for its bounds: `name_part1` over [start, at) and `name_part2`
      over [at, end), in its place. */
  function SplitAt(cs: seq<Clip>, l: Loc, at: int, id1: Option<string>, id2: Option<string>): (r: seq<Clip>)
    requires NodeAt(cs, l).Some?
    ensures RebuiltAlong(r, cs, l.path)
    ensures
      var c := At(cs, l);
      var old_ := Container(cs, l.path).value;
      Container(r, l.path) == Some(old_[..l.index] + [Remake(c, c.name + "_part1", c.start, at, id1),
                                                     Remake(c, c.name + "_part2", at, c.end, id2)] + old_[l.index + 1..])
  {
    var c := At(cs, l);
    EditAt(cs, l.path, l.index, 1, [Remake(c, c.name + "_part1", c.start, at, id1), Remake(c, c.name + "_part2", at, c.end, id2)])
  }

  /** `trim_clip`: locate the clip (by id when one is given, else by name)
      in the chosen track; when a timestamp is given, convert it with
      `seconds_to_frames` to T and split iff start < T < end. The two parts
      get the supplied fresh ids. */
  function TrimClip(tl: Timeline, name: Option<string>, ts: Option<real>, trackType: string, trackIndex: int,
                    id: Option<string>, newId1: string, newId2: string): (r: Outcome<bool>)
    ensures GetTrack(tl, trackType, trackIndex).Err? ==> r == Outcome(tl, Err(IndexError), 0)
    ensures r.result.Ok? <==> GetTrack(tl, trackType, trackIndex).Ok?
    ensures r.result == Ok(false) ==> r.tl == tl && r.notified == 0
    ensures r.result == Ok(true) <==>
      GetTrack(tl, trackType, trackIndex).Ok? && ts.Some? &&
      var cs := tl.tracks[GetTrack(tl, trackType, trackIndex).value].clips;
      var l := Locate(cs, KeyOf(name, id));
      l.Some? && At(cs, l.value).start < SecondsToFrames(ts.value, tl.frameRate) < At(cs, l.value).end
    ensures r.result == Ok(true) ==>
      var i := GetTrack(tl, trackType, trackIndex).value;
      var cs := tl.tracks[i].clips;
      var l := Locate(cs, KeyOf(name, id)).value;
      r.tl == SetClips(tl, i, SplitAt(cs, l, SecondsToFrames(ts.value, tl.frameRate), Some(newId1), Some(newId2)))
      && r.notified == 1
  {
    match GetTrack(tl, trackType, trackIndex)
    case Err(e) => Outcome(tl, Err(e), 0)
    case Ok(i) =>
      var cs := tl.tracks[i].clips;
      var l := Locate(cs, KeyOf(name, id));
      if l.Some? && ts.Some? then
        var t := SecondsToFrames(ts.value, tl.frameRate);
        var c := At(cs, l.value);
        if c.start < t < c.end then
          Outcome(SetClips(tl, i, SplitAt(cs, l.value, t, Some(newId1), Some(newId2))), Ok(true), 1)
        else Outcome(tl, Ok(false), 0)
      else Outcome(tl, Ok(false), 0)
  }

  /** Python's `a or b` on optional strings: `a` unless it is None or "". */
  function OrStr(a: Option<string>, b: Option<string>): (r: Option<string>)
    ensures r == a || r == b
    ensures a.Some? && a.value != "" ==> r == a
  {
    if a.Some? && a.value != "" then a else b
  }

  /** The second clip test of `join_clips`: by id when a non-empty id is
      given, else by name. */
  predicate SecondMatches(c: Clip, name: Option<string>, id: Option<string>) {
    if id.Some? && id.value != "" then c.id == id else Some(c.name) == name
  }

  /** The adjacency test shared by `join_clips` and `add_transition`: the
      first clip is found, the element after it in the same list is the
      requested second clip, and the first ends where the second starts. */
  function Adjacent(cs: seq<Clip>, first: Key, secondName: Option<string>, secondId: Option<string>): (r: Option<Loc>)
    ensures r.Some? ==> r == Locate(cs, first) && NodeAt(cs, r.value).Some?
    ensures r.Some? ==>
      var c := Container(cs, r.value.path).value;
      r.value.index + 1 < |c| && SecondMatches(c[r.value.index + 1], secondName, secondId)
      && c[r.value.index].end == c[r.value.index + 1].start
    ensures r.None? ==> (Locate(cs, first).None? ||
      var l := Locate(cs, first).value;
      var c := Container(cs, l.path).value;
      !(l.index + 1 < |c| && SecondMatches(c[l.index + 1], secondName, secondId) && c[l.index].end == c[l.index + 1].start))
  {
    var l :- Locate(cs, first);
    var c := Container(cs, l.path).value;
    if l.index + 1 < |c| && SecondMatches(c[l.index + 1], secondName, secondId) && c[l.index].end == c[l.index + 1].start
    then Some(l) else None
  }

  /** `join_clips`: replace two adjacent clips by one named
      "{first}_joined_{second}" over [first.start, second.end). */
  function JoinClips(tl: Timeline, firstName: Option<string>, secondName: Option<string>, trackType: string,
                     trackIndex: int, firstId: Option<string>, secondId: Option<string>, newId: Option<string>): (r: Outcome<bool>)
    ensures GetTrack(tl, trackType, trackIndex).Err? ==> r == Outcome(tl, Err(IndexError), 0)
    ensures r.result.Ok? <==> GetTrack(tl, trackType, trackIndex).Ok?
    ensures r.result == Ok(false) ==> r.tl == tl && r.notified == 0
    ensures r.result == Ok(true) <==> (GetTrack(tl, trackType, trackIndex).Ok? &&
      Adjacent(tl.tracks[GetTrack(tl, trackType, trackIndex).value].clips, KeyOf(firstName, firstId), secondName, secondId).Some?)
    ensures r.result == Ok(true) ==>
      var i := GetTrack(tl, trackType, trackIndex).value;
      var cs := tl.tracks[i].clips;
      var l := Locate(cs, KeyOf(firstName, firstId)).value;
      var old_ := Container(cs, l.path).value;
      var a := old_[l.index];
      var b := old_[l.index + 1];
      r.notified == 1 && |r.tl.tracks| == |tl.tracks|
      && (forall j :: 0 <= j < |tl.tracks| && j != i ==> r.tl.tracks[j] == tl.tracks[j])
      && RebuiltAlong(r.tl.tracks[i].clips, cs, l.path)
      && Container(r.tl.tracks[i].clips, l.path)
         == Some(old_[..l.index] + [Remake(a, a.name + "_joined_" + b.name, a.start, b.end, newId)] + old_[l.index + 2..])
  {
    match GetTrack(tl, trackType, trackIndex)
    case Err(e) => Outcome(tl, Err(e), 0)
    case Ok(i) =>
      var cs := tl.tracks[i].clips;
      match Adjacent(cs, KeyOf(firstName, firstId), secondName, secondId)
      case None => Outcome(tl, Ok(false), 0)
      case Some(l) =>
        var c := Container(cs, l.path).value;
        var a := c[l.index];
        var b := c[l.index + 1];
        var joined := Remake(a, a.name + "_joined_" + b.name, a.start, b.end, newId);
        Outcome(SetClips(tl, i, EditAt(cs, l.path, l.index, 2, [joined])), Ok(true), 1)
  }

  /** `add_transition`: the same adjacency test as `join_clips`; on success
      exactly one transition is appended and no clip changes. */
  function AddTransition(tl: Timeline, fromName: Option<string>, toName: Option<string>, kind: string, duration: real,
                         trackType: string, trackIndex: int, fromId: Option<string>, toId: Option<string>): (r: Outcome<bool>)
    ensures GetTrack(tl, trackType, trackIndex).Err? ==> r == Outcome(tl, Err(IndexError), 0)
    ensures r.result.Ok? <==> GetTrack(tl, trackType, trackIndex).Ok?
    ensures r.result == Ok(false) ==> r.tl == tl && r.notified == 0
    ensures r.result == Ok(true) <==> (GetTrack(tl, trackType, trackIndex).Ok? &&
      Adjacent(tl.tracks[GetTrack(tl, trackType, trackIndex).value].clips, KeyOf(fromName, fromId), toName, toId).Some?)
    ensures r.result == Ok(true) ==>
      r.tl.tracks == tl.tracks && r.tl.duration == tl.duration && r.notified == 1
      && r.tl.transitions == tl.transitions + [Transition(OrStr(fromName, fromId), OrStr(toName, toId), kind, duration)]
  {
    match GetTrack(tl, trackType, trackIndex)
    case Err(e) => Outcome(tl, Err(e), 0)
    case Ok(i) =>
      if Adjacent(tl.tracks[i].clips, KeyOf(fromName, fromId), toName, toId).Some? then
        var t := Transition(OrStr(fromName, fromId), OrStr(toName, toId), kind, duration);
        Outcome(tl.(transitions := tl.transitions + [t]), Ok(true), 1)
      else Outcome(tl, Ok(false), 0)
  }

  /** Drop the clip at a place and repair the bounds above it. */
  function DropAt(cs: seq<Clip>, l: Loc): (r: seq<Clip>)
    requires NodeAt(cs, l).Some?
    ensures RebuiltAlong(r, cs, l.path)
    ensures
      var old_ := Container(cs, l.path).value;
      Container(r, l.path) == Some(old_[..l.index] + old_[l.index + 1..])
  {
    EditAt(cs, l.path, l.index, 1, [])
  }

  /** `remove_clip`: remove the first pre-order match of the key. */
  function RemoveClip(tl: Timeline, name: Option<string>, trackType: string, trackIndex: int, id: Option<string>): (r: Outcome<bool>)
    ensures GetTrack(tl, trackType, trackIndex).Err? ==> r == Outcome(tl, Err(IndexError), 0)
    ensures r.result.Ok? <==> GetTrack(tl, trackType, trackIndex).Ok?
    ensures r.result == Ok(false) ==> r.tl == tl && r.notified == 0
    ensures r.result == Ok(true) <==> (GetTrack(tl, trackType, trackIndex).Ok? &&
      FirstHit(tl.tracks[GetTrack(tl, trackType, trackIndex).value].clips,
               Flat(tl.tracks[GetTrack(tl, trackType, trackIndex).value].clips), KeyOf(name, id)).Some?)
    ensures r.result == Ok(true) ==>
      var i := GetTrack(tl, trackType, trackIndex).value;
      var cs := tl.tracks[i].clips;
      var l := FirstHit(cs, Flat(cs), KeyOf(name, id)).value;
      NodeAt(cs, l).Some? && r.tl == SetClips(tl, i, DropAt(cs, l)) && r.notified == 1
  {
    match GetTrack(tl, trackType, trackIndex)
    case Err(e) => Outcome(tl, Err(e), 0)
    case Ok(i) =>
      var cs := tl.tracks[i].clips;
      LocateIsFirstHit(cs, KeyOf(name, id));
      match Locate(cs, KeyOf(name, id))
      case None => Outcome(tl, Ok(false), 0)
      case Some(l) => Outcome(SetClips(tl, i, DropAt(cs, l)), Ok(true), 1)
  }

  /** `remove_clip_by_index`: remove the entry at that index of the
      pre-order listing (compounds before their children); an index
      outside the listing returns False. */
  function RemoveClipByIndex(tl: Timeline, clipIndex: int, trackType: string, trackIndex: int): (r: Outcome<bool>)
    ensures GetTrack(tl, trackType, trackIndex).Err? ==> r == Outcome(tl, Err(IndexError), 0)
    ensures r.result.Ok? <==> GetTrack(tl, trackType, trackIndex).Ok?
    ensures r.result == Ok(false) ==> r.tl == tl && r.notified == 0
    ensures r.result == Ok(true) <==> (GetTrack(tl, trackType, trackIndex).Ok? &&
      0 <= clipIndex < |Flat(tl.tracks[GetTrack(tl, trackType, trackIndex).value].clips)|)
    ensures r.result == Ok(true) ==>
      var i := GetTrack(tl, trackType, trackIndex).value;
      var cs := tl.tracks[i].clips;
      NodeAt(cs, Flat(cs)[clipIndex]).Some? && r.tl == SetClips(tl, i, DropAt(cs, Flat(cs)[clipIndex])) && r.notified == 1
  {
    match GetTrack(tl, trackType, trackIndex)
    case Err(e) => Outcome(tl, Err(e), 0)
    case Ok(i) =>
      var cs := tl.tracks[i].clips;
      FlatFromValid(cs, 0);
      if 0 <= clipIndex < |Flat(cs)| then Outcome(SetClips(tl, i, DropAt(cs, Flat(cs)[clipIndex])), Ok(true), 1)
      else Outcome(tl, Ok(false), 0)
  }

  /** `move_clip`: pop the located clip from its list and repair bounds,
      re-tag its track type, then look up the destination track and append
      with `Track.add_clip`. A failing destination lookup or a
      non-sequential position raises after the clip has been removed. */
  function MoveClip(tl: Timeline, name: Option<string>, srcType: string, srcIndex: int, dstType: string,
                    dstIndex: int, position: Option<int>, id: Option<string>): (r: Outcome<bool>)
    ensures GetTrack(tl, srcType, srcIndex).Err? ==> r == Outcome(tl, Err(IndexError), 0)
    ensures r.result == Ok(false) <==>
      GetTrack(tl, srcType, srcIndex).Ok? && Locate(tl.tracks[GetTrack(tl, srcType, srcIndex).value].clips, KeyOf(name, id)).None?
    ensures r.result == Ok(false) ==> r.tl == tl && r.notified == 0
    ensures r.result.Err? || r.result == Ok(true) ==> GetTrack(tl, srcType, srcIndex).Ok? ==>
      var i := GetTrack(tl, srcType, srcIndex).value;
      var cs := tl.tracks[i].clips;
      var l := Locate(cs, KeyOf(name, id));
      l.Some? ==>
        var removed := SetClips(tl, i, DropAt(cs, l.value));
        var moved := WithTrackType(At(cs, l.value), dstType);
        (GetTrack(removed, dstType, dstIndex).Err? ==> r == Outcome(removed, Err(IndexError), 0))
        && (GetTrack(removed, dstType, dstIndex).Ok? ==>
              var d := GetTrack(removed, dstType, dstIndex).value;
              match AppendClip(removed.tracks[d], moved, position)
              case Err(e) => r == Outcome(removed, Err(ValueError), 0)
              case Ok(tr) => r == Outcome(removed.(tracks := removed.tracks[d := tr]), Ok(true), 1))
    ensures r.result.Err? ==> r.notified == 0
  {
    match GetTrack(tl, srcType, srcIndex)
    case Err(e) => Outcome(tl, Err(e), 0)
    case Ok(i) =>
      var cs := tl.tracks[i].clips;
      match Locate(cs, KeyOf(name, id))
      case None => Outcome(tl, Ok(false), 0)
      case Some(l) =>
        var removed := SetClips(tl, i, DropAt(cs, l));
        var moved := WithTrackType(At(cs, l), dstType);
        match GetTrack(removed, dstType, dstIndex)
        case Err(e) => Outcome(removed, Err(e), 0)
        case Ok(d) =>
          match AppendClip(removed.tracks[d], moved, position)
          case Err(e) => Outcome(removed, Err(e), 0)
          case Ok(tr) => Outcome(removed.(tracks := removed.tracks[d := tr]), Ok(true), 1)
  }

  /** Where Python's `list.insert(index, x)` puts `x` in a list of length
      `n`: negative indices count from the back, and out-of-range indices
      clamp to the ends. */
  function InsertPos(n: nat, index: int): (k: nat)
    ensures k <= n
    ensures 0 <= index <= n ==> k == index
    ensures index > n ==> k == n
    ensures -(n as int) <= index < 0 ==> k == n + index
    ensures index < -(n as int) ==> k == 0
  {
    if index < 0 then (if n + index < 0 then 0 else n + index) else if index > n then n else index
  }

  /** `add_track`: a new empty track appended, or inserted as
      `list.insert` would; an unknown track type is a ValueError. */
  function AddTrack(tl: Timeline, name: string, trackType: string, index: Option<int>): (r: Outcome<Track>)
    ensures r.result.Err? <==> !ValidTrackType(trackType)
    ensures r.result.Err? ==> r == Outcome(tl, Err(ValueError), 0)
    ensures r.result.Ok? ==>
      var k := if index.None? then |tl.tracks| else InsertPos(|tl.tracks|, index.value);
      r.result.value == EmptyTrack(name, trackType)
      && r.tl.tracks == tl.tracks[..k] + [EmptyTrack(name, trackType)] + tl.tracks[k..]
      && r.tl.transitions == tl.transitions && r.notified == 1
    ensures r.tl.duration == tl.duration && r.tl.frameRate == tl.frameRate
  {
    if !ValidTrackType(trackType) then Outcome(tl, Err(ValueError), 0)
    else
      var k := if index.None? then |tl.tracks| else InsertPos(|tl.tracks|, index.value);
      Outcome(tl.(tracks := tl.tracks[..k] + [EmptyTrack(name, trackType)] + tl.tracks[k..]), Ok(EmptyTrack(name, trackType)), 1)
  }

  function RemoveTrackAt(tl: Timeline, k: nat): (r: Timeline)
    requires k < |tl.tracks|
    ensures r.tracks == tl.tracks[..k] + tl.tracks[k + 1..] && r.transitions == tl.transitions
  {
    tl.(tracks := tl.tracks[..k] + tl.tracks[k + 1..])
  }

  /** `remove_track`: by (type, index among that type) when a type is given,
      else by plain position; with neither, a ValueError. */
  function RemoveTrack(tl: Timeline, index: Option<int>, trackType: Option<string>, trackIndex: int): (r: Outcome<bool>)
    ensures index.None? && trackType.None? ==> r == Outcome(tl, Err(ValueError), 0)
    ensures r.result == Ok(false) ==> r.tl == tl && r.notified == 0
    ensures trackType.Some? ==>
      var m := TypeIndices(tl.tracks, trackType.value);
      (trackIndex >= |m| ==> r == Outcome(tl, Ok(false), 0))
      && (trackIndex < |m| && PyIndex(|m|, trackIndex).Err? ==> r == Outcome(tl, Err(IndexError), 0))
      && (trackIndex < |m| && PyIndex(|m|, trackIndex).Ok? ==>
            r == Outcome(RemoveTrackAt(tl, m[PyIndex(|m|, trackIndex).value]), Ok(true), 1))
    ensures trackType.None? && index.Some? ==>
      if 0 <= index.value < |tl.tracks| then r == Outcome(RemoveTrackAt(tl, index.value), Ok(true), 1)
      else r == Outcome(tl, Ok(false), 0)
  {
    if trackType.Some? then
      var m := TypeIndices(tl.tracks, trackType.value);
      if trackIndex < |m| then
        match PyIndex(|m|, trackIndex)
        case Err(e) => Outcome(tl, Err(e), 0)
        case Ok(k) => Outcome(RemoveTrackAt(tl, m[k]), Ok(true), 1)
      else Outcome(tl, Ok(false), 0)
    else if index.Some? then
      if 0 <= index.value < |tl.tracks| then Outcome(RemoveTrackAt(tl, index.value), Ok(true), 1)
      else Outcome(tl, Ok(false), 0)
    else Outcome(tl, Err(ValueError), 0)
  }

  /** The leaves of every track of type `t`, track by track. */
  function TypeLeaves(ts: seq<Track>, t: string): seq<Clip> {
    if |ts| == 0 then []
    else (if ts[0].trackType == t then Leaves(ts[0].clips) else []) + TypeLeaves(ts[1..], t)
  }

  predicate SortedByStart(cs: seq<Clip>) {
    forall i, j :: 0 <= i < j < |cs| ==> cs[i].start <= cs[j].start
  }

  /** The clips of `cs` that start at `v`, in order. */
  function StartingAt(cs: seq<Clip>, v: int): seq<Clip> {
    if |cs| == 0 then []
    else (if cs[0].start == v then [cs[0]] else []) + StartingAt(cs[1..], v)
  }

  /** Insert `x`, which came before every clip of `cs`, keeping order by
      start: before every clip with the same start, so that equal starts
      keep their arrival order. */
  function InsertByStart(x: Clip, cs: seq<Clip>): (r: seq<Clip>)
    requires SortedByStart(cs)
    ensures SortedByStart(r) && multiset(r) == multiset(cs) + multiset{x}
    ensures forall k :: 0 <= k < |r| ==> r[k].start >= x.start || (|cs| > 0 && r[k].start >= cs[0].start)
  {
    if |cs| == 0 then [x]
    else if x.start <= cs[0].start then
      assert forall k :: 0 <= k < |cs| ==> cs[0].start <= cs[k].start;
      ConsSorted(x, cs);
      [x] + cs
    else
      var rest := InsertByStart(x, cs[1..]);
      assert cs == [cs[0]] + cs[1..];
      assert forall k :: 0 <= k < |rest| ==> cs[0].start <= rest[k].start;
      ConsSorted(cs[0], rest);
      [cs[0]] + rest
  }

  lemma ConsSorted(c: Clip, rest: seq<Clip>)
    requires SortedByStart(rest) && forall k :: 0 <= k < |rest| ==> c.start <= rest[k].start
    ensures SortedByStart([c] + rest)
  {
    var r := [c] + rest;
    forall i, j | 0 <= i < j < |r| ensures r[i].start <= r[j].start {
      assert r[j] == rest[j - 1];
      if i > 0 { assert r[i] == rest[i - 1]; }
    }
  }

  /** A stable sort by start (Python's `list.sort(key=...)`). */
  function SortByStart(cs: seq<Clip>): (r: seq<Clip>)
    ensures SortedByStart(r) && multiset(r) == multiset(cs)
  {
    if |cs| == 0 then []
    else
      assert cs == [cs[0]] + cs[1..];
      InsertByStart(cs[0], SortByStart(cs[1..]))
  }

  /** Inserting `x` puts it at the head of the clips with its start. */
  lemma {:induction false} InsertStable(x: Clip, cs: seq<Clip>, v: int)
    requires SortedByStart(cs)
    ensures StartingAt(InsertByStart(x, cs), v) == (if x.start == v then [x] else []) + StartingAt(cs, v)
  {
    if |cs| == 0 {
      StartingAtCons(x, [], v);
      assert [x] + [] == [x];
    } else if x.start <= cs[0].start {
      StartingAtCons(x, cs, v);
    } else {
      InsertStable(x, cs[1..], v);
      InsertPast(x, cs, v);
    }
  }

  /** One step of `InsertStable` past a clip that starts earlier than `x`. */
  lemma InsertPast(x: Clip, cs: seq<Clip>, v: int)
    requires SortedByStart(cs) && |cs| > 0 && x.start > cs[0].start
    requires StartingAt(InsertByStart(x, cs[1..]), v) == (if x.start == v then [x] else []) + StartingAt(cs[1..], v)
    ensures StartingAt(InsertByStart(x, cs), v) == (if x.start == v then [x] else []) + StartingAt(cs, v)
  {
    var rest := InsertByStart(x, cs[1..]);
    assert InsertByStart(x, cs) == [cs[0]] + rest;
    StartingAtCons(cs[0], rest, v);
    StartingAtCons(cs[0], cs[1..], v);
    assert [cs[0]] + cs[1..] == cs;
    Swap(if cs[0].start == v then [cs[0]] else [], if x.start == v then [x] else [], StartingAt(cs[1..], v));
  }

  lemma Swap<T>(a: seq<T>, b: seq<T>, s: seq<T>)
    requires a == [] || b == []
    ensures a + (b + s) == b + (a + s)
  {
    if a == [] {
      assert a + (b + s) == b + s == b + (a + s);
    } else {
      assert a + (b + s) == a + s == b + (a + s);
    }
  }

  lemma StartingAtCons(c: Clip, cs: seq<Clip>, v: int)
    ensures StartingAt([c] + cs, v) == (if c.start == v then [c] else []) + StartingAt(cs, v)
  {
    assert ([c] + cs)[1..] == cs;
  }

  /** The sort is stable: the clips with any one start come out in the
      order they came in. */
  lemma {:induction false} SortStable(cs: seq<Clip>, v: int)
    ensures StartingAt(SortByStart(cs), v) == StartingAt(cs, v)
  {
    if |cs| > 0 {
      SortStable(cs[1..], v);
      InsertStable(cs[0], SortByStart(cs[1..]), v);
    }
  }

  predicate HasFile(c: Clip) {
    c.Leaf? && c.filePath.Some? && c.filePath.value != ""
  }

  /** `get_all_clips`: every leaf of the tracks of type `t` (compounds are
      flattened), sorted by start, clips with equal starts in track order;
      an AttributeError when one lacks a file path. */
  function AllClips(tl: Timeline, t: string): (r: Res<seq<Clip>>)
    ensures r.Err? <==> exists c :: c in TypeLeaves(tl.tracks, t) && !HasFile(c)
    ensures r.Err? ==> r.exc == AttributeError
    ensures r.Ok? ==> SortedByStart(r.value) && multiset(r.value) == multiset(TypeLeaves(tl.tracks, t))
    ensures r.Ok? ==> forall v :: StartingAt(r.value, v) == StartingAt(TypeLeaves(tl.tracks, t), v)
    ensures r.Ok? ==> forall i :: 0 <= i < |r.value| ==> HasFile(r.value[i])
  {
    var sorted := SortByStart(TypeLeaves(tl.tracks, t));
    assert forall v :: StartingAt(sorted, v) == StartingAt(TypeLeaves(tl.tracks, t), v) by {
      forall v ensures StartingAt(sorted, v) == StartingAt(TypeLeaves(tl.tracks, t), v) {
        SortStable(TypeLeaves(tl.tracks, t), v);
      }
    }
    if exists i :: 0 <= i < |sorted| && !HasFile(sorted[i]) then
      assert exists c :: c in TypeLeaves(tl.tracks, t) && !HasFile(c) by {
        var i :| 0 <= i < |sorted| && !HasFile(sorted[i]);
        assert sorted[i] in multiset(sorted);
      }
      Err(AttributeError)
    else
      assert forall c :: c in TypeLeaves(tl.tracks, t) ==> HasFile(c) by {
        forall c | c in TypeLeaves(tl.tracks, t) ensures HasFile(c) {
          assert c in multiset(sorted);
          var i :| 0 <= i < |sorted| && sorted[i] == c;
        }
      }
      Ok(sorted)
  }

  /** `get_timeline_effects`: the range effects of the first Effects track. */
  function TimelineEffects(tl: Timeline): (r: seq<Effect>)
    ensures |TypeIndices(tl.tracks, EffectType)| == 0 ==> r == []
    ensures |TypeIndices(tl.tracks, EffectType)| > 0 ==> r == tl.tracks[TypeIndices(tl.tracks, EffectType)[0]].fx
  {
    var m := TypeIndices(tl.tracks, EffectType);
    if |m| == 0 then [] else tl.tracks[m[0]].fx
  }
}

=== FILE: timeline_laws.dfy ===
/** Properties that relate the timeline operations to each other and to the
    invariants of the clip tree. */
module TimelineLaws {
  import opened Base
  import opened Clips
  import opened ClipTree
  import opened Timelines

  /** Every compound on every track has bounds that follow its children. */
  predicate TimelineCoherent(tl: Timeline) {
    forall i :: 0 <= i < |tl.tracks| ==> AllCoherent(tl.tracks[i].clips)
  }

  lemma SetClipsCoherent(tl: Timeline, i: nat, cs: seq<Clip>)
    requires i < |tl.tracks| && TimelineCoherent(tl) && AllCoherent(cs)
    ensures TimelineCoherent(SetClips(tl, i, cs))
  {
    var r := SetClips(tl, i, cs);
    forall j | 0 <= j < |r.tracks| ensures AllCoherent(r.tracks[j].clips) {
      if j != i { assert r.tracks[j] == tl.tracks[j]; }
    }
  }

  /** Fresh clips made by trim and join have no children, so they are
      coherent whatever their bounds. */
  lemma RemakeCoherent(c: Clip, name: string, s: int, e: int, id: Option<string>)
    ensures Coherent(Remake(c, name, s, e, id))
  {
  }

  /** `trim_clip` keeps every compound's bounds following its children. */
  lemma {:induction false} TrimKeepsCoherent(tl: Timeline, name: Option<string>, ts: Option<real>, trackType: string,
                                              trackIndex: int, id: Option<string>, n1: string, n2: string)
    requires TimelineCoherent(tl)
    ensures TimelineCoherent(TrimClip(tl, name, ts, trackType, trackIndex, id, n1, n2).tl)
  {
    var r := TrimClip(tl, name, ts, trackType, trackIndex, id, n1, n2);
    if r.result == Ok(true) {
      var i := GetTrack(tl, trackType, trackIndex).value;
      var cs := tl.tracks[i].clips;
      var l := Locate(cs, KeyOf(name, id)).value;
      var c := At(cs, l);
      var t := SecondsToFrames(ts.value, tl.frameRate);
      var ins := [Remake(c, c.name + "_part1", c.start, t, Some(n1)), Remake(c, c.name + "_part2", t, c.end, Some(n2))];
      RemakeCoherent(c, c.name + "_part1", c.start, t, Some(n1));
      RemakeCoherent(c, c.name + "_part2", t, c.end, Some(n2));
      assert AllCoherent(ins);
      EditAtKeepsCoherent(cs, l.path, l.index, 1, ins);
      SetClipsCoherent(tl, i, SplitAt(cs, l, t, Some(n1), Some(n2)));
    }
  }

  /** `join_clips` keeps every compound's bounds following its children. */
  lemma {:induction false} JoinKeepsCoherent(tl: Timeline, firstName: Option<string>, secondName: Option<string>,
                                              trackType: string, trackIndex: int, firstId: Option<string>,
                                              secondId: Option<string>, newId: Option<string>)
    requires TimelineCoherent(tl)
    ensures TimelineCoherent(JoinClips(tl, firstName, secondName, trackType, trackIndex, firstId, secondId, newId).tl)
  {
    var r := JoinClips(tl, firstName, secondName, trackType, trackIndex, firstId, secondId, newId);
    if r.result == Ok(true) {
      var i := GetTrack(tl, trackType, trackIndex).value;
      var cs := tl.tracks[i].clips;
      var l := Adjacent(cs, KeyOf(firstName, firstId), secondName, secondId).value;
      var c := Container(cs, l.path).value;
      var a := c[l.index];
      var b := c[l.index + 1];
      var joined := Remake(a, a.name + "_joined_" + b.name, a.start, b.end, newId);
      RemakeCoherent(a, a.name + "_joined_" + b.name, a.start, b.end, newId);
      assert AllCoherent([joined]);
      EditAtKeepsCoherent(cs, l.path, l.index, 2, [joined]);
      SetClipsCoherent(tl, i, EditAt(cs, l.path, l.index, 2, [joined]));
    }
  }

  /** `remove_clip` keeps every compound's bounds following its children. */
  lemma {:induction false} RemoveKeepsCoherent(tl: Timeline, name: Option<string>, trackType: string,
                                                trackIndex: int, id: Option<string>)
    requires TimelineCoherent(tl)
    ensures TimelineCoherent(RemoveClip(tl, name, trackType, trackIndex, id).tl)
  {
    var r := RemoveClip(tl, name, trackType, trackIndex, id);
    if r.result == Ok(true) {
      var i := GetTrack(tl, trackType, trackIndex).value;
      var cs := tl.tracks[i].clips;
      var l := FirstHit(cs, Flat(cs), KeyOf(name, id)).value;
      EditAtKeepsCoherent(cs, l.path, l.index, 1, []);
      SetClipsCoherent(tl, i, DropAt(cs, l));
    }
  }

  /** `remove_clip_by_index` keeps every compound's bounds following its
      children. */
  lemma {:induction false} RemoveByIndexKeepsCoherent(tl: Timeline, clipIndex: int, trackType: string, trackIndex: int)
    requires TimelineCoherent(tl)
    ensures TimelineCoherent(RemoveClipByIndex(tl, clipIndex, trackType, trackIndex).tl)
  {
    var r := RemoveClipByIndex(tl, clipIndex, trackType, trackIndex);
    if r.result == Ok(true) {
      var i := GetTrack(tl, trackType, trackIndex).value;
      var cs := tl.tracks[i].clips;
      var l := Flat(cs)[clipIndex];
      EditAtKeepsCoherent(cs, l.path, l.index, 1, []);
      SetClipsCoherent(tl, i, DropAt(cs, l));
    }
  }

  /** Top-level clips that follow one another without gaps or overlaps. */
  predicate Contiguous(cs: seq<Clip>) {
    forall i :: 0 < i < |cs| ==> cs[i - 1].end == cs[i].start
  }

  /** `Track.add_clip` keeps a track's clips back to back. */
  lemma AppendKeepsContiguous(tr: Track, c: Clip, position: Option<int>)
    requires Contiguous(tr.clips)
    ensures AppendClip(tr, c, position).Ok? ==> Contiguous(AppendClip(tr, c, position).value.clips)
  {
    var r := AppendClip(tr, c, position);
    if r.Ok? && |tr.clips| > 0 {
      var cs := r.value.clips;
      forall i | 0 < i < |cs| ensures cs[i - 1].end == cs[i].start {
        if i < |tr.clips| {
          assert cs[i - 1] == cs[..|tr.clips|][i - 1] && cs[i] == cs[..|tr.clips|][i];
        } else {
          assert cs[i - 1] == cs[..|tr.clips|][i - 1];
        }
      }
    }
  }

  /** Every top-level clip ends within the timeline's duration. */
  predicate DurationCovers(tl: Timeline) {
    forall i, j :: 0 <= i < |tl.tracks| && 0 <= j < |tl.tracks[i].clips| ==> tl.tracks[i].clips[j].end <= tl.duration
  }

  /** `Timeline.add_clip` keeps the duration past every top-level clip. */
  lemma AddClipKeepsCovered(tl: Timeline, c: Clip, trackIndex: int, position: Option<int>)
    requires DurationCovers(tl)
    ensures DurationCovers(AddClip(tl, c, trackIndex, position).tl)
  {
    var r := AddClip(tl, c, trackIndex, position);
    if r.result.Ok? {
      var k := PyIndex(|tl.tracks|, trackIndex).value;
      var tr := AppendClip(tl.tracks[k], c, position).value;
      forall i, j | 0 <= i < |r.tl.tracks| && 0 <= j < |r.tl.tracks[i].clips| ensures r.tl.tracks[i].clips[j].end <= r.tl.duration {
        if i == k && j < |tl.tracks[k].clips| {
          assert tr.clips[j] == tr.clips[..|tl.tracks[k].clips|][j];
        }
      }
    }
  }

  /** `Track.add_clip` moves a compound without shifting its children, so a
      moved compound no longer spans them. */
  lemma AppendShiftsCompoundOnly()
    ensures
      var child := Leaf(None, "a", 0, 10, VideoType, [], None);
      var g := Compound(None, "g", 0, 10, VideoType, [], [child]);
      var tr := Track("V", VideoType, [Leaf(None, "b", 0, 50, VideoType, [], None)], []);
      AppendClip(tr, g, None).Ok? && !Coherent(AppendClip(tr, g, None).value.clips[1])
  {
    var child := Leaf(None, "a", 0, 10, VideoType, [], None);
    var g := Compound(None, "g", 0, 10, VideoType, [], [child]);
    var tr := Track("V", VideoType, [Leaf(None, "b", 0, 50, VideoType, [], None)], []);
    var m := AppendClip(tr, g, None).value.clips[1];
    assert m == Compound(None, "g", 50, 60, VideoType, [], [child]);
    assert MinStart(m.children) == 0;
  }

  /** Two track lists with the same types position by type alike. */
  lemma {:induction false} TypeIndicesSameTypes(a: seq<Track>, b: seq<Track>, t: string, i: nat)
    requires |a| == |b| && forall j :: 0 <= j < |a| ==> a[j].trackType == b[j].trackType
    ensures TypeIndicesFrom(a, t, i) == TypeIndicesFrom(b, t, i)
    decreases |a| - i
  {
    if i < |a| {
      TypeIndicesSameTypes(a, b, t, i + 1);
    }
  }

  /** Editing a track's clips changes no track lookup. */
  lemma GetTrackAfterSetClips(tl: Timeline, i: nat, cs: seq<Clip>, t: string, index: int)
    requires i < |tl.tracks|
    ensures GetTrack(SetClips(tl, i, cs), t, index) == GetTrack(tl, t, index)
  {
    TypeIndicesSameTypes(SetClips(tl, i, cs).tracks, tl.tracks, t, 0);
  }

  /** Trimming a top-level clip at T and then joining its two parts by their
      fresh ids gives back the original track with one clip of the same
      class over the original bounds in place of the trimmed one. */
  lemma TrimThenJoin(tl: Timeline, name: Option<string>, ts: Option<real>, trackType: string, trackIndex: int,
                     id: Option<string>, n1: string, n2: string, n3: string)
    requires TrimClip(tl, name, ts, trackType, trackIndex, id, n1, n2).result == Ok(true)
    requires n1 != "" && n2 != ""
    requires Locate(tl.tracks[GetTrack(tl, trackType, trackIndex).value].clips, KeyOf(name, id)).value.path == []
    requires Locate(tl.tracks[GetTrack(tl, trackType, trackIndex).value].clips, ById(n1)).None?
    ensures
      var i := GetTrack(tl, trackType, trackIndex).value;
      var cs := tl.tracks[i].clips;
      var x := Locate(cs, KeyOf(name, id)).value.index;
      var c := cs[x];
      var tr := TrimClip(tl, name, ts, trackType, trackIndex, id, n1, n2).tl;
      var j := JoinClips(tr, None, None, trackType, trackIndex, Some(n1), Some(n2), Some(n3));
      j.result == Ok(true)
      && j.tl.tracks[i].clips == cs[..x] + [Remake(c, c.name + "_part1_joined_" + c.name + "_part2", c.start, c.end, Some(n3))] + cs[x + 1..]
  {
    var i := GetTrack(tl, trackType, trackIndex).value;
    var cs := tl.tracks[i].clips;
    var l := Locate(cs, KeyOf(name, id)).value;
    var x := l.index;
    var c := cs[x];
    var t := SecondsToFrames(ts.value, tl.frameRate);
    var p1 := Remake(c, c.name + "_part1", c.start, t, Some(n1));
    var p2 := Remake(c, c.name + "_part2", t, c.end, Some(n2));
    var split := SplitAt(cs, l, t, Some(n1), Some(n2));
    assert split == cs[..x] + [p1, p2] + cs[x + 1..];
    var tr := TrimClip(tl, name, ts, trackType, trackIndex, id, n1, n2).tl;
    assert tr == SetClips(tl, i, split);
    GetTrackAfterSetClips(tl, i, split, trackType, trackIndex);
    LocateFromNone(cs, ById(n1), 0);
    forall m | 0 <= m < x
      ensures !Matches(split[m], ById(n1)) && (split[m].Compound? ==> Locate(split[m].children, ById(n1)).None?)
    {
      assert split[m] == cs[m];
    }
    LocateFromFirst(split, ById(n1), 0, x);
    assert Locate(split, ById(n1)) == Some(Loc([], x));
    assert Adjacent(split, ById(n1), None, Some(n2)) == Some(Loc([], x));
    var joined := Remake(p1, p1.name + "_joined_" + p2.name, p1.start, p2.end, Some(n3));
    assert p1.name + "_joined_" + p2.name == c.name + "_part1_joined_" + c.name + "_part2";
    var j := JoinClips(tr, None, None, trackType, trackIndex, Some(n1), Some(n2), Some(n3));
    assert j.tl.tracks[i].clips == split[..x] + [joined] + split[x + 2..];
    assert split[..x] == cs[..x] && split[x + 2..] == cs[x + 1..];
  }

  /** `add_track` at a position inside the list followed by `remove_track`
      at that position restores the timeline. */
  lemma AddThenRemoveTrack(tl: Timeline, name: string, trackType: string, k: nat)
    requires ValidTrackType(trackType) && k <= |tl.tracks|
    ensures
      var a := AddTrack(tl, name, trackType, Some(k));
      var r := RemoveTrack(a.tl, Some(k), None, 0);
      r.result == Ok(true) && r.tl == tl
  {
    var a := AddTrack(tl, name, trackType, Some(k));
    assert a.tl.tracks[..k] + a.tl.tracks[k + 1..] == tl.tracks;
  }

  lemma {:induction false} LeavesAppend(a: seq<Clip>, b: seq<Clip>)
    ensures Leaves(a + b) == Leaves(a) + Leaves(b)
    decreases |a|
  {
    if |a| == 0 {
      assert a + b == b;
    } else {
      LeavesAppend(a[1..], b);
      assert (a + b)[0] == a[0] && (a + b)[1..] == a[1..] + b;
    }
  }

  /** The leaves of a list, split around its `i`-th clip. */
  lemma LeavesAround(cs: seq<Clip>, i: nat)
    requires i < |cs|
    ensures Leaves(cs) == Leaves(cs[..i]) + Leaves([cs[i]]) + Leaves(cs[i + 1..])
  {
    var a, k, b := Leaves(cs[..i]), Leaves([cs[i]]), Leaves(cs[i + 1..]);
    assert Leaves(cs) == a + Leaves(cs[i..]) by {
      LeavesCut(cs, i);
    }
    assert Leaves(cs[i..]) == k + b by {
      LeavesCut(cs[i..], 1);
      assert cs[i..][..1] == [cs[i]] && cs[i..][1..] == cs[i + 1..];
    }
    Assoc(a, k, b);
  }

  lemma Assoc<T>(a: seq<T>, b: seq<T>, c: seq<T>)
    ensures a + (b + c) == a + b + c
  {
  }

  lemma LeavesCut(cs: seq<Clip>, i: nat)
    requires i <= |cs|
    ensures Leaves(cs) == Leaves(cs[..i]) + Leaves(cs[i..])
  {
    assert cs == cs[..i] + cs[i..];
    LeavesAppend(cs[..i], cs[i..]);
  }

  lemma Slices<T>(a: seq<T>, k: seq<T>, b: seq<T>, m: nat, w: nat)
    requires m + w <= |k|
    ensures (a + k + b)[..|a| + m] == a + k[..m]
    ensures (a + k + b)[|a| + m..|a| + m + w] == k[m..m + w]
    ensures (a + k + b)[|a| + m + w..] == k[m + w..] + b
  {
  }

  /** How many leaves come before the subtree at `l` in the leaf listing. */
  function LeafIndex(cs: seq<Clip>, l: Loc): nat
    requires NodeAt(cs, l).Some?
    decreases l.path
  {
    if |l.path| == 0 then |Leaves(cs[..l.index])|
    else
      var p0 := l.path[0];
      assert NodeAt(cs[p0].children, Loc(l.path[1..], l.index)) == NodeAt(cs, l);
      |Leaves(cs[..p0])| + LeafIndex(cs[p0].children, Loc(l.path[1..], l.index))
  }

  /** The leaf listing after dropping the clip at `l` is the listing
      before without the block of that clip's own leaves. */
  predicate Dropped(cs: seq<Clip>, l: Loc)
    requires NodeAt(cs, l).Some?
  {
    BlockGone(Leaves(cs), LeafIndex(cs, l), Leaves([At(cs, l)]), Leaves(DropAt(cs, l)))
  }

  /** `after` is `all` without the block `b` that starts at index `m`. */
  predicate BlockGone<T(==)>(all: seq<T>, m: nat, b: seq<T>, after: seq<T>) {
    m + |b| <= |all| && all[m..m + |b|] == b && after == all[..m] + all[m + |b|..]
  }

  /** Dropping the clip at `l` takes out of the leaf listing exactly the
      block of that clip's own leaves and keeps every other leaf, in order. */
  lemma {:induction false} DropLeaves(cs: seq<Clip>, l: Loc)
    requires NodeAt(cs, l).Some?
    ensures Dropped(cs, l)
    decreases l.path
  {
    if |l.path| == 0 {
      DropTop(cs, l);
    } else {
      var l1 := Loc(l.path[1..], l.index);
      assert NodeAt(cs[l.path[0]].children, l1) == NodeAt(cs, l);
      DropLeaves(cs[l.path[0]].children, l1);
      DropBelow(cs, l);
    }
  }

  lemma DropTop(cs: seq<Clip>, l: Loc)
    requires NodeAt(cs, l).Some? && |l.path| == 0
    ensures Dropped(cs, l)
  {
    var i := l.index;
    var A, K, B := Leaves(cs[..i]), Leaves([cs[i]]), Leaves(cs[i + 1..]);
    assert Leaves(cs) == A + K + B by {
      LeavesAround(cs, i);
    }
    assert Leaves(DropAt(cs, l)) == A + B by {
      var r := DropAt(cs, l);
      assert Container(r, l.path) == Some(r);
      assert r == cs[..i] + cs[i + 1..];
      LeavesAppend(cs[..i], cs[i + 1..]);
    }
    assert BlockGone(K, 0, K, []);
    BlockOut(A, K, B, 0, K, []);
    assert A + [] + B == A + B;
  }

  lemma DropBelow(cs: seq<Clip>, l: Loc)
    requires NodeAt(cs, l).Some? && |l.path| > 0
    requires NodeAt(cs[l.path[0]].children, Loc(l.path[1..], l.index)).Some?
    requires Dropped(cs[l.path[0]].children, Loc(l.path[1..], l.index))
    ensures Dropped(cs, l)
  {
    var kids, l1 := cs[l.path[0]].children, Loc(l.path[1..], l.index);
    BelowBefore(cs, l);
    BelowAfter(cs, l);
    BlockMoves(Leaves(cs), LeafIndex(cs, l), Leaves([At(cs, l)]), Leaves(DropAt(cs, l)),
      Leaves(cs[..l.path[0]]), Leaves(kids), Leaves(cs[l.path[0] + 1..]), LeafIndex(kids, l1), Leaves(DropAt(kids, l1)));
  }

  /** `BlockOut` restated over names for the three parts. */
  lemma BlockMoves<T>(all: seq<T>, m: nat, blk: seq<T>, after: seq<T>, a: seq<T>, k: seq<T>, b: seq<T>, m1: nat, kr: seq<T>)
    requires all == a + k + b && m == |a| + m1 && after == a + kr + b
    requires BlockGone(k, m1, blk, kr)
    ensures BlockGone(all, m, blk, after)
  {
    BlockOut(a, k, b, m1, blk, kr);
  }

  /** Before the drop: the leaves around the compound on the path, and the
      place of the dropped block. */
  lemma BelowBefore(cs: seq<Clip>, l: Loc)
    requires NodeAt(cs, l).Some? && |l.path| > 0
    ensures var p0 := l.path[0];
      var l1 := Loc(l.path[1..], l.index);
      && NodeAt(cs[p0].children, l1).Some?
      && Leaves(cs) == Leaves(cs[..p0]) + Leaves(cs[p0].children) + Leaves(cs[p0 + 1..])
      && At(cs, l) == At(cs[p0].children, l1)
      && LeafIndex(cs, l) == |Leaves(cs[..p0])| + LeafIndex(cs[p0].children, l1)
  {
    var p0 := l.path[0];
    assert NodeAt(cs[p0].children, Loc(l.path[1..], l.index)) == NodeAt(cs, l);
    LeavesAround(cs, p0);
    OnlyChild(cs[p0]);
  }

  /** After the drop: only the compound on the path changed, and its
      leaves are those of its children after the drop. */
  lemma BelowAfter(cs: seq<Clip>, l: Loc)
    requires NodeAt(cs, l).Some? && |l.path| > 0
    requires NodeAt(cs[l.path[0]].children, Loc(l.path[1..], l.index)).Some?
    ensures var p0 := l.path[0];
      Leaves(DropAt(cs, l)) ==
        Leaves(cs[..p0]) + Leaves(DropAt(cs[p0].children, Loc(l.path[1..], l.index))) + Leaves(cs[p0 + 1..])
  {
    var p0 := l.path[0];
    var c := cs[p0];
    var kids := DropAt(c.children, Loc(l.path[1..], l.index));
    var n := Recalc(Compound(c.id, c.name, c.start, c.end, c.trackType, c.effects, kids));
    var r := cs[p0 := n];
    assert DropAt(cs, l) == r;
    LeavesAround(r, p0);
    assert r[..p0] == cs[..p0] && r[p0 + 1..] == cs[p0 + 1..];
    OnlyChild(n);
  }

  /** The sequence algebra of `DropLeaves`: taking a block out of the
      middle part of a three-part list. */
  lemma BlockOut<T>(a: seq<T>, k: seq<T>, b: seq<T>, m: nat, blk: seq<T>, kr: seq<T>)
    requires BlockGone(k, m, blk, kr)
    ensures BlockGone(a + k + b, |a| + m, blk, a + kr + b)
  {
    Slices(a, k, b, m, |blk|);
    Regroup(a, k[..m], k[m + |blk|..], b);
  }

  lemma OnlyChild(c: Clip)
    requires c.Compound?
    ensures Leaves([c]) == Leaves(c.children)
  {
    LeavesAppend(c.children, []);
    assert c.children + [] == c.children;
    assert [c][1..] == [];
  }

  lemma Regroup<T>(a: seq<T>, x: seq<T>, y: seq<T>, b: seq<T>)
    ensures a + (x + y) + b == (a + x) + (y + b)
  {
  }

  /** `remove_clip_by_index` removes the clip that comes at that index of
      the depth-first pre-order listing, and with it the block of leaves it
      holds; every other leaf of the track stays, in order. */
  lemma RemoveByIndexDrops(tl: Timeline, clipIndex: int, trackType: string, trackIndex: int)
    requires RemoveClipByIndex(tl, clipIndex, trackType, trackIndex).result == Ok(true)
    ensures
      var i := GetTrack(tl, trackType, trackIndex).value;
      var cs := tl.tracks[i].clips;
      var l := Flat(cs)[clipIndex];
      var all := Leaves(cs);
      && |Preorder(cs)| == |Flat(cs)|
      && NodeAt(cs, l) == Some(Preorder(cs)[clipIndex])
      && var b := Leaves([Preorder(cs)[clipIndex]]);
         var m := LeafIndex(cs, l);
         m + |b| <= |all| && all[m..m + |b|] == b
         && Leaves(RemoveClipByIndex(tl, clipIndex, trackType, trackIndex).tl.tracks[i].clips) == all[..m] + all[m + |b|..]
  {
    var i := GetTrack(tl, trackType, trackIndex).value;
    var cs := tl.tracks[i].clips;
    FlatIsPreorder(cs, 0);
    DropLeaves(cs, Flat(cs)[clipIndex]);
  }

  /** The pre-order listing puts a compound before its children: entry 3 of
      [outer[c1, inner[c2, c3]]] is c2, the entry `remove_clip_by_index(3)`
      acts on. */
  lemma RemoveByIndexIsPreorder()
    ensures
      var c1 := Leaf(Some("1"), "c1", 0, 10, VideoType, [], None);
      var c2 := Leaf(Some("2"), "c2", 10, 20, VideoType, [], None);
      var c3 := Leaf(Some("3"), "c3", 20, 30, VideoType, [], None);
      var inner := Compound(Some("i"), "inner", 10, 30, VideoType, [], [c2, c3]);
      var outer := Compound(Some("o"), "outer", 0, 30, VideoType, [], [c1, inner]);
      |Flat([outer])| > 3 && NodeAt([outer], Flat([outer])[3]) == Some(c2)
  {
    var c1 := Leaf(Some("1"), "c1", 0, 10, VideoType, [], None);
    var c2 := Leaf(Some("2"), "c2", 10, 20, VideoType, [], None);
    var c3 := Leaf(Some("3"), "c3", 20, 30, VideoType, [], None);
    var inner := Compound(Some("i"), "inner", 10, 30, VideoType, [], [c2, c3]);
    var outer := Compound(Some("o"), "outer", 0, 30, VideoType, [], [c1, inner]);
    assert FlatFrom([c2, c3], 2) == [];
    assert FlatFrom([c2, c3], 1) == [Loc([], 1)];
    assert FlatFrom([c2, c3], 0) == [Loc([], 0), Loc([], 1)];
    assert FlatFrom([c1, inner], 2) == [];
    assert [1] + [] == [1];
    assert DownAll(1, [Loc([], 0), Loc([], 1)]) == [Loc([1], 0), Loc([1], 1)];
    assert FlatFrom([c1, inner], 1) == [Loc([], 1), Loc([1], 0), Loc([1], 1)];
    assert FlatFrom([c1, inner], 0) == [Loc([], 0), Loc([], 1), Loc([1], 0), Loc([1], 1)];
    assert FlatFrom([outer], 1) == [];
    assert [0] + [1] == [0, 1] && [0] + [] == [0];
    assert DownAll(0, [Loc([], 0), Loc([], 1), Loc([1], 0), Loc([1], 1)]) == [Loc([0], 0), Loc([0], 1), Loc([0, 1], 0), Loc([0, 1], 1)];
    assert Flat([outer])[3] == Loc([0, 1], 0);
    assert Container([outer], [0, 1]) == Some([c2, c3]);
  }
}

=== FILE: tree.dfy ===
/** Navigation and editing inside a track's clip tree. The Python code
    finds the list that holds a clip and later recognises it by object
    identity; here a clip is located by an explicit path of child indices,
    and an edit rebuilds exactly the compounds along that path. */
module ClipTree {
  import opened Base
  import opened Clips

  /** How a clip is looked up: by `clip_id` when one is given, else by
      name (a name of `None` matches no clip). */
  datatype Key = ByName(name: Option<string>) | ById(id: string)

  /** `target_id is not None` selects the id search. */
  function KeyOf(name: Option<string>, id: Option<string>): (k: Key)
    ensures id.Some? ==> k == ById(id.value)
    ensures id.None? ==> k == ByName(name)
  {
    if id.Some? then ById(id.value) else ByName(name)
  }

  predicate Matches(c: Clip, k: Key) {
    match k
    case ByName(n) => n == Some(c.name)
    case ById(i) => c.id == Some(i)
  }

  /** A clip's place: the path of compound indices leading to the list
      that holds it, and its index in that list. */
  datatype Loc = Loc(path: seq<nat>, index: nat)

  /** The child list reached by following `p` from the top-level list. */
  function Container(cs: seq<Clip>, p: seq<nat>): Option<seq<Clip>>
    decreases p
  {
    if |p| == 0 then Some(cs)
    else if p[0] < |cs| && cs[p[0]].Compound? then Container(cs[p[0]].children, p[1..])
    else None
  }

  function NodeAt(cs: seq<Clip>, l: Loc): Option<Clip> {
    var c := Container(cs, l.path);
    if c.Some? && l.index < |c.value| then Some(c.value[l.index]) else None
  }

  /** One level down: a place inside the children of `cs[i]`. */
  function Down(i: nat, l: Loc): Loc {
    Loc([i] + l.path, l.index)
  }

  lemma NodeAtDown(cs: seq<Clip>, i: nat, l: Loc)
    requires i < |cs| && cs[i].Compound?
    ensures NodeAt(cs, Down(i, l)) == NodeAt(cs[i].children, l)
  {
    assert ([i] + l.path)[1..] == l.path;
  }

  /** `_find_clip_recursive` from position `i` of the list: each clip is
      tested before its children are searched. */
  function LocateFrom(cs: seq<Clip>, k: Key, i: nat): (r: Option<Loc>)
    ensures r.Some? ==> NodeAt(cs, r.value).Some? && Matches(NodeAt(cs, r.value).value, k)
    decreases cs, |cs| - i
  {
    if i >= |cs| then None
    else if Matches(cs[i], k) then Some(Loc([], i))
    else if cs[i].Compound? && LocateFrom(cs[i].children, k, 0).Some? then
      var l := LocateFrom(cs[i].children, k, 0).value;
      NodeAtDown(cs, i, l);
      Some(Down(i, l))
    else LocateFrom(cs, k, i + 1)
  }

  function Locate(cs: seq<Clip>, k: Key): (r: Option<Loc>)
    ensures r.Some? ==> NodeAt(cs, r.value).Some? && Matches(NodeAt(cs, r.value).value, k)
  {
    LocateFrom(cs, k, 0)
  }

  /** A key the search from `i` does not find matches no clip from `i` on,
      and no subtree below one. */
  lemma {:induction false} LocateFromNone(cs: seq<Clip>, k: Key, i: nat)
    requires LocateFrom(cs, k, i).None?
    ensures forall m :: i <= m < |cs| ==> !Matches(cs[m], k) && (cs[m].Compound? ==> Locate(cs[m].children, k).None?)
    decreases |cs| - i
  {
    if i < |cs| {
      LocateFromNone(cs, k, i + 1);
    }
  }

  /** The search from `i` stops at the first top-level clip `j` that
      matches when nothing before it, at any depth, does. */
  lemma {:induction false} LocateFromFirst(cs: seq<Clip>, k: Key, i: nat, j: nat)
    requires i <= j < |cs| && Matches(cs[j], k)
    requires forall m :: i <= m < j ==> !Matches(cs[m], k) && (cs[m].Compound? ==> Locate(cs[m].children, k).None?)
    ensures LocateFrom(cs, k, i) == Some(Loc([], j))
    decreases j - i
  {
    if i < j {
      LocateFromFirst(cs, k, i + 1, j);
    }
  }

  function DownAll(i: nat, ls: seq<Loc>): (r: seq<Loc>)
    ensures |r| == |ls| && forall j :: 0 <= j < |ls| ==> r[j] == Down(i, ls[j])
  {
    seq(|ls|, j requires 0 <= j < |ls| => Down(i, ls[j]))
  }

  /** The flattened list of `remove_clip_by_index`, from position `i`: every
      clip at every depth, each compound listed before its children. */
  function FlatFrom(cs: seq<Clip>, i: nat): seq<Loc>
    decreases cs, |cs| - i
  {
    if i >= |cs| then []
    else [Loc([], i)] + (if cs[i].Compound? then DownAll(i, FlatFrom(cs[i].children, 0)) else []) + FlatFrom(cs, i + 1)
  }

  function Flat(cs: seq<Clip>): seq<Loc> {
    FlatFrom(cs, 0)
  }

  /** Every place the flattened list names holds a clip. */
  lemma {:induction false} FlatFromValid(cs: seq<Clip>, i: nat)
    ensures forall j :: 0 <= j < |FlatFrom(cs, i)| ==> NodeAt(cs, FlatFrom(cs, i)[j]).Some?
    decreases cs, |cs| - i
  {
    if i < |cs| {
      var sub := if cs[i].Compound? then DownAll(i, FlatFrom(cs[i].children, 0)) else [];
      FlatFromValid(cs, i + 1);
      if cs[i].Compound? {
        FlatFromValid(cs[i].children, 0);
        forall j | 0 <= j < |sub| ensures NodeAt(cs, sub[j]).Some? {
          NodeAtDown(cs, i, FlatFrom(cs[i].children, 0)[j]);
        }
      }
      var rest := FlatFrom(cs, i + 1);
      assert FlatFrom(cs, i) == [Loc([], i)] + sub + rest;
      forall j | 0 <= j < |FlatFrom(cs, i)| ensures NodeAt(cs, FlatFrom(cs, i)[j]).Some? {
        if j == 0 {
        } else if j < 1 + |sub| {
          assert FlatFrom(cs, i)[j] == sub[j - 1];
        } else {
          assert FlatFrom(cs, i)[j] == rest[j - 1 - |sub|];
        }
      }
    }
  }

  /** The clips of `flatten_clips` from position `i`, each compound
      followed by its own listing: the reference pre-order traversal. */
  function PreorderFrom(cs: seq<Clip>, i: nat): seq<Clip>
    decreases cs, |cs| - i
  {
    if i >= |cs| then []
    else [cs[i]] + (if cs[i].Compound? then PreorderFrom(cs[i].children, 0) else []) + PreorderFrom(cs, i + 1)
  }

  function Preorder(cs: seq<Clip>): seq<Clip> {
    PreorderFrom(cs, 0)
  }

  /** Entry `j` of `ls` is the place of clip `j` of `ps`. */
  predicate Names(cs: seq<Clip>, ls: seq<Loc>, ps: seq<Clip>) {
    |ls| == |ps| && forall j :: 0 <= j < |ls| ==> NodeAt(cs, ls[j]) == Some(ps[j])
  }

  lemma NamesCat(cs: seq<Clip>, a: seq<Loc>, pa: seq<Clip>, b: seq<Loc>, pb: seq<Clip>)
    requires Names(cs, a, pa) && Names(cs, b, pb)
    ensures Names(cs, a + b, pa + pb)
  {
    forall j | 0 <= j < |a + b| ensures NodeAt(cs, (a + b)[j]) == Some((pa + pb)[j]) {
      if j < |a| {
        assert (a + b)[j] == a[j] && (pa + pb)[j] == pa[j];
      } else {
        assert (a + b)[j] == b[j - |a|] && (pa + pb)[j] == pb[j - |a|];
      }
    }
  }

  lemma NamesDown(cs: seq<Clip>, i: nat, ls: seq<Loc>, ps: seq<Clip>)
    requires i < |cs| && cs[i].Compound? && Names(cs[i].children, ls, ps)
    ensures Names(cs, DownAll(i, ls), ps)
  {
    forall j | 0 <= j < |ls| ensures NodeAt(cs, DownAll(i, ls)[j]) == Some(ps[j]) {
      NodeAtDown(cs, i, ls[j]);
    }
  }

  /** Entry `j` of the flattened list is the place of the `j`-th clip of
      the pre-order traversal. */
  lemma {:induction false} FlatIsPreorder(cs: seq<Clip>, i: nat)
    ensures Names(cs, FlatFrom(cs, i), PreorderFrom(cs, i))
    decreases cs, |cs| - i
  {
    if i < |cs| {
      var sub := if cs[i].Compound? then DownAll(i, FlatFrom(cs[i].children, 0)) else [];
      var psub := if cs[i].Compound? then PreorderFrom(cs[i].children, 0) else [];
      FlatIsPreorder(cs, i + 1);
      if cs[i].Compound? {
        FlatIsPreorder(cs[i].children, 0);
        NamesDown(cs, i, FlatFrom(cs[i].children, 0), psub);
      }
      assert Names(cs, [Loc([], i)], [cs[i]]);
      NamesCat(cs, [Loc([], i)], [cs[i]], sub, psub);
      NamesCat(cs, [Loc([], i)] + sub, [cs[i]] + psub, FlatFrom(cs, i + 1), PreorderFrom(cs, i + 1));
    }
  }

  /** The first place of `ls` whose clip matches `k`: the reference
      definition of a pre-order search. */
  function FirstHit(cs: seq<Clip>, ls: seq<Loc>, k: Key): Option<Loc> {
    if |ls| == 0 then None
    else if NodeAt(cs, ls[0]).Some? && Matches(NodeAt(cs, ls[0]).value, k) then Some(ls[0])
    else FirstHit(cs, ls[1..], k)
  }

  lemma {:induction false} FirstHitAppend(cs: seq<Clip>, a: seq<Loc>, b: seq<Loc>, k: Key)
    ensures FirstHit(cs, a + b, k) == if FirstHit(cs, a, k).Some? then FirstHit(cs, a, k) else FirstHit(cs, b, k)
    decreases |a|
  {
    if |a| > 0 {
      assert (a + b)[0] == a[0];
      assert (a + b)[1..] == a[1..] + b;
      FirstHitAppend(cs, a[1..], b, k);
    } else {
      assert a + b == b;
    }
  }

  function Lift(i: nat, o: Option<Loc>): Option<Loc> {
    if o.Some? then Some(Down(i, o.value)) else None
  }

  lemma {:induction false} FirstHitDown(cs: seq<Clip>, i: nat, ls: seq<Loc>, k: Key)
    requires i < |cs| && cs[i].Compound?
    ensures FirstHit(cs, DownAll(i, ls), k) == Lift(i, FirstHit(cs[i].children, ls, k))
    decreases |ls|
  {
    if |ls| > 0 {
      NodeAtDown(cs, i, ls[0]);
      assert DownAll(i, ls)[1..] == DownAll(i, ls[1..]);
      FirstHitDown(cs, i, ls[1..], k);
    }
  }

  /** The locator returns the first place of the pre-order listing whose
      clip matches, and nothing when no listed clip matches. */
  lemma {:induction false} LocateFromIsFirstHit(cs: seq<Clip>, k: Key, i: nat)
    ensures LocateFrom(cs, k, i) == FirstHit(cs, FlatFrom(cs, i), k)
    decreases cs, |cs| - i
  {
    if i < |cs| {
      var sub := if cs[i].Compound? then DownAll(i, FlatFrom(cs[i].children, 0)) else [];
      var rest := FlatFrom(cs, i + 1);
      assert FlatFrom(cs, i) == [Loc([], i)] + (sub + rest);
      assert NodeAt(cs, Loc([], i)) == Some(cs[i]);
      assert FirstHit(cs, FlatFrom(cs, i), k) ==
        if Matches(cs[i], k) then Some(Loc([], i)) else FirstHit(cs, sub + rest, k);
      FirstHitAppend(cs, sub, rest, k);
      LocateFromIsFirstHit(cs, k, i + 1);
      if cs[i].Compound? {
        LocateFromIsFirstHit(cs[i].children, k, 0);
        FirstHitDown(cs, i, FlatFrom(cs[i].children, 0), k);
      }
    }
  }

  lemma LocateIsFirstHit(cs: seq<Clip>, k: Key)
    ensures Locate(cs, k) == FirstHit(cs, Flat(cs), k)
  {
    LocateFromIsFirstHit(cs, k, 0);
  }

  /** A compound rebuilt on an edit path: same identity, children replaced,
      bounds recalculated (kept when the new child list is empty). */
  predicate Repaired(n: Clip, o: Clip) {
    n.Compound? && o.Compound? && n.id == o.id && n.name == o.name && n.trackType == o.trackType
    && n.effects == o.effects
    && (|n.children| > 0 ==> BoundsFollow(n))
    && (|n.children| == 0 ==> n.start == o.start && n.end == o.end)
  }

  /** `r` differs from `cs` only along path `p`: off-path clips are unchanged
      and every compound on the path is `Repaired`. */
  predicate RebuiltAlong(r: seq<Clip>, cs: seq<Clip>, p: seq<nat>)
    decreases p
  {
    |p| == 0 ||
    (|r| == |cs| && p[0] < |cs| && (forall j :: 0 <= j < |cs| && j != p[0] ==> r[j] == cs[j])
     && Repaired(r[p[0]], cs[p[0]]) && RebuiltAlong(r[p[0]].children, cs[p[0]].children, p[1..]))
  }

  function Splice(cs: seq<Clip>, at: nat, drop: nat, ins: seq<Clip>): (r: seq<Clip>)
    requires at + drop <= |cs|
    ensures |r| == |cs| - drop + |ins|
    ensures r[..at] == cs[..at] && r[at..at + |ins|] == ins && r[at + |ins|..] == cs[at + drop..]
  {
    cs[..at] + ins + cs[at + drop..]
  }

  predicate CanEdit(cs: seq<Clip>, p: seq<nat>, at: nat, drop: nat) {
    Container(cs, p).Some? && at + drop <= |Container(cs, p).value|
  }

  /** Replace `drop` clips at index `at` of the list reached by `p` with
      `ins`, then `_update_ancestor_bounds`: recalculate every compound on
      the path, innermost first. */
  function EditAt(cs: seq<Clip>, p: seq<nat>, at: nat, drop: nat, ins: seq<Clip>): (r: seq<Clip>)
    requires CanEdit(cs, p, at, drop)
    ensures RebuiltAlong(r, cs, p)
    ensures Container(r, p) == Some(Splice(Container(cs, p).value, at, drop, ins))
    decreases p
  {
    if |p| == 0 then Splice(cs, at, drop, ins)
    else
      var c := cs[p[0]];
      var kids := EditAt(c.children, p[1..], at, drop, ins);
      var n := Recalc(Compound(c.id, c.name, c.start, c.end, c.trackType, c.effects, kids));
      cs[p[0] := n]
  }

  predicate AllCoherent(cs: seq<Clip>) {
    forall i :: 0 <= i < |cs| ==> Coherent(cs[i])
  }

  /** Edits keep the bounds invariant: when every clip in the tree and every
      inserted clip is coherent, so is every clip after the edit. */
  lemma {:induction false} EditAtKeepsCoherent(cs: seq<Clip>, p: seq<nat>, at: nat, drop: nat, ins: seq<Clip>)
    requires CanEdit(cs, p, at, drop) && AllCoherent(cs) && AllCoherent(ins)
    ensures AllCoherent(EditAt(cs, p, at, drop, ins))
    decreases p
  {
    var r := EditAt(cs, p, at, drop, ins);
    if |p| == 0 {
      forall i | 0 <= i < |r| ensures Coherent(r[i]) {
        if i < at {
          assert r[i] == cs[i];
        } else if i < at + |ins| {
          assert r[i] == ins[i - at];
        } else {
          assert r[i] == cs[i - |ins| + drop];
        }
      }
    } else {
      var c := cs[p[0]];
      assert Coherent(c);
      EditAtKeepsCoherent(c.children, p[1..], at, drop, ins);
      assert Coherent(r[p[0]]);
    }
  }

  /** A path edit leaves the other top-level clips where they were. */
  lemma EditAtOthers(cs: seq<Clip>, p: seq<nat>, at: nat, drop: nat, ins: seq<Clip>)
    requires CanEdit(cs, p, at, drop) && |p| > 0
    ensures |EditAt(cs, p, at, drop, ins)| == |cs|
    ensures forall j :: 0 <= j < |cs| && j != p[0] ==> EditAt(cs, p, at, drop, ins)[j] == cs[j]
  {
  }

  /** The clip at a located place, which every successful search returns. */
  function At(cs: seq<Clip>, l: Loc): Clip
    requires NodeAt(cs, l).Some?
  {
    NodeAt(cs, l).value
  }

  lemma NodeAtCanEdit(cs: seq<Clip>, l: Loc)
    requires NodeAt(cs, l).Some?
    ensures CanEdit(cs, l.path, l.index, 1)
  {
  }
}

=== FILE: trim_command.dfy ===
/** The TRIM command grammar (`command_handlers/trim.py`):
    `^(trim|shorten|crop|reduce)(\s+(the )?(start of )?)?(\s*<target>)?(\s+(to|at)\s+<timestamp>)?$`,
    case-insensitive. Unlike a cut, a trim without a target has none. */
module TrimCommand {
  import opened Base
  import opened Text
  import opened Regex
  import opened Values
  import opened Operations
  import opened TargetGrammar
  import CutCommand

  const Verbs: seq<string> := ["trim", "shorten", "crop", "reduce"]

  /** `(?:\s+(?:the )?(?:start of )?)?` */
  const Lead := Opt(Seq([Spaces1, Opt(Lit("the ")), Opt(Lit("start of "))]))

  /** `\s+(?:to|at)\s+(?P<timestamp>[\w\s:-]+)` */
  const ToStamp := Seq([Spaces1, OneOf(["to", "at"]), Spaces1, Group("timestamp", Plus(CutCommand.StampChars))])

  /** Everything after the verb. */
  const Body := Cat(Lead, Cat(Opt(Cat(Spaces0, Group("target_expr", FullTarget(Plain)))), Cat(Opt(ToStamp), Eol)))

  const Pattern := Cat(Bol, Cat(Group("verb", OneOf(Verbs)), Body))

  /** `TrimCommandHandler.match`. */
  predicate Matches(s: string) {
    Match(Pattern, s, true).Some?
  }

  /** The target a trim refers to: the pronoun, else the whole target
      expression (which may keep a leading "the "), else the bare target. */
  function ChosenTarget(r: Reference, expr: Option<string>): (t: Option<string>)
    ensures t.Some? ==> t.value != ""
    ensures Given(r.pronoun) ==> t == r.pronoun
    ensures !Given(r.pronoun) && Given(expr) ==> t == expr
    ensures t.None? <==> !Given(r.pronoun) && !Given(expr) && (!Given(r.target) || LowerStr(r.target.value) == "to")
  {
    if Given(r.pronoun) then r.pronoun
    else if Given(expr) then expr
    else if Given(r.target) && LowerStr(r.target.value) != "to" then r.target
    else None
  }

  /** `TrimCommandHandler.parse`: a TRIM operation, or UNKNOWN with the raw
      text when the pattern does not match. */
  function Parse(s: string, fr: int): (r: Res<EditOperation>)
    ensures !Matches(s) ==> r == Ok(Unknown(s))
    ensures Matches(s) ==>
      var h := Match(Pattern, s, true).value;
      var ref := ReferenceOf(s, h, Plain);
      var target := ChosenTarget(ref, Captured(s, h, "target_expr"));
      var ts := Captured(s, h, "timestamp");
      && (r.Err? <==> Given(ts) && TimestampFrames(ts.value, fr).Err?)
      && (r.Ok? ==>
            && r.value.kind == "TRIM"
            && r.value.target == target
            && Get(r.value.params, "timestamp")
               == (if Given(ts) then Some(VInt(TimestampFrames(ts.value, fr).value)) else None)
            && Get(r.value.params, "reference_type") == KindValue(TargetKind(target, Given(ref.pronoun), ref))
            && (target.None? ==> forall k :: k != "timestamp" ==> Get(r.value.params, k).None?))
  {
    match Match(Pattern, s, true)
    case None => Ok(Unknown(s))
    case Some(h) =>
      var ref := ReferenceOf(s, h, Plain);
      var target := ChosenTarget(ref, Captured(s, h, "target_expr"));
      var params :- ClipParams(target, Given(ref.pronoun), ref, Captured(s, h, "timestamp"), fr);
      Ok(EditOperation("TRIM", target, params))
  }

  lemma BodyAnchored()
    ensures EndsWithEol(Body)
  {
    var tail := Cat(Opt(ToStamp), Eol);
    assert EndsWithEol(tail);
    assert EndsWithEol(Cat(Opt(Cat(Spaces0, Group("target_expr", FullTarget(Plain)))), tail));
  }

  /** Every text the grammar accepts opens with one of the trim verbs and
      is matched to its end. */
  lemma MatchShape(s: string)
    requires Matches(s)
    ensures exists k :: 0 <= k < |Verbs| && LitAt(s, 0, Verbs[k], true)
    ensures AtEnd(s, Match(Pattern, s, true).value.pos)
  {
    BodyAnchored();
    AnchoredWords("verb", Verbs, Body, s, true);
  }
}

=== FILE: values.dfy ===
/** Python values as they appear in operation parameters and effect
    parameters, and Python's insertion-ordered `dict` as an association
    list, with `str()`/`repr()` rendering. */
module Values {
  import opened Base
  import opened Text

  datatype Value = VNone | VBool(b: bool) | VInt(i: int) | VReal(r: real) | VStr(s: string)

  /** Python truthiness. */
  predicate Truthy(v: Value) {
    match v
    case VNone => false
    case VBool(b) => b
    case VInt(i) => i != 0
    case VReal(r) => r != 0.0
    case VStr(s) => |s| > 0
  }

  /** Truthiness of an optional dict lookup (`params.get(k)`). */
  predicate TruthyOpt(v: Option<Value>) {
    v.Some? && Truthy(v.value)
  }

  /** An insertion-ordered Python dict with string keys: the keys in
      insertion order, and the value of each. */
  datatype Params = Params(keys: seq<string>, vals: map<string, Value>)

  const Empty := Params([], map[])

  /** The keys list holds each key of the map exactly once. */
  predicate WellFormed(p: Params) {
    (forall i, j :: 0 <= i < j < |p.keys| ==> p.keys[i] != p.keys[j])
    && (forall k <- p.keys :: k in p.vals) && (forall k <- p.vals :: k in p.keys)
  }

  predicate Has(p: Params, k: string) {
    k in p.vals
  }

  /** `p.get(k)` as an option. */
  function Get(p: Params, k: string): Option<Value> {
    if k in p.vals then Some(p.vals[k]) else None
  }

  /** `p[k] = v`: an existing key keeps its place, a new key goes last. */
  function Assign(p: Params, k: string, v: Value): (q: Params)
    ensures Get(q, k) == Some(v)
    ensures forall j :: j != k ==> Get(q, j) == Get(p, j)
  {
    Params(if k in p.vals then p.keys else p.keys + [k], p.vals[k := v])
  }

  /** Assigning keeps every key listed exactly once. */
  lemma AssignWellFormed(p: Params, k: string, v: Value)
    requires WellFormed(p)
    ensures WellFormed(Assign(p, k, v))
  {
  }

  /** The dict comprehension `{k: v for k, v in p.items() if k not in ks}`. */
  function Without(p: Params, ks: set<string>): (q: Params)
    ensures forall j :: Get(q, j) == (if j in ks then None else Get(p, j))
    ensures forall k <- q.keys :: k in p.keys && k !in ks
  {
    Params(Filter(p.keys, ks), map k | k in p.vals && k !in ks :: p.vals[k])
  }

  function Filter(ks: seq<string>, out: set<string>): (r: seq<string>)
    ensures forall k <- r :: k in ks && k !in out
  {
    if |ks| == 0 then [] else (if ks[0] in out then [] else [ks[0]]) + Filter(ks[1..], out)
  }

  /** Builds a dict from pairs, later keys overwriting earlier ones. */
  function FromPairs(kvs: seq<(string, Value)>): (p: Params)
    ensures WellFormed(p)
    ensures forall i :: 0 <= i < |kvs| ==> Has(p, kvs[i].0)
  {
    if |kvs| == 0 then Empty
    else
      var init := kvs[..|kvs| - 1];
      var (k, v) := kvs[|kvs| - 1];
      var p := FromPairs(init);
      assert forall i :: 0 <= i < |init| ==> init[i] == kvs[i];
      AssignWellFormed(p, k, v);
      Assign(p, k, v)
  }

  /** `p.get(k)`: the value, or None when the key is absent. */
  function Lookup(p: Params, k: string): (v: Value)
    ensures Has(p, k) ==> Get(p, k) == Some(v)
    ensures !Has(p, k) ==> v == VNone
  {
    match Get(p, k)
    case Some(x) => x
    case None => VNone
  }

  /** `p.get(k, d)`: the value, or `d` when the key is absent. */
  function LookupOr(p: Params, k: string, d: Value): (v: Value)
    ensures Has(p, k) ==> Get(p, k) == Some(v)
    ensures !Has(p, k) ==> v == d
  {
    match Get(p, k)
    case Some(x) => x
    case None => d
  }

  function GetStr(p: Params, k: string): Option<string> {
    match Get(p, k)
    case Some(VStr(s)) => Some(s)
    case _ => None
  }

  // ---- rendering ----

  /** Digits of the first `n` decimal places of `f`, where `0 <= f < 1`. */
  function Places(f: real, n: nat): string
    requires 0.0 <= f < 1.0
    decreases n
  {
    if n == 0 then []
    else
      var d := (f * 10.0).Floor;
      assert 0 <= d < 10;
      [DigitChar(d as nat)] + Places(f * 10.0 - d as real, n - 1)
  }

  function TrimZeros(s: string): string {
    if |s| > 0 && s[|s| - 1] == '0' then TrimZeros(s[..|s| - 1]) else s
  }

  /** Python's `repr(float)`: whole numbers as `N.0`; other values with
      up to sixteen decimal places. */
  function RealRepr(r: real): string {
    var a := if r < 0.0 then -r else r;
    var w := a.Floor;
    var frac := TrimZeros(Places(a - w as real, 16));
    (if r < 0.0 then "-" else "") + NatToString(w as nat) + "." + (if frac == [] then "0" else frac)
  }

  function Escape(s: string, q: char): string {
    if |s| == 0 then []
    else
      var c := s[0];
      (if c == '\\' then "\\\\" else if c == q then ['\\', q] else if c == '\n' then "\\n"
       else if c == '\r' then "\\r" else if c == '\t' then "\\t" else [c]) + Escape(s[1..], q)
  }

  /** Python's `repr(str)`: single quotes unless the text holds a single
      quote and no double quote. */
  function StrRepr(s: string): (r: string)
    ensures |r| >= 2 && (r[0] == '\'' || r[0] == '"')
  {
    var q := if '\'' in s && '"' !in s then '"' else '\'';
    [q] + Escape(s, q) + [q]
  }

  function Repr(v: Value): string {
    match v
    case VNone => "None"
    case VBool(b) => if b then "True" else "False"
    case VInt(i) => IntToString(i)
    case VReal(r) => RealRepr(r)
    case VStr(s) => StrRepr(s)
  }

  /** Python's `str(v)`, as an f-string renders it. */
  function Str(v: Value): (r: string)
    ensures v.VStr? ==> r == v.s
  {
    match v
    case VStr(s) => s
    case _ => Repr(v)
  }

  function EntriesRepr(ks: seq<string>, vals: map<string, Value>): string {
    if |ks| == 0 then []
    else
      StrRepr(ks[0]) + ": " + (if ks[0] in vals then Repr(vals[ks[0]]) else "None") + (if |ks| > 1 then ", " else "")
      + EntriesRepr(ks[1..], vals)
  }

  /** Python's `str(dict)`: `{'k': v, ...}` in insertion order. */
  function ParamsRepr(p: Params): (r: string)
    ensures |r| >= 2 && r[0] == '{' && r[|r| - 1] == '}'
  {
    "{" + EntriesRepr(p.keys, p.vals) + "}"
  }

  function OptStr(v: Option<Value>): string {
    match v
    case Some(x) => Str(x)
    case None => "None"
  }

  function StrItems(ss: seq<string>): string {
    if |ss| == 0 then []
    else StrRepr(ss[0]) + (if |ss| > 1 then ", " else "") + StrItems(ss[1..])
  }

  /** Python's `str(list)` of a list of strings. */
  function StrListRepr(ss: seq<string>): (r: string)
    ensures |r| >= 2 && r[0] == '[' && r[|r| - 1] == ']'
  {
    "[" + StrItems(ss) + "]"
  }
}
